=== FILE: README.md ===
# pyaspora core in Dafny

pyaspora is a Diaspora-compatible social network server. This project
models the rules at its centre, and proves properties of them:

- how a Diaspora salmon envelope is framed and read back:
  - PKCS#7 padding;
  - the decrypted header and the outer AES key bundle;
  - the double base64 payload, with an outer base64url layer;
  - the 60-character line wrapping;
  - the dot-joined signature base string;
- WebFinger: handle normalisation, the host-meta URL and its secure flag,
  and the lrdd template expansion;
- the inbound message queue:
  - oldest-first processing that halts at the first errored item;
  - deletion of processed items;
  - `has_pending_items`;
  - the public queue and the `receive` / `receive_public` /
    `run_public_queue` / `run_queue` views;
- outbound delivery:
  - the sticky visibility class of a Diaspora post;
  - the private/public × parent/child message kind;
  - the fan-out to servers and followers;
  - `can_reply_with`;
- incoming message dispatch, where the first matching handler wins, with
  the per-handler sender checks;
- posts and shares:
  - the permission decision;
  - `viewable_children`;
  - `share_with`;
  - `hide`;
  - `root`;
  - `thread_modified`;
  - the reply targets of `post/targets.py`;
  - the `create`, `hide` and `set_public` views with their part ordering
    and tag inheritance;
- contacts, subscriptions, groups and tags:
  - subscribing and unsubscribing;
  - the group views of the roster;
  - the tag-name validator and line parser;
  - `get_by_name`;
- the string utilities:
  - the content renderer registry and its fallback decision;
  - `SkipTagPattern`;
  - the legacy `Renderer` MIME-type mangling;
  - `since`;
  - `nl2br`;
  - `chunk_url_params`;
  - form-parameter and attachment validation;
- the older server (`src/pyaspora-old` and `src/pyaspora/model`):
  - the Diaspora path dispatcher, host-meta, webfinger and feed stub;
  - its password records, friends list, groups, sharing and activation.

Database tables are immutable values: maps keyed by id, or sequences in
row order where the source iterates a query. Views are functions from the
tables and the request to a new set of tables, or to an error. Python
exceptions and Flask aborts are the `Results.Exc` values, with
`Abort(status)` for `abort(status)`.

The following become parameters or abstract values:

- **Cryptography.** AES, RSA and SHA-256 are function-valued fields of a
  record (`Crypto.Primitives`), together with a predicate stating that
  decryption undoes encryption. The round-trip lemmas assume that
  predicate.
- **XML and JSON.** These are handled the same way, through
  `Envelope.Codecs`.
- **Randomness.** Keys, IVs and salts are passed in as arguments.
- **The clock.** It is a `now` argument.
- **The network and other modules.** The HTTP opener, a contact's
  transport, and lookups into modules outside the core are arguments too.

Base64 in both alphabets is implemented for real. The decoder follows
CPython's non-validating loop: characters outside the alphabet are skipped,
a `=` at the start of a quad is skipped, the pad that completes a quad ends
the decoding and the rest of the input is ignored, and a quad left
unfinished is an error. Python's `quote_plus`, UTF-8 encoding and
`str.title()` on ASCII are implemented too, and `urlsplit` in part (see
"Left out"). The `urllib.parse` behaviour modelled is that of CPython
3.12: `parse_qsl` splits on `&` only (since 3.9.2), and `urlsplit` drops
tab, CR and LF (since 3.9.5) and strips leading C0 controls and spaces
(since 3.11.4). Older releases split on `;` too and keep those characters.

The WebFinger client of `src/pyaspora-old/webfinger.py` is the same code
as the client in `src/pyaspora/diaspora/__init__.py`, and the `Webfinger`
module models both. Rows cite whichever copy states the property.

The comment in `src/pyaspora/renderer/__init__.py` says "x-foo-bar"
becomes "xFooBar". The code gives "XFooBar", and the model follows the
code (`LegacyRenderer.CamelCase`).

## Model

| member | source | states |
|---|---|---|
| Pkcs7.PadCount | src/pyaspora/diaspora/__init__.py:170 | the pad count is between 1 and the block size and makes the length a whole number of blocks, so the `val == 0` branch is dead |
| Pkcs7.Pad | src/pyaspora/diaspora/__init__.py:165-174 | padding succeeds exactly for a positive block size and a count up to 255; a zero block size is a ZeroDivisionError; an aligned input gains a whole block |
| Pkcs7.Unpad | src/pyaspora/diaspora/__init__.py:263-267 | `data[0:-data[-1]]`: an empty input is an IndexError; the result is a proper prefix of the input, shorter by the last byte's value, and empty when that byte is 0 or at least the length |
| Pkcs7.UnpadPad | src/pyaspora/diaspora/__init__.py:165-174 | unpadding undoes padding for every input and every block size up to 255 |
| Pkcs7.UnpadPadBlock | src/pyaspora/diaspora/__init__.py:72 | at the AES block size padding never fails, is undone by unpadding, and gives a multiple of 16 bytes |
| Bytes.AsciiEncode | src/pyaspora/diaspora/__init__.py:209-210 | `.encode("ascii")` succeeds exactly on ASCII text and keeps every code |
| Bytes.AsciiDecode | src/pyaspora/diaspora/__init__.py:237 | `.decode("ascii")` succeeds exactly when every byte is below 128 and keeps every code |
| Bytes.AsciiEncodeDecode | src/pyaspora/diaspora/__init__.py:81-82 | decoding the ASCII encoding of ASCII text gives the text back |
| Bytes.Utf8Char | src/pyaspora/diaspora/__init__.py:204 | a code point encodes to 1 to 4 bytes, one byte exactly for ASCII, with continuation bytes in 128..191 |
| Bytes.Utf8Append | src/pyaspora/diaspora/__init__.py:204 | UTF-8 encoding distributes over concatenation |
| Bytes.Utf8OfAscii | src/pyaspora/diaspora/__init__.py:93 | on ASCII text the UTF-8 and ASCII encodings agree |
| Bytes.AsciiDecodeUtf8 | src/pyaspora/diaspora/__init__.py:251 | the UTF-8 bytes of ASCII text decode as ASCII to the text |
| Bytes.Utf8Width | pyaspora/content/rendering.py:84 | a lead byte starts a sequence of at most four bytes, and continuation bytes, C0, C1 and F5 to FF start none |
| Bytes.Utf8CharSeq | pyaspora/content/rendering.py:84 | the encoding of one character is one well-formed sequence of its own length, whatever follows |
| Bytes.Utf8EncodeValid | pyaspora/content/rendering.py:84 | every UTF-8 encoding of text is accepted by the strict decoder |
| Bytes.Utf8Refused | pyaspora/content/rendering.py:84 | bytes starting with a continuation byte or a byte UTF-8 never uses are refused |
| Base64.Encode | src/pyaspora/diaspora/__init__.py:63-64 | every character of an encoding is in the alphabet or is the `=` pad |
| Base64.EncodeLength | src/pyaspora/diaspora/__init__.py:149 | every three bytes, or part of three, become four characters |
| Base64.DecodeEncode | src/pyaspora/diaspora/__init__.py:209-210 | `b64decode(b64encode(x)) == x` for every byte string |
| Base64.UrlSafeDecodeEncode | src/pyaspora/diaspora/__init__.py:219 | `urlsafe_b64decode(urlsafe_b64encode(x)) == x` for every byte string |
| Base64.FromUrlSafeEncode | src/pyaspora/diaspora/__init__.py:149 | mapping `-` and `_` back in a URL-safe encoding gives the standard encoding |
| Base64.SignificantAppend | src/pyaspora/diaspora/__init__.py:219 | dropping the characters the decoder ignores distributes over concatenation |
| Base64.EncodeIsAscii | src/pyaspora/diaspora/__init__.py:100-101 | every character of an encoding is ASCII, so `.decode("ascii")` of the encoded bytes succeeds |
| Base64.EncodeBytes | src/pyaspora/diaspora/__init__.py:149 | the `bytes` an encoding returns are the ASCII codes of the encoded text |
| Base64.Read | src/pyaspora/diaspora/__init__.py:209-210 | the non-validating decoding loop gives at most three bytes for every four characters it reads, counting the characters of a quad already begun |
| Base64.Decode | src/pyaspora/diaspora/__init__.py:209-210 | `b64decode` without validation gives at most three bytes for every four input characters |
| Base64.UrlSafeDecode | src/pyaspora/diaspora/__init__.py:219 | `urlsafe_b64decode` gives at most three bytes for every four input characters |
| Base64.ReadEncode | src/pyaspora/diaspora/__init__.py:209-210 | reading an encoding gives its bytes; after whole quads the loop goes on with what follows, and after a padded quad it stops and ignores the rest |
| Base64.DecodePadStops | src/pyaspora/diaspora/__init__.py:209-210 | once the pad that completes a quad is read, the rest of the input is ignored: an encoding of a length not divisible by three decodes to its bytes whatever follows it |
| Base64.DecodeConcat | src/pyaspora/diaspora/__init__.py:209-210 | an unpadded encoding followed by more text decodes exactly when the text does, to the bytes followed by the text's decoding |
| Base64.DecodeSkipsLeadingPad | src/pyaspora/diaspora/__init__.py:209-210 | a `=` at the start of a quad is skipped |
| Base64.ReadSignificant | src/pyaspora/diaspora/__init__.py:209-210 | the loop skips every character that is neither in the alphabet nor `=`, from any state |
| Base64.DecodeSignificant | src/pyaspora/diaspora/__init__.py:209-210 | decoding gives the same result once the characters outside the alphabet and `=` are dropped |
| Crypto.AesCbcCheck | src/pyaspora/diaspora/__init__.py:217 | `AES.new` in CBC mode succeeds exactly for a 16-, 24- or 32-byte key and a 16-byte IV |
| Crypto.AesCbcEncrypt | src/pyaspora/diaspora/__init__.py:72-73 | CBC encryption succeeds exactly for a valid key and IV and a whole number of blocks |
| Crypto.AesCbcDecrypt | src/pyaspora/diaspora/__init__.py:257-258 | CBC decryption succeeds under the same length conditions as encryption |
| Crypto.AesCbcRoundTrip | src/pyaspora/diaspora/__init__.py:217-220 | with sound primitives, decryption under the same key and IV undoes encryption |
| Envelope.DecryptedHeader | src/pyaspora/diaspora/__init__.py:57-66 | the header holds exactly `iv`, `aes_key` and `author_id`: the base64 of the inner IV and key, and the author's handle |
| Envelope.KeyBundle | src/pyaspora/diaspora/__init__.py:76-84 | the outer bundle holds exactly `iv` and `key`: the base64 of the outer IV and key |
| Envelope.Ciphertext | src/pyaspora/diaspora/__init__.py:68-74 | the header ciphertext is the padded header encrypted under the outer key, which cannot fail |
| Envelope.PaddedHeader | src/pyaspora/diaspora/__init__.py:72 | the padded header is a whole number of AES blocks |
| Envelope.HeaderObject | src/pyaspora/diaspora/__init__.py:95-103 | the JSON object holds exactly `aes_key` and `ciphertext`, each base64 of the encrypted bundle and of the header ciphertext |
| Envelope.EncryptedPayload | src/pyaspora/diaspora/__init__.py:127-132 | the payload ciphertext is the padded payload XML encrypted under the inner key, which cannot fail |
| Envelope.PaddedPayload | src/pyaspora/diaspora/__init__.py:131 | the padded payload is a whole number of AES blocks |
| Envelope.Chunks | src/pyaspora/diaspora/__init__.py:151 | every chunk is nonempty and at most n long, all but the last exactly n, and there are none only for the empty string |
| Envelope.ChunksConcat | src/pyaspora/diaspora/__init__.py:151 | the chunks put back together are the whole payload |
| Envelope.UnwrapWrap | src/pyaspora/diaspora/__init__.py:151-152 | deleting the line breaks of the wrapped payload gives the payload back |
| Envelope.WrapDecodes | src/pyaspora/diaspora/__init__.py:151-153 | the added line breaks are invisible to the URL-safe decoder on the receiving side |
| Envelope.WrapAscii | src/pyaspora/diaspora/__init__.py:151-153 | the wrapped payload stays ASCII |
| Envelope.Build | src/pyaspora/diaspora/__init__.py:134-163 | a successful build had valid inner and outer keys and IVs and an encryptable header, and serialises exactly the envelope `Built` describes |
| Envelope.Built | src/pyaspora/diaspora/__init__.py:140-161 | the envelope carries `base64url`, `RSA-SHA256` and `application/xml`, the encrypted header, the wrapped double-base64 payload, and an ASCII signed string |
| Envelope.B64DecodeText | src/pyaspora/diaspora/__init__.py:209 | `b64decode(text.encode("ascii"))` succeeds only on ASCII text that decodes, with that decoding |
| Envelope.B64DecodeBytes | src/pyaspora/diaspora/__init__.py:219 | `b64decode` of a `bytes` value reads its bytes as characters |
| Envelope.UrlSafeDecodeText | src/pyaspora/diaspora/__init__.py:219 | `urlsafe_b64decode(text.encode("ascii"))` succeeds only on ASCII text that decodes, with that decoding |
| Envelope.Field | src/pyaspora/diaspora/__init__.py:238-241 | a lookup succeeds exactly when the key is present, with its value, and otherwise fails with the given error |
| Envelope.DecryptKeyBundle | src/pyaspora/diaspora/__init__.py:244-251 | a missing private key fails the `assert(key)` |
| Envelope.ParseHeader | src/pyaspora/diaspora/__init__.py:230-242 | a non-ASCII header is the ValueError of `.encode("ascii")`, and without a private key the header cannot be read |
| Envelope.OpenPayload | src/pyaspora/diaspora/__init__.py:207-221 | a header without `author_id` is the AttributeError of reading `.text` of nothing; a payload opened carries the `author_id` as its sender |
| Envelope.ProcessEnvelope | src/pyaspora/diaspora/__init__.py:200-221 | XML that does not parse fails with the parse error, and without a private key no envelope opens |
| Envelope.SignatureBaseAscii | src/pyaspora/diaspora/__init__.py:154-157 | the signed string is ASCII whenever the data is, so `.encode("ascii")` succeeds |
| Envelope.PayloadTextAscii | src/pyaspora/diaspora/__init__.py:149-157 | the payload text, the wrapped payload and the signed string are all ASCII |
| Envelope.PayloadTextNoNewline | src/pyaspora/diaspora/__init__.py:149 | the double-base64 payload contains no line break of its own |
| Envelope.PayloadRoundTrip | src/pyaspora/diaspora/__init__.py:218-219 | the parser's two base64 layers undo the builder's, line breaks included |
| Envelope.AppXmlEncoding | src/pyaspora/diaspora/__init__.py:154 | `b64encode(b"application/xml")` is `YXBwbGljYXRpb24veG1s` |
| Envelope.Base64UrlEncoding | src/pyaspora/diaspora/__init__.py:155 | `b64encode(b"base64url")` is `YmFzZTY0dXJs` |
| Envelope.RsaSha256Encoding | src/pyaspora/diaspora/__init__.py:155 | `b64encode(b"RSA-SHA256")` is `UlNBLVNIQTI1Ng==` |
| Envelope.SignatureBaseLabels | src/pyaspora/diaspora/__init__.py:154-155 | the signed string is the data followed by the three base64 labels, each after a dot |
| EnvelopeProofs.B64TextRoundTrip | src/pyaspora/diaspora/__init__.py:236 | base64 text produced by the builder is read back by the parser's decoder |
| EnvelopeProofs.DecryptedHeaderTexts | src/pyaspora/diaspora/__init__.py:62-65 | with the builder's key sizes and a nonempty author handle, no header element is empty, so lxml reads every text back |
| EnvelopeProofs.BuildSucceeds | src/pyaspora/diaspora/__init__.py:134-163 | with sound codecs and the builder's key sizes the build cannot fail |
| EnvelopeProofs.KeyBundleRoundTrip | src/pyaspora/diaspora/__init__.py:244-251 | the encrypted outer bundle decrypts, with the matching private key, to the bundle built |
| EnvelopeProofs.DecryptHeaderRoundTrip | src/pyaspora/diaspora/__init__.py:253-261 | the header ciphertext decrypts under the outer key to the decrypted header |
| EnvelopeProofs.ParseHeaderRoundTrip | src/pyaspora/diaspora/__init__.py:231-242 | `parse_header` of the built `encrypted_header` gives the decrypted header back |
| EnvelopeProofs.LoadBuilt | src/pyaspora/diaspora/__init__.py:204-206 | the serialised envelope, after `lstrip`, is read back as the envelope built |
| EnvelopeProofs.ProcessBuild | src/pyaspora/diaspora/__init__.py:200-222 | the envelope round trip: the recipient's parser recovers the author's handle and exactly the payload XML the builder encrypted |
| EnvelopeProofs.ProcessWithoutKey | src/pyaspora/diaspora/__init__.py:248 | without a private key no envelope can be opened |
| Bytes.Utf8Encode | src/pyaspora/diaspora/__init__.py:204 | UTF-8 encoding never gives fewer bytes than characters |
| Url.LStripC0 | src/pyaspora/diaspora/__init__.py:304 | `urlparse` first drops leading C0 controls and spaces: the result is a suffix of the input that does not start with one, and input without one is unchanged |
| Url.RStripC0 | src/pyaspora/diaspora/__init__.py:304 | trailing C0 controls and spaces are dropped: the result is a prefix, and input not ending in one is unchanged |
| Url.RemoveUnsafe | src/pyaspora/diaspora/__init__.py:304 | tab, CR and LF are deleted everywhere: none remains, and input free of them is unchanged |
| Url.Find | src/pyaspora/diaspora/__init__.py:308 | the first index of a character, or none exactly when it does not occur |
| Url.NetlocEnd | src/pyaspora/diaspora/__init__.py:352 | the network location ends at the first `/`, `?` or `#`, or at the end |
| Url.SchemeEnd | src/pyaspora/diaspora/__init__.py:304 | a scheme is found only before a first colon, and text with no colon has none |
| Url.SplitOnce | src/pyaspora/diaspora/__init__.py:304 | splitting at the first occurrence: the parts around it put back together are the input, and the first part does not contain the character |
| Url.SchemePart | src/pyaspora/diaspora/__init__.py:304 | with no recognised scheme the default applies and the text is kept whole; otherwise the lower-cased scheme is cut off with its colon |
| Url.NetlocPart | src/pyaspora/diaspora/__init__.py:352 | after a leading `//` the location runs to the first `/`, `?` or `#`; without `//` there is no location |
| Url.PathPart | src/pyaspora/diaspora/__init__.py:304 | the fragment is cut at the first `#`, then the query at the first `?`; text with neither is all path |
| Url.UrlSplit | src/pyaspora/diaspora/__init__.py:304 | `urlparse` fails only with ValueError, and the parts it gives back contain no tab, CR or LF (the bracket-balance check only) |
| Url.UrlUnsplit | pyaspora/utils/templates.py:68-76 | a URL with a scheme is written starting with the scheme and a colon |
| Url.QuoteByte | src/pyaspora/diaspora/__init__.py:289 | `quote_plus` keeps an always-safe byte, writes a space as `+`, and writes any other byte as three characters |
| Url.UnquoteQuoteBytes | src/pyaspora/diaspora/__init__.py:289 | every byte string survives `quote_plus`: the strict decoder gives it back |
| Url.QuoteBytesAlphabet | src/pyaspora/diaspora/__init__.py:289 | `quote_plus` writes only always-safe characters, `+`, `%` and upper-case hex digits, so no `{uri}` can appear in its output |
| Url.QuoteBytes | src/pyaspora/diaspora/__init__.py:289 | the quoted bytes are ASCII text without spaces |
| Url.QuotePlus | src/pyaspora/diaspora/__init__.py:289 | `quote_plus` of any text is ASCII without spaces |
| Url.ReplaceAbsent | src/pyaspora/diaspora/__init__.py:289 | `re.sub` leaves text without the pattern unchanged |
| Url.ReplaceAtEnd | src/pyaspora/diaspora/__init__.py:289 | a template that ends in `{uri}` and has no other `{` gets exactly one replacement |
| Url.SplitPlain | src/pyaspora/diaspora/__init__.py:304 | text with no colon and nothing `urlparse` cleans up keeps the default scheme and is all path |
| Url.SplitSchemed | src/pyaspora/diaspora/__init__.py:304 | an opaque URL `scheme:rest` splits into the scheme and the path |
| Url.SplitBuilt | src/pyaspora/diaspora/__init__.py:352 | a URL written as scheme, `://`, host and path splits back into those parts |
| Webfinger.LastAt | src/pyaspora/diaspora/__init__.py:308 | the position of the last `@`, or none exactly when there is no `@` |
| Webfinger.AfterLastAt | src/pyaspora/diaspora/__init__.py:308-309 | the greedy `.*\@(.*)` group is the text after the last `@`; no `@` is no match |
| Webfinger.NormaliseSplit | src/pyaspora/diaspora/__init__.py:305-309 | a scheme other than `acct` is a TypeError; `acct` with no `@` in the path is the AttributeError of `.group` on no match; otherwise the host is the text after the path's last `@` |
| Webfinger.NormaliseEmail | src/pyaspora/diaspora/__init__.py:300-309 | a `urlparse` failure propagates as ValueError; a normalised handle has scheme `acct` and a host with no `@` |
| Webfinger.NormalisePlain | src/pyaspora/diaspora/__init__.py:300-309 | a bare `user@host` becomes the URL `acct:user@host` with host `host` |
| Webfinger.NormaliseAcct | src/pyaspora-old/webfinger.py:43-48 | writing the scheme out, as `acct:user@host`, gives the same handle as the bare form |
| Webfinger.BuildUrl | src/pyaspora/diaspora/__init__.py:323-327 | the host-meta URL is the scheme, `://`, the host and `/.well-known/host-meta` |
| Webfinger.BuildUrlSplits | src/pyaspora-old/webfinger.py:62-66 | both host-meta URLs of a plain host split back into their scheme, the host and the well-known path |
| Webfinger.ParseAll | src/pyaspora/diaspora/__init__.py:351-352 | each redirect URL parsed in turn, in order |
| Webfinger.RedirectsSecure | src/pyaspora/diaspora/__init__.py:349-355 | the connection stays secure exactly when every redirect has scheme `https`; a non-https redirect stops the loop before any later URL is parsed |
| Webfinger.GetConnection | src/pyaspora/diaspora/__init__.py:338-357 | a failed https attempt falls back to http and marks the connection insecure; a secure connection stays secure exactly when the https attempt succeeded and every redirect was to https |
| Webfinger.SecureWhenRedirectsHttps | src/pyaspora-old/webfinger.py:81-95 | an https connection whose redirects all go to https hosts is secure |
| Webfinger.TargetUrl | src/pyaspora/diaspora/__init__.py:288-298 | no lrdd template is the IndexError of `[0]`; otherwise every `{uri}` of the first template is replaced by the quoted account URI |
| Queue.PendingFor | pyaspora/diaspora/models.py:251-255 | the user's pending items are exactly the queue's INCOMING items for that user, in queue order |
| Queue.PublicPending | pyaspora/diaspora/models.py:258-259 | the public pending items are exactly the queue's PUBLIC_INCOMING items, in queue order |
| Queue.DrainAsWritten | pyaspora/diaspora/models.py:273-290 | the loop as written processes a prefix of the items, each without a stored error and processed without failure |
| Queue.AsWrittenFailedIsNext | pyaspora/diaspora/models.py:283-288 | an error the loop records belongs to the item right after the processed prefix, and is that item's trace |
| Queue.AsWrittenDeleted | pyaspora/diaspora/models.py:279-290 | the items deleted are the processed ones, except that when the limit stops the loop the last item processed is not deleted |
| Queue.AsWrittenHalts | pyaspora/diaspora/models.py:274-288 | the loop stops before the end only at an item with an error, at a failure, or at the limit |
| Queue.DrainFixed | pyaspora/diaspora/models.py:273-290 | the corrected loop also processes a prefix of error-free items, each processed without failure |
| Queue.FixedFailedIsNext | pyaspora/diaspora/models.py:283-288 | in the corrected loop an error recorded belongs to the item right after the processed prefix |
| Queue.FixedDeleted | pyaspora/diaspora/models.py:279-290 | in the corrected loop every processed item is deleted, and at most `max_items` are processed |
| Queue.FixedHalts | pyaspora/diaspora/models.py:274-288 | the corrected loop stops before the end only at an item with an error, at a failure, or at the limit |
| Queue.Remove | pyaspora/diaspora/models.py:290-291 | deleting by id keeps exactly the items whose id is not deleted |
| Queue.MarkError | pyaspora/diaspora/models.py:285-287 | storing the error changes the items with that id and no other |
| Queue.Apply | pyaspora/diaspora/models.py:269-291 | after the commit no deleted item remains, every other item remains, the failed item carries its error, and nothing else is new |
| Queue.ProcessIncomingQueue | pyaspora/diaspora/models.py:269-291 | a call never lengthens the queue, and every item left is an old one or carries an error |
| Queue.RunPublicQueue | pyaspora/diaspora/views.py:313-335 | the public loop never lengthens the queue, and every item left is an old one or carries an error |
| Queue.NoPendingNoChange | pyaspora/diaspora/models.py:274-276 | a queue whose oldest pending item has an error, or with no pending item, is left exactly as it was |
| Queue.PendingOfRemove | pyaspora/diaspora/models.py:251-255 | removing items and then selecting the user's pending ones is selecting and then removing |
| Queue.PendingOfMark | pyaspora/diaspora/models.py:251-255 | storing an error commutes with selecting the user's pending items |
| Queue.QueueStepProgress | pyaspora/diaspora/models.py:269-291 | one call with `max_items=1` either shortens the user's pending list or leaves its oldest item with an error |
| Queue.LimitReprocesses | pyaspora/diaspora/models.py:280-282 | with `max_items=1` and two good items the loop processes both but deletes only the first, so the next call processes the second again |
| Queue.FixedDeletesProcessed | pyaspora/diaspora/models.py:280-290 | with the limit checked after the deletion every processed item is gone from the table and no more than the limit are processed |
| Delivery.Decide | pyaspora/diaspora/models.py:351-369 | a stored type is kept; private and public are never both chosen; a new post that is not a reply to a typed root is public exactly when the author's own share is |
| Delivery.DecisionSticky | pyaspora/diaspora/models.py:351-354 | once a type is stored, every later send makes the same decision whatever the flags say |
| Delivery.ReplyInherits | pyaspora/diaspora/models.py:355-359 | a reply with no type of its own is private exactly when its root is, and public exactly when its root is and its own share is public |
| Delivery.SenderFor | pyaspora/diaspora/models.py:373-385 | the message class is chosen by private-or-public and by reply-or-not |
| Delivery.SenderTableInjective | pyaspora/diaspora/models.py:373-385 | each message class is chosen for exactly one combination of the two keys |
| Delivery.DictInsert | pyaspora/diaspora/models.py:388 | assigning into the dict keeps one target per server, the new one for its server and the old ones for the others |
| Delivery.ByServer | pyaspora/diaspora/models.py:388-389 | the de-duplicated targets have distinct servers and are all among the given targets |
| Delivery.ByServerCovers | pyaspora/diaspora/models.py:388-389 | every server of the targets is reached, by the last target given for it |
| Delivery.PublicTargets | pyaspora/diaspora/models.py:386-389 | the public fan-out fails with AttributeError exactly when a target has no Diaspora record, and otherwise sends to one target per server |
| Delivery.FollowerTargets | pyaspora/diaspora/models.py:398-399 | the non-public fan-out keeps exactly the targets that follow the author, in order |
| Delivery.FollowerTargetsIdempotent | pyaspora/diaspora/models.py:398-399 | filtering to followers twice is filtering once |
| Delivery.SendTo | pyaspora/diaspora/models.py:340-401 | intended, with the imported message classes defined: a non-local author or a missing own share fails the assertions; otherwise the decision, the stored type and the fan-out are those of `Decide` and the two target rules |
| Delivery.SendToAsWritten | pyaspora/diaspora/models.py:340-342 | as written every call raises ImportError at the import of `PrivateMessage`, `SubPost` and `SubPM`, before the assertions |
| Delivery.SendToImportFails | pyaspora/diaspora/models.py:340-401 | wherever the intended `send_to` plans a delivery, the one as written raises ImportError |
| Delivery.CanReplyWith | pyaspora/diaspora/models.py:403-409 | `self` is always allowed, `wall` exactly for a public post, `existing` exactly for one that is not, and nothing else |
| Delivery.WallAndExistingExclusive | pyaspora/diaspora/models.py:406-409 | a post allows exactly one of a wall reply and a reply to its existing viewers |
| Delivery.ReplyTargetFollowsDecision | pyaspora/diaspora/models.py:351-409 | after a first send stored the type, a wall reply is allowed exactly when that send was public |
| Delivery.GetForPost | pyaspora/diaspora/models.py:314-325 | an existing record is returned unchanged; a new one is made only for a locally authored post, and no other record changes |
| Delivery.GetForPostIdempotent | pyaspora/diaspora/models.py:314-325 | a second call returns the record the first made and changes nothing |
| Directory.FindRow | pyaspora/diaspora/models.py:62-63 | `.first()`: the first row that matches, or none exactly when no row matches |
| Directory.ForContact | pyaspora/diaspora/models.py:45-46 | a contact's row is one for that contact, and there is none exactly when no row names it |
| Directory.GetByGuid | pyaspora/diaspora/models.py:62-63 | the row found has the guid asked for, and none means no row has it |
| Directory.ByUsername | pyaspora/diaspora/models.py:67-68 | the row found has the username asked for, and none means no row has it |
| Directory.GetForContact | pyaspora/diaspora/models.py:44-59 | an existing row is returned as it is; a contact with no local user fails the assertion; a new row has the server of the request URL with path `/` and the username `<user id>@<host>`, and is found afterwards |
| Directory.GetForContactIdempotent | pyaspora/diaspora/models.py:44-59 | asking again for the same contact returns the row the first call made and changes nothing |
| Directory.LocalUsernameSplits | pyaspora/diaspora/models.py:53 | a username made here splits at its only `@` into the user id, which parses back, and the host name |
| Directory.GetByUsername | pyaspora/diaspora/models.py:66-76 | a cached row is returned; otherwise the import's outcome; with importing off, the unassigned `contact` raises |
| Directory.Take | pyaspora/diaspora/models.py:175-196 | an entry taken is public, has a guid not yet known, and names a root that is known, which becomes the parent |
| Directory.ImportEntries | pyaspora/diaspora/models.py:165-218 | the posts imported have guids that were not known and are pairwise different |
| Directory.ImportedFromFeed | pyaspora/diaspora/models.py:175-185 | every imported post comes from a public entry of the feed |
| Directory.ImportedParentKnown | pyaspora/diaspora/models.py:187-195 | a parent an imported post names is a post known beforehand or one imported earlier in the same run |
| Directory.ReimportNothing | pyaspora/diaspora/models.py:183-185 | feeding the same entries again once their guids are known imports nothing |
| Federation.LocalUserOf | pyaspora/diaspora/views.py:205-206 | a row's local user is the user of its stored contact |
| Federation.Receive | pyaspora/diaspora/views.py:200-219 | 404 exactly for a guid that names no local contact; otherwise one INCOMING item for that user is appended and the reply is `OK`, unless the form has no `xml` or its text is not ASCII |
| Federation.ReceiveQueuesForUser | pyaspora/diaspora/views.py:209-215 | a received message becomes the newest pending item of its user and of no one else |
| Federation.ReceivePublic | pyaspora/diaspora/views.py:222-245 | a missing `xml` is 400; a decoding failure propagates; success queues nothing and replies `OK`; a processing failure queues one PUBLIC_INCOMING item with the error and replies 400 |
| Federation.ReceivePublicQueuesFailure | pyaspora/diaspora/views.py:232-243 | a public message that failed is the newest public item and carries its error |
| Federation.PublicProcess | pyaspora/diaspora/views.py:234 | the processing `receive_public` applies succeeds exactly when the message, handled with no recipient user, succeeds |
| Federation.PublicMessageQueued | pyaspora/diaspora/views.py:223-243 | every public message that decodes is answered 400 and queued as the newest public item, with its error |
| Federation.RunQueue | pyaspora/diaspora/views.py:292-297 | the loop of `run_queue`, without its time budget: it stops with nothing pending for the user and never lengthens the pending list |
| Federation.RunQueueIdle | pyaspora/diaspora/views.py:293-295 | with nothing pending, `run_queue` stops at once and changes nothing |
| Federation.RunQueueRounds | pyaspora/diaspora/views.py:292-297 | `run_queue` takes at most one round per pending item, plus one |
| Federation.DocFor | pyaspora/diaspora/views.py:69-111 | the document names the contact, has the subject `acct:` and the contact's Diaspora username, and creates the contact's row only when there was none |
| Federation.LocalPart | pyaspora/diaspora/views.py:65-66 | unpacking the split at `@` fails unless there are exactly two parts, and `int` fails unless the first parses; both are ValueErrors |
| Federation.ContactAsWritten | pyaspora/diaspora/views.py:65-68 | as written, the local part is read as a contact id; an id no contact has is the IndexError of `Contact.get`, so the 404 is reached only for a contact without an activated user |
| Federation.ContactFixed | pyaspora/diaspora/models.py:53 | the corrected lookup reads the local part as the user id that `get_for_contact` put there |
| Federation.WebfingerAsWritten | pyaspora/diaspora/views.py:59-113 | the as-written lookup's errors propagate, and the document describes the contact it found |
| Federation.WebfingerFixed | pyaspora/diaspora/views.py:59-113 | the corrected lookup's errors propagate, and the document describes the contact it found |
| Federation.LocalPartOfUsername | pyaspora/diaspora/models.py:53 | the address made for a user reads back as that user's id |
| Federation.WebfingerFixedRoundTrip | pyaspora/diaspora/models.py:44-59 | with the corrected rule, the address `get_for_contact` gave an activated local user answers with that user's own contact and row |
| Federation.WebfingerMisroutes | pyaspora/diaspora/views.py:65-68 | as written, when user 1's contact is 2 and contact 1 is a remote person, the address handed out for user 1 gets 404, while the corrected rule answers |
| Federation.HostMetaTemplate | pyaspora/diaspora/views.py:46-55 | the lrdd template ends in `{uri}` |
| Federation.HostMetaTemplateExpands | pyaspora/diaspora/views.py:46-55 | filling the template with an address gives the webfinger URL of that address |
| Outbox.SendAsWritten | pyaspora/diaspora/actions.py:33-41 | as written, every kind but `Subscribe` has no `generate` and raises AttributeError, as does a contact with no Diaspora record; a subscription request goes to the contact's receive URL |
| Outbox.Send | pyaspora/diaspora/actions.py:33-41 | with a `generate` for every kind, the send succeeds exactly for a contact with a Diaspora record, and posts that kind's message to `<server>receive/users/<guid>` |
| Outbox.SendAgreesForSubscribe | pyaspora/diaspora/actions.py:55-61 | for a subscription request the two definitions agree |
| Outbox.SendMissingGenerate | pyaspora/diaspora/actions.py:64-95 | a profile or unsubscribe message raises as written, while the corrected send posts it |
| Actions.FirstText | pyaspora/diaspora/actions.py:51 | `xpath(...)[0].text` is an IndexError exactly when there is no such element, and otherwise the first element's text |
| Actions.Lookup | pyaspora/diaspora/actions.py:12-18 | the handler registered under an xpath, present exactly when that xpath was registered |
| Actions.Put | pyaspora/diaspora/actions.py:17 | assigning into the dict grows it by at most one entry |
| Actions.PutLookup | pyaspora/diaspora/actions.py:17 | after the assignment the xpath maps to the new handler and every other key as before |
| Actions.PutKeepsPlaces | pyaspora/diaspora/actions.py:17 | insertion keeps the order of the keys already present and grows the dict only for a new key |
| Actions.Register | pyaspora/diaspora/actions.py:15-19 | the decorator returns the class unchanged and adds at most one entry |
| Actions.PathsDistinct | pyaspora/diaspora/actions.py:44-98 | the four registered xpaths are pairwise different |
| Actions.HandlersInOrder | pyaspora/diaspora/actions.py:44-98 | registration leaves the four handlers in declaration order under their xpaths |
| Actions.FirstMatch | pyaspora/diaspora/actions.py:26-28 | the first registered handler whose xpath the document matches, or none exactly when none matches |
| Actions.Dispatch | pyaspora/diaspora/actions.py:26-29 | "No handler registered" exactly when no xpath matches; otherwise a handler whose xpath matches |
| Actions.DispatchPrefersEarlier | pyaspora/diaspora/actions.py:26-28 | a document matching several xpaths goes to the earliest registered, the subscription |
| Actions.DispatchRetraction | pyaspora/diaspora/actions.py:89-95 | a Person retraction that matches no earlier handler goes to `Unsubscribe` |
| Actions.CheckSender | pyaspora/diaspora/actions.py:51-52 | the check passes exactly when the first handle element's text is the username of the sender's Diaspora record; no element is an IndexError and no record an AttributeError |
| Actions.StatusFields | pyaspora/diaspora/actions.py:104-106 | `raw_message` and `created_at` are read before the time is parsed; either missing is an IndexError |
| Actions.ReceiveStatus | pyaspora/diaspora/actions.py:101-114 | the sender check's error propagates; with no recipient user the `u_to.contact` read is an AttributeError; otherwise the new post is stored with its one text part and shared with the recipient, and nothing else changes |
| Actions.ReceiveStatusShares | pyaspora/diaspora/actions.py:112 | the shares written are those of `share_with([u_to.contact])` |
| Actions.ReceiveProfile | pyaspora/diaspora/actions.py:76-86 | `Profile.receive` always fails: `" ".join` with two arguments is a TypeError, after the sender check |
| Actions.Receive | pyaspora/diaspora/actions.py:47-114 | each handler starts with the sender check, on `sender_handle` for a subscription and `diaspora_handle` otherwise; a profile always fails; with no recipient user every handler fails, a subscription or unsubscription with an AttributeError after the check; an unsubscription removes the subscription and a subscription adds it |
| Actions.ProcessIncomingMessage | pyaspora/diaspora/actions.py:22-29 | a parse failure propagates; otherwise the message goes to the first registered handler whose xpath matches, for a user or for none |
| Actions.PublicMessageFails | pyaspora/diaspora/actions.py:22-114 | a message processed with no recipient user, as the public queue does, always fails |
| Actions.ForgedSenderRejected | pyaspora/diaspora/actions.py:52 | a message whose handle element is not the sending contact's username fails the assertion and changes nothing |
| Actions.SubscribeThenRetract | pyaspora/diaspora/actions.py:44-95 | a subscription request records the subscription and sends nothing back; a later Person retraction from the same contact removes it |
| Posts.HasPermissionToView | pyaspora/post/models.py:160-180 | a viewing contact's own share decides alone, visible unless hidden; without one the author may view; otherwise a public share given, or any public share of the post, allows viewing |
| Posts.ViewableChildren | pyaspora/post/models.py:182-187 | the children kept are exactly those the contact may view |
| Posts.ViewableChildrenInOrder | pyaspora/post/models.py:186-187 | the children kept stay in the order of `children` |
| Posts.ViewableChildrenIdempotent | pyaspora/post/models.py:182-187 | filtering the viewable children again keeps them all |
| Posts.AddShares | pyaspora/post/models.py:248-253 | existing shares are kept, and afterwards every listed contact has a share of the post |
| Posts.AddSharesNew | pyaspora/post/models.py:249-253 | every share added is for this post, public exactly when `show_on_wall`, not hidden, and belongs to a newly shared contact |
| Posts.AddSharesAdded | pyaspora/post/models.py:250-251 | the newly shared contacts come from the list and had no share before |
| Posts.AddSharesDistinct | pyaspora/post/models.py:250-252 | no contact is newly shared twice, since the session sees the shares added earlier in the loop |
| Posts.Remotes | pyaspora/post/models.py:224 | the contacts kept are exactly those with no local user |
| Posts.ShareWith | pyaspora/post/models.py:242-258 | intended, with a `send_to` that can run: the shares become those `AddShares` gives; only a locally authored post announces, and then to exactly the newly shared remote contacts; a failure is the AttributeError of announcing a reshare |
| Posts.ShareWithAsWritten | pyaspora/post/models.py:218-258 | as written the call is the intended one when it fails or announces nothing, and raises ImportError whenever `send_to` is called |
| Posts.ShareWithRaisesImport | pyaspora/post/models.py:222-258 | sharing a locally authored post with one new remote contact adds its share and announces the post to it as intended, and raises ImportError as written |
| Posts.ShareWithIdempotent | pyaspora/post/models.py:249-251 | sharing with the same contacts again adds nothing and announces nothing |
| Posts.ShareGrantsView | pyaspora/post/models.py:252-253 | a contact the post was newly shared with may view it afterwards |
| Posts.Hide | pyaspora/post/models.py:270-287 | an existing share becomes hidden; without one a post that is not public fails the assertion, and a public one gets a public, hidden share |
| Posts.HideRemovesView | pyaspora/post/models.py:270-287 | after hiding, the contact may no longer view the post, even as its author |
| Posts.HideKeepsOthers | pyaspora/post/models.py:270-287 | hiding touches no other share and leaves a public post public |
| Posts.Root | pyaspora/post/models.py:289-296 | the root is a stored post with no parent and an id no larger than the post's, and is the post itself exactly when the post has no parent |
| Posts.RootIsAncestor | pyaspora/post/models.py:293-296 | the root is the post itself or one of its ancestors |
| Posts.RootOfAncestor | pyaspora/post/models.py:293-296 | every post along a thread's parent chain has the same root |
| Posts.Bumped | pyaspora/post/models.py:304-308 | with no time given the thread time becomes now; with one it becomes that time or stays, and is never earlier than either |
| Posts.ThreadModified | pyaspora/post/models.py:298-310 | the root's thread time is bumped as `Bumped` says |
| Posts.ThreadModifiedKeepsOthers | pyaspora/post/models.py:303-310 | only the root changes, only in its thread time, and the posts stay linked |
| Posts.ThreadModifiedMonotone | pyaspora/post/models.py:304-306 | with a time given the thread time becomes the later of the old one and the new one |
| Posts.ThreadModifiedFromComment | pyaspora/post/models.py:303 | marking a comment modified changes the same post as marking the post it answers |
| Targets.PostIntersectContacts | pyaspora/post/targets.py:3-5 | the contacts kept are exactly those the post is shared with |
| Targets.Interested | pyaspora/post/targets.py:8-9 | intended: the contacts kept are exactly those subscribed to the user's contact |
| Targets.InterestedAsWritten | pyaspora/post/targets.py:8-9 | as written `subscribed_to(user)` compares with the user's id: the contacts kept are exactly those with a subscription to the contact whose id is the user's id |
| Targets.InterestedAsWrittenMisses | pyaspora/post/targets.py:9 | a contact subscribed to the user's contact is kept by the intended filter and dropped as written, whenever the two ids differ in that way |
| Targets.IntersectionsInOrder | pyaspora/post/targets.py:3-9 | both intersections keep the order of the list they filter |
| Targets.BothwayContacts | pyaspora/post/targets.py:32-33 | the two-way contacts are among the user's friends |
| Targets.BothwayIsMutual | pyaspora/post/targets.py:32-33 | the two-way contacts are exactly the contacts subscribed in both directions with the user's contact |
| Targets.PermittedForNewAsWritten | pyaspora/post/targets.py:8-113 | as written, `Group` calls the list `user.groups` and raises TypeError; `Contact` and `AllFriends` answer whether some friend is subscribed to the contact whose id is the user's id, because `subscribed_to` is handed the user; yourself, the wall and existing viewers answer as `PermittedForNew` |
| Targets.PermittedForNewAsWrittenMisses | pyaspora/post/targets.py:30-56 | a user whose one friend is subscribed to the user's contact but not to the contact whose id is the user's id may address one or all friends under the intended check, and may not as written |
| Targets.PermittedForNew | pyaspora/post/targets.py:21-152 | yourself and the wall always; existing viewers never; one friend or all friends exactly when there is a two-way contact; a group when one of the user's groups holds a two-way contact |
| Targets.FriendTargetsNeedMutual | pyaspora/post/targets.py:54-56 | a user may address one friend or all friends exactly when they have a two-way contact |
| Targets.PermittedForReplyAsWritten | pyaspora/post/targets.py:58-120 | as written, `Contact` and `AllFriends` read the undefined name `post` and raise NameError, `Group` raises TypeError, and the others answer as `PermittedForReply` |
| Targets.PermittedForReply | pyaspora/post/targets.py:25-156 | yourself and existing viewers always; one friend or all friends when a two-way contact can see the parent; a group when one of its two-way contacts can see the parent; the wall exactly when the author's own share is public, with AttributeError when the author has none |
| Targets.ReplyTargetsRaise | pyaspora/post/targets.py:58-120 | as written, the friend and group targets raise for every reply, and the group target for every new post |
| Targets.ReplyReachesOnlyMutualViewers | pyaspora/post/targets.py:36-40 | a reply's friend targets are offered exactly when some two-way contact can already see the parent |
| Targets.SelectTargets | pyaspora/post/views.py:271-284 | the chained generators keep exactly the targets accepted, in order, and the first error stops the list |
| Targets.CreateFormTargetsAsWritten | pyaspora/post/views.py:269-288 | as written the form always fails: the reply checks raise, and `can_reply_with` reads the missing `name` of a target class |
| Targets.CreateFormTargets | pyaspora/post/views.py:269-288 | a new post offers exactly the targets permitted for it; a reply offers those permitted for it that a federated parent accepts, in the order of `target_list`, and fails only where a permission check raises |
| Targets.ReplyOffers | pyaspora/post/views.py:271-279 | the reply form's check of one target fails exactly when its permission check raises |
| Targets.ReplyFormOffersSelf | pyaspora/post/views.py:271-279 | a reply form that does not fail always offers replying to yourself |
| Targets.ReplyFormFailsOnlyWithoutAuthorShare | pyaspora/post/targets.py:155-156 | the corrected reply form fails exactly when the parent's author holds no share of it |
| Contacts.ShareWithLocal | pyaspora/post/models.py:242-258 | for a local contact `share_with([c])` adds at most that contact's share and sends nothing |
| Contacts.ThreadModifiedFresh | pyaspora/contact/models.py:132 | marking a new top-level post modified sets its own thread time to now |
| Contacts.Get | pyaspora/contact/models.py:44-51 | `Contact.get` as its docstring promises: None exactly when no contact has the id, and otherwise the contact of that id |
| Contacts.GetAsWritten | pyaspora/contact/models.py:52-54 | as written an unknown id is the IndexError of `res[0]`, since the query tested by `if res` is true even when empty; otherwise the contact of that id |
| Contacts.GetUnknownRaises | pyaspora/contact/models.py:44-54 | the two lookups succeed for the same ids and find the same contact; for an unknown id the code raises where the docstring promises None |
| Contacts.NotifySubscribe | pyaspora/contact/models.py:102-132 | with neither contact local the assertion fails; otherwise one new post by `self` with the subscribe part, its thread time now, and nothing else but shares changes |
| Contacts.NoticeSharedWithLocals | pyaspora/contact/models.py:128-131 | the notice is shared, not public and not hidden, with exactly the local ones of the two contacts, and no other share changes |
| Contacts.SubscribeSends | pyaspora/contact/models.py:82-84 | corrected sends: nothing is sent to a local contact; a remote one is sent Subscribe then Profile, which needs its Diaspora record |
| Contacts.Subscribe | pyaspora/contact/models.py:73-85 | with the corrected sends: with neither contact local the assertion fails; otherwise the subscription is recorded, the messages go out and the notice is posted |
| Contacts.SubscribeEffects | pyaspora/contact/models.py:80-85 | a subscription sends what `SubscribeSends` says and leaves the notice `NotifySubscribe` makes |
| Contacts.SubscribeKeepsLinked | pyaspora/contact/models.py:73-85 | a subscription keeps the posts linked, and the next id is free for the next post |
| Contacts.Unsubscribe | pyaspora/contact/models.py:87-100 | with the corrected send: every subscription from `self` to the contact is removed, and a remote contact is sent Unsubscribe, which needs its Diaspora record |
| Contacts.SubscribeSendsAsWritten | pyaspora/contact/models.py:82-84 | as written nothing is sent to a local contact, and a remote one raises AttributeError at the `Profile` send, which has no `generate` |
| Contacts.SubscribeAsWritten | pyaspora/contact/models.py:73-85 | as written: with neither contact local the assertion fails; a local user subscribing to a remote contact raises AttributeError; subscribing to a local contact is the corrected subscription |
| Contacts.UnsubscribeAsWritten | pyaspora/contact/models.py:87-100 | as written unsubscribing from a remote contact raises AttributeError, since `Unsubscribe` has no `generate`; from a local one it is the corrected unsubscription |
| Contacts.RemoteSubscriptionRaises | pyaspora/contact/models.py:73-100 | for a local user and a remote contact with a Diaspora record both calls raise as written, and both succeed once every message kind generates its XML |
| Contacts.SubscribedTo | pyaspora/contact/models.py:134-145 | the subscription is found exactly when it exists |
| Contacts.FriendsFollowersDual | pyaspora/contact/models.py:147-164 | friends and followers are the two directions of one relation, and a friend is one `subscribed_to` finds |
| Contacts.SubscribeThenSubscribed | pyaspora/contact/models.py:73-85 | after subscribing, `self` is subscribed to the contact, counts it among its friends and is its follower |
| Contacts.UnsubscribeUndoesSubscribe | pyaspora/contact/models.py:87-98 | unsubscribing after a new subscription restores the subscriptions |
| Names.NameIsValid | pyaspora/utils/models.py:8-27 | a valid name has 1 to 100 characters, all from `[a-z0-9_]` |
| Names.ContainsDoubleUnderscore | pyaspora/utils/models.py:18 | `'__' in name` holds exactly when two adjacent characters are underscores |
| Names.NameIsValidMeansWellFormed | pyaspora/utils/models.py:8-27 | the checks accept exactly the names of 1 to 100 characters of `[a-z0-9_]` with no double underscore and none at either end |
| Names.ValidNameIsLower | pyaspora/utils/models.py:15 | a valid name is already lower case |
| Names.CapitalsInvalid | pyaspora/utils/models.py:15 | a name with a capital letter is invalid |
| Names.Tokens | pyaspora/utils/models.py:32-34 | one token per piece between runs of commas and whitespace, each lower-cased |
| Names.ParseTokens | pyaspora/utils/models.py:31-40 | at most one row per token is kept |
| Names.ParseLine | pyaspora/utils/models.py:30-40 | at most one row per piece of the line |
| Tags.Find | pyaspora/tag/models.py:99 | the row found has the name asked for, and none means no row has it |
| Tags.NextId | pyaspora/tag/models.py:66 | the next id is positive and above every id in use |
| Tags.GetByName | pyaspora/tag/models.py:88-104 | a tag comes back exactly for a valid name that is stored or may be created; it is then in the table with that name; only a new tag grows the table, under the next id |
| Tags.GetByNameKeepsUnique | pyaspora/tag/models.py:67 | a lookup keeps tag names unique |
| Tags.GetByNameIdempotent | pyaspora/tag/models.py:99-102 | looking the same name up again finds the same tag and adds nothing |
| Tags.FindUnique | pyaspora/tag/models.py:67 | with unique names, the row with a given name is the one found |
| Tags.ParseLine | pyaspora/utils/models.py:30-40 | at most one tag per piece of the line |
| Tags.ParseTokensRows | pyaspora/utils/models.py:31-40 | parsing keeps stored rows and unique names, and every tag it returns is stored and validly named |
| Tags.ParseTokensCreates | pyaspora/utils/models.py:32-39 | with `create`, the tags are named exactly by the valid tokens, in order |
| Tags.ParseTokensFinds | pyaspora/utils/models.py:32-39 | without `create` nothing is added, and the tags are named by the valid tokens that name a stored tag, in order |
| Tags.ParseLineCreates | pyaspora/utils/models.py:30-40 | `parse_line(line, create=True)` gives one stored tag per valid token of the line |
| Tags.PublicPostsForTags | pyaspora/tag/models.py:76-86 | the shares selected are exactly the public, unhidden shares of posts carrying one of the tags |
| Tags.TaggedPostsArePublic | pyaspora/tag/models.py:76-86 | every post the tag query selects is one the public may view |
| Seqs.Filter | pyaspora/post/targets.py:5 | a list comprehension with a condition keeps exactly the elements accepted |
| Seqs.FilterInOrder | pyaspora/post/targets.py:5 | a list comprehension keeps the order of its input |
| Roster.Find | pyaspora/roster/models.py:100-103 | a group found is stored, has the name and belongs to the user; nothing is found exactly when no stored group holds that (user, name) slot |
| Roster.NextId | pyaspora/roster/models.py:67 | the id a new row takes is above every id in use, so the primary key stays unique |
| Roster.GetByName | pyaspora/roster/models.py:89-108 | a group comes back exactly for a valid name that is found or may be created; it is stored under the name and user; the table is unchanged unless an empty group was added in a free slot |
| Roster.GetByNameKeepsWellKept | pyaspora/roster/models.py:67-73 | a lookup keeps the primary key and the (user_id, name) unique constraint |
| Roster.GetByNameIdempotent | pyaspora/roster/models.py:89-108 | a second lookup of the same name finds the same group and adds nothing |
| Roster.FindUnique | pyaspora/roster/models.py:71-73 | with the slot unique, the group in a slot is the one the query finds |
| Roster.ParseLine | pyaspora/utils/models.py:30-40 | the line yields at most one group per piece of the split |
| Roster.ParseTokensRows | pyaspora/utils/models.py:30-40 | parsing a line keeps every stored group and the constraints, and every group it returns is stored, the user's and validly named |
| Roster.Get | pyaspora/roster/models.py:81-87 | a group comes back exactly when one has that primary key, and it is that one |
| Roster.Owned | pyaspora/roster/views.py:139-141 | a group passed on is the stored one of that id and belongs to the user; otherwise status 404 |
| Roster.OwnedExactly | pyaspora/roster/views.py:161-163 | the check lets through exactly the groups the user owns: missing and foreign groups both get 404 |
| Roster.Replace | pyaspora/roster/views.py:143-146 | the group of the id is replaced and every other row keeps its place |
| Roster.RenameGroup | pyaspora/roster/views.py:135-148 | the view succeeds exactly for the user's group, a non-empty name field, and no clash of a valid new name with another of the user's groups |
| Roster.RenameGroupEffect | pyaspora/roster/views.py:143-146 | only that group's name changes, and only to a valid name; the constraints still hold |
| Roster.RemoveContact | pyaspora/roster/views.py:156-176 | the view succeeds exactly for the user's own group and otherwise answers 404 |
| Roster.RemoveContactEffect | pyaspora/roster/views.py:165-174 | the group keeps exactly its members that are not subscriptions to the contact and is deleted exactly when none remain; other groups and the constraints are untouched |
| Roster.UnsubscribeView | pyaspora/roster/views.py:197-210 | intended, with the corrected send and a `Contact.get` that gives None for an unknown id: 404 exactly for an unknown contact, 400 exactly when the user does not subscribe to it, and otherwise the subscription is removed |
| Roster.UnsubscribeViewAsWritten | pyaspora/roster/views.py:197-210 | as written an unknown contact is the IndexError of `Contact.get`, never the 404; for a known one the view agrees with the intended one except for a subscribed remote contact, where it raises AttributeError |
| Roster.Assign | pyaspora/roster/views.py:248 | the group keeps every other member and holds the subscription exactly when it is a chosen group |
| Roster.SaveContactGroups | pyaspora/roster/views.py:215-252 | intended (`dict` for `dit`, and `Contact.get` giving None): the view fails exactly for an unknown contact (404) or a contact the user does not subscribe to (400) |
| Roster.SaveContactGroupsAsWritten | pyaspora/roster/views.py:215-238 | the view as written never succeeds: an unknown contact is the IndexError of `Contact.get`, a contact the user does not subscribe to gets 400, and the rest raise at `dit` |
| Roster.SaveContactGroupsNeverSaves | pyaspora/roster/views.py:225-238 | for a subscribed contact the view as written raises NameError at `dit`, where the intended view saves |
| Roster.UnknownContactRaises | pyaspora/roster/views.py:201-223 | for a contact id no contact has, `unsubscribe` and `save_contact_groups` raise IndexError as written, where the intended views answer 404 |
| Roster.RegroupKeepsWellKept | pyaspora/roster/views.py:240-248 | deleting emptied groups and re-assigning the subscription keeps the constraints |
| Roster.RegroupEffect | pyaspora/roster/views.py:240-248 | afterwards the subscription is in a group exactly when it was chosen; every group comes from a stored one; only emptied groups are dropped |
| Roster.SaveContactGroupsEffect | pyaspora/roster/views.py:229-250 | the subscription ends up in exactly the groups the line names, each the user's and validly named; only emptied groups go; the constraints hold |
| Text.ToLower | pyaspora/utils/models.py:34 | `str.lower()` keeps the length and lower-cases each character on its own |
| Text.KeepAlnum | src/pyaspora/renderer/__init__.py:23 | the result keeps only characters of `[A-Za-z0-9]` and is no longer than the input |
| Text.KeepAlnumIdentity | src/pyaspora/renderer/__init__.py:23 | a string that is already alphanumeric is left unchanged |
| Text.Split | pyaspora/diaspora/views.py:65 | `split(sep)` yields at least one piece and no piece contains the separator |
| Text.SplitJoin | pyaspora/diaspora/views.py:65 | joining the pieces with the separator gives back the string |
| Text.SplitPrefix | pyaspora/diaspora/views.py:65 | the text before the first separator is the first piece and the rest splits on its own |
| Text.SplitNoSeparator | pyaspora/diaspora/views.py:65 | text without the separator is a single piece |
| Text.JoinSplit | pyaspora/diaspora/views.py:65 | pieces without the separator, joined and split again, come back unchanged |
| Text.SplitCount | pyaspora/diaspora/views.py:65 | there is one more piece than there are separators, so unpacking into two names needs exactly one `@` |
| Text.SplitRuns | pyaspora/utils/models.py:32 | `re.split('[,\s]+', line)` yields at least one piece, and no piece holds a comma or whitespace or a character not in the line |
| Text.SplitRunsPieces | pyaspora/utils/models.py:32 | the pieces, put together, are the line with its separators deleted, and only the first and last piece can be empty |
| Text.LStrip | src/pyaspora/diaspora/__init__.py:204 | `lstrip()` drops a prefix of whitespace, the result starts with no whitespace, and text starting with none is unchanged |
| Text.RStrip | pyaspora/diaspora/views.py:66 | `rstrip()` drops a suffix of whitespace and leaves text ending in none unchanged |
| Text.NatToString | pyaspora/diaspora/views.py:66 | `str(n)` is a non-empty string of decimal digits |
| Text.ParseIntNat | pyaspora/diaspora/views.py:66 | `int(str(n))` is n and `int("-" + str(n))` is -n |
| Text.ParseIntString | pyaspora/diaspora/views.py:66 | `int(str(i)) == i` for every integer |
| Text.ParseInt | pyaspora/diaspora/views.py:66 | `int()` of a blank string is a failure |
| Text.IntToStringNoAt | pyaspora/diaspora/views.py:65 | the text of an integer holds no `@`, so it never splits an address |
| Rendering.Stash | pyaspora/content/rendering.py:55-64 | after the decorator runs, the table holds exactly its old types and the listed ones |
| Rendering.StashAt | pyaspora/content/rendering.py:60-63 | a listed type now finds the decorated renderer, and every other type finds what it found before |
| Rendering.RendererExists | pyaspora/content/rendering.py:67-72 | a renderer is returned exactly when one is stored for the type, and it is the stored one |
| Rendering.Render | pyaspora/content/rendering.py:173-207 | HTML and plain text always give an output, through the renderer or the fallback, unless a renderer raises UnicodeDecodeError on a body that is not UTF-8; a UTF-8 body never raises |
| Rendering.Decode | pyaspora/content/rendering.py:84 | `.decode('utf-8')` gives the body back exactly when it is well-formed UTF-8, and UnicodeDecodeError otherwise |
| Rendering.RenderersAt | pyaspora/content/rendering.py:75-244 | once the module is loaded each site type finds its own renderer, an image type the image renderer, the text types theirs unless the image list names them, and nothing else is found |
| Rendering.Apply | pyaspora/content/rendering.py:75-220 | a renderer raises UnicodeDecodeError exactly when it decodes a body that is not UTF-8 (the text renderers for an inline part, the cards past their gate, the profile always, the image renderer never); it answers only for an inline part and only in HTML or plain text, and only the plain-text and Markdown renderers answer in plain text |
| Rendering.RenderPrefersRenderer | pyaspora/content/rendering.py:182-188 | whatever the type's renderer returns or raises, even an empty text, is what `render` returns |
| Rendering.NotInlineIsLink | pyaspora/content/rendering.py:173-220 | a part not shown inline is always a link in HTML or plain text, and nothing in any other format, except that the profile renderer decodes first and raises on a body that is not UTF-8 |
| Rendering.OnlyTwoFormats | pyaspora/content/rendering.py:173-207 | when `render` returns, it produces output exactly for HTML and plain text, and it always returns for a UTF-8 body |
| Rendering.UnknownTypeFallsBack | pyaspora/content/rendering.py:190-205 | a type with no renderer shows its preview when inline with a non-empty preview, else the link, in both formats |
| Rendering.PlainTextShown | pyaspora/content/rendering.py:75-88 | an inline plain-text part is its decoded body as text and the body through `nl2br` as HTML, never the preview, and raises UnicodeDecodeError in both formats when the body is not UTF-8 |
| Rendering.EncodedTextRenders | pyaspora/content/rendering.py:173-220 | a body that is the UTF-8 encoding of some text renders without raising, for every type and format |
| Rendering.CardsOnlyInHtml | pyaspora/content/rendering.py:132-170 | the share and subscribe cards appear only as inline HTML, raising on a body that is not UTF-8; as plain text they fall back to the preview or the link without reading the body |
| Rendering.SkipTags | pyaspora/content/rendering.py:27-30 | each line is kept or gets one space in front, exactly when it is a line of hashtags |
| Rendering.RunAppend | pyaspora/content/rendering.py:25 | matching a line piece by piece is matching the whole line |
| Rendering.HashtagsMatch | pyaspora/content/rendering.py:25 | every line of hashtags separated by whitespace, optionally ending in whitespace and a lone `#`, matches the pattern |
| Rendering.MatchShape | pyaspora/content/rendering.py:25 | a matching line starts with `#`, holds only word characters, whitespace and `#`, has every later `#` after whitespace, and does not end in whitespace |
| Rendering.SkipTagsIdempotent | pyaspora/content/rendering.py:27-30 | running the preprocessor twice changes nothing more than running it once |
| Templates.Escape | pyaspora/utils/templates.py:20 | the escaped text holds no `<`, `>`, `"` or `'` |
| Templates.UnescapeEscape | pyaspora/utils/templates.py:20 | reading the escaped text back as HTML gives exactly the value |
| Templates.EscapeBreaks | pyaspora/utils/templates.py:20 | escaping keeps every line break and creates none, so the paragraph split sees the value's own breaks |
| Templates.Paragraphs | pyaspora/utils/templates.py:14 | the split yields at least one piece, and a text not opening with a separator starts its first piece with its first character |
| Templates.ParagraphsPieces | pyaspora/utils/templates.py:14 | no paragraph holds two line-break characters in a row |
| Templates.SingleParagraph | pyaspora/utils/templates.py:14 | a text with no two breaks in a row is a single paragraph |
| Templates.ParagraphsAppend | pyaspora/utils/templates.py:14 | a run of two or more breaks, `\r\n` included, separates the paragraph before it from the rest |
| Templates.Br | pyaspora/utils/templates.py:19 | each newline grows by the four characters of `<br>` and nothing else changes length |
| Templates.BrPlain | pyaspora/utils/templates.py:19 | a paragraph without a newline is written unchanged |
| Templates.Nl2brOneParagraph | pyaspora/utils/templates.py:17-23 | a value with no blank line is one `<p>` of its escaped text, with `<br>` at its newlines |
| Templates.Nl2brPlainText | pyaspora/utils/templates.py:17-23 | plain text without special characters or breaks is only wrapped in `<p>` |
| Templates.Nl2brTwoParagraphs | pyaspora/utils/templates.py:17-23 | two paragraphs separated by two or more breaks become two `<p>` elements one blank line apart, each of its own escaped text |
| Templates.Nl2br | pyaspora/utils/templates.py:17-23 | the filter always gives at least one paragraph: the output starts with `<p>`, even for an empty value |
| Templates.Sections | pyaspora/utils/templates.py:45-53 | seven sections in order, where the weeks and the days shown together make up the delta's days, the days below seven |
| Templates.Labelled | pyaspora/utils/templates.py:61-62 | a section gives at most one label, and none when its value is zero |
| Templates.CollectIsShown | pyaspora/utils/templates.py:55-64 | the loop keeps the first `chunks` non-zero sections, all of them for 0, and at most the years for a negative `chunks` |
| Templates.SinceNow | pyaspora/utils/templates.py:26-34 | "now" comes back exactly when the instant equals the base, or the clock when no base is given |
| Templates.SinceShape | pyaspora/utils/templates.py:36-65 | a past instant reads "<sections> ago" and a future one "in <sections>", the sections joined by ", " |
| Templates.ChunksBound | pyaspora/utils/templates.py:63-64 | with a positive `chunks` no more sections than that appear |
| Templates.LabelSingular | pyaspora/utils/templates.py:62 | the unit is singular exactly when the value is 1 |
| Templates.PlusToSpace | pyaspora/utils/templates.py:74 | reading `+` as a space keeps the length |
| Templates.PairsOf | pyaspora/utils/templates.py:74 | the items give at most one pair each |
| Templates.ParseQslEncoded | pyaspora/utils/templates.py:74 | an encoded query reads back as one decoded pair per item, in order |
| Templates.ParseQsl | pyaspora/utils/templates.py:74 | an empty query has no pairs, and there is at most one pair per `&`-separated item |
| Templates.BlankItemsDropped | pyaspora/utils/templates.py:74 | an item without `=` or with an empty value gives no pair |
| Templates.ChunkUrlParams | pyaspora/utils/templates.py:68-76 | the only failure is the `ValueError` of a URL the split rejects |
| Templates.ChunkUrlParamsSplits | pyaspora/utils/templates.py:73-76 | the pairs are those of the URL's query, and without a fragment the rebuilt URL holds no `?` |
| Validation.PostParam | pyaspora/utils/validation.py:6-15 | a value read is the submitted one; a required field is non-empty; the only failure is status 400 |
| Validation.RequiredParam | pyaspora/utils/validation.py:6-15 | a required field fails exactly when it is missing or empty |
| Validation.OptionalParam | pyaspora/utils/validation.py:12-14 | an optional field never aborts and is absent exactly when not submitted |
| Validation.PostParamRoundTrip | pyaspora/utils/validation.py:8-11 | a submitted acceptable value is read back unchanged |
| Validation.CheckAttachmentIsSafe | pyaspora/utils/validation.py:18-23 | the check returns `True` or ends the request with status 400 |
| Validation.CheckAttachmentMeansSafe | pyaspora/utils/validation.py:19-21 | the check passes exactly the types that are not HTML and that no text after `application/x-pyaspora` spells |
| Validation.InternalTypesRefused | pyaspora/utils/validation.py:20 | every type of the site's own family is refused, whatever follows the prefix |
| Templates.EscapeChar | pyaspora/utils/templates.py:20 | one character escapes to itself unless it is special, never to `<`, `>`, `"` or `'`, and to a line break exactly when it is one |
| LegacyController.UpToNewline | src/pyaspora-old/transport/diaspora/controller.py:32-34 | the captured text is the longest prefix without a newline, since `.` does not match one |
| LegacyController.ReceiveRewritten | src/pyaspora-old/transport/diaspora/controller.py:31-34 | `/receive/users/X` is handed on as `/diaspora/receive/X` |
| LegacyController.PeopleRewritten | src/pyaspora-old/transport/diaspora/controller.py:36-39 | `/people/X` is handed on as `/diaspora/feed/X/json` |
| LegacyController.NewlineCut | src/pyaspora-old/transport/diaspora/controller.py:32-34 | only the text before a newline is carried into the rewritten path |
| LegacyController.FindHandlerShape | src/pyaspora-old/transport/diaspora/controller.py:21-42 | every rewritten path lies under `/diaspora/`, and a path matching none of the three rules is handed on unchanged |
| LegacyController.FindHandlerIdempotent | src/pyaspora-old/transport/diaspora/controller.py:21-42 | no path the dispatcher produces is rewritten again |
| LegacyController.FindHandler | src/pyaspora-old/transport/diaspora/controller.py:21-42 | a path is handed on unchanged or rewritten under `/diaspora/` |
| LegacyController.HostMetaTemplate | src/pyaspora-old/transport/diaspora/controller.py:46-58 | the lrdd template is the request base followed by `/diaspora/webfinger/{uri}` |
| LegacyController.ClientFetchesEndpoint | src/pyaspora-old/webfinger.py:26-27 | a client reading that template asks this server's webfinger endpoint for the quoted `acct:` address |
| LegacyController.WebfingerView | src/pyaspora-old/transport/diaspora/controller.py:61-101 | the only failure is the ValueError of a public key that is not ASCII |
| LegacyController.WebfingerNotFound | src/pyaspora-old/transport/diaspora/controller.py:65-99 | 404 exactly for an unknown username or a contact with no local user; otherwise the profile names the account, carries the GUID and a key that decodes to the key's bytes |
| LegacyController.FeedStub | src/pyaspora-old/transport/diaspora/controller.py:176-184 | the stub ignores the user and answers `[]` exactly for the JSON form |
| LegacyController.Feed | src/pyaspora-old/transport/diaspora/controller.py:176-184 | the stub answers `[]` exactly for the JSON form |
| LegacyModel.HexDigit | src/pyaspora/model/__init__.py:183 | each value below 16 is written as one lower-case hex digit |
| LegacyModel.HexValue | src/pyaspora/model/__init__.py:206 | reading a hex digit gives back the value that writes it |
| LegacyModel.HexShort | src/pyaspora/model/__init__.py:183 | `"%x" % n` is one or two hex digits, one exactly when n is below 16 |
| LegacyModel.Salt | src/pyaspora/model/__init__.py:183 | the salt is hex text of one to two characters per draw |
| LegacyModel.HexDigest | src/pyaspora/model/__init__.py:186 | the digest is two hex characters per byte |
| LegacyModel.UnhexDigest | src/pyaspora/model/__init__.py:186 | a digest reads back as the bytes it was made from |
| LegacyModel.HexDigestInjective | src/pyaspora/model/__init__.py:206 | two digests are equal exactly when the hashes are, so comparing digests compares hashes |
| LegacyModel.SetPassword | src/pyaspora/model/__init__.py:178-186 | the record starts with the current version number and a colon |
| LegacyModel.PasswordIs | src/pyaspora/model/__init__.py:188-196 | the only failure is the ValueError of unpacking a record that does not hold three fields |
| LegacyModel.ThreeFields | src/pyaspora/model/__init__.py:193 | a record of three colon-free fields unpacks into those fields |
| LegacyModel.PasswordRecordShape | src/pyaspora/model/__init__.py:182-186 | a written record splits into the version, a hex salt of 32 to 64 characters, and the hex digest of the salted password, 64 characters for a 32-byte hash |
| LegacyModel.PasswordRoundTrip | src/pyaspora/model/__init__.py:188-206 | the password a record was written for is accepted |
| LegacyModel.WrongPasswordRejected | src/pyaspora/model/__init__.py:198-206 | a guess whose salted hash differs from the password's is refused |
| LegacyModel.PasswordIsMalformed | src/pyaspora/model/__init__.py:193 | the check fails exactly for records that do not hold exactly two colons |
| LegacyModel.UnknownVersionRefused | src/pyaspora/model/__init__.py:194-195 | a well-formed record of a version with no check function answers false |
| LegacyModel.FlattenMembers | src/pyaspora/model/__init__.py:230-231 | the nested loops visit exactly the subscriptions of the user's groups |
| LegacyModel.Collect | src/pyaspora/model/__init__.py:231-234 | the loop only appends to the list it started with |
| LegacyModel.CollectSpec | src/pyaspora/model/__init__.py:231-234 | the loop adds no contact twice and adds exactly the contacts of the matching subscriptions |
| LegacyModel.FriendsSpec | src/pyaspora/model/__init__.py:223-235 | no contact is listed twice, and a contact is listed exactly when some group holds a matching subscription to it |
| LegacyModel.MatchingContacts | src/pyaspora/model/__init__.py:232 | the reference list has at most one contact per subscription |
| LegacyModel.Friends | src/pyaspora/model/__init__.py:223-235 | at most one contact is listed per subscription in the groups |
| LegacyModel.CollectNoRepeats | src/pyaspora/model/__init__.py:231-234 | without repeats the loop keeps every matching contact in order |
| LegacyModel.FriendsWithoutRepeats | src/pyaspora/model/__init__.py:223-235 | when no contact repeats, the friends are all matching contacts in visiting order |
| LegacyModel.FindGroup | src/pyaspora/model/__init__.py:86-87 | a row found is owned by the user and has the name, and none is found exactly when no row does |
| LegacyModel.GetByName | src/pyaspora/model/__init__.py:80-91 | a group comes back owned by the user and named, and stored; none comes back exactly when `create` is off and none exists; a row is added only then |
| LegacyModel.GetByNameStable | src/pyaspora/model/__init__.py:66-68 | the unique constraint on owner and name is kept, and asking again finds the same group and adds nothing |
| LegacyModel.ShareWithAsWrittenFails | src/pyaspora/model/__init__.py:405-409 | as written the call succeeds exactly when every contact already has the post, and then notifies nobody |
| LegacyModel.ShareWithAsWrittenExample | src/pyaspora/model/__init__.py:408 | sharing a new post with one contact ends in the TypeError of the unknown `privacy` keyword |
| LegacyModel.ShareWith | src/pyaspora/model/__init__.py:400-409 | the old rows are kept and one row is added per contact notified |
| LegacyModel.ShareWithSpec | src/pyaspora/model/__init__.py:405-409 | afterwards every listed contact has the post; the new rows are exactly the notified contacts' shares in order; only contacts without a share are notified, each once |
| LegacyModel.ShareWithIdempotent | src/pyaspora/model/__init__.py:402-404 | sharing again with the same contacts adds nothing and notifies nobody |
| LegacyModel.Activate | src/pyaspora/model/__init__.py:171-176 | after activation the time is set |
| LegacyModel.ActivateKeepsFirstTime | src/pyaspora/model/__init__.py:175-176 | an account already activated keeps its first time, so activating twice is activating once |
| LegacyModel.GetByGuid | src/pyaspora/model/__init__.py:136-141 | the first user with the GUID, or none exactly when no user has it |
| LegacyModel.GetUnactivated | src/pyaspora/model/__init__.py:143-151 | intended: a user that comes back is a stored one with the GUID that has not activated |
| LegacyModel.GetUnactivatedAsWrittenInverted | src/pyaspora/model/__init__.py:143-151 | as written only activated users come back, so a fresh account is not found |
| LegacyModel.GetUnactivatedSpec | src/pyaspora/model/__init__.py:143-151 | intended: a user comes back exactly when the GUID's first user has not activated, and after activation the GUID finds nothing |
| LegacyModel.ActivateUser | src/pyaspora/model/__init__.py:171-176 | activating a user keeps the table's size |
| LegacyRenderer.LowerAscii | src/pyaspora/renderer/__init__.py:27 | an upper-case letter becomes lower-case and any other character is kept |
| LegacyRenderer.TitleFrom | src/pyaspora/renderer/__init__.py:27 | `str.title()` keeps the length of the text |
| LegacyRenderer.TitleKeepsAlnum | src/pyaspora/renderer/__init__.py:27 | title-casing keeps the alphanumeric characters where they were, so as many survive the strip as before |
| LegacyRenderer.ClassName | src/pyaspora/renderer/__init__.py:20-27 | the only failure is the ValueError of a type that does not split in two; both names are purely alphanumeric |
| LegacyRenderer.ClassNameNeedsOneSlash | src/pyaspora/renderer/__init__.py:20 | the names exist exactly when the type holds one `/` |
| LegacyRenderer.ClassNameOfPair | src/pyaspora/renderer/__init__.py:20-27 | for `a/b` the module is `a` stripped and the class is `b` title-cased then stripped |
| LegacyRenderer.CamelCase | src/pyaspora/renderer/__init__.py:25-27 | lower-case words joined by `-` give the words capitalised and run together, so "x-foo-bar" gives "XFooBar" |
| LegacyRenderer.TitleAppend | src/pyaspora/renderer/__init__.py:27 | title-casing a concatenation title-cases the second part according to how the first ended |
| LegacyRenderer.LowerWordTitle | src/pyaspora/renderer/__init__.py:27 | a lower-case word title-cases to itself capitalised and ends on a letter |
| LegacyRenderer.LowerRun | src/pyaspora/renderer/__init__.py:27 | after a letter, lower-case letters are left as they are |
| LegacyRenderer.KeepAlnumAppend | src/pyaspora/renderer/__init__.py:23 | stripping non-alphanumerics distributes over concatenation |
| LegacyRenderer.MethodName | src/pyaspora/renderer/__init__.py:46-53 | the only failure is the ValueError of an output type that does not split in two; the method name starts `render_as_` |
| LegacyRenderer.MethodNameOfPair | src/pyaspora/renderer/__init__.py:46-53 | for `a/b` the method is `render_as_<a>_<b>` with the non-alphanumerics dropped and no title-casing |
| LegacyRenderer.RenderAs | src/pyaspora/renderer/__init__.py:36-53 | failures are the split's ValueError or the AttributeError of a missing method; the inherited plain-text method gives the part's preview |
| LegacyRenderer.DefaultPlainIsPreview | src/pyaspora/renderer/__init__.py:55-61 | a class without its own plain-text method renders plain text as the stored preview; one with it uses its own |
| LegacyRenderer.OtherTypesNeedMethod | src/pyaspora/renderer/__init__.py:53 | any other output type fails with AttributeError unless the class defines the method |
| LegacyRenderer.Render | src/pyaspora/renderer/__init__.py:10-34 | a rendering succeeds only when the part's type gives class names |
| LegacyRenderer.RenderUsesNamedClass | src/pyaspora/renderer/__init__.py:29-34 | a rendering that succeeds found the module and class the type names, and is exactly that class's `render_as` |
| LegacyRenderer.LowerClassName | src/pyaspora/renderer/__init__.py:20-27 | a type made of two lower-case words `a/b` names module `a` and class `b` capitalised |
| LegacyRenderer.HtmlClassName | src/pyaspora/renderer/__init__.py:27 | "text/html" names class `Html` of module `text`, since title-casing lower-cases after the first letter |
| LegacyRenderer.PlainClassName | src/pyaspora/renderer/__init__.py:27-29 | "text/plain" names class `Plain` of module `text`, as the comment there says |
| LegacyRenderer.LowerMethodName | src/pyaspora/renderer/__init__.py:46-53 | an output type made of two lower-case words `a/b` names the method `render_as_a_b` |
| LegacyRenderer.TextMethodNames | src/pyaspora/renderer/__init__.py:44-53 | "text/html" names `render_as_text_html` and "text/plain" the inherited `render_as_text_plain` |
| LegacyRenderer.ShippedHtmlMissing | src/pyaspora/renderer/text.py:12-17 | with the shipped `text` module, whose class is `HTML`, a text/html part raises AttributeError for every output type |
| LegacyRenderer.IntendedHtmlRenders | src/pyaspora/renderer/text.py:12-17 | with the HTML class found, a text/html part renders as HTML through the class's own method and as plain text through its preview |
| LegacyRenderer.PlainRenders | src/pyaspora/renderer/text.py:5-10 | a text/plain part renders as plain text through `Plain`'s own method, in the shipped table and the corrected one |
| PostViews.GetCached | pyaspora/post/views.py:24-27 | an unknown cache type is a KeyError; otherwise the entry comes back from the cache |
| PostViews.GetCachedStable | pyaspora/post/views.py:24-27 | a cached entry is returned as it is and the cache left alone; a new entry holds only the id and no other entry changes |
| PostViews.Relationship | pyaspora/post/views.py:335-341 | the related post is looked up only for a relationship type; a missing post is 404 and one the user may not view is 403; a comment's parent and a re-share's source are the stored posts under the id |
| PostViews.RelationshipSpec | pyaspora/post/views.py:335-341 | no type means a plain post, and any type other than comment and share still needs a viewable stored post |
| PostViews.Numbered | pyaspora/post/views.py:369-373 | parts given consecutive orders from the first, keeping their content and inline flag |
| PostViews.CopyPartsSpec | pyaspora/post/views.py:369-373 | the loop copies the shared post's parts other than share cards, in order, numbered on from the card and body |
| PostViews.TagIds | pyaspora/post/views.py:374-375 | the ids of the tags, one per tag, in order |
| PostViews.MakeContents | pyaspora/post/views.py:343-387 | building the parts fails only by reading a missing author or with 400 for an unsafe upload; a post gets a parent only as a comment, and then the related id |
| PostViews.CommentContents | pyaspora/post/views.py:351-353 | a comment has the parent set and the body as its one part, inline at order 0 |
| PostViews.ReshareContents | pyaspora/post/views.py:354-375 | a re-share is the card at 0, the body at 1 and the shared post's other parts from 2, with no parent, and takes the shared post's tags exactly when it has none of its own |
| PostViews.ReshareHasOneCard | pyaspora/post/views.py:369-373 | only the first part of a re-share is a share card, so re-sharing a re-share never nests cards |
| PostViews.NakedContents | pyaspora/post/views.py:376-387 | a plain post is the body alone, or with an upload at 1 that is inline exactly when a renderer exists for its type; an unsafe upload is refused with 400 |
| PostViews.ReadParams | pyaspora/post/views.py:317-333 | the body and target type are required (400) and the target type must be registered (an assertion); what is read is what was submitted |
| PostViews.ReadParamsTarget | pyaspora/post/views.py:328-333 | an unregistered target type is refused, and the target id falls back to `target_<type>_id` only when `target_id` is missing |
| PostViews.ReadParamsRelation | pyaspora/post/views.py:321-322 | the relationship type and id are passed on as submitted and are absent when not submitted |
| PostViews.Prepare | pyaspora/post/views.py:317-387 | `create` fails only with 400, 403, 404, an assertion or a missing author; a drafted parent is a stored post |
| PostViews.AddPostLinked | pyaspora/post/views.py:389 | adding a post under a fresh id whose parent is stored keeps every post's parent stored |
| PostViews.Store | pyaspora/post/views.py:389-395 | the new post is stored and every stored post's parent is still stored |
| PostViews.Create | pyaspora/post/views.py:311-399 | `create` fails only with 400, 403, 404, an assertion or a missing author; on success the new post is stored, parents stay stored, and the target type is registered |
| PostViews.StoreSpec | pyaspora/post/views.py:389-395 | the stored post is the user's, with the drafted parent, parts and tags; its thread root is marked modified now; no other post changes and shares are untouched |
| PostViews.RootOfChild | pyaspora/post/views.py:389 | a new comment's thread root is its parent's |
| PostViews.RootAfterAdd | pyaspora/post/views.py:389 | storing a new post changes no stored post's thread root |
| PostViews.PrepareComment | pyaspora/post/views.py:335-353 | a comment on a viewable post has that post as parent and the body as its one part |
| PostViews.CreateComment | pyaspora/post/views.py:351-389 | a created comment is stored under its parent, and the thread marked modified is the parent's |
| PostViews.PrepareReshare | pyaspora/post/views.py:354-375 | a re-share of a viewable post is the card, the body and the shared post's other parts from 2, carrying the shared post's tags when it has none of its own |
| PostViews.GetShareForPost | pyaspora/post/views.py:219-228 | the user's share of the post comes back exactly when it exists and is not hidden; otherwise 403 |
| PostViews.HideViewSpec | pyaspora/post/views.py:231-242 | hiding needs a visible share and hides exactly it, changing nothing else; afterwards hiding again and moving the post on or off the wall are refused |
| PostViews.SetPublic | pyaspora/post/views.py:245-266 | intended, with the privacy rule a parameter since `Post` has no `can_change_privacy`: failures are 403, for no visible share or a change the rule forbids, or reading a missing post |
| PostViews.SetPublicSpec | pyaspora/post/views.py:251-264 | intended: when allowed, the share's public flag ends equal to the toggle and no other share changes; posts change only when the share goes public, and then only the thread root's time, set to now |
| PostViews.SetPublicIdempotent | pyaspora/post/views.py:251-264 | intended: setting the same toggle twice is setting it once |
| PostViews.SetPublicAsWritten | pyaspora/post/views.py:251-255 | as written the view never succeeds: no visible share is 403, and every other request raises AttributeError at `can_change_privacy` |
| PostViews.SetPublicNeverSucceeds | pyaspora/post/views.py:251-255 | wherever the intended view succeeds the view as written raises AttributeError, and both give 403 when there is no visible share |

## Left out

- **Cryptography.**
  - AES-CBC, RSA encryption and signing, SHA-256 and PEM key handling are abstract functions, constrained only by the round-trip predicate `Crypto.Sound`.
  - RSA key generation (`generate_keypair`) is not modelled.
- **Signature checks.** The envelope's signature check is a no-op in the source. The model therefore only builds the signed base string.
- **XML and JSON.** Parsing and serialisation go through `Envelope.Codecs`, whose laws are assumed.
  - The JSON views are not modelled: `json_post`, `_fill_cache`, `json_feed`, hcard and `as_text`.
- **Rendering.**
  - Rendering.Apply: failures to parse a part's JSON body are not modelled (a UTF-8 decode failure is). The profile renderer parses before it checks the format, so a malformed profile body raises in the source where the model declines.
  - Markdown conversion and template output are symbolic `Output` values.
  - `text_preview` is a stored field.
- **Network I/O.** The following are parameters, with no model behind them:
  - the HTTP opener of the WebFinger clients;
  - `urlopen` / `post`;
  - `import_contact`;
  - `import_url_as_mimepart`;
  - a contact's transport.
- **The redirect handler.** The 301/302 handlers of `RedirectTrackingHandler` return nothing. That behaviour sits inside the opener parameter.
  - The legacy client's opener and timeout are also not modelled.
- **Deferred decoding.**
  - `pyaspora.diaspora.protocol` is not part of this model. The envelope builder is modelled from `src/pyaspora/diaspora/__init__.py`.
  - `DiasporaMessageProcessor` is not part of this model. The first handler's Diaspora-side processing is a parameter.
  - Byte-decoding errors of received bodies are not modelled.
- **The sender's contact.** The lookup of the sender's contact inside `process_salmon_envelope` (`get_by_username`, then `import_contact`) is not modelled; the envelope's result carries the sender handle that lookup would use.
- **`send_to`.** It imports names (`PrivateMessage`, `SubPost`, `SubPM`) that `actions.py` does not define, so as written every call raises ImportError (see "Findings"). The intended model takes the message kind as the decision table gives it.
- Posts.ShareWith: when announcing a reshare raises AttributeError, the shares already committed at pyaspora/post/models.py:223 persist in the source; the model's Err carries no database, so it drops them.
- Posts.ShareWithAsWritten: the shares that the commit at pyaspora/post/models.py:223 writes before `send_to` raises are not part of its Err result.
- **`addr_for_user`.** Its formatting is a parameter of the delivery code.
- **Privacy and targets.**
  - `Post` defines no `can_change_privacy` (pyaspora/post/models.py:84-310), so `set_public` as written always raises (see "Findings"), and the intended model takes the privacy rule as a parameter. The calls in `json_post` are not modelled.
  - `pyaspora/post/targets.py` defines `target_list` (line 159) but no `targets_by_name`, so the import at pyaspora/post/views.py:13 raises ImportError, and with it the imports of that module at pyaspora/__init__.py:10 and pyaspora/diaspora/models.py:30. The same file also reads `json_contact` and `json_group` (lines 51 and 82) without importing them, so `json_target` of `Contact` and `Group` would raise NameError. The model treats these modules as importable: the lookup of a target by name is a parameter of `create`, and `json_target` is not modelled.
  - `make_shares` is not modelled: `create` stops after storing the post.
- **Attachments.** `ACCEPTABLE_BROWSER_IMAGE_FORMATS` is a parameter.
- **`g.contacts`.** `Group` in `post/targets.py` reads `g.contacts`, but a `SubscriptionGroup` has only `subscriptions` (pyaspora/roster/models.py:74), so those reads would raise AttributeError. In `permitted_for_new` and `permitted_for_reply` the `user.groups()` call raises TypeError first, which the model keeps (see "Findings"); the AttributeError is not modelled separately.
- **ORM details.**
  - The subscription primary key and the `SubscriptionTag` foreign key, which points at `subscriptions.from_id`, are not modelled. Subscriptions are keyed by their two ends.
  - `Subscription.create` is folded into `Contacts.Subscribe`.
- **Events.**
  - `notify_event` is not modelled.
  - `created_at` / `strptime` parsing is not modelled.
- **`since` and dates.**
  - The `relativedelta` difference is an argument.
  - Parsing of string dates is not modelled.
- **Profiles.** Profile fields other than those the message handlers read are not modelled.
- **`Post.get`.** Ids are read with the integer parser; the database lookup itself is a map lookup.
- **Subscription types.** A `None` subtype and an empty subtype are treated the same in `User.friends`.
- Federation.RunQueue: the wall-clock budget of `run_queue` (3 seconds for the first batch, 10 after) is not modelled, since the clock is not; the loop is modelled as running until nothing is pending, and the `processed` count and the refresh or redirect reply are left out.
- **The older server.**
  - Legacy `Contact.subscribe` is not modelled. It passes `Subscription` an argument that raises TypeError.
  - The legacy hcard and receive controllers are not modelled.
  - These are not modelled: `User.subscribed_to`, `get_by_email` and `get` lookups, `add_part`, `MimePart.render_as`, and the `User` constructor.
  - Legacy `Post.has_permission_to_view` is not modelled. It reads `Share.privacy`, a column the `Share` table does not have.
  - Legacy `viewable_children` is not modelled. It calls a `permission_to_view` the class does not define.
- **`nl2br`.**
  - The `Markup` wrapping under autoescape and non-string values are not modelled.
  - `escape` is modelled on a string.
- LegacyRenderer.TitleFrom: only ASCII letters are case-mapped by the modelled `str.title()`, and it keeps the length; on other text Python's `str.title()` maps further letters and may change the length (`'ß'.title()` is `'Ss'`).
- Text.ParseInt: only the ASCII digits `0`-`9` are read. Python's `int()` also accepts every other Unicode decimal digit (`int('٣')` is 3), which the model refuses, since no Unicode character database is modelled.
- Url.UrlSplit: the bracketed-host check (`_check_bracketed_netloc`) and the NFKC check of the network location (`_checknetloc`) of `urlsplit` are not modelled, since Unicode normalisation is not; only the bracket-balance ValueError is.
- **Glue.** SQLAlchemy sessions and commits, Flask and CherryPy request handling, `url_for`, templates and the remaining view glue are not modelled.

## Findings

| source | as written | input that shows it | evidently intended | confidence | as-written member | corrected member |
|---|---|---|---|---|---|---|
| pyaspora/diaspora/models.py:280-282 | the `max_items` limit is checked after an item is processed but before it is deleted | `max_items=1` with two good items: both are processed, only the first is deleted | stop before processing an item beyond the limit, or delete it first | not executed | Queue.LimitReprocesses | Queue.FixedDeletesProcessed |
| pyaspora/diaspora/views.py:65-66 | `webfinger` reads the local part of the address as a contact id | user 1 with contact 2, where contact 1 is a remote person: the address handed out for user 1 gets 404 | read the local part as the user id that `get_for_contact` puts into the username | not executed | Federation.WebfingerMisroutes | Federation.WebfingerFixedRoundTrip |
| pyaspora/diaspora/actions.py:33-41 | `send` calls `cls.generate`, which only `Subscribe` defines | sending a `Profile` or `Unsubscribe` message raises AttributeError | every message kind generates its own XML | not executed | Outbox.SendMissingGenerate | Outbox.Send |
| pyaspora/contact/models.py:82-100 | `subscribe` and `unsubscribe` send `Profile` and `Unsubscribe` messages through a `send` that needs `generate` | a local user subscribing to, or unsubscribing from, a remote contact: AttributeError | send every kind of message | not executed | Contacts.RemoteSubscriptionRaises | Contacts.SubscribeThenSubscribed |
| pyaspora/post/targets.py:58-60 | `Contact.permitted_for_reply` reads the undefined name `post`, as does `AllFriends`; `Group` calls `user.groups()` on a relationship list, and then reads `g.contacts`, which a `SubscriptionGroup` does not have (only `subscriptions`) | any reply: NameError or TypeError | test the parent post against the two-way contacts | not executed | Targets.ReplyTargetsRaise | Targets.ReplyReachesOnlyMutualViewers |
| pyaspora/post/targets.py:8-9 | `_contacts_intersect_interested` passes the `User` to `subscribed_to`, whose query compares the subscription's target with it, so the user's id stands where a contact id belongs | user 1 with contact 2, where contact 2 is followed by contact 3 and contact 1 is not: contact 3 is dropped | pass `user.contact` | not executed; assumes the ORM reads the `User`'s id as the key | Targets.InterestedAsWrittenMisses | Targets.Interested |
| pyaspora/post/views.py:269-288 | `_base_create_form` filters through the raising reply checks and the missing `name` of a target class | every form, for a new post or a reply: the group check raises TypeError in both | offer exactly the permitted targets | not executed | Targets.CreateFormTargetsAsWritten | Targets.CreateFormTargets |
| pyaspora/roster/views.py:238 | `dit(...)` is an undefined name | saving the groups of any subscribed contact raises NameError | `dict(...)` | not executed | Roster.SaveContactGroupsNeverSaves | Roster.SaveContactGroupsEffect |
| src/pyaspora/model/__init__.py:149-151 | `get_unactivated` returns None for an unactivated user and returns activated ones | a freshly created, unactivated account is not found | return the user only when not yet activated | not executed | LegacyModel.GetUnactivatedAsWrittenInverted | LegacyModel.GetUnactivatedSpec |
| src/pyaspora/model/__init__.py:408 | `Share(..., privacy=privacy)` passes a keyword the `Share` table has no column for | sharing a new post with one contact raises TypeError | store the `public` column, true exactly at the public level, which the `Share.privacy == 'public'` query at line 372 looks for | not executed | LegacyModel.ShareWithAsWrittenExample | LegacyModel.ShareWithSpec |
| pyaspora/contact/models.py:52-54 | `res[0] if res else None` tests a query object, which is true even when it matches nothing, so the empty result is indexed | a contact id no contact has: `unsubscribe`, `save_contact_groups` and `webfinger` raise IndexError instead of answering 404 | return None for an unknown id, as the docstring says | not executed; assumes the SQLAlchemy `Query` defines neither `__bool__` nor `__len__` | Roster.UnknownContactRaises | Roster.UnsubscribeView |
| pyaspora/post/views.py:254 | `set_public` calls `share.post.can_change_privacy(toggle)`, a method `Post` does not define | any request with a visible share of a stored post: AttributeError, so no post is ever moved on or off the wall | consult a privacy rule of the post | not executed | PostViews.SetPublicNeverSucceeds | PostViews.SetPublicSpec |
| pyaspora/diaspora/models.py:341-342 | `send_to` imports `PrivateMessage`, `SubPost` and `SubPM`, which `pyaspora/diaspora/actions.py` does not define | sharing a locally authored post with a new remote contact: ImportError, after the shares are committed | define the message classes the sender table names | not executed | Posts.ShareWithRaisesImport | Delivery.SendTo |
| pyaspora/post/targets.py:54-56 | `Contact.permitted_for_new`, like `AllFriends.permitted_for_new` at lines 111-113, filters the friends through `_contacts_intersect_interested`, which hands the `User` to `subscribed_to` | user 1 with contact 2, whose only friend, contact 3, is subscribed to contact 2 and not to contact 1: neither target is offered | offer one friend and all friends whenever there is a two-way contact | not executed; assumes the ORM reads the `User`'s id as the key | Targets.PermittedForNewAsWrittenMisses | Targets.FriendTargetsNeedMutual |
| src/pyaspora/renderer/__init__.py:27-31 | the class is looked up as the title-cased subtype, `Html` for "text/html", but src/pyaspora/renderer/text.py:12 names the class `HTML` | rendering any text/html part, into any output type: AttributeError | find the HTML class, by naming it `Html` | not executed | LegacyRenderer.ShippedHtmlMissing | LegacyRenderer.IntendedHtmlRenders |

=== FILE: Actions.dfy ===
/**
 * Dispatch of a decoded inbound protocol message to its handler, and what
 * each handler does with it.
 *
 * The parsed XML document is abstract: the set of registered xpaths it
 * matches, and for each element name the texts of its elements in document
 * order (`None` for an element without text), which is all `//name` queries
 * read. Parsing is a parameter.
 */
module Actions {
  import opened Results
  import opened Social
  import opened Bytes
  import Text
  import Posts
  import opened Directory
  import opened Outbox
  import Contacts

  datatype Doc = Doc(matches: set<string>, texts: map<string, seq<Option<string>>>)

  /** `doc.xpath('//name')[0].text`: an IndexError when no such element exists. */
  function FirstText(doc: Doc, name: string): (r: Result<Option<string>>)
    ensures r.Err? <==> name !in doc.texts || |doc.texts[name]| == 0
    ensures r.Err? ==> r.error == IndexErr
    ensures r.Ok? ==> r.value == doc.texts[name][0]
  {
    if name !in doc.texts || |doc.texts[name]| == 0 then Err(IndexErr) else Ok(doc.texts[name][0])
  }

  const SubscribePath := "/XML/post/request"
  const ProfilePath := "/XML/post/profile"
  const UnsubscribePath := "/XML/post/retraction/type[text()=\"Person\"]"
  const PostMessagePath := "/XML/post/status_message"

  /** The `HANDLERS` dict: (xpath, handler) pairs in insertion order. */
  type Registry = seq<(string, Kind)>

  /** The handler registered under `xpath`, if any. */
  function Lookup(reg: Registry, xpath: string): (r: Option<Kind>)
    ensures r.Some? <==> exists i :: 0 <= i < |reg| && reg[i].0 == xpath
    ensures r.Some? ==> exists i :: 0 <= i < |reg| && reg[i] == (xpath, r.value)
  {
    if |reg| == 0 then None
    else if reg[0].0 == xpath then Some(reg[0].1)
    else
      var r := Lookup(reg[1..], xpath);
      if r.Some? then
        var i :| 0 <= i < |reg[1..]| && reg[1..][i] == (xpath, r.value);
        assert reg[i + 1] == (xpath, r.value);
        r
      else
        assert forall i :: 1 <= i < |reg| ==> reg[i] == reg[1..][i - 1];
        r
  }

  /**
   * `HANDLERS[xpath] = kind`: a new xpath goes last, a registered one keeps
   * its place and takes the new handler (`PutLookup`, `PutKeepsPlaces`).
   */
  function Put(reg: Registry, xpath: string, kind: Kind): (r: Registry)
    ensures |r| == |reg| || |r| == |reg| + 1
  {
    if |reg| == 0 then [(xpath, kind)]
    else if reg[0].0 == xpath then [(xpath, kind)] + reg[1..]
    else [reg[0]] + Put(reg[1..], xpath, kind)
  }

  /** After `HANDLERS[xpath] = kind` the dict maps `xpath` to `kind` and every other key as before. */
  lemma {:induction false} PutLookup(reg: Registry, xpath: string, kind: Kind, x: string)
    ensures Lookup(Put(reg, xpath, kind), xpath) == Some(kind)
    ensures x != xpath ==> Lookup(Put(reg, xpath, kind), x) == Lookup(reg, x)
  {
    var r := Put(reg, xpath, kind);
    if |reg| > 0 {
      if reg[0].0 == xpath {
        assert r[1..] == reg[1..];
      } else {
        PutLookup(reg[1..], xpath, kind, x);
        assert r[1..] == Put(reg[1..], xpath, kind);
      }
    }
  }

  /** Insertion keeps the order of the keys already present, and grows the dict only for a new key. */
  lemma {:induction false} PutKeepsPlaces(reg: Registry, xpath: string, kind: Kind)
    ensures |reg| <= |Put(reg, xpath, kind)|
    ensures forall i :: 0 <= i < |reg| ==> Put(reg, xpath, kind)[i].0 == reg[i].0
    ensures |Put(reg, xpath, kind)| == |reg| <==> exists i :: 0 <= i < |reg| && reg[i].0 == xpath
  {
    var r := Put(reg, xpath, kind);
    if |reg| > 0 {
      if reg[0].0 != xpath {
        PutKeepsPlaces(reg[1..], xpath, kind);
        assert r[1..] == Put(reg[1..], xpath, kind);
        assert forall i :: 1 <= i < |reg| ==> reg[i] == reg[1..][i - 1];
        if |r| == |reg| {
          var i :| 0 <= i < |reg[1..]| && reg[1..][i].0 == xpath;
          assert reg[i + 1].0 == xpath;
        }
      }
    }
  }

  /** `diaspora_message_handler(xpath)(cls)`: registers the class and returns it unchanged. */
  function Register(reg: Registry, xpath: string, kind: Kind): (r: (Registry, Kind))
    ensures r.1 == kind
    ensures |r.0| == |reg| || |r.0| == |reg| + 1
  {
    (Put(reg, xpath, kind), kind)
  }

  /** The registry the four handler classes leave, in the order they are declared. */
  function Handlers(): Registry
  {
    var r1 := Register([], SubscribePath, SubscribeKind).0;
    var r2 := Register(r1, ProfilePath, ProfileKind).0;
    var r3 := Register(r2, UnsubscribePath, UnsubscribeKind).0;
    Register(r3, PostMessagePath, PostMessageKind).0
  }

  /** The four xpaths are pairwise different. */
  lemma PathsDistinct()
    ensures SubscribePath != ProfilePath && SubscribePath != UnsubscribePath && SubscribePath != PostMessagePath
    ensures ProfilePath != UnsubscribePath && ProfilePath != PostMessagePath && UnsubscribePath != PostMessagePath
  {
    assert SubscribePath[10] == 'r' && ProfilePath[10] == 'p' && PostMessagePath[10] == 's';
    assert UnsubscribePath[10] == 'r' && SubscribePath[12] == 'q' && UnsubscribePath[12] == 't';
  }

  /** Registering an xpath not yet present appends it. */
  lemma PutNew(reg: Registry, xpath: string, kind: Kind)
    requires forall i :: 0 <= i < |reg| ==> reg[i].0 != xpath
    ensures Put(reg, xpath, kind) == reg + [(xpath, kind)]
  {
    if |reg| > 0 {
      PutNew(reg[1..], xpath, kind);
      assert [reg[0]] + (reg[1..] + [(xpath, kind)]) == reg + [(xpath, kind)];
    }
  }

  /** Registration leaves the four handlers in declaration order under their xpaths. */
  lemma HandlersInOrder()
    ensures Handlers() == [(SubscribePath, SubscribeKind), (ProfilePath, ProfileKind),
                           (UnsubscribePath, UnsubscribeKind), (PostMessagePath, PostMessageKind)]
  {
    PathsDistinct();
    var a, b, c, d := (SubscribePath, SubscribeKind), (ProfilePath, ProfileKind),
                      (UnsubscribePath, UnsubscribeKind), (PostMessagePath, PostMessageKind);
    PutNew([], a.0, a.1);
    PutNew([a], b.0, b.1);
    PutNew([a, b], c.0, c.1);
    PutNew([a, b, c], d.0, d.1);
  }

  /** The index of the first registered handler whose xpath the document matches. */
  function FirstMatch(reg: Registry, doc: Doc): (r: Option<nat>)
    ensures r.Some? ==> r.value < |reg| && reg[r.value].0 in doc.matches
    ensures r.Some? ==> forall j :: 0 <= j < r.value ==> reg[j].0 !in doc.matches
    ensures r.None? ==> forall j :: 0 <= j < |reg| ==> reg[j].0 !in doc.matches
  {
    if |reg| == 0 then None
    else if reg[0].0 in doc.matches then Some(0)
    else match FirstMatch(reg[1..], doc)
      case None => None
      case Some(i) => Some(i + 1)
  }

  /** The handler `process_incoming_message` picks, or "No handler registered". */
  function Dispatch(reg: Registry, doc: Doc): (r: Result<Kind>)
    ensures r.Err? <==> forall j :: 0 <= j < |reg| ==> reg[j].0 !in doc.matches
    ensures r.Err? ==> r.error == NoHandler
    ensures r.Ok? ==> exists i :: 0 <= i < |reg| && reg[i].1 == r.value && reg[i].0 in doc.matches &&
                                  forall j :: 0 <= j < i ==> reg[j].0 !in doc.matches
  {
    match FirstMatch(reg, doc)
    case None => Err(NoHandler)
    case Some(i) => Ok(reg[i].1)
  }

  /** A document matching several registered xpaths goes to the earliest registered one. */
  lemma DispatchPrefersEarlier(doc: Doc)
    requires SubscribePath in doc.matches
    ensures Dispatch(Handlers(), doc) == Ok(SubscribeKind)
  {
    HandlersInOrder();
    assert FirstMatch(Handlers(), doc) == Some(0);
  }

  /** A Person retraction that matches no earlier handler is an unsubscription. */
  lemma DispatchRetraction(doc: Doc)
    requires UnsubscribePath in doc.matches && SubscribePath !in doc.matches && ProfilePath !in doc.matches
    ensures Dispatch(Handlers(), doc) == Ok(UnsubscribeKind)
  {
    HandlersInOrder();
    var h := Handlers();
    assert h[0].0 !in doc.matches && h[1].0 !in doc.matches && h[2].0 in doc.matches;
    assert FirstMatch(h[2..], doc) == Some(0);
    assert FirstMatch(h[1..], doc) == Some(1) by { assert h[1..][1..] == h[2..]; }
    assert FirstMatch(h, doc) == Some(2);
  }

  /**
   * The sender check every handler starts with: the text of the first
   * `name` element must be the username of `c_from`'s row.
   */
  function CheckSender(doc: Doc, name: string, table: seq<DiasporaContact>, cFrom: Contact): (r: Result<()>)
    ensures r.Ok? <==> FirstText(doc, name).Ok? && ForContact(table, cFrom.id).Some? &&
                       FirstText(doc, name).value == Some(ForContact(table, cFrom.id).value.username)
    ensures FirstText(doc, name).Err? ==> r == Err(IndexErr)
    ensures FirstText(doc, name).Ok? && ForContact(table, cFrom.id).None? ==> r == Err(AttributeErr)
  {
    var fromAddr :- FirstText(doc, name);
    match ForContact(table, cFrom.id)
    case None => Err(AttributeErr)
    case Some(d) => if fromAddr != Some(d.username) then Err(AssertionFailed) else Ok(())
  }

  /** The post `PostMessage.receive` creates: one inline text/plain part at order 0. */
  function StatusPost(author: int, postId: int, body: string): Post
  {
    Post(postId, author, None, None, [PostPart(MimePart("text/plain", Raw(Utf8Encode(body)), None), true, 0)], [])
  }

  /**
   * `PostMessage.receive`: after the sender check, the `raw_message` and
   * `created_at` elements are read; `strptime` fails on a missing text
   * (TypeError) or on one `parseTime` rejects (ValueError); the body text is
   * encoded only when the part is built (an AttributeError when missing).
   * The post is shared with the recipient and its thread time set to `now`.
   */
  function ReceiveStatus(db: Db, table: seq<DiasporaContact>, doc: Doc, cFrom: Contact, recipient: Option<Contact>,
                         parseTime: string -> Option<int>, postId: int, now: int): (r: Result<Db>)
    requires PostsLinked(db.posts) && FreshPost(db, postId)
    ensures CheckSender(doc, "diaspora_handle", table, cFrom).Err? ==> r == Err(CheckSender(doc, "diaspora_handle", table, cFrom).error)
    ensures r.Ok? <==> CheckSender(doc, "diaspora_handle", table, cFrom).Ok? && StatusFields(doc, parseTime).Ok? && recipient.Some?
    ensures CheckSender(doc, "diaspora_handle", table, cFrom).Ok? && StatusFields(doc, parseTime).Ok? && recipient.None? ==>
              r == Err(AttributeErr)
    ensures r.Ok? ==> r.value.posts == db.posts[postId := StatusPost(cFrom.id, postId, StatusFields(doc, parseTime).value).(threadModifiedAt := Some(now))]
    ensures r.Ok? ==> r.value.shares == Contacts.ShareOne(db.shares, postId, recipient.value)
    ensures r.Ok? ==> r.value.subscriptions == db.subscriptions && r.value.contacts == db.contacts
  {
    var _ :- CheckSender(doc, "diaspora_handle", table, cFrom);
    var body :- StatusFields(doc, parseTime);
    // `share_with([u_to.contact])` with no recipient user
    if recipient.None? then Err(AttributeErr)
    else
      var p := StatusPost(cFrom.id, postId, body);
      Contacts.ThreadModifiedFresh(db.posts, p, now);
      Ok(db.(posts := Posts.ThreadModified(db.posts[postId := p], postId, None, now),
             shares := Contacts.ShareOne(db.shares, postId, recipient.value)))
  }

  /**
   * The body text of a status message, read in the order the handler reads
   * it: an IndexError for a missing `raw_message` or `created_at` element,
   * then the time, then the body text.
   */
  function StatusFields(doc: Doc, parseTime: string -> Option<int>): (r: Result<string>)
    ensures r.Ok? <==> && FirstText(doc, "raw_message").Ok? && FirstText(doc, "created_at").Ok?
                       && FirstText(doc, "created_at").value.Some?
                       && parseTime(FirstText(doc, "created_at").value.value).Some?
                       && FirstText(doc, "raw_message").value.Some?
    ensures r.Ok? ==> Some(r.value) == FirstText(doc, "raw_message").value
    ensures FirstText(doc, "raw_message").Ok? && FirstText(doc, "created_at").Ok? && FirstText(doc, "created_at").value.None? ==>
              r == Err(TypeErr)
  {
    var body :- FirstText(doc, "raw_message");
    var created :- FirstText(doc, "created_at");
    if created.None? then Err(TypeErr)
    else if parseTime(created.value).None? then Err(ValueErr)
    else if body.None? then Err(AttributeErr)
    else Ok(body.value)
  }

  /** For the local recipient, the shares `ReceiveStatus` writes are those of `p.share_with([u_to.contact])`. */
  lemma ReceiveStatusShares(db: Db, p: Post, recipient: Contact)
    requires IsLocal(recipient)
    ensures Posts.ShareWith(db, p, [recipient], false, None) == Ok((db.(shares := Contacts.ShareOne(db.shares, p.id, recipient)), []))
  {
    Contacts.ShareWithLocal(db, p, recipient);
  }

  /**
   * `Profile.receive`: the sender check and the profile fields are read,
   * then `" ".join(first_name, last_name)` raises a TypeError (and the
   * method would end in `assert(False)` anyway).
   */
  function ReceiveProfile(doc: Doc, table: seq<DiasporaContact>, cFrom: Contact): (r: Result<()>)
    ensures r.Err?
    ensures CheckSender(doc, "diaspora_handle", table, cFrom).Err? ==> r == Err(CheckSender(doc, "diaspora_handle", table, cFrom).error)
  {
    var _ :- CheckSender(doc, "diaspora_handle", table, cFrom);
    var _ :- FirstText(doc, "first_name");
    var _ :- FirstText(doc, "last_name");
    var _ :- FirstText(doc, "image_url");
    var _ :- FirstText(doc, "tag_string");
    var _ :- FirstText(doc, "profile");
    Err(TypeErr)
  }

  /**
   * The parameters of one inbound message: the sending contact, the contact
   * of the local user it is addressed to (`u_to.contact`; none for a public
   * message, where `u_to` is None), and the values the handlers need (the
   * address sends are made from, the time parser, the id the next post
   * takes and the current time).
   */
  datatype Inbound = Inbound(cFrom: Contact, recipient: Option<Contact>, uAddr: string,
                             parseTime: string -> Option<int>, postId: int, now: int)

  /** The name of the element holding the sender's handle in a message of this kind. */
  function SenderElement(kind: Kind): string
  {
    if kind == SubscribeKind then "sender_handle" else "diaspora_handle"
  }

  /**
   * `handler.receive(doc, c_from, u_to)` for the handler `kind`. With no
   * recipient user, `u_to.contact` is an AttributeError once a handler
   * reaches it.
   */
  function Receive(kind: Kind, db: Db, table: seq<DiasporaContact>, doc: Doc, m: Inbound): (r: Result<(Db, seq<Outbound>)>)
    requires PostsLinked(db.posts) && FreshPost(db, m.postId)
    ensures CheckSender(doc, SenderElement(kind), table, m.cFrom).Err? ==> r.Err?
    ensures kind == ProfileKind ==> r.Err?
    ensures m.recipient.None? ==> r.Err?
    ensures m.recipient.None? && (kind == SubscribeKind || kind == UnsubscribeKind) ==>
              (CheckSender(doc, SenderElement(kind), table, m.cFrom).Ok? ==> r == Err(AttributeErr))
    ensures r.Ok? && kind == UnsubscribeKind ==> r.value.0.subscriptions == db.subscriptions - {(m.cFrom.id, m.recipient.value.id)}
    ensures r.Ok? && kind == SubscribeKind ==> r.value.0.subscriptions == db.subscriptions + {(m.cFrom.id, m.recipient.value.id)}
  {
    match kind
    case SubscribeKind =>
      var _ :- CheckSender(doc, "sender_handle", table, m.cFrom);
      if m.recipient.None? then Err(AttributeErr)
      else Contacts.Subscribe(db, table, m.uAddr, m.cFrom, m.recipient.value, m.postId, m.now)
    case ProfileKind =>
      Err(ReceiveProfile(doc, table, m.cFrom).error)
    case UnsubscribeKind =>
      var _ :- CheckSender(doc, "diaspora_handle", table, m.cFrom);
      if m.recipient.None? then Err(AttributeErr)
      else Contacts.Unsubscribe(db, table, m.uAddr, m.cFrom, m.recipient.value)
    case PostMessageKind =>
      var db1 :- ReceiveStatus(db, table, doc, m.cFrom, m.recipient, m.parseTime, m.postId, m.now);
      Ok((db1, []))
  }

  /**
   * `process_incoming_message(payload, c_from, u_to)`: the payload without
   * its leading whitespace is parsed, and the first registered handler whose
   * xpath matches receives the document.
   */
  function ProcessIncomingMessage(db: Db, table: seq<DiasporaContact>, payload: string, parse: string -> Result<Doc>,
                                  m: Inbound): (r: Result<(Db, seq<Outbound>)>)
    requires PostsLinked(db.posts) && FreshPost(db, m.postId)
    ensures parse(Text.LStrip(payload)).Err? ==> r == Err(parse(Text.LStrip(payload)).error)
    ensures parse(Text.LStrip(payload)).Ok? ==>
      var doc := parse(Text.LStrip(payload)).value;
      match Dispatch(Handlers(), doc)
      case Err(e) => r == Err(NoHandler)
      case Ok(kind) => r == Receive(kind, db, table, doc, m)
  {
    var doc :- parse(Text.LStrip(payload));
    var kind :- Dispatch(Handlers(), doc);
    Receive(kind, db, table, doc, m)
  }

  /**
   * A public message (no recipient user, as `receive_public` and the public
   * queue pass) never succeeds: whichever handler it reaches, the message
   * fails, and a sender that passes the check of a subscription or a
   * retraction meets an AttributeError.
   */
  lemma PublicMessageFails(db: Db, table: seq<DiasporaContact>, payload: string, parse: string -> Result<Doc>,
                           m: Inbound)
    requires PostsLinked(db.posts) && FreshPost(db, m.postId) && m.recipient.None?
    ensures ProcessIncomingMessage(db, table, payload, parse, m).Err?
  {
    var doc := parse(Text.LStrip(payload));
    if doc.Ok? {
      match Dispatch(Handlers(), doc.value)
      case Err(_) =>
      case Ok(kind) =>
        assert Receive(kind, db, table, doc.value, m).Err?;
    }
  }

  /** A message whose sender handle is not the sending contact's username changes nothing. */
  lemma ForgedSenderRejected(db: Db, table: seq<DiasporaContact>, doc: Doc, m: Inbound, kind: Kind)
    requires PostsLinked(db.posts) && FreshPost(db, m.postId)
    requires ForContact(table, m.cFrom.id).Some?
    requires FirstText(doc, SenderElement(kind)).Ok? &&
             FirstText(doc, SenderElement(kind)).value != Some(ForContact(table, m.cFrom.id).value.username)
    ensures Receive(kind, db, table, doc, m) == Err(AssertionFailed)
  {
  }

  /**
   * A subscription request from a contact to a local user records the
   * subscription and sends nothing back; a later Person retraction from the
   * same contact removes it again.
   */
  lemma SubscribeThenRetract(db: Db, table: seq<DiasporaContact>, doc1: Doc, doc2: Doc, m: Inbound)
    requires PostsLinked(db.posts) && FreshPost(db, m.postId) && m.recipient.Some? && IsLocal(m.recipient.value)
    requires (m.cFrom.id, m.recipient.value.id) !in db.subscriptions
    requires Receive(SubscribeKind, db, table, doc1, m).Ok?
    requires CheckSender(doc2, "diaspora_handle", table, m.cFrom).Ok?
    ensures var (db1, sent) := Receive(SubscribeKind, db, table, doc1, m).value;
      && sent == []
      && (m.cFrom.id, m.recipient.value.id) in db1.subscriptions
      && PostsLinked(db1.posts) && FreshPost(db1, m.postId + 1)
      && Receive(UnsubscribeKind, db1, table, doc2, m.(postId := m.postId + 1)).Ok?
      && Receive(UnsubscribeKind, db1, table, doc2, m.(postId := m.postId + 1)).value.0.subscriptions == db.subscriptions
  {
    Contacts.SubscribeKeepsLinked(db, table, m.uAddr, m.cFrom, m.recipient.value, m.postId, m.now);
  }
}

=== FILE: Arith.dfy ===
/** Integer facts the solver does not find alone (division by a variable). */
module Arith {

  lemma MulAtLeast(d: int, b: int)
    requires d >= 1 && b > 0
    ensures d * b >= b
  {
  }

  /** Euclidean division has exactly one quotient and remainder. */
  lemma ModUnique(a: int, b: int, q: int, r: int)
    requires b > 0 && a == q * b + r && 0 <= r < b
    ensures a % b == r && a / b == q
  {
    var q' := a / b;
    var r' := a % b;
    var d := q' - q;
    assert d * b == r - r';
    if d >= 1 {
      MulAtLeast(d, b);
    } else if d <= -1 {
      MulAtLeast(-d, b);
    }
  }
}

=== FILE: Base64.dfy ===
/**
 * Base64 as Python's `base64` module does it: `b64encode` with the standard
 * alphabet and `urlsafe_b64encode` with the URL-safe alphabet of RFC 4648
 * section 5 ('-' and '_' for 62 and 63), both padded with '='. Decoding is
 * Python's non-validating `b64decode`, the loop of `binascii.a2b_base64`
 * without strict mode: characters outside the alphabet are skipped (so
 * line breaks are harmless), a '=' in the first two places of a quad is
 * skipped, pads that complete a quad end the decoding there, whatever
 * follows, and data that stops inside a quad is an error.
 * `urlsafe_b64decode` first maps '-' and '_' back to '+' and '/'.
 */
module Base64 {
  import opened Results
  import opened Bytes
  import Arith

  datatype Alphabet = Standard | UrlSafe

  type index = i: int | 0 <= i < 64

  function IndexChar(a: Alphabet, i: index): char
  {
    if i < 26 then ('A' as int + i) as char
    else if i < 52 then ('a' as int + i - 26) as char
    else if i < 62 then ('0' as int + i - 52) as char
    else if i == 62 then (if a == Standard then '+' else '-')
    else (if a == Standard then '/' else '_')
  }

  predicate IsAlphabetChar(a: Alphabet, c: char)
  {
    ('A' <= c <= 'Z') || ('a' <= c <= 'z') || ('0' <= c <= '9')
    || c == (if a == Standard then '+' else '-')
    || c == (if a == Standard then '/' else '_')
  }

  function CharIndex(a: Alphabet, c: char): (i: index)
    requires IsAlphabetChar(a, c)
    ensures IndexChar(a, i) == c
  {
    if 'A' <= c <= 'Z' then c as int - 'A' as int
    else if 'a' <= c <= 'z' then c as int - 'a' as int + 26
    else if '0' <= c <= '9' then c as int - '0' as int + 52
    else if c == (if a == Standard then '+' else '-') then 62
    else 63
  }

  lemma IndexCharInAlphabet(a: Alphabet, i: index)
    ensures IsAlphabetChar(a, IndexChar(a, i)) && CharIndex(a, IndexChar(a, i)) == i
  {
  }

  /** The four characters encoding three bytes. */
  function Quad(a: Alphabet, b0: byte, b1: byte, b2: byte): (q: string)
    ensures |q| == 4
  {
    [IndexChar(a, b0 / 4), IndexChar(a, (b0 % 4) * 16 + b1 / 16),
     IndexChar(a, (b1 % 16) * 4 + b2 / 64), IndexChar(a, b2 % 64)]
  }

  /** `b64encode` (Standard) or `urlsafe_b64encode` (UrlSafe) of `data`. */
  function Encode(a: Alphabet, data: seq<byte>): (r: string)
    ensures forall i :: 0 <= i < |r| ==> IsAlphabetChar(a, r[i]) || r[i] == '='
  {
    if |data| >= 3 then Quad(a, data[0], data[1], data[2]) + Encode(a, data[3..])
    else if |data| == 2 then Quad(a, data[0], data[1], 0)[..3] + "="
    else if |data| == 1 then Quad(a, data[0], 0, 0)[..2] + "=="
    else ""
  }

  /** Every three bytes (or part thereof) become four characters. */
  lemma {:induction false} EncodeLength(a: Alphabet, data: seq<byte>)
    ensures |Encode(a, data)| == 4 * ((|data| + 2) / 3)
    decreases |data|
  {
    if |data| >= 3 {
      EncodeLength(a, data[3..]);
      assert (|data| + 2) / 3 == (|data[3..]| + 2) / 3 + 1;
    }
  }

  /**
   * The decoder's state between characters: the place in the current quad,
   * the pads seen since the last data character, and the low bits of the
   * last data character not yet written out.
   */
  datatype Reader = Reader(pos: int, pads: nat, carry: int)

  /** The carried bits fit what the place in the quad leaves over: 6, 4 or 2 bits. */
  predicate Valid(st: Reader)
  {
    && 0 <= st.pos < 4 && 0 <= st.carry
    && st.carry < (if st.pos == 1 then 64 else if st.pos == 2 then 16 else if st.pos == 3 then 4 else 1)
  }

  const Start := Reader(0, 0, 0)

  /** `r` with `prefix` in front of the bytes it holds; failure stays failure. */
  function Then(prefix: seq<byte>, r: Option<seq<byte>>): (t: Option<seq<byte>>)
    ensures t.Some? <==> r.Some?
    ensures t.Some? ==> t.value == prefix + r.value
  {
    match r
    case None => None
    case Some(x) => Some(prefix + x)
  }

  /** The byte a data character of value `v` completes: none at the start of a quad. */
  function Emitted(st: Reader, v: index): (r: seq<byte>)
    requires Valid(st)
    ensures |r| == if st.pos == 0 then 0 else 1
  {
    if st.pos == 0 then []
    else if st.pos == 1 then [st.carry * 4 + v / 16]
    else if st.pos == 2 then [st.carry * 16 + v / 4]
    else [st.carry * 64 + v]
  }

  /** The state after a data character of value `v`: one place on, pads reset, its unused bits carried. */
  function Advance(st: Reader, v: index): (r: Reader)
    requires Valid(st)
    ensures Valid(r) && r.pos == (st.pos + 1) % 4 && r.pads == 0
  {
    if st.pos == 0 then Reader(1, 0, v)
    else if st.pos == 1 then Reader(2, 0, v % 16)
    else if st.pos == 2 then Reader(3, 0, v % 4)
    else Start
  }

  /** A '=' is counted only from the third place of a quad on. */
  function PadSeen(st: Reader): (r: Reader)
    ensures r.pos == st.pos && r.carry == st.carry
    ensures st.pos >= 2 ==> r.pads == st.pads + 1
    ensures st.pos < 2 ==> r == st
  {
    if st.pos >= 2 then st.(pads := st.pads + 1) else st
  }

  /**
   * The loop of `a2b_base64` from state `st` over the rest `t` of the input:
   * `None` is the `binascii.Error` of an input ending inside a quad. At most
   * three bytes come out for every four characters read, counting those of
   * the current quad already read.
   */
  function Read(t: string, st: Reader): (r: Option<seq<byte>>)
    requires Valid(st)
    ensures r.Some? ==> 4 * |r.value| <= 3 * |t| + (4 - st.pos) % 4
    decreases |t|
  {
    if |t| == 0 then (if st.pos == 0 then Some([]) else None)
    else if t[0] == '=' then
      if st.pos >= 2 && st.pos + st.pads + 1 >= 4 then Some([])
      else Read(t[1..], PadSeen(st))
    else if IsAlphabetChar(Standard, t[0]) then
      var v := CharIndex(Standard, t[0]);
      Then(Emitted(st, v), Read(t[1..], Advance(st, v)))
    else Read(t[1..], st)
  }

  /** What the non-validating decoder keeps of its input. */
  function Significant(s: string): (r: string)
    ensures forall i :: 0 <= i < |r| ==> IsAlphabetChar(Standard, r[i]) || r[i] == '='
  {
    if |s| == 0 then ""
    else if IsAlphabetChar(Standard, s[0]) || s[0] == '=' then [s[0]] + Significant(s[1..])
    else Significant(s[1..])
  }

  /** `b64decode(s)`; `None` is the `binascii.Error` Python raises. At most three bytes come from four characters. */
  function Decode(s: string): (r: Option<seq<byte>>)
    ensures r.Some? ==> 4 * |r.value| <= 3 * |s|
  {
    Read(s, Start)
  }

  /** The translation `urlsafe_b64decode` applies before decoding. */
  function FromUrlSafe(s: string): (r: string)
    ensures |r| == |s|
  {
    if |s| == 0 then ""
    else [if s[0] == '-' then '+' else if s[0] == '_' then '/' else s[0]] + FromUrlSafe(s[1..])
  }

  /** `urlsafe_b64decode(s)`. At most three bytes come from four characters. */
  function UrlSafeDecode(s: string): (r: Option<seq<byte>>)
    ensures r.Some? ==> 4 * |r.value| <= 3 * |s|
  {
    Decode(FromUrlSafe(s))
  }

  lemma QuadRoundTrip(b0: byte, b1: byte, b2: byte)
    ensures var q := Quad(Standard, b0, b1, b2);
      CharIndex(Standard, q[0]) * 4 + CharIndex(Standard, q[1]) / 16 == b0
      && (CharIndex(Standard, q[1]) % 16) * 16 + CharIndex(Standard, q[2]) / 4 == b1
      && (CharIndex(Standard, q[2]) % 4) * 64 + CharIndex(Standard, q[3]) == b2
  {
    var i0, i1, i2, i3 := b0 / 4, (b0 % 4) * 16 + b1 / 16, (b1 % 16) * 4 + b2 / 64, b2 % 64;
    IndexCharInAlphabet(Standard, i0);
    IndexCharInAlphabet(Standard, i1);
    IndexCharInAlphabet(Standard, i2);
    IndexCharInAlphabet(Standard, i3);
    Arith.ModUnique(i1, 16, b0 % 4, b1 / 16);
    Arith.ModUnique(i2, 4, b1 % 16, b2 / 64);
  }

  /** One unfolding of `Encode`: a quad, then the encoding of the rest. */
  lemma EncodeFront(a: Alphabet, data: seq<byte>)
    requires |data| >= 3
    ensures Encode(a, data) == Quad(a, data[0], data[1], data[2]) + Encode(a, data[3..])
  {
  }

  /** Three unfoldings of `Encode`. */
  lemma EncodeNine(a: Alphabet, d: seq<byte>)
    requires |d| >= 9
    ensures Encode(a, d) == Quad(a, d[0], d[1], d[2]) + Quad(a, d[3], d[4], d[5])
      + Quad(a, d[6], d[7], d[8]) + Encode(a, d[9..])
  {
    EncodeFront(a, d);
    EncodeFront(a, d[3..]);
    EncodeFront(a, d[6..]);
    assert d[3..][3..] == d[6..];
    assert d[6..][3..] == d[9..];
  }

  lemma ThenThen(a: seq<byte>, b: seq<byte>, r: Option<seq<byte>>)
    ensures Then(a, Then(b, r)) == Then(a + b, r)
  {
    if r.Some? { assert a + (b + r.value) == (a + b) + r.value; }
  }

  /** One data character read in state `st`. */
  lemma ReadData(c: char, t: string, st: Reader)
    requires Valid(st) && IsAlphabetChar(Standard, c)
    ensures Read([c] + t, st) == Then(Emitted(st, CharIndex(Standard, c)), Read(t, Advance(st, CharIndex(Standard, c))))
  {
    assert ([c] + t)[0] == c && ([c] + t)[1..] == t;
  }

  /** One '=' read in state `st`. */
  lemma ReadPad(t: string, st: Reader)
    requires Valid(st)
    ensures st.pos >= 2 && st.pos + st.pads + 1 >= 4 ==> Read("=" + t, st) == Some([])
    ensures !(st.pos >= 2 && st.pos + st.pads + 1 >= 4) ==> Read("=" + t, st) == Read(t, PadSeen(st))
  {
    assert ("=" + t)[0] == '=' && ("=" + t)[1..] == t;
  }

  /** The states and bytes the four characters of a quad go through, read from the start of a quad. */
  lemma QuadSteps(b0: byte, b1: byte, b2: byte)
    ensures var q := Quad(Standard, b0, b1, b2);
      && IsAlphabetChar(Standard, q[0]) && IsAlphabetChar(Standard, q[1])
      && IsAlphabetChar(Standard, q[2]) && IsAlphabetChar(Standard, q[3])
      && var a1 := Advance(Start, CharIndex(Standard, q[0]));
         var a2 := Advance(a1, CharIndex(Standard, q[1]));
         var a3 := Advance(a2, CharIndex(Standard, q[2]));
         && Emitted(Start, CharIndex(Standard, q[0])) == []
         && Emitted(a1, CharIndex(Standard, q[1])) == [b0]
         && Emitted(a2, CharIndex(Standard, q[2])) == [b1]
         && Emitted(a3, CharIndex(Standard, q[3])) == [b2]
         && Advance(a3, CharIndex(Standard, q[3])) == Start
  {
    var q := Quad(Standard, b0, b1, b2);
    var i0, i1, i2, i3 := b0 / 4, (b0 % 4) * 16 + b1 / 16, (b1 % 16) * 4 + b2 / 64, b2 % 64;
    QuadRoundTrip(b0, b1, b2);
    IndexCharInAlphabet(Standard, i0);
    IndexCharInAlphabet(Standard, i1);
    IndexCharInAlphabet(Standard, i2);
    IndexCharInAlphabet(Standard, i3);
    assert q[0] == IndexChar(Standard, i0) && q[1] == IndexChar(Standard, i1);
    assert q[2] == IndexChar(Standard, i2) && q[3] == IndexChar(Standard, i3);
  }

  /** Two data characters read in a row, from any state. */
  lemma ReadPair(c0: char, c1: char, tail: string, st: Reader)
    requires Valid(st) && IsAlphabetChar(Standard, c0) && IsAlphabetChar(Standard, c1)
    ensures var a1 := Advance(st, CharIndex(Standard, c0));
      Read([c0, c1] + tail, st) ==
        Then(Emitted(st, CharIndex(Standard, c0)), Then(Emitted(a1, CharIndex(Standard, c1)),
          Read(tail, Advance(a1, CharIndex(Standard, c1)))))
  {
    var a1 := Advance(st, CharIndex(Standard, c0));
    var t1 := [c1] + tail;
    assert [c0, c1] + tail == [c0] + t1;
    ReadData(c0, t1, st);
    ReadData(c1, tail, a1);
  }

  /** Four data characters read in a row, from any state. */
  lemma ReadFour(c0: char, c1: char, c2: char, c3: char, tail: string, st: Reader)
    requires Valid(st)
    requires IsAlphabetChar(Standard, c0) && IsAlphabetChar(Standard, c1)
    requires IsAlphabetChar(Standard, c2) && IsAlphabetChar(Standard, c3)
    ensures var a1 := Advance(st, CharIndex(Standard, c0));
      var a2 := Advance(a1, CharIndex(Standard, c1));
      var a3 := Advance(a2, CharIndex(Standard, c2));
      Read([c0, c1, c2, c3] + tail, st) ==
        Then(Emitted(st, CharIndex(Standard, c0)), Then(Emitted(a1, CharIndex(Standard, c1)),
          Then(Emitted(a2, CharIndex(Standard, c2)), Then(Emitted(a3, CharIndex(Standard, c3)),
            Read(tail, Advance(a3, CharIndex(Standard, c3)))))))
  {
    var a1 := Advance(st, CharIndex(Standard, c0));
    var a2 := Advance(a1, CharIndex(Standard, c1));
    assert [c0, c1, c2, c3] + tail == [c0, c1] + ([c2, c3] + tail);
    ReadPair(c0, c1, [c2, c3] + tail, st);
    ReadPair(c2, c3, tail, a2);
  }

  /** Four data characters from the start of a quad give the three bytes they encode. */
  lemma ReadQuad(b0: byte, b1: byte, b2: byte, tail: string)
    ensures Read(Quad(Standard, b0, b1, b2) + tail, Start) == Then([b0, b1, b2], Read(tail, Start))
  {
    var q := Quad(Standard, b0, b1, b2);
    QuadSteps(b0, b1, b2);
    assert q == [q[0], q[1], q[2], q[3]];
    ReadFour(q[0], q[1], q[2], q[3], tail, Start);
    var r := Read(tail, Start);
    ThenThen([b1], [b2], r);
    assert [b1] + [b2] == [b1, b2];
    ThenThen([b0], [b1, b2], r);
    assert [b0] + [b1, b2] == [b0, b1, b2];
    ThenThen([], [b0, b1, b2], r);
    assert [] + [b0, b1, b2] == [b0, b1, b2];
  }

  /** Three data characters and a pad from the start of a quad: the pad completes it, whatever follows. */
  lemma ReadThreePad(c0: char, c1: char, c2: char, tail: string)
    requires IsAlphabetChar(Standard, c0) && IsAlphabetChar(Standard, c1) && IsAlphabetChar(Standard, c2)
    ensures var a1 := Advance(Start, CharIndex(Standard, c0));
      var a2 := Advance(a1, CharIndex(Standard, c1));
      Read([c0, c1, c2, '='] + tail, Start) ==
        Then(Emitted(Start, CharIndex(Standard, c0)), Then(Emitted(a1, CharIndex(Standard, c1)),
          Then(Emitted(a2, CharIndex(Standard, c2)), Some([]))))
  {
    var a1 := Advance(Start, CharIndex(Standard, c0));
    var a2 := Advance(a1, CharIndex(Standard, c1));
    var a3 := Advance(a2, CharIndex(Standard, c2));
    assert [c0, c1, c2, '='] + tail == [c0, c1] + ([c2] + ("=" + tail));
    ReadPair(c0, c1, [c2] + ("=" + tail), Start);
    ReadData(c2, "=" + tail, a2);
    ReadPad(tail, a3);
  }

  /** Two data characters and two pads from the start of a quad: the second pad completes it. */
  lemma ReadTwoPads(c0: char, c1: char, tail: string)
    requires IsAlphabetChar(Standard, c0) && IsAlphabetChar(Standard, c1)
    ensures var a1 := Advance(Start, CharIndex(Standard, c0));
      Read([c0, c1, '=', '='] + tail, Start) ==
        Then(Emitted(Start, CharIndex(Standard, c0)), Then(Emitted(a1, CharIndex(Standard, c1)), Some([])))
  {
    var a1 := Advance(Start, CharIndex(Standard, c0));
    var a2 := Advance(a1, CharIndex(Standard, c1));
    assert [c0, c1, '=', '='] + tail == [c0, c1] + ("=" + ("=" + tail));
    ReadPair(c0, c1, "=" + ("=" + tail), Start);
    ReadPad("=" + tail, a2);
    ReadPad(tail, PadSeen(a2));
  }

  /** Two bytes: three data characters, and the pad completes the quad, whatever follows. */
  lemma ReadTwo(b0: byte, b1: byte, tail: string)
    ensures Read(Encode(Standard, [b0, b1]) + tail, Start) == Some([b0, b1])
  {
    var q := Quad(Standard, b0, b1, 0);
    QuadSteps(b0, b1, 0);
    assert Encode(Standard, [b0, b1]) == [q[0], q[1], q[2], '='];
    ReadThreePad(q[0], q[1], q[2], tail);
    assert [b1] + [] == [b1] && [b0] + [b1] == [b0, b1] && [] + [b0, b1] == [b0, b1];
  }

  /** One byte: two data characters, and the two pads complete the quad, whatever follows. */
  lemma ReadOne(b0: byte, tail: string)
    ensures Read(Encode(Standard, [b0]) + tail, Start) == Some([b0])
  {
    var q := Quad(Standard, b0, 0, 0);
    QuadSteps(b0, 0, 0);
    assert Encode(Standard, [b0]) == [q[0], q[1], '=', '='];
    ReadTwoPads(q[0], q[1], tail);
    assert [b0] + [] == [b0] && [] + [b0] == [b0];
  }

  /**
   * Decoding an encoding followed by more text: a whole number of quads
   * decodes to the data and decoding goes on; an encoding that ends in
   * padding decodes to the data and the rest is ignored.
   */
  lemma {:induction false} ReadEncode(data: seq<byte>, t: string)
    ensures |data| % 3 == 0 ==> Read(Encode(Standard, data) + t, Start) == Then(data, Read(t, Start))
    ensures |data| % 3 != 0 ==> Read(Encode(Standard, data) + t, Start) == Some(data)
    decreases |data|
  {
    if |data| >= 3 {
      var rest := data[3..];
      assert data == [data[0], data[1], data[2]] + rest;
      assert |rest| % 3 == |data| % 3;
      EncodeFront(Standard, data);
      assert Encode(Standard, data) + t == Quad(Standard, data[0], data[1], data[2]) + (Encode(Standard, rest) + t);
      ReadQuad(data[0], data[1], data[2], Encode(Standard, rest) + t);
      ReadEncode(rest, t);
      ThenThen([data[0], data[1], data[2]], rest, Read(t, Start));
    } else if |data| == 2 {
      ReadTwo(data[0], data[1], t);
      assert data == [data[0], data[1]];
    } else if |data| == 1 {
      ReadOne(data[0], t);
      assert data == [data[0]];
    } else {
      assert Encode(Standard, data) + t == t;
      assert Then(data, Read(t, Start)) == Read(t, Start) by {
        if Read(t, Start).Some? { assert data + Read(t, Start).value == Read(t, Start).value; }
      }
    }
  }

  /** `b64decode(b64encode(x)) == x` for every byte string. */
  lemma DecodeEncode(data: seq<byte>)
    ensures Decode(Encode(Standard, data)) == Some(data)
  {
    var e := Encode(Standard, data);
    ReadEncode(data, "");
    assert e + "" == e;
    if |data| % 3 == 0 {
      assert Read("", Start) == Some([]);
      assert data + [] == data;
    }
  }

  /**
   * Once the pads complete the last quad, `b64decode` stops: whatever text
   * follows an encoding of a length that is not a multiple of three is
   * ignored (so "QQ==QQ==" decodes to the one byte of "QQ==").
   */
  lemma DecodePadStops(data: seq<byte>, t: string)
    requires |data| % 3 != 0
    ensures Decode(Encode(Standard, data) + t) == Some(data)
  {
    ReadEncode(data, t);
  }

  /** An unpadded encoding followed by more text decodes to the data followed by the decoding of that text. */
  lemma DecodeConcat(data: seq<byte>, t: string)
    requires |data| % 3 == 0
    ensures Decode(t).Some? <==> Decode(Encode(Standard, data) + t).Some?
    ensures Decode(t).Some? ==> Decode(Encode(Standard, data) + t).value == data + Decode(t).value
  {
    ReadEncode(data, t);
  }

  /** A '=' where a quad starts is skipped. */
  lemma DecodeSkipsLeadingPad(t: string)
    ensures Decode("=" + t) == Decode(t)
  {
    assert ("=" + t)[1..] == t;
  }

  /** The decoder reads only the characters `Significant` keeps: the others are skipped in every state. */
  lemma {:induction false} ReadSignificant(s: string, st: Reader)
    requires Valid(st)
    ensures Read(s, st) == Read(Significant(s), st)
    decreases |s|
  {
    if |s| > 0 {
      var k := Significant(s[1..]);
      if s[0] == '=' {
        assert Significant(s) == [s[0]] + k;
        assert ([s[0]] + k)[1..] == k;
        ReadSignificant(s[1..], PadSeen(st));
      } else if IsAlphabetChar(Standard, s[0]) {
        assert Significant(s) == [s[0]] + k;
        assert ([s[0]] + k)[1..] == k;
        ReadSignificant(s[1..], Advance(st, CharIndex(Standard, s[0])));
      } else {
        ReadSignificant(s[1..], st);
      }
    }
  }

  /** `b64decode` of a text and of its significant characters agree. */
  lemma DecodeSignificant(s: string)
    ensures Decode(s) == Decode(Significant(s))
  {
    ReadSignificant(s, Start);
  }

  /** Mapping a URL-safe encoding back gives the standard encoding. */
  lemma {:induction false} FromUrlSafeEncode(data: seq<byte>)
    ensures FromUrlSafe(Encode(UrlSafe, data)) == Encode(Standard, data)
  {
    var u := Encode(UrlSafe, data);
    var s := Encode(Standard, data);
    EncodeLength(UrlSafe, data);
    EncodeLength(Standard, data);
    forall i | 0 <= i < |u| ensures FromUrlSafe(u)[i] == s[i] {
      FromUrlSafeAt(u, i);
      EncodeAt(data, i);
    }
  }

  lemma {:induction false} FromUrlSafeAt(s: string, i: nat)
    requires i < |s|
    ensures FromUrlSafe(s)[i] == (if s[i] == '-' then '+' else if s[i] == '_' then '/' else s[i])
  {
    if i > 0 { FromUrlSafeAt(s[1..], i - 1); }
  }

  /** The two alphabets differ only at indices 62 and 63. */
  lemma {:induction false} EncodeAt(data: seq<byte>, i: nat)
    requires i < |Encode(UrlSafe, data)|
    requires |Encode(Standard, data)| == |Encode(UrlSafe, data)|
    ensures var u := Encode(UrlSafe, data)[i]; var s := Encode(Standard, data)[i];
      s == (if u == '-' then '+' else if u == '_' then '/' else u)
    decreases |data|
  {
    if |data| >= 3 {
      if i >= 4 {
        EncodeLength(UrlSafe, data[3..]);
        EncodeLength(Standard, data[3..]);
        EncodeAt(data[3..], i - 4);
      }
    }
  }

  /** `urlsafe_b64decode(urlsafe_b64encode(x)) == x`. */
  lemma UrlSafeDecodeEncode(data: seq<byte>)
    ensures UrlSafeDecode(Encode(UrlSafe, data)) == Some(data)
  {
    FromUrlSafeEncode(data);
    DecodeEncode(data);
  }

  /** Discarded characters anywhere in the input do not change the decoding. */
  lemma {:induction false} SignificantAppend(s: string, t: string)
    ensures Significant(s + t) == Significant(s) + Significant(t)
  {
    if |s| > 0 {
      assert (s + t)[1..] == s[1..] + t;
      SignificantAppend(s[1..], t);
    } else {
      assert s + t == t;
    }
  }

  lemma {:induction false} FromUrlSafeAppend(s: string, t: string)
    ensures FromUrlSafe(s + t) == FromUrlSafe(s) + FromUrlSafe(t)
  {
    if |s| > 0 {
      assert (s + t)[1..] == s[1..] + t;
      FromUrlSafeAppend(s[1..], t);
    } else {
      assert s + t == t;
    }
  }

  /** Every character of an encoding is ASCII. */
  lemma EncodeIsAscii(a: Alphabet, data: seq<byte>)
    ensures IsAscii(Encode(a, data))
  {
  }
  /** `b64encode` returns `bytes`: the ASCII codes of the encoding. */
  function EncodeBytes(a: Alphabet, data: seq<byte>): (r: seq<byte>)
    ensures AsChars(r) == Encode(a, data)
    ensures AsciiEncode(Encode(a, data)) == Ok(r)
  {
    EncodeIsAscii(a, data);
    AsciiEncode(Encode(a, data)).value
  }
}

=== FILE: Bytes.dfy ===
/**
 * Bytes and the ASCII bridge between Python `str` and `bytes` used by the
 * envelope code (`s.encode("ascii")`, `b.decode("ascii")`).
 */
module Bytes {
  import opened Results

  type byte = x: int | 0 <= x < 256

  predicate IsAsciiChar(c: char) { c as int < 128 }
  predicate IsAscii(s: string) { forall i :: 0 <= i < |s| ==> IsAsciiChar(s[i]) }

  /** `s.encode("ascii")`: fails with the encode error on a non-ASCII character. */
  function AsciiEncode(s: string): (r: Result<seq<byte>>)
    ensures r.Ok? <==> IsAscii(s)
    ensures r.Ok? ==> |r.value| == |s| && forall i :: 0 <= i < |s| ==> r.value[i] == s[i] as int
  {
    if IsAscii(s) then Ok(seq(|s|, i requires 0 <= i < |s| => s[i] as int as byte)) else Err(ValueErr)
  }

  /** `b.decode("ascii")`: fails on a byte above 127. */
  function AsciiDecode(b: seq<byte>): (r: Result<string>)
    ensures r.Ok? <==> forall i :: 0 <= i < |b| ==> b[i] < 128
    ensures r.Ok? ==> |r.value| == |b| && forall i :: 0 <= i < |b| ==> r.value[i] as int == b[i]
  {
    if forall i :: 0 <= i < |b| ==> b[i] < 128
    then Ok(seq(|b|, i requires 0 <= i < |b| => b[i] as char))
    else Err(ValueErr)
  }

  /** Bytes viewed character by character, as the base64 decoder reads a `bytes` argument. */
  function AsChars(b: seq<byte>): (r: string)
    ensures |r| == |b| && forall i :: 0 <= i < |b| ==> r[i] as int == b[i]
  {
    seq(|b|, i requires 0 <= i < |b| => b[i] as char)
  }

  /** Encoding ASCII text and viewing the bytes as characters gives the text back. */
  lemma AsciiEncodeAsChars(s: string)
    requires IsAscii(s)
    ensures AsciiEncode(s).Ok? && AsChars(AsciiEncode(s).value) == s
  {
  }

  lemma AsciiEncodeDecode(s: string)
    requires IsAscii(s)
    ensures AsciiEncode(s).Ok? && AsciiDecode(AsciiEncode(s).value) == Ok(s)
  {
    var b := AsciiEncode(s).value;
    assert AsciiDecode(b).Ok?;
    assert AsciiDecode(b).value == s;
  }
  /** The UTF-8 encoding of one code point (Dafny characters are scalar values). */
  function Utf8Char(c: char): (r: seq<byte>)
    ensures 1 <= |r| <= 4
    ensures |r| == 1 <==> IsAsciiChar(c)
    ensures IsAsciiChar(c) ==> r == [c as int]
    ensures forall i :: 0 < i < |r| ==> 128 <= r[i] < 192
    ensures r[0] < 128 || r[0] >= 192
  {
    var n := c as int;
    if n < 0x80 then [n]
    else if n < 0x800 then [0xc0 + n / 64, 0x80 + n % 64]
    else if n < 0x10000 then [0xe0 + n / 4096, 0x80 + (n / 64) % 64, 0x80 + n % 64]
    else [0xf0 + n / 262144, 0x80 + (n / 4096) % 64, 0x80 + (n / 64) % 64, 0x80 + n % 64]
  }

  /** `s.encode("utf-8")`, which cannot fail for a string of scalar values. */
  function Utf8Encode(s: string): (r: seq<byte>)
    ensures |r| >= |s|
  {
    if |s| == 0 then [] else Utf8Char(s[0]) + Utf8Encode(s[1..])
  }

  /** On ASCII text UTF-8 and ASCII agree byte for byte. */
  lemma {:induction false} Utf8OfAscii(s: string)
    requires IsAscii(s)
    ensures AsciiEncode(s) == Ok(Utf8Encode(s))
  {
    if |s| > 0 {
      Utf8OfAscii(s[1..]);
      assert AsciiEncode(s).value == [s[0] as int] + AsciiEncode(s[1..]).value;
    }
  }

  lemma {:induction false} Utf8Append(s: string, t: string)
    ensures Utf8Encode(s + t) == Utf8Encode(s) + Utf8Encode(t)
  {
    if |s| == 0 {
      assert s + t == t;
    } else {
      var c := Utf8Char(s[0]);
      assert (s + t)[0] == s[0] && (s + t)[1..] == s[1..] + t;
      Utf8Append(s[1..], t);
      assert Utf8Encode(s + t) == c + (Utf8Encode(s[1..]) + Utf8Encode(t));
      assert c + (Utf8Encode(s[1..]) + Utf8Encode(t)) == (c + Utf8Encode(s[1..])) + Utf8Encode(t);
    }
  }

  /** A UTF-8 encoding that starts with an ASCII byte starts with that character. */
  lemma Utf8Head(s: string)
    requires |Utf8Encode(s)| > 0 && Utf8Encode(s)[0] < 128
    ensures |s| > 0 && s[0] as int == Utf8Encode(s)[0]
  {
    assert |s| > 0;
    assert Utf8Encode(s)[0] == Utf8Char(s[0])[0];
  }

  /** Decoding the UTF-8 of ASCII text as ASCII gives the text back. */
  lemma AsciiDecodeUtf8(s: string)
    requires IsAscii(s)
    ensures AsciiDecode(Utf8Encode(s)) == Ok(s)
  {
    Utf8OfAscii(s);
    AsciiEncodeDecode(s);
  }

  lemma AsciiAppend(s: string, t: string)
    requires IsAscii(s) && IsAscii(t)
    ensures IsAscii(s + t)
  {
    assert forall i :: 0 <= i < |s + t| ==> (s + t)[i] == if i < |s| then s[i] else t[i - |s|];
  }

  /** `s.encode("ascii")` where the text is known to be ASCII. */
  function AsciiOf(s: string): (r: seq<byte>)
    requires IsAscii(s)
    ensures AsciiEncode(s) == Ok(r)
  {
    AsciiEncode(s).value
  }

  /** A continuation byte, `10xxxxxx`. */
  predicate IsCont(b: byte) { 0x80 <= b < 0xc0 }

  /**
   * The length of the well-formed UTF-8 sequence a lead byte starts, after
   * Table 3-7 of the Unicode Standard, and 0 for a byte that starts none:
   * a continuation byte, C0, C1 and F5 to FF.
   */
  function Utf8Width(b: byte): (r: nat)
    ensures r <= 4
  {
    if b < 0x80 then 1
    else if 0xc2 <= b < 0xe0 then 2
    else if 0xe0 <= b < 0xf0 then 3
    else if 0xf0 <= b < 0xf5 then 4
    else 0
  }

  /**
   * The range Table 3-7 allows for the byte after a lead byte; the narrow
   * ranges after E0, ED, F0 and F4 exclude overlong forms, surrogates and
   * code points above U+10FFFF.
   */
  predicate SecondOk(lead: byte, b: byte)
  {
    if lead == 0xe0 then 0xa0 <= b < 0xc0
    else if lead == 0xed then 0x80 <= b < 0xa0
    else if lead == 0xf0 then 0x90 <= b < 0xc0
    else if lead == 0xf4 then 0x80 <= b < 0x90
    else IsCont(b)
  }

  /** The bytes start with one well-formed sequence. */
  predicate Utf8SeqAt(data: seq<byte>)
  {
    && |data| > 0
    && 0 < Utf8Width(data[0]) <= |data|
    && (Utf8Width(data[0]) > 1 ==> SecondOk(data[0], data[1]))
    && (forall i :: 2 <= i < Utf8Width(data[0]) ==> IsCont(data[i]))
  }

  /**
   * `data.decode("utf-8")` succeeds: the bytes are a run of well-formed
   * sequences. Python's strict codec refuses everything else.
   */
  predicate Utf8Valid(data: seq<byte>)
    decreases |data|
  {
    |data| == 0 || (Utf8SeqAt(data) && Utf8Valid(data[Utf8Width(data[0])..]))
  }

  /** The encoding of one character is one well-formed sequence, whatever follows it. */
  lemma Utf8CharSeq(c: char, rest: seq<byte>)
    ensures Utf8SeqAt(Utf8Char(c) + rest)
    ensures Utf8Width((Utf8Char(c) + rest)[0]) == |Utf8Char(c)|
  {
    var n := c as int;
    var r := Utf8Char(c);
    var d := r + rest;
    assert forall i :: 0 <= i < |r| ==> d[i] == r[i];
    if n < 0x80 {
    } else if n < 0x800 {
      assert 2 <= n / 64 < 32;
    } else if n < 0x10000 {
      assert 0 <= n / 4096 < 16;
      var second := 0x80 + (n / 64) % 64;
      assert r[1] == second;
      if n < 0x1000 {
        assert n / 4096 == 0 && 32 <= n / 64 < 64;
        assert (n / 64) % 64 == n / 64;
      } else if 0xd000 <= n < 0xe000 {
        assert n < 0xd800;
        assert n / 4096 == 13 && 832 <= n / 64 < 864;
        assert (n / 64) % 64 == n / 64 - 832;
      }
    } else {
      assert n < 0x110000;
      assert 0 <= n / 262144 <= 4;
      assert r[1] == 0x80 + (n / 4096) % 64;
      if n < 0x40000 {
        assert n / 262144 == 0 && 16 <= n / 4096 < 64;
        assert (n / 4096) % 64 == n / 4096;
      } else if n >= 0x100000 {
        assert n / 262144 == 4 && 256 <= n / 4096 < 272;
        assert (n / 4096) % 64 == n / 4096 - 256;
      }
    }
  }

  /** Every UTF-8 encoding decodes: `s.encode("utf-8").decode("utf-8")` never raises. */
  lemma {:induction false} Utf8EncodeValid(s: string)
    ensures Utf8Valid(Utf8Encode(s))
  {
    if |s| > 0 {
      var r := Utf8Char(s[0]);
      var rest := Utf8Encode(s[1..]);
      Utf8CharSeq(s[0], rest);
      assert (r + rest)[|r|..] == rest;
      Utf8EncodeValid(s[1..]);
    }
  }

  /** A lone continuation byte, or a byte never used by UTF-8, does not decode. */
  lemma Utf8Refused(b: byte, rest: seq<byte>)
    requires IsCont(b) || b == 0xc0 || b == 0xc1 || b >= 0xf5
    ensures !Utf8Valid([b] + rest)
  {
    assert ([b] + rest)[0] == b;
  }
}

=== FILE: Contacts.dfy ===
/**
 * Subscriptions between contacts: subscribing (with the notice post it
 * leaves and the protocol messages it sends to a remote contact),
 * unsubscribing, and the two directions of the subscription relation.
 */
module Contacts {
  import opened Results
  import opened Social
  import Posts
  import opened Directory
  import opened Outbox

  const SubscribeType := "application/x-pyaspora-subscribe"

  /**
   * `Contact.get(contact_id)` as its docstring promises: the contact with
   * that primary key, or None when there is none.
   */
  function Get(contacts: map<int, Contact>, id: int): (r: Option<Contact>)
    ensures r.None? <==> id !in contacts
    ensures r.Some? ==> r.value == contacts[id]
  {
    if id in contacts then Some(contacts[id]) else None
  }

  /**
   * `Contact.get(contact_id)` as written (the default `prefetch` branch):
   * `get_many` returns a query, which is truthy even when it matches no
   * row, so `res[0]` raises IndexError for an unknown id instead of
   * giving None.
   */
  function GetAsWritten(contacts: map<int, Contact>, id: int): (r: Result<Contact>)
    ensures r.Err? <==> id !in contacts
    ensures r.Err? ==> r.error == IndexErr
    ensures r.Ok? ==> r.value == contacts[id]
  {
    if id in contacts then Ok(contacts[id]) else Err(IndexErr)
  }

  /**
   * The two lookups find the same contact; they differ only for an unknown
   * id, which raises as written and is None as intended.
   */
  lemma GetUnknownRaises(contacts: map<int, Contact>, id: int)
    ensures GetAsWritten(contacts, id).Ok? <==> Get(contacts, id).Some?
    ensures GetAsWritten(contacts, id).Ok? ==> GetAsWritten(contacts, id).value == Get(contacts, id).value
    ensures id !in contacts ==> GetAsWritten(contacts, id) == Err(IndexErr) && Get(contacts, id) == None
  {
  }

  /** The post `notify_subscribe` makes before it is shared and its thread time set. */
  function NoticePost(self: Contact, contact: Contact, postId: int): Post
  {
    Post(postId, self.id, None, None,
         [PostPart(MimePart(SubscribeType, SubscribeNotice(self.id, contact.id),
                            Some("subscribed to " + contact.realname)), true, 0)],
         [])
  }

  /** The share `share_with([c])` adds for a non-public post, if `c` has none yet. */
  function ShareOne(shares: map<ShareKey, Share>, postId: int, c: Contact): map<ShareKey, Share>
  {
    if (c.id, postId) in shares then shares else shares[(c.id, postId) := Share(false, false)]
  }

  /** For a local contact, `share_with([c])` is `ShareOne` and sends nothing. */
  lemma ShareWithLocal(db: Db, p: Post, c: Contact)
    requires IsLocal(c)
    ensures Posts.ShareWith(db, p, [c], false, None) == Ok((db.(shares := ShareOne(db.shares, p.id, c)), []))
  {
    assert [c][1..] == [] && [c][0] == c && [c] + [] == [c];
    var m := db.shares[(c.id, p.id) := Share(false, false)];
    assert Posts.AddShares(m, p.id, [], false) == (m, []);
    assert Posts.AddShares(db.shares, p.id, [], false) == (db.shares, []);
    assert Posts.AddShares(db.shares, p.id, [c], false) ==
      if (c.id, p.id) in db.shares then (db.shares, []) else (m, [c]);
    assert Posts.Remotes([c]) == [] by {
      assert Posts.Remotes([c][1..]) == [];
    }
  }

  /** Marking a new top-level post modified sets its own thread time to `now`. */
  lemma ThreadModifiedFresh(posts: map<int, Post>, p: Post, now: int)
    requires PostsLinked(posts) && p.parent.None?
    ensures PostsLinked(posts[p.id := p])
    ensures Posts.ThreadModified(posts[p.id := p], p.id, None, now) == posts[p.id := p.(threadModifiedAt := Some(now))]
  {
    var m := posts[p.id := p];
    assert PostsLinked(m) by {
      forall id | id in m
        ensures m[id].id == id && (m[id].parent.Some? ==> m[id].parent.value in m && m[id].parent.value < id)
      {
        if id != p.id { assert m[id] == posts[id]; }
      }
    }
    assert Posts.Root(m, p.id) == p.id;
  }

  /**
   * `self.notify_subscribe(contact)`: a post by `self` with one inline part
   * of type application/x-pyaspora-subscribe at order 0 whose body names
   * both contacts, shared (through `share_with`, see `ShareWithLocal`) with
   * whichever of the two is local, its thread time set to `now`.
   */
  function NotifySubscribe(db: Db, self: Contact, contact: Contact, postId: int, now: int): (r: Result<Db>)
    requires PostsLinked(db.posts) && FreshPost(db, postId)
    ensures !IsLocal(self) && !IsLocal(contact) <==> r == Err(AssertionFailed)
    ensures r.Ok? ==> r.value.posts == db.posts[postId := NoticePost(self, contact, postId).(threadModifiedAt := Some(now))]
    ensures r.Ok? ==> r.value.contacts == db.contacts && r.value.users == db.users && r.value.subscriptions == db.subscriptions
    ensures r.Ok? ==> r.value.tags == db.tags && r.value.groups == db.groups
  {
    if !IsLocal(self) && !IsLocal(contact) then Err(AssertionFailed)
    else
      var p := NoticePost(self, contact, postId);
      var posts := db.posts[postId := p];
      var s1 := if IsLocal(self) then ShareOne(db.shares, postId, self) else db.shares;
      var s2 := if IsLocal(contact) then ShareOne(s1, postId, contact) else s1;
      ThreadModifiedFresh(db.posts, p, now);
      Ok(db.(posts := Posts.ThreadModified(posts, postId, None, now), shares := s2))
  }

  /**
   * The notice is shared, as a non-public, visible share, with exactly the
   * local ones of the two contacts; no other share changes.
   */
  lemma NoticeSharedWithLocals(db: Db, self: Contact, contact: Contact, postId: int, now: int)
    requires PostsLinked(db.posts) && FreshPost(db, postId)
    requires NotifySubscribe(db, self, contact, postId, now).Ok?
    ensures var s := NotifySubscribe(db, self, contact, postId, now).value.shares;
      && (forall k :: k in db.shares ==> k in s && s[k] == db.shares[k])
      && (forall k :: k in s && k !in db.shares ==>
            k.1 == postId && s[k] == Share(false, false) &&
            ((k.0 == self.id && IsLocal(self)) || (k.0 == contact.id && IsLocal(contact))))
      && (IsLocal(self) ==> (self.id, postId) in s)
      && (IsLocal(contact) ==> (contact.id, postId) in s)
  {
  }

  /** The messages `subscribe` sends: Subscribe then Profile to a remote contact, nothing to a local one. */
  function SubscribeSends(table: seq<DiasporaContact>, uAddr: string, contact: Contact): (r: Result<seq<Outbound>>)
    ensures IsLocal(contact) ==> r == Ok([])
    ensures !IsLocal(contact) ==> (r.Ok? <==> ForContact(table, contact.id).Some?)
    ensures r.Ok? && !IsLocal(contact) ==>
      var d := ForContact(table, contact.id).value;
      r.value == [Outbound(Message(SubscribeKind, uAddr, d.username), ReceiveUrl(d)),
                  Outbound(Message(ProfileKind, uAddr, d.username), ReceiveUrl(d))]
  {
    if IsLocal(contact) then Ok([])
    else
      var s1 :- Send(SubscribeKind, uAddr, ForContact(table, contact.id));
      // the Profile send fails exactly when the Subscribe send does
      Ok([s1, Send(ProfileKind, uAddr, ForContact(table, contact.id)).value])
  }

  /**
   * `self.subscribe(contact)`: one of the two must be local; the
   * subscription from `self` to `contact` is recorded; a remote contact is
   * sent a Subscribe and then a Profile message (from the address `uAddr`
   * of `self`'s user, to the contact's row in `table`); then the notice is
   * posted.
   */
  function Subscribe(db: Db, table: seq<DiasporaContact>, uAddr: string, self: Contact, contact: Contact,
                     postId: int, now: int): (r: Result<(Db, seq<Outbound>)>)
    requires PostsLinked(db.posts) && FreshPost(db, postId)
    ensures !IsLocal(self) && !IsLocal(contact) ==> r == Err(AssertionFailed)
    ensures IsLocal(self) || IsLocal(contact) ==> (r.Ok? <==> SubscribeSends(table, uAddr, contact).Ok?)
    ensures r.Ok? ==> r.value.0.subscriptions == db.subscriptions + {(self.id, contact.id)}
  {
    if !IsLocal(self) && !IsLocal(contact) then Err(AssertionFailed)
    else
      var db1 := db.(subscriptions := db.subscriptions + {(self.id, contact.id)});
      var sends :- SubscribeSends(table, uAddr, contact);
      // the notice cannot fail: one of the two contacts is local
      Ok((NotifySubscribe(db1, self, contact, postId, now).value, sends))
  }

  /** A subscription sends what `SubscribeSends` says and leaves the notice `NotifySubscribe` makes. */
  lemma SubscribeEffects(db: Db, table: seq<DiasporaContact>, uAddr: string, self: Contact, contact: Contact,
                         postId: int, now: int)
    requires PostsLinked(db.posts) && FreshPost(db, postId)
    requires Subscribe(db, table, uAddr, self, contact, postId, now).Ok?
    ensures var (db1, sends) := Subscribe(db, table, uAddr, self, contact, postId, now).value;
      var notified := NotifySubscribe(db, self, contact, postId, now);
      && sends == SubscribeSends(table, uAddr, contact).value
      && notified.Ok? && db1.posts == notified.value.posts && db1.shares == notified.value.shares
  {
    var db0 := db.(subscriptions := db.subscriptions + {(self.id, contact.id)});
    assert NotifySubscribe(db0, self, contact, postId, now).value.posts == NotifySubscribe(db, self, contact, postId, now).value.posts;
  }

  /** A subscription keeps the posts linked, and the id after the notice's is free for the next post. */
  lemma SubscribeKeepsLinked(db: Db, table: seq<DiasporaContact>, uAddr: string, self: Contact, contact: Contact,
                             postId: int, now: int)
    requires PostsLinked(db.posts) && FreshPost(db, postId)
    requires Subscribe(db, table, uAddr, self, contact, postId, now).Ok?
    ensures var db1 := Subscribe(db, table, uAddr, self, contact, postId, now).value.0;
      PostsLinked(db1.posts) && FreshPost(db1, postId + 1)
  {
    var db1 := Subscribe(db, table, uAddr, self, contact, postId, now).value.0;
    SubscribeEffects(db, table, uAddr, self, contact, postId, now);
    NoticeSharedWithLocals(db, self, contact, postId, now);
    var p := NoticePost(self, contact, postId).(threadModifiedAt := Some(now));
    ThreadModifiedFresh(db.posts, p, now);
    assert db1.posts == db.posts[postId := p];
  }

  /**
   * `self.unsubscribe(contact)`: every subscription from `self` to
   * `contact` is removed; a remote contact is sent an Unsubscribe message.
   */
  function Unsubscribe(db: Db, table: seq<DiasporaContact>, uAddr: string, self: Contact, contact: Contact)
    : (r: Result<(Db, seq<Outbound>)>)
    ensures IsLocal(contact) ==> r.Ok? && r.value.1 == []
    ensures !IsLocal(contact) ==> (r.Ok? <==> ForContact(table, contact.id).Some?)
    ensures r.Err? ==> r.error == AttributeErr
    ensures r.Ok? ==> r.value.0 == db.(subscriptions := db.subscriptions - {(self.id, contact.id)})
    ensures r.Ok? && !IsLocal(contact) ==>
      var d := ForContact(table, contact.id).value;
      r.value.1 == [Outbound(Message(UnsubscribeKind, uAddr, d.username), ReceiveUrl(d))]
  {
    var db1 := db.(subscriptions := db.subscriptions - {(self.id, contact.id)});
    if IsLocal(contact) then Ok((db1, []))
    else
      var s :- Send(UnsubscribeKind, uAddr, ForContact(table, contact.id));
      Ok((db1, [s]))
  }

  /**
   * The sends of `subscribe` as written, through `SendAsWritten`: the
   * Subscribe request goes out (when the contact has a row), and then
   * `Profile.send` raises, since `Profile` has no `generate`.
   */
  function SubscribeSendsAsWritten(table: seq<DiasporaContact>, uAddr: string, contact: Contact): (r: Result<seq<Outbound>>)
    ensures IsLocal(contact) ==> r == Ok([])
    ensures !IsLocal(contact) ==> r == Err(AttributeErr)
  {
    if IsLocal(contact) then Ok([])
    else
      var s1 :- SendAsWritten(SubscribeKind, uAddr, ForContact(table, contact.id));
      var s2 :- SendAsWritten(ProfileKind, uAddr, ForContact(table, contact.id));
      Ok([s1, s2])
  }

  /**
   * `self.subscribe(contact)` as written: as `Subscribe`, but with the
   * sends of `SubscribeSendsAsWritten`, so subscribing to a remote contact
   * always ends in an AttributeError.
   */
  function SubscribeAsWritten(db: Db, table: seq<DiasporaContact>, uAddr: string, self: Contact, contact: Contact,
                              postId: int, now: int): (r: Result<(Db, seq<Outbound>)>)
    requires PostsLinked(db.posts) && FreshPost(db, postId)
    ensures !IsLocal(self) && !IsLocal(contact) ==> r == Err(AssertionFailed)
    ensures IsLocal(self) && !IsLocal(contact) ==> r == Err(AttributeErr)
    ensures IsLocal(contact) ==> r == Subscribe(db, table, uAddr, self, contact, postId, now)
  {
    if !IsLocal(self) && !IsLocal(contact) then Err(AssertionFailed)
    else
      var db1 := db.(subscriptions := db.subscriptions + {(self.id, contact.id)});
      var sends :- SubscribeSendsAsWritten(table, uAddr, contact);
      Ok((NotifySubscribe(db1, self, contact, postId, now).value, sends))
  }

  /**
   * `self.unsubscribe(contact)` as written: the subscriptions are removed,
   * but a remote contact's `Unsubscribe.send` raises, as `Unsubscribe` has
   * no `generate`.
   */
  function UnsubscribeAsWritten(db: Db, table: seq<DiasporaContact>, uAddr: string, self: Contact, contact: Contact)
    : (r: Result<(Db, seq<Outbound>)>)
    ensures !IsLocal(contact) ==> r == Err(AttributeErr)
    ensures IsLocal(contact) ==> r == Unsubscribe(db, table, uAddr, self, contact)
  {
    var db1 := db.(subscriptions := db.subscriptions - {(self.id, contact.id)});
    if IsLocal(contact) then Ok((db1, []))
    else
      var s :- SendAsWritten(UnsubscribeKind, uAddr, ForContact(table, contact.id));
      Ok((db1, [s]))
  }

  /**
   * A local user subscribing to, or unsubscribing from, a remote contact
   * that has a Diaspora row: as written both raise, while the corrected
   * definitions record the change and send the messages.
   */
  lemma RemoteSubscriptionRaises(db: Db, table: seq<DiasporaContact>, uAddr: string, self: Contact, contact: Contact,
                                 postId: int, now: int)
    requires PostsLinked(db.posts) && FreshPost(db, postId)
    requires IsLocal(self) && !IsLocal(contact) && ForContact(table, contact.id).Some?
    ensures SubscribeAsWritten(db, table, uAddr, self, contact, postId, now) == Err(AttributeErr)
    ensures UnsubscribeAsWritten(db, table, uAddr, self, contact) == Err(AttributeErr)
    ensures Subscribe(db, table, uAddr, self, contact, postId, now).Ok?
    ensures Unsubscribe(db, table, uAddr, self, contact).Ok?
  {
  }

  /** `self.subscribed_to(contact)`: the subscription from `self` to `contact`, if there is one. */
  function SubscribedTo(db: Db, selfId: int, contactId: int): (r: Option<Subscription>)
    ensures r.Some? <==> (selfId, contactId) in db.subscriptions
    ensures r.Some? ==> r.value == (selfId, contactId)
  {
    if (selfId, contactId) in db.subscriptions then Some((selfId, contactId)) else None
  }

  /** `self.friends()`: the contacts `self` subscribes to. */
  function Friends(db: Db, selfId: int): set<int>
  {
    set s | s in db.subscriptions && s.0 == selfId :: s.1
  }

  /** `self.followers()`: the contacts subscribed to `self`. */
  function Followers(db: Db, selfId: int): set<int>
  {
    set s | s in db.subscriptions && s.1 == selfId :: s.0
  }

  /** Friends and followers are the two directions of one relation. */
  lemma FriendsFollowersDual(db: Db, a: int, b: int)
    ensures b in Friends(db, a) <==> a in Followers(db, b)
    ensures b in Friends(db, a) <==> SubscribedTo(db, a, b).Some?
  {
    if b in Friends(db, a) {
      var s :| s in db.subscriptions && s.0 == a && s.1 == b;
      assert s == (a, b);
    }
    if a in Followers(db, b) {
      var s :| s in db.subscriptions && s.1 == b && s.0 == a;
      assert s == (a, b);
    }
    if (a, b) in db.subscriptions {
      assert b in Friends(db, a);
      assert a in Followers(db, b);
    }
  }

  /** After subscribing, `self` is subscribed to `contact`, counts it among its friends and is its follower. */
  lemma SubscribeThenSubscribed(db: Db, table: seq<DiasporaContact>, uAddr: string, self: Contact, contact: Contact,
                                postId: int, now: int)
    requires PostsLinked(db.posts) && FreshPost(db, postId)
    requires Subscribe(db, table, uAddr, self, contact, postId, now).Ok?
    ensures var db1 := Subscribe(db, table, uAddr, self, contact, postId, now).value.0;
      SubscribedTo(db1, self.id, contact.id).Some? && contact.id in Friends(db1, self.id) &&
      self.id in Followers(db1, contact.id)
  {
    var db1 := Subscribe(db, table, uAddr, self, contact, postId, now).value.0;
    FriendsFollowersDual(db1, self.id, contact.id);
  }

  /** Unsubscribing after a subscription that did not exist before restores the subscriptions. */
  lemma UnsubscribeUndoesSubscribe(db: Db, table: seq<DiasporaContact>, uAddr: string, self: Contact,
                                   contact: Contact, postId: int, now: int)
    requires PostsLinked(db.posts) && FreshPost(db, postId)
    requires (self.id, contact.id) !in db.subscriptions
    requires Subscribe(db, table, uAddr, self, contact, postId, now).Ok?
    ensures var db1 := Subscribe(db, table, uAddr, self, contact, postId, now).value.0;
      Unsubscribe(db1, table, uAddr, self, contact).Ok? &&
      Unsubscribe(db1, table, uAddr, self, contact).value.0.subscriptions == db.subscriptions
  {
  }
}

=== FILE: Crypto.dfy ===
/**
 * The cryptographic primitives the envelope uses: AES-CBC, RSA PKCS#1 v1.5
 * encryption and signing, and SHA-256. They are not implemented here; each
 * is a field of `Primitives`, and `Sound` states the only laws the framing
 * relies on (decryption inverts encryption, CBC keeps the length).
 */
module Crypto {
  import opened Results
  import opened Bytes

  /** RSA keys, known only by identity. */
  datatype PublicKey = PublicKey(id: int)
  datatype PrivateKey = PrivateKey(id: int)

  datatype Primitives = Primitives(
    aesEncrypt: (seq<byte>, seq<byte>, seq<byte>) -> seq<byte>,  // key, iv, plaintext
    aesDecrypt: (seq<byte>, seq<byte>, seq<byte>) -> seq<byte>,  // key, iv, ciphertext
    publicOf: PrivateKey -> PublicKey,
    rsaEncrypt: (PublicKey, seq<byte>) -> seq<byte>,
    rsaDecrypt: (PrivateKey, seq<byte>) -> Option<seq<byte>>,   // None: the sentinel
    sha256: seq<byte> -> seq<byte>,
    sign: (PrivateKey, seq<byte>) -> seq<byte>)

  ghost predicate Sound(p: Primitives)
  {
    && (forall k, iv, d :: |p.aesEncrypt(k, iv, d)| == |d|)
    && (forall k, iv, d :: p.aesDecrypt(k, iv, p.aesEncrypt(k, iv, d)) == d)
    && (forall priv, d :: p.rsaDecrypt(priv, p.rsaEncrypt(p.publicOf(priv), d)) == Some(d))
  }

  /** The AES block size, also the length `AES.new` demands of an IV. */
  const AesBlockSize: int := 16

  /** Key lengths `AES.new` accepts (AES-128, -192 and -256). */
  predicate ValidAesKey(key: seq<byte>) { |key| == 16 || |key| == 24 || |key| == 32 }

  /** `AES.new(key, AES.MODE_CBC, iv)`: ValueError for a bad key or IV length. */
  function AesCbcCheck(key: seq<byte>, iv: seq<byte>): (r: Result<()>)
    ensures r.Ok? <==> ValidAesKey(key) && |iv| == AesBlockSize
  {
    if ValidAesKey(key) && |iv| == AesBlockSize then Ok(()) else Err(ValueErr)
  }

  /** CBC encryption; input not a whole number of blocks is a ValueError. */
  function AesCbcEncrypt(p: Primitives, key: seq<byte>, iv: seq<byte>, data: seq<byte>): (r: Result<seq<byte>>)
    ensures r.Ok? <==> ValidAesKey(key) && |iv| == AesBlockSize && |data| % AesBlockSize == 0
    ensures r.Ok? ==> r.value == p.aesEncrypt(key, iv, data)
  {
    if AesCbcCheck(key, iv).Err? || |data| % AesBlockSize != 0 then Err(ValueErr)
    else Ok(p.aesEncrypt(key, iv, data))
  }

  /** CBC decryption, with the same length checks as encryption. */
  function AesCbcDecrypt(p: Primitives, key: seq<byte>, iv: seq<byte>, data: seq<byte>): (r: Result<seq<byte>>)
    ensures r.Ok? <==> ValidAesKey(key) && |iv| == AesBlockSize && |data| % AesBlockSize == 0
    ensures r.Ok? ==> r.value == p.aesDecrypt(key, iv, data)
  {
    if AesCbcCheck(key, iv).Err? || |data| % AesBlockSize != 0 then Err(ValueErr)
    else Ok(p.aesDecrypt(key, iv, data))
  }

  /** With sound primitives CBC decryption undoes CBC encryption. */
  lemma AesCbcRoundTrip(p: Primitives, key: seq<byte>, iv: seq<byte>, data: seq<byte>)
    requires Sound(p)
    requires ValidAesKey(key) && |iv| == AesBlockSize && |data| % AesBlockSize == 0
    ensures AesCbcEncrypt(p, key, iv, data).Ok?
    ensures AesCbcDecrypt(p, key, iv, AesCbcEncrypt(p, key, iv, data).value) == Ok(data)
  {
  }
}

=== FILE: Delivery.dfy ===
/**
 * The outbound delivery decision of a post (`DiasporaPost`): which
 * visibility class it is sent with, which message kind carries it, and
 * which contacts it goes to. The class, once stored on the post, decides
 * every later send; a reply takes its root's class.
 */
module Delivery {
  import opened Results
  import Social

  /** The stored `DiasporaPost.type`. */
  datatype PostType = PublicType | PrivateType | LimitedType

  /** `DiasporaPost`: the post's federation guid and stored type. */
  datatype DiasporaPost = DiasporaPost(guid: string, kind: Option<PostType>)

  /** The `private` and `public` flags a send uses, and the type stored afterwards. */
  datatype Decision = Decision(private: bool, public: bool, stored: Option<PostType>)

  /**
   * The visibility part of `send_to`. `stored` is the post's type, `rootType`
   * the type of its root's `DiasporaPost` (None when the root has none or no
   * type), `selfPublic` whether the author's own share is public.
   */
  function Decide(stored: Option<PostType>, isReply: bool, rootType: Option<PostType>,
                  selfPublic: bool, privateFlag: bool): (d: Decision)
    ensures stored.Some? ==> d.stored == stored
    ensures !(d.private && d.public)
    ensures stored.None? && !(isReply && rootType.Some?) ==>
      d.stored.Some? && (d.public <==> selfPublic) && (d.public <==> d.stored == Some(PublicType))
  {
    if stored.Some? then
      Decision(stored == Some(PrivateType), stored == Some(PublicType), stored)
    else if isReply && rootType.Some? then
      Decision(rootType == Some(PrivateType), rootType == Some(PublicType) && selfPublic, None)
    else if selfPublic then
      Decision(false, true, Some(PublicType))
    else if privateFlag then
      Decision(true, false, Some(PrivateType))
    else
      Decision(false, false, Some(LimitedType))
  }

  /** Once a type is stored, every later send makes the same decision, whatever the flags then say. */
  lemma DecisionSticky(stored: Option<PostType>, isReply: bool, rootType: Option<PostType>,
                       selfPublic: bool, privateFlag: bool,
                       isReply2: bool, rootType2: Option<PostType>, selfPublic2: bool, privateFlag2: bool)
    requires Decide(stored, isReply, rootType, selfPublic, privateFlag).stored.Some?
    ensures var d := Decide(stored, isReply, rootType, selfPublic, privateFlag);
      var again := Decide(d.stored, isReply2, rootType2, selfPublic2, privateFlag2);
      again.private == d.private && again.public == d.public && again.stored == d.stored
  {
  }

  /** A reply with no type of its own is private iff its root is, and public iff its root is and its self-share is. */
  lemma ReplyInherits(isReply: bool, rootType: PostType, selfPublic: bool, privateFlag: bool)
    requires isReply
    ensures var d := Decide(None, isReply, Some(rootType), selfPublic, privateFlag);
      && (d.private <==> rootType == PrivateType)
      && (d.public <==> rootType == PublicType && selfPublic)
      && d.stored.None?
  {
  }

  /** The message classes of `pyaspora.diaspora.actions` a post can be sent with. */
  datatype Sender = PrivateMessage | SubPM | PostMessage | SubPost
  {
    predicate IsPrivate() { this == PrivateMessage || this == SubPM }
    predicate IsChild() { this == SubPM || this == SubPost }
  }

  /** The `senders` table: private/public by the first key, parent/child by the second. */
  function SenderFor(private: bool, isReply: bool): (s: Sender)
    ensures s.IsPrivate() == private && s.IsChild() == isReply
  {
    if private then (if isReply then SubPM else PrivateMessage)
    else (if isReply then SubPost else PostMessage)
  }

  /** Each message class is picked for exactly one combination of the two keys. */
  lemma SenderTableInjective(p1: bool, r1: bool, p2: bool, r2: bool)
    ensures SenderFor(p1, r1) == SenderFor(p2, r2) <==> p1 == p2 && r1 == r2
  {
  }

  /** A target contact: its id and the `server` of its `DiasporaContact`, None when it has none. */
  datatype Recipient = Recipient(id: int, server: Option<string>)

  predicate DistinctServers(d: seq<Recipient>)
  {
    forall i, j :: 0 <= i < j < |d| ==> d[i].server != d[j].server
  }

  /** Assigning `dict[t.server] = t`: an existing key keeps its place and takes the new value; a new key goes last. */
  function DictInsert(d: seq<Recipient>, t: Recipient): (r: seq<Recipient>)
    requires DistinctServers(d)
    ensures DistinctServers(r)
    ensures t in r
    ensures forall u :: u in r ==> u == t || (u in d && u.server != t.server)
    ensures forall u :: u in d && u.server != t.server ==> u in r
  {
    if |d| == 0 then [t]
    else if d[0].server == t.server then
      assert forall u :: u in d[1..] ==> u.server != t.server by {
        forall u | u in d[1..] ensures u.server != t.server {
          var j :| 0 <= j < |d[1..]| && d[1..][j] == u;
          assert d[j + 1] == u;
        }
      }
      [t] + d[1..]
    else
      var rest := DictInsert(d[1..], t);
      assert d == [d[0]] + d[1..];
      assert forall u :: u in rest ==> u.server != d[0].server by {
        forall u | u in rest ensures u.server != d[0].server {
          if u != t {
            var j :| 0 <= j < |d[1..]| && d[1..][j] == u;
            assert d[j + 1] == u;
          }
        }
      }
      [d[0]] + rest
  }

  /** `dict((c.diasp.server, c) for c in targets).values()`, for targets that all have a server. */
  function ByServer(ts: seq<Recipient>): (r: seq<Recipient>)
    ensures DistinctServers(r)
    ensures forall u :: u in r ==> u in ts
  {
    if |ts| == 0 then [] else DictInsert(ByServer(ts[..|ts| - 1]), ts[|ts| - 1])
  }

  /** The last target sharing the server `s`: the value the dict keeps for that key. */
  function LastWith(ts: seq<Recipient>, s: Option<string>): Option<Recipient>
  {
    if |ts| == 0 then None
    else if ts[|ts| - 1].server == s then Some(ts[|ts| - 1])
    else LastWith(ts[..|ts| - 1], s)
  }

  /** Server de-duplication reaches every server once, with the last target named for it. */
  lemma {:induction false} ByServerCovers(ts: seq<Recipient>)
    ensures forall t :: t in ts ==> exists u :: u in ByServer(ts) && u.server == t.server
    ensures forall u :: u in ByServer(ts) ==> LastWith(ts, u.server) == Some(u)
  {
    if |ts| > 0 {
      var init, t := ts[..|ts| - 1], ts[|ts| - 1];
      ByServerCovers(init);
      var r := ByServer(ts);
      assert ts == init + [t];
      forall x | x in ts ensures exists u :: u in r && u.server == x.server {
        if x != t && x.server != t.server {
          assert x in init;
          var u :| u in ByServer(init) && u.server == x.server;
          assert u in r;
        } else {
          assert t in r;
        }
      }
    }
  }

  /** The public fan-out: AttributeError when a target has no `diasp`, else one target per server. */
  function PublicTargets(ts: seq<Recipient>): (r: Result<seq<Recipient>>)
    ensures r.Err? <==> exists t :: t in ts && t.server.None?
    ensures r.Err? ==> r.error == AttributeErr
    ensures r.Ok? ==> DistinctServers(r.value) && (forall u :: u in r.value ==> u in ts)
  {
    if exists t :: t in ts && t.server.None? then Err(AttributeErr) else Ok(ByServer(ts))
  }

  /** The non-public fan-out: the targets that follow the author, in order. */
  function FollowerTargets(ts: seq<Recipient>, followers: set<int>): (r: seq<Recipient>)
    ensures |r| <= |ts|
    ensures forall u :: u in r <==> u in ts && u.id in followers
  {
    if |ts| == 0 then []
    else if ts[0].id in followers then [ts[0]] + FollowerTargets(ts[1..], followers)
    else FollowerTargets(ts[1..], followers)
  }

  /** Filtering to followers twice is filtering once. */
  lemma {:induction false} FollowerTargetsIdempotent(ts: seq<Recipient>, followers: set<int>)
    ensures FollowerTargets(FollowerTargets(ts, followers), followers) == FollowerTargets(ts, followers)
  {
    if |ts| > 0 {
      FollowerTargetsIdempotent(ts[1..], followers);
      if ts[0].id in followers {
        var r := FollowerTargets(ts, followers);
        assert r[0] == ts[0] && r[1..] == FollowerTargets(ts[1..], followers);
      }
    }
  }

  /** What one `send_to` does: the class that carries the post, its fan-out, and the type it stores. */
  datatype Plan = Plan(sender: Sender, public: bool, recipients: seq<Recipient>, stored: Option<PostType>)

  /**
   * `DiasporaPost.send_to(targets, private)`. The author must be local and
   * must have a share of the post (both are asserted). The text of the
   * message is not modelled.
   */
  function SendTo(authorIsLocal: bool, selfShare: Option<Social.Share>, post: DiasporaPost, isReply: bool,
                  rootType: Option<PostType>, targets: seq<Recipient>, followers: set<int>,
                  privateFlag: bool): (r: Result<Plan>)
    ensures !authorIsLocal || selfShare.None? ==> r == Err(AssertionFailed)
    ensures authorIsLocal && selfShare.Some? ==>
      var d := Decide(post.kind, isReply, rootType, selfShare.value.public, privateFlag);
      && (r.Err? <==> d.public && exists t :: t in targets && t.server.None?)
      && (r.Ok? ==>
            && r.value.sender == SenderFor(d.private, isReply)
            && r.value.public == d.public
            && r.value.stored == (if post.kind.Some? then post.kind else d.stored)
            && (d.public ==> DistinctServers(r.value.recipients))
            && (!d.public ==> forall u :: u in r.value.recipients <==> u in targets && u.id in followers))
  {
    if !authorIsLocal || selfShare.None? then Err(AssertionFailed)
    else
      var d := Decide(post.kind, isReply, rootType, selfShare.value.public, privateFlag);
      var sender := SenderFor(d.private, isReply);
      if d.public then
        var rs :- PublicTargets(targets);
        Ok(Plan(sender, true, rs, d.stored))
      else
        Ok(Plan(sender, false, FollowerTargets(targets, followers), d.stored))
  }

  /**
   * `send_to` as written: its first statement imports `PrivateMessage`,
   * `SubPost` and `SubPM` from `pyaspora.diaspora.actions`, which defines
   * only `PostMessage` of the four, so every call raises ImportError
   * before the assertions are reached.
   */
  function SendToAsWritten(authorIsLocal: bool, selfShare: Option<Social.Share>, post: DiasporaPost, isReply: bool,
                           rootType: Option<PostType>, targets: seq<Recipient>, followers: set<int>,
                           privateFlag: bool): (r: Result<Plan>)
    ensures r.Err? && r.error == ImportErr
  {
    Err(ImportErr)
  }

  /**
   * Where the intended `send_to` plans a delivery (a local author with a
   * share of the post, and every public target with a Diaspora record), the
   * one as written raises ImportError; nor does it fail the assertions.
   */
  lemma SendToImportFails(authorIsLocal: bool, selfShare: Option<Social.Share>, post: DiasporaPost, isReply: bool,
                          rootType: Option<PostType>, targets: seq<Recipient>, followers: set<int>,
                          privateFlag: bool)
    requires authorIsLocal && selfShare.Some? && forall t :: t in targets ==> t.server.Some?
    ensures SendTo(authorIsLocal, selfShare, post, isReply, rootType, targets, followers, privateFlag).Ok?
    ensures SendToAsWritten(authorIsLocal, selfShare, post, isReply, rootType, targets, followers, privateFlag)
              == Err(ImportErr)
  {
  }

  /** `can_reply_with(target)`: "self" always; "wall" for a public post; "existing" otherwise. */
  function CanReplyWith(kind: Option<PostType>, targetName: string): (r: bool)
    ensures targetName == "self" ==> r
    ensures targetName != "self" && targetName != "wall" && targetName != "existing" ==> !r
    ensures targetName == "wall" ==> (r <==> kind == Some(PublicType))
    ensures targetName == "existing" ==> (r <==> kind != Some(PublicType))
  {
    if targetName == "self" then true
    else if kind == Some(PublicType) then targetName == "wall"
    else targetName == "existing"
  }

  /** A post never accepts both a wall reply and a reply to its existing viewers. */
  lemma WallAndExistingExclusive(kind: Option<PostType>)
    ensures !(CanReplyWith(kind, "wall") && CanReplyWith(kind, "existing"))
    ensures CanReplyWith(kind, "wall") || CanReplyWith(kind, "existing")
  {
  }

  /** After a first send has stored the type, a wall reply is allowed exactly when that send was public. */
  lemma ReplyTargetFollowsDecision(isReply: bool, rootType: Option<PostType>, selfPublic: bool, privateFlag: bool)
    requires !(isReply && rootType.Some?)
    ensures var d := Decide(None, isReply, rootType, selfPublic, privateFlag);
      CanReplyWith(d.stored, "wall") <==> d.public
  {
  }

  /**
   * `DiasporaPost.get_for_post(post)`: the existing record, or a new one with
   * the fresh guid, which only a locally authored post may get.
   */
  function GetForPost(table: map<int, DiasporaPost>, postId: int, authorIsLocal: bool, freshGuid: string)
    : (r: Result<(DiasporaPost, map<int, DiasporaPost>)>)
    ensures postId in table ==> r == Ok((table[postId], table))
    ensures postId !in table ==> (r.Ok? <==> authorIsLocal)
    ensures r.Ok? ==> postId in r.value.1 && r.value.1[postId] == r.value.0
    ensures r.Ok? ==> forall k :: k in table ==> k in r.value.1 && r.value.1[k] == table[k]
    ensures r.Ok? && postId !in table ==> r.value.0.kind.None? && r.value.1.Keys == table.Keys + {postId}
  {
    if postId in table then Ok((table[postId], table))
    else if !authorIsLocal then Err(AssertionFailed)
    else
      var diasp := DiasporaPost(freshGuid, None);
      Ok((diasp, table[postId := diasp]))
  }

  /** A second `get_for_post` returns the record the first made and changes nothing. */
  lemma GetForPostIdempotent(table: map<int, DiasporaPost>, postId: int, authorIsLocal: bool, g1: string, g2: string)
    requires GetForPost(table, postId, authorIsLocal, g1).Ok?
    ensures var (diasp, t1) := GetForPost(table, postId, authorIsLocal, g1).value;
      GetForPost(t1, postId, authorIsLocal, g2) == Ok((diasp, t1))
  {
  }
}

=== FILE: Directory.dfy ===
/**
 * `DiasporaContact`: the federation identity (guid, `user@host` username,
 * server URL) cached for a contact, and the filter that decides which
 * entries of a remote public feed become local posts.
 *
 * The table is a sequence of rows; `.first()` is the first matching row.
 * Fresh uuid4 guids, the webfinger import of an unknown address and the
 * lookup of a feed author are parameters.
 */
module Directory {
  import opened Results
  import Text
  import opened Url
  import Social

  datatype DiasporaContact = DiasporaContact(contactId: int, guid: string, username: string, server: string)

  /** The first row satisfying `keep`, by index. */
  function FindRow(table: seq<DiasporaContact>, keep: DiasporaContact -> bool): (r: Option<nat>)
    ensures r.Some? ==> r.value < |table| && keep(table[r.value])
    ensures r.Some? ==> forall i :: 0 <= i < r.value ==> !keep(table[i])
    ensures r.None? ==> forall i :: 0 <= i < |table| ==> !keep(table[i])
  {
    if |table| == 0 then None
    else if keep(table[0]) then Some(0)
    else match FindRow(table[1..], keep)
      case None => None
      case Some(i) => Some(i + 1)
  }

  /** `contact.diasp`: the row of the contact, if any. */
  function ForContact(table: seq<DiasporaContact>, contactId: int): (r: Option<DiasporaContact>)
    ensures r.Some? ==> r.value in table && r.value.contactId == contactId
    ensures r.None? ==> forall d :: d in table ==> d.contactId != contactId
  {
    match FindRow(table, (d: DiasporaContact) => d.contactId == contactId)
    case None => None
    case Some(i) => Some(table[i])
  }

  /** `DiasporaContact.get_by_guid(guid)`. */
  function GetByGuid(table: seq<DiasporaContact>, guid: string): (r: Option<DiasporaContact>)
    ensures r.Some? ==> r.value in table && r.value.guid == guid
    ensures r.None? ==> forall d :: d in table ==> d.guid != guid
  {
    match FindRow(table, (d: DiasporaContact) => d.guid == guid)
    case None => None
    case Some(i) => Some(table[i])
  }

  /** The row whose username is `addr`, if any. */
  function ByUsername(table: seq<DiasporaContact>, addr: string): (r: Option<DiasporaContact>)
    ensures r.Some? ==> r.value in table && r.value.username == addr
    ensures r.None? ==> forall d :: d in table ==> d.username != addr
  {
    match FindRow(table, (d: DiasporaContact) => d.username == addr)
    case None => None
    case Some(i) => Some(table[i])
  }

  /** The username a local user gets: `"{user id}@{hostname}"`. */
  function LocalUsername(userId: int, hostname: string): string
  {
    Text.IntToString(userId) + "@" + hostname
  }

  /**
   * `DiasporaContact.get_for_contact(contact)`: the existing row, or a new
   * one for a local contact, whose server is the scheme and location of the
   * request URL with the path "/" and whose username is the USER id at the
   * request's location.
   */
  function GetForContact(table: seq<DiasporaContact>, contact: Social.Contact, requestUrl: string, freshGuid: string)
    : (r: Result<(DiasporaContact, seq<DiasporaContact>)>)
    ensures ForContact(table, contact.id).Some? ==> r == Ok((ForContact(table, contact.id).value, table))
    ensures ForContact(table, contact.id).None? && contact.user.None? ==> r == Err(AssertionFailed)
    ensures ForContact(table, contact.id).None? && contact.user.Some? ==>
      (r.Ok? <==> UrlSplit(requestUrl, "").Ok?)
      && (r.Ok? ==>
            var u := UrlSplit(requestUrl, "").value;
            && r.value.0 == DiasporaContact(contact.id, freshGuid, LocalUsername(contact.user.value, u.netloc),
                                            UrlUnsplit(Split(u.scheme, u.netloc, "/", "", "")))
            && r.value.1 == table + [r.value.0])
    ensures r.Ok? ==> ForContact(r.value.1, contact.id) == Some(r.value.0)
  {
    match ForContact(table, contact.id)
    case Some(d) => Ok((d, table))
    case None =>
      if contact.user.None? then Err(AssertionFailed)
      else
        var u :- UrlSplit(requestUrl, "");
        var d := DiasporaContact(contact.id, freshGuid, LocalUsername(contact.user.value, u.netloc),
                                 UrlUnsplit(Split(u.scheme, u.netloc, "/", "", "")));
        ForContactAppend(table, contact.id, d);
        Ok((d, table + [d]))
  }

  lemma {:induction false} ForContactAppend(table: seq<DiasporaContact>, contactId: int, d: DiasporaContact)
    requires ForContact(table, contactId).None? && d.contactId == contactId
    ensures ForContact(table + [d], contactId) == Some(d)
  {
    var t := table + [d];
    assert forall i :: 0 <= i < |table| ==> t[i] == table[i] && table[i] in table;
    assert t[|table|] == d;
  }

  /** Asking again for the same contact returns the row the first call made. */
  lemma GetForContactIdempotent(table: seq<DiasporaContact>, contact: Social.Contact, url: string, g1: string,
                                url2: string, g2: string)
    requires GetForContact(table, contact, url, g1).Ok?
    ensures var (d, t1) := GetForContact(table, contact, url, g1).value;
      GetForContact(t1, contact, url2, g2) == Ok((d, t1))
  {
  }

  /** A username made here splits at its only '@' into the user id's text and the hostname. */
  lemma LocalUsernameSplits(userId: int, hostname: string)
    requires '@' !in hostname
    ensures Text.Split(LocalUsername(userId, hostname), '@') == [Text.IntToString(userId), hostname]
    ensures Text.ParseInt(Text.Split(LocalUsername(userId, hostname), '@')[0]) == Some(userId)
  {
    Text.IntToStringNoAt(userId);
    Text.SplitPrefix(Text.IntToString(userId), '@', hostname);
    Text.SplitNoSeparator(hostname, '@');
    Text.ParseIntString(userId);
  }

  /**
   * `DiasporaContact.get_by_username(addr, import_contact)`: the cached row;
   * otherwise the import's outcome, or, with importing switched off, the
   * UnboundLocalError (a NameError) of returning the unassigned `contact`.
   */
  function GetByUsername(table: seq<DiasporaContact>, addr: string, importContact: bool,
                         importer: string -> Result<Option<DiasporaContact>>): (r: Result<Option<DiasporaContact>>)
    ensures ByUsername(table, addr).Some? ==> r == Ok(ByUsername(table, addr))
    ensures ByUsername(table, addr).None? && importContact ==> r == importer(addr)
    ensures ByUsername(table, addr).None? && !importContact ==> r == Err(NameErr)
  {
    match ByUsername(table, addr)
    case Some(d) => Ok(Some(d))
    case None => if importContact then importer(addr) else Err(NameErr)
  }

  /** The fields of one entry of a remote public feed that the import reads. */
  datatype FeedEntry = FeedEntry(authorGuid: string, authorHandle: string, guid: string, public: bool,
                                 rootGuid: Option<string>)

  /** A post the import creates: its author's contact, its guid, and its parent's guid. */
  datatype Imported = Imported(author: int, guid: string, parentGuid: Option<string>)

  /** Whether the import takes `e` and, if so, the post it makes. */
  function Take(self: DiasporaContact, e: FeedEntry, lookup: string -> Option<DiasporaContact>, known: set<string>)
    : (r: Option<Imported>)
    ensures r.Some? ==> r.value.guid == e.guid && e.public && e.guid !in known
    ensures r.Some? ==> r.value.parentGuid == e.rootGuid && (e.rootGuid.Some? ==> e.rootGuid.value in known)
  {
    var author := if self.username == e.authorHandle then Some(self) else lookup(e.authorHandle);
    if author.None? || author.value.guid != e.authorGuid || e.guid in known || !e.public then None
    else if e.rootGuid.Some? && e.rootGuid.value !in known then None
    else Some(Imported(author.value.contactId, e.guid, e.rootGuid))
  }

  /**
   * The loop of `import_public_posts` over `entries`: an entry is taken when
   * its author resolves (to this contact by username, else via `lookup`)
   * with the same guid, it is public, its guid is not a known post, and any
   * root it names is a known post. `known` grows with every post made.
   */
  function ImportEntries(self: DiasporaContact, entries: seq<FeedEntry>, lookup: string -> Option<DiasporaContact>,
                         known: set<string>): (r: seq<Imported>)
    ensures |r| <= |entries|
    ensures forall i :: 0 <= i < |r| ==> r[i].guid !in known
    ensures forall i, j :: 0 <= i < j < |r| ==> r[i].guid != r[j].guid
    decreases |entries|
  {
    if |entries| == 0 then []
    else match Take(self, entries[0], lookup, known)
      case None => ImportEntries(self, entries[1..], lookup, known)
      case Some(p) =>
        var rest := ImportEntries(self, entries[1..], lookup, known + {p.guid});
        var r := [p] + rest;
        assert forall i :: 1 <= i < |r| ==> r[i] == rest[i - 1];
        r
  }

  /** Every imported post comes from a public entry of the feed. */
  lemma {:induction false} ImportedFromFeed(self: DiasporaContact, entries: seq<FeedEntry>,
                                            lookup: string -> Option<DiasporaContact>, known: set<string>, i: nat)
    requires i < |ImportEntries(self, entries, lookup, known)|
    ensures exists e :: e in entries && e.guid == ImportEntries(self, entries, lookup, known)[i].guid && e.public
    decreases |entries|
  {
    var r := ImportEntries(self, entries, lookup, known);
    assert forall x :: x in entries[1..] ==> x in entries;
    match Take(self, entries[0], lookup, known)
    case None =>
      assert r == ImportEntries(self, entries[1..], lookup, known);
      ImportedFromFeed(self, entries[1..], lookup, known, i);
    case Some(p) =>
      if i == 0 {
        assert entries[0] in entries;
      } else {
        ImportedFromFeed(self, entries[1..], lookup, known + {p.guid}, i - 1);
      }
  }

  /** A parent an imported post names is a post known beforehand or one imported earlier in the run. */
  lemma {:induction false} ImportedParentKnown(self: DiasporaContact, entries: seq<FeedEntry>,
                                               lookup: string -> Option<DiasporaContact>, known: set<string>, i: nat)
    requires i < |ImportEntries(self, entries, lookup, known)|
    requires ImportEntries(self, entries, lookup, known)[i].parentGuid.Some?
    ensures var r := ImportEntries(self, entries, lookup, known);
      r[i].parentGuid.value in known || exists j :: 0 <= j < i && r[j].guid == r[i].parentGuid.value
    decreases |entries|
  {
    var r := ImportEntries(self, entries, lookup, known);
    match Take(self, entries[0], lookup, known)
    case None =>
      assert r == ImportEntries(self, entries[1..], lookup, known);
      ImportedParentKnown(self, entries[1..], lookup, known, i);
    case Some(p) =>
      if i > 0 {
        var rest := ImportEntries(self, entries[1..], lookup, known + {p.guid});
        assert r[i] == rest[i - 1];
        ImportedParentKnown(self, entries[1..], lookup, known + {p.guid}, i - 1);
        var g := r[i].parentGuid.value;
        if g !in known {
          if g == p.guid {
            assert r[0].guid == g;
          } else {
            var j :| 0 <= j < i - 1 && rest[j].guid == g;
            assert r[j + 1] == rest[j];
          }
        }
      }
  }

  /** Feeding the same entries again once their guids are known imports nothing. */
  lemma {:induction false} ReimportNothing(self: DiasporaContact, entries: seq<FeedEntry>,
                                           lookup: string -> Option<DiasporaContact>, known: set<string>)
    requires forall e :: e in entries ==> e.guid in known
    ensures ImportEntries(self, entries, lookup, known) == []
    decreases |entries|
  {
    if |entries| > 0 {
      assert entries[0] in entries;
      assert forall e :: e in entries[1..] ==> e in entries;
      ReimportNothing(self, entries[1..], lookup, known);
      assert Take(self, entries[0], lookup, known).None?;
    }
  }
}

=== FILE: Envelope.dfy ===
/**
 * The Diaspora/Salmon envelope as `DiasporaMessageBuilder` writes it and
 * `DiasporaMessageParser` reads it back.
 *
 * The payload `<XML><post>…</post></XML>` is PKCS#7-padded and encrypted
 * with the inner AES key; the ciphertext is base64-encoded, the result
 * base64url-encoded again, cut into 60-character lines and signed. The
 * inner key and IV, together with the author's handle, form the decrypted
 * header, which is padded and encrypted with the outer AES key; the outer
 * key and IV form a JSON key bundle encrypted with the recipient's RSA key.
 *
 * XML and JSON are not implemented: `Codecs` holds their serialisers and
 * parsers, and `SoundCodecs` states that parsing gives back what was serialised.
 */
module Envelope {
  import opened Results
  import opened Bytes
  import opened Base64
  import opened Crypto
  import Pkcs7
  import Text

  /** The `me:env` element: the parts of the envelope the parser reads or the signature covers. */
  datatype Envelope = Envelope(
    encryptedHeader: string,  // text of `encrypted_header`
    encoding: string,         // text of `me:encoding`
    alg: string,              // text of `me:alg`
    dataType: string,         // `type` attribute of `me:data`
    data: string,             // text of `me:data`
    sig: string)              // text of `me:sig`

  datatype Codecs = Codecs(
    jsonDump: map<string, string> -> string,          // json.dumps of a flat object
    jsonLoad: string -> Option<map<string, string>>,  // json.loads; None: a parse error
    headerDump: map<string, string> -> seq<byte>,     // `<decrypted_header>` with one child per key
    headerLoad: seq<byte> -> Option<map<string, string>>,  // child element texts by tag
    payloadDump: string -> seq<byte>,                 // `<XML><post>message</post></XML>`
    envelopeDump: Envelope -> seq<byte>,              // the whole `diaspora` document
    envelopeLoad: seq<byte> -> Option<Envelope>)

  /** Element texts that lxml gives back unchanged (an empty text reads back as None). */
  predicate NonEmptyTexts(m: map<string, string>)
  {
    forall k :: k in m ==> m[k] != ""
  }

  ghost predicate SoundCodecs(c: Codecs)
  {
    && (forall m :: IsAscii(c.jsonDump(m)) && c.jsonLoad(c.jsonDump(m)) == Some(m))
    && (forall m :: NonEmptyTexts(m) ==> c.headerLoad(c.headerDump(m)) == Some(m))
    && (forall e :: c.envelopeLoad(c.envelopeDump(e)) == Some(e))
    && (forall e :: |c.envelopeDump(e)| > 0 && c.envelopeDump(e)[0] == '<' as int)
  }

  /** The random material the builder draws in its constructor. */
  datatype Keys = Keys(innerIv: seq<byte>, innerKey: seq<byte>, outerIv: seq<byte>, outerKey: seq<byte>)

  /** The sizes the builder draws: one AES block of IV and a 32-byte key, each. */
  predicate DrawnKeys(k: Keys)
  {
    |k.innerIv| == AesBlockSize && |k.innerKey| == 32 && |k.outerIv| == AesBlockSize && |k.outerKey| == 32
  }

  const EncodingName: string := "base64url"
  const AlgName: string := "RSA-SHA256"
  const DataTypeName: string := "application/xml"

  /** The characters per line of the wrapped payload. */
  const LineLength: nat := 60

  // ---------------------------------------------------------------- building

  /** The fields of the decrypted header (`create_decrypted_header`). */
  function DecryptedHeader(k: Keys, authorId: string): (m: map<string, string>)
    ensures m.Keys == {"iv", "aes_key", "author_id"}
    ensures m["iv"] == Encode(Standard, k.innerIv) && m["aes_key"] == Encode(Standard, k.innerKey)
    ensures m["author_id"] == authorId
  {
    map["iv" := Encode(Standard, k.innerIv), "aes_key" := Encode(Standard, k.innerKey), "author_id" := authorId]
  }

  /** The outer AES key bundle (`create_outer_aes_key_bundle`). */
  function KeyBundle(k: Keys): (m: map<string, string>)
    ensures m.Keys == {"iv", "key"}
    ensures m["iv"] == Encode(Standard, k.outerIv) && m["key"] == Encode(Standard, k.outerKey)
  {
    map["iv" := Encode(Standard, k.outerIv), "key" := Encode(Standard, k.outerKey)]
  }

  /**
   * `create_ciphertext`: the padded header under the outer key. The key and
   * IV lengths were checked when the encrypter was made, and padding makes
   * the length a whole number of blocks, so the encryption cannot fail.
   */
  function Ciphertext(p: Primitives, c: Codecs, k: Keys, authorId: string): (r: seq<byte>)
    requires ValidAesKey(k.outerKey) && |k.outerIv| == AesBlockSize
    ensures AesCbcEncrypt(p, k.outerKey, k.outerIv, PaddedHeader(c, k, authorId)) == Ok(r)
  {
    p.aesEncrypt(k.outerKey, k.outerIv, PaddedHeader(c, k, authorId))
  }

  function PaddedHeader(c: Codecs, k: Keys, authorId: string): (r: seq<byte>)
    ensures Pkcs7.Pad(c.headerDump(DecryptedHeader(k, authorId)), Pkcs7.BlockSize) == Ok(r)
    ensures |r| % AesBlockSize == 0
  {
    Pkcs7.Pad(c.headerDump(DecryptedHeader(k, authorId)), Pkcs7.BlockSize).value
  }

  /** `create_encrypted_outer_aes_key_bundle`. */
  function EncryptedKeyBundle(p: Primitives, c: Codecs, k: Keys, recipient: PublicKey): seq<byte>
  {
    p.rsaEncrypt(recipient, Utf8Encode(c.jsonDump(KeyBundle(k))))
  }

  /** The JSON object of `create_encrypted_header_json_object`. */
  function HeaderObject(bundle: seq<byte>, ciphertext: seq<byte>): (m: map<string, string>)
    ensures m.Keys == {"aes_key", "ciphertext"}
    ensures m["aes_key"] == Encode(Standard, bundle) && m["ciphertext"] == Encode(Standard, ciphertext)
  {
    map["aes_key" := Encode(Standard, bundle), "ciphertext" := Encode(Standard, ciphertext)]
  }

  /** The text of the `encrypted_header` element (`create_encrypted_header`). */
  function EncryptedHeader(p: Primitives, c: Codecs, k: Keys, authorId: string, recipient: PublicKey): Result<string>
    requires ValidAesKey(k.outerKey) && |k.outerIv| == AesBlockSize
  {
    var bundle := EncryptedKeyBundle(p, c, k, recipient);
    var ciphertext := Ciphertext(p, c, k, authorId);
    var json := c.jsonDump(HeaderObject(bundle, ciphertext));
    var bytes :- AsciiEncode(json);
    Ok(Encode(Standard, bytes))
  }

  /** `create_encrypted_payload`: the padded payload XML under the inner key; cannot fail, as above. */
  function EncryptedPayload(p: Primitives, c: Codecs, k: Keys, message: string): (r: seq<byte>)
    requires ValidAesKey(k.innerKey) && |k.innerIv| == AesBlockSize
    ensures AesCbcEncrypt(p, k.innerKey, k.innerIv, PaddedPayload(c, message)) == Ok(r)
  {
    p.aesEncrypt(k.innerKey, k.innerIv, PaddedPayload(c, message))
  }

  function PaddedPayload(c: Codecs, message: string): (r: seq<byte>)
    ensures Pkcs7.Pad(c.payloadDump(message), Pkcs7.BlockSize) == Ok(r)
    ensures |r| % AesBlockSize == 0
  {
    Pkcs7.Pad(c.payloadDump(message), Pkcs7.BlockSize).value
  }

  /** `urlsafe_b64encode(b64encode(payload))`: base64 twice, the outer layer URL-safe. */
  function PayloadText(encrypted: seq<byte>): string
  {
    Encode(UrlSafe, EncodeBytes(Standard, encrypted))
  }

  /** `[s[i:i+n] for i in range(0, len(s), n)]`. */
  function Chunks(s: string, n: nat): (r: seq<string>)
    requires n > 0
    ensures forall i :: 0 <= i < |r| ==> 0 < |r[i]| <= n
    ensures forall i :: 0 <= i < |r| - 1 ==> |r[i]| == n
    ensures |s| > 0 <==> |r| > 0
    decreases |s|
  {
    if |s| == 0 then []
    else if |s| <= n then [s]
    else [s[..n]] + Chunks(s[n..], n)
  }

  /** The payload as it is put into `me:data`: 60-character lines, each ended by a newline. */
  function Wrap(s: string): string
  {
    Text.Join(Chunks(s, LineLength), "\n") + "\n"
  }

  const AppXmlBytes: seq<byte> := [97, 112, 112, 108, 105, 99, 97, 116, 105, 111, 110, 47, 120, 109, 108]
  const Base64UrlBytes: seq<byte> := [98, 97, 115, 101, 54, 52, 117, 114, 108]
  const RsaSha256Bytes: seq<byte> := [82, 83, 65, 45, 83, 72, 65, 50, 53, 54]

  /** The three labels the signature covers, base64-encoded (see `SignatureBaseLabels`). */
  const AppXmlLabel: string := "YXBwbGljYXRpb24veG1s"
  const Base64UrlLabel: string := "YmFzZTY0dXJs"
  const RsaSha256Label: string := "UlNBLVNIQTI1Ng=="

  /** The string the author signs: the data and the three labels, dot-separated. */
  function SignatureBase(data: string): string
  {
    data + "." + AppXmlLabel + "." + Base64UrlLabel + "." + RsaSha256Label
  }

  /** `create_salmon_envelope`: the serialised envelope for one recipient. */
  function Build(p: Primitives, c: Codecs, k: Keys, message: string, authorId: string,
                 recipient: PublicKey, author: PrivateKey): (r: Result<seq<byte>>)
    ensures r.Ok? ==> ValidAesKey(k.innerKey) && |k.innerIv| == AesBlockSize
    ensures r.Ok? ==> ValidAesKey(k.outerKey) && |k.outerIv| == AesBlockSize
    ensures r.Ok? ==> EncryptedHeader(p, c, k, authorId, recipient).Ok?
    ensures r.Ok? ==> r.value == c.envelopeDump(Built(p, c, k, message, authorId, recipient, author))
  {
    if !(ValidAesKey(k.innerKey) && |k.innerIv| == AesBlockSize) then Err(ValueErr)
    else if !(ValidAesKey(k.outerKey) && |k.outerIv| == AesBlockSize) then Err(ValueErr)
    else if EncryptedHeader(p, c, k, authorId, recipient).Err? then
      Err(EncryptedHeader(p, c, k, authorId, recipient).error)
    else Ok(c.envelopeDump(Built(p, c, k, message, authorId, recipient, author)))
  }

  /**
   * The envelope a successful build serialises: the fixed labels, the wrapped
   * double-base64 payload, and a signature over exactly `SignatureBase(data)`.
   */
  function Built(p: Primitives, c: Codecs, k: Keys, message: string, authorId: string,
                 recipient: PublicKey, author: PrivateKey): (e: Envelope)
    requires ValidAesKey(k.innerKey) && |k.innerIv| == AesBlockSize
    requires ValidAesKey(k.outerKey) && |k.outerIv| == AesBlockSize
    requires EncryptedHeader(p, c, k, authorId, recipient).Ok?
    ensures e.encoding == EncodingName && e.alg == AlgName && e.dataType == DataTypeName
    ensures e.encryptedHeader == EncryptedHeader(p, c, k, authorId, recipient).value
    ensures e.data == Wrap(PayloadText(EncryptedPayload(p, c, k, message)))
    ensures IsAscii(SignatureBase(e.data))
    ensures e.sig == Encode(UrlSafe, p.sign(author, p.sha256(AsciiOf(SignatureBase(e.data)))))
  {
    var data := Wrap(PayloadText(EncryptedPayload(p, c, k, message)));
    PayloadTextAscii(EncryptedPayload(p, c, k, message));
    var signed := AsciiOf(SignatureBase(data));
    var sig := Encode(UrlSafe, p.sign(author, p.sha256(signed)));
    Envelope(EncryptedHeader(p, c, k, authorId, recipient).value, EncodingName, AlgName, DataTypeName, data, sig)
  }

  // ----------------------------------------------------------------- parsing

  /** What the parser recovers: the claimed sender and the payload XML. */
  datatype Opened = Opened(sender: string, body: seq<byte>)

  /** `base64.b64decode(text.encode("ascii"))`. */
  function B64DecodeText(t: string): (r: Result<seq<byte>>)
    ensures r.Ok? ==> IsAscii(t) && Decode(t) == Some(r.value)
  {
    if !IsAscii(t) then Err(ValueErr)
    else match Decode(t)
      case None => Err(ValueErr)
      case Some(b) => Ok(b)
  }

  /** `base64.b64decode(b)` of a `bytes` value. */
  function B64DecodeBytes(b: seq<byte>): (r: Result<seq<byte>>)
    ensures r.Ok? ==> Decode(AsChars(b)) == Some(r.value)
  {
    match Decode(AsChars(b))
    case None => Err(ValueErr)
    case Some(d) => Ok(d)
  }

  /** `base64.urlsafe_b64decode(text.encode("ascii"))`. */
  function UrlSafeDecodeText(t: string): (r: Result<seq<byte>>)
    ensures r.Ok? ==> IsAscii(t) && UrlSafeDecode(t) == Some(r.value)
  {
    if !IsAscii(t) then Err(ValueErr)
    else match UrlSafeDecode(t)
      case None => Err(ValueErr)
      case Some(b) => Ok(b)
  }

  /** `rep[key]` of a JSON object, or a header element's text: `missing` when absent. */
  function Field(m: map<string, string>, key: string, missing: Exc): (r: Result<string>)
    ensures r.Ok? <==> key in m
    ensures r.Ok? ==> r.value == m[key]
    ensures r.Err? ==> r.error == missing
  {
    if key in m then Ok(m[key]) else Err(missing)
  }

  function LoadJson(c: Codecs, s: string): Result<map<string, string>>
  {
    match c.jsonLoad(s)
    case None => Err(ParseFailed)
    case Some(m) => Ok(m)
  }

  /** `decrypt_outer_aes_key_bundle`: a missing private key fails the assertion. */
  function DecryptKeyBundle(p: Primitives, c: Codecs, data: string, key: Option<PrivateKey>): (r: Result<map<string, string>>)
    ensures key.None? ==> r == Err(AssertionFailed)
  {
    if key.None? then Err(AssertionFailed)
    else
      var encrypted :- B64DecodeText(data);
      match p.rsaDecrypt(key.value, encrypted)
      case None => Err(AttributeErr)  // `.decode` of the None sentinel
      case Some(plain) =>
        var json :- AsciiDecode(plain);
        LoadJson(c, json)
  }

  /** `get_decrypted_header`: decrypt with the outer key, unpad, parse. */
  function DecryptHeader(p: Primitives, c: Codecs, ciphertext: seq<byte>, key: seq<byte>, iv: seq<byte>): Result<map<string, string>>
  {
    var padded :- AesCbcDecrypt(p, key, iv, ciphertext);
    var xml :- Pkcs7.Unpad(padded);
    match c.headerLoad(xml)
    case None => Err(ParseFailed)
    case Some(m) => Ok(m)
  }

  /** `parse_header`: JSON object, then key bundle, then the decrypted header. */
  function ParseHeader(p: Primitives, c: Codecs, b64data: string, key: Option<PrivateKey>): (r: Result<map<string, string>>)
    ensures !IsAscii(b64data) ==> r == Err(ValueErr)
    ensures key.None? ==> r.Err?
  {
    var decoded :- B64DecodeText(b64data);
    var text :- AsciiDecode(decoded);
    var rep :- LoadJson(c, text);
    var aesKey :- Field(rep, "aes_key", KeyErr);
    var outer :- DecryptKeyBundle(p, c, aesKey, key);
    var ciphertextText :- Field(rep, "ciphertext", KeyErr);
    var ciphertext :- B64DecodeText(ciphertextText);
    var outerKeyText :- Field(outer, "key", KeyErr);
    var outerKey :- B64DecodeText(outerKeyText);
    var outerIvText :- Field(outer, "iv", KeyErr);
    var outerIv :- B64DecodeText(outerIvText);
    DecryptHeader(p, c, ciphertext, outerKey, outerIv)
  }

  /**
   * The second half of `process_salmon_envelope`: with the decrypted
   * header, decrypt the payload under the inner key and IV it names.
   */
  function OpenPayload(p: Primitives, header: map<string, string>, data: string): (r: Result<Opened>)
    ensures "author_id" !in header ==> r == Err(AttributeErr)
    ensures r.Ok? ==> r.value.sender == header["author_id"]
  {
    var sender :- Field(header, "author_id", AttributeErr);
    var ivText :- Field(header, "iv", AttributeErr);
    var innerIv :- B64DecodeText(ivText);
    var keyText :- Field(header, "aes_key", AttributeErr);
    var innerKey :- B64DecodeText(keyText);
    var checked :- AesCbcCheck(innerKey, innerIv);
    var outer :- UrlSafeDecodeText(data);
    var raw :- B64DecodeBytes(outer);
    var plain :- AesCbcDecrypt(p, innerKey, innerIv, raw);
    var body :- Pkcs7.Unpad(plain);
    Ok(Opened(sender, body))
  }

  /**
   * `process_salmon_envelope`. The sender's contact lookup and the signature
   * check (a no-op in the source) are not part of this function; the result
   * carries the sender handle they would use and the body the source returns.
   */
  function ProcessEnvelope(p: Primitives, c: Codecs, xml: string, key: Option<PrivateKey>): (r: Result<Opened>)
    ensures c.envelopeLoad(Utf8Encode(Text.LStrip(xml))).None? ==> r == Err(ParseFailed)
    ensures key.None? ==> r.Err?
  {
    match c.envelopeLoad(Utf8Encode(Text.LStrip(xml)))
    case None => Err(ParseFailed)
    case Some(doc) =>
      var header :- ParseHeader(p, c, doc.encryptedHeader, key);
      OpenPayload(p, header, doc.data)
  }
  // ------------------------------------------------------------- properties

  /** One step of joining the chunks: the first line, a separator, the rest. */
  lemma JoinChunks(s: string, n: nat, sep: string)
    requires n > 0
    ensures Text.Join(Chunks(s, n), sep) ==
      if |s| <= n then s else s[..n] + sep + Text.Join(Chunks(s[n..], n), sep)
  {
    if |s| > n {
      var rest := Chunks(s[n..], n);
      assert Chunks(s, n) == [s[..n]] + rest;
      assert |rest| > 0;
      assert (([s[..n]] + rest)[1..]) == rest;
    }
  }

  /** The chunks, put back together, are the whole string. */
  lemma {:induction false} ChunksConcat(s: string, n: nat)
    requires n > 0
    ensures Text.Concat(Chunks(s, n)) == s
    decreases |s|
  {
    if |s| > n {
      ChunksConcat(s[n..], n);
      var rest := Chunks(s[n..], n);
      assert Chunks(s, n) == [s[..n]] + rest;
      assert (([s[..n]] + rest)[1..]) == rest;
      assert s == s[..n] + s[n..];
    } else if |s| > 0 {
      assert Chunks(s, n) == [s];
      assert s + "" == s;
    }
  }

  /** The text with its line breaks deleted. */
  function Unwrap(s: string): (r: string)
    ensures '\n' !in r
    ensures '\n' !in s ==> r == s
  {
    if |s| == 0 then ""
    else if s[0] == '\n' then Unwrap(s[1..])
    else [s[0]] + Unwrap(s[1..])
  }

  lemma {:induction false} UnwrapAppend(s: string, t: string)
    ensures Unwrap(s + t) == Unwrap(s) + Unwrap(t)
  {
    if |s| == 0 {
      assert s + t == t;
    } else {
      assert (s + t)[1..] == s[1..] + t;
      UnwrapAppend(s[1..], t);
    }
  }

  lemma {:induction false} UnwrapJoinChunks(s: string)
    requires '\n' !in s
    ensures Unwrap(Text.Join(Chunks(s, LineLength), "\n")) == s
    decreases |s|
  {
    JoinChunks(s, LineLength, "\n");
    if |s| > LineLength {
      var head, tail := s[..LineLength], s[LineLength..];
      assert '\n' !in head && '\n' !in tail by {
        assert forall i :: 0 <= i < |head| ==> head[i] == s[i];
        assert forall i :: 0 <= i < |tail| ==> tail[i] == s[i + LineLength];
      }
      UnwrapJoinChunks(tail);
      var joined := Text.Join(Chunks(tail, LineLength), "\n");
      UnwrapAppend(head + "\n", joined);
      UnwrapAppend(head, "\n");
      assert Unwrap("\n") == "";
      assert s == head + tail;
    }
  }

  /** Deleting the line breaks of the wrapped payload gives the unwrapped payload back. */
  lemma UnwrapWrap(s: string)
    requires '\n' !in s
    ensures Unwrap(Wrap(s)) == s
  {
    UnwrapJoinChunks(s);
    UnwrapAppend(Text.Join(Chunks(s, LineLength), "\n"), "\n");
    assert Unwrap("\n") == "";
  }

  /** The characters `urlsafe_b64decode` actually decodes. */
  function Kept(s: string): string
  {
    Significant(FromUrlSafe(s))
  }

  lemma KeptAppend(s: string, t: string)
    ensures Kept(s + t) == Kept(s) + Kept(t)
  {
    FromUrlSafeAppend(s, t);
    SignificantAppend(FromUrlSafe(s), FromUrlSafe(t));
  }

  lemma KeptNewline()
    ensures Kept("\n") == ""
  {
    assert FromUrlSafe("\n") == "\n";
    assert !IsAlphabetChar(Standard, '\n');
  }

  lemma {:induction false} KeptJoinChunks(s: string)
    ensures Kept(Text.Join(Chunks(s, LineLength), "\n")) == Kept(s)
    decreases |s|
  {
    JoinChunks(s, LineLength, "\n");
    if |s| > LineLength {
      var head, tail := s[..LineLength], s[LineLength..];
      KeptJoinChunks(tail);
      var joined := Text.Join(Chunks(tail, LineLength), "\n");
      KeptAppend(head + "\n", joined);
      KeptAppend(head, "\n");
      KeptNewline();
      KeptAppend(head, tail);
      assert s == head + tail;
    }
  }

  /** The line breaks are invisible to the decoder, which discards them. */
  lemma WrapDecodes(s: string)
    ensures UrlSafeDecode(Wrap(s)) == UrlSafeDecode(s)
  {
    var joined := Text.Join(Chunks(s, LineLength), "\n");
    KeptJoinChunks(s);
    KeptAppend(joined, "\n");
    KeptNewline();
    assert Kept(Wrap(s)) == Kept(s) by {
      assert Kept(joined) + "" == Kept(joined);
    }
    DecodeSignificant(FromUrlSafe(Wrap(s)));
    DecodeSignificant(FromUrlSafe(s));
  }

  lemma {:induction false} WrapAsciiJoin(s: string)
    requires IsAscii(s)
    ensures IsAscii(Text.Join(Chunks(s, LineLength), "\n"))
    decreases |s|
  {
    JoinChunks(s, LineLength, "\n");
    if |s| > LineLength {
      var head, tail := s[..LineLength], s[LineLength..];
      assert IsAscii(head) && IsAscii(tail) by {
        assert forall i :: 0 <= i < |head| ==> head[i] == s[i];
        assert forall i :: 0 <= i < |tail| ==> tail[i] == s[i + LineLength];
      }
      WrapAsciiJoin(tail);
      var joined := Text.Join(Chunks(tail, LineLength), "\n");
      assert forall i :: 0 <= i < |head + "\n" + joined| ==>
        (head + "\n" + joined)[i] == if i < |head| then head[i] else if i == |head| then '\n' else joined[i - |head| - 1];
    }
  }

  /** The wrapped text stays ASCII: only line breaks are added. */
  lemma WrapAscii(s: string)
    requires IsAscii(s)
    ensures IsAscii(Wrap(s))
  {
    WrapAsciiJoin(s);
    AsciiAppend(Text.Join(Chunks(s, LineLength), "\n"), "\n");
  }

  /** The signed string is ASCII whenever the data is. */
  lemma SignatureBaseAscii(data: string)
    requires IsAscii(data)
    ensures IsAscii(SignatureBase(data))
  {
    LabelsAscii();
    AsciiAppend(data, "." + AppXmlLabel);
    AsciiAppend(data + "." + AppXmlLabel, "." + Base64UrlLabel);
    AsciiAppend(data + "." + AppXmlLabel + "." + Base64UrlLabel, "." + RsaSha256Label);
  }

  lemma LabelsAscii()
    ensures IsAscii("." + AppXmlLabel) && IsAscii("." + Base64UrlLabel) && IsAscii("." + RsaSha256Label)
  {
  }

  /** The payload text and the string signed are plain ASCII. */
  lemma PayloadTextAscii(encrypted: seq<byte>)
    ensures IsAscii(PayloadText(encrypted))
    ensures IsAscii(Wrap(PayloadText(encrypted)))
    ensures IsAscii(SignatureBase(Wrap(PayloadText(encrypted))))
  {
    var s := PayloadText(encrypted);
    EncodeIsAscii(UrlSafe, EncodeBytes(Standard, encrypted));
    WrapAscii(s);
    SignatureBaseAscii(Wrap(s));
  }

  /** The payload text never contains a line break of its own. */
  lemma PayloadTextNoNewline(encrypted: seq<byte>)
    ensures '\n' !in PayloadText(encrypted)
  {
    var s := PayloadText(encrypted);
    forall i | 0 <= i < |s| ensures s[i] != '\n' {
      assert IsAlphabetChar(UrlSafe, s[i]) || s[i] == '=';
    }
  }

  /** The parser's two base64 layers undo the builder's, line breaks and all. */
  lemma PayloadRoundTrip(encrypted: seq<byte>)
    ensures UrlSafeDecodeText(Wrap(PayloadText(encrypted))) == Ok(EncodeBytes(Standard, encrypted))
    ensures B64DecodeBytes(EncodeBytes(Standard, encrypted)) == Ok(encrypted)
  {
    var s := PayloadText(encrypted);
    PayloadTextAscii(encrypted);
    WrapDecodes(s);
    UrlSafeDecodeEncode(EncodeBytes(Standard, encrypted));
    DecodeEncode(encrypted);
  }


  lemma AppXmlQuad0()
    ensures Quad(Standard, 97, 112, 112) == "YXBw"
  {
    assert 97 / 4 == 24 && (97 % 4) * 16 + 112 / 16 == 23;
    assert (112 % 16) * 4 + 112 / 64 == 1 && 112 % 64 == 48;
    assert IndexChar(Standard, 24) == 'Y' && IndexChar(Standard, 23) == 'X';
    assert IndexChar(Standard, 1) == 'B' && IndexChar(Standard, 48) == 'w';
  }

  lemma AppXmlQuad1()
    ensures Quad(Standard, 108, 105, 99) == "bGlj"
  {
    assert 108 / 4 == 27 && (108 % 4) * 16 + 105 / 16 == 6;
    assert (105 % 16) * 4 + 99 / 64 == 37 && 99 % 64 == 35;
    assert IndexChar(Standard, 27) == 'b' && IndexChar(Standard, 6) == 'G';
    assert IndexChar(Standard, 37) == 'l' && IndexChar(Standard, 35) == 'j';
  }

  lemma AppXmlQuad2()
    ensures Quad(Standard, 97, 116, 105) == "YXRp"
  {
    assert 97 / 4 == 24 && (97 % 4) * 16 + 116 / 16 == 23;
    assert (116 % 16) * 4 + 105 / 64 == 17 && 105 % 64 == 41;
    assert IndexChar(Standard, 24) == 'Y' && IndexChar(Standard, 23) == 'X';
    assert IndexChar(Standard, 17) == 'R' && IndexChar(Standard, 41) == 'p';
  }

  lemma AppXmlQuad3()
    ensures Quad(Standard, 111, 110, 47) == "b24v"
  {
    assert 111 / 4 == 27 && (111 % 4) * 16 + 110 / 16 == 54;
    assert (110 % 16) * 4 + 47 / 64 == 56 && 47 % 64 == 47;
    assert IndexChar(Standard, 27) == 'b' && IndexChar(Standard, 54) == '2';
    assert IndexChar(Standard, 56) == '4' && IndexChar(Standard, 47) == 'v';
  }

  lemma AppXmlQuad4()
    ensures Quad(Standard, 120, 109, 108) == "eG1s"
  {
    assert 120 / 4 == 30 && (120 % 4) * 16 + 109 / 16 == 6;
    assert (109 % 16) * 4 + 108 / 64 == 53 && 108 % 64 == 44;
    assert IndexChar(Standard, 30) == 'e' && IndexChar(Standard, 6) == 'G';
    assert IndexChar(Standard, 53) == '1' && IndexChar(Standard, 44) == 's';
  }

  lemma Base64UrlQuad0()
    ensures Quad(Standard, 98, 97, 115) == "YmFz"
  {
    assert 98 / 4 == 24 && (98 % 4) * 16 + 97 / 16 == 38;
    assert (97 % 16) * 4 + 115 / 64 == 5 && 115 % 64 == 51;
    assert IndexChar(Standard, 24) == 'Y' && IndexChar(Standard, 38) == 'm';
    assert IndexChar(Standard, 5) == 'F' && IndexChar(Standard, 51) == 'z';
  }

  lemma Base64UrlQuad1()
    ensures Quad(Standard, 101, 54, 52) == "ZTY0"
  {
    assert 101 / 4 == 25 && (101 % 4) * 16 + 54 / 16 == 19;
    assert (54 % 16) * 4 + 52 / 64 == 24 && 52 % 64 == 52;
    assert IndexChar(Standard, 25) == 'Z' && IndexChar(Standard, 19) == 'T';
    assert IndexChar(Standard, 24) == 'Y' && IndexChar(Standard, 52) == '0';
  }

  lemma Base64UrlQuad2()
    ensures Quad(Standard, 117, 114, 108) == "dXJs"
  {
    assert 117 / 4 == 29 && (117 % 4) * 16 + 114 / 16 == 23;
    assert (114 % 16) * 4 + 108 / 64 == 9 && 108 % 64 == 44;
    assert IndexChar(Standard, 29) == 'd' && IndexChar(Standard, 23) == 'X';
    assert IndexChar(Standard, 9) == 'J' && IndexChar(Standard, 44) == 's';
  }

  lemma RsaSha256Quad0()
    ensures Quad(Standard, 82, 83, 65) == "UlNB"
  {
    assert 82 / 4 == 20 && (82 % 4) * 16 + 83 / 16 == 37;
    assert (83 % 16) * 4 + 65 / 64 == 13 && 65 % 64 == 1;
    assert IndexChar(Standard, 20) == 'U' && IndexChar(Standard, 37) == 'l';
    assert IndexChar(Standard, 13) == 'N' && IndexChar(Standard, 1) == 'B';
  }

  lemma RsaSha256Quad1()
    ensures Quad(Standard, 45, 83, 72) == "LVNI"
  {
    assert 45 / 4 == 11 && (45 % 4) * 16 + 83 / 16 == 21;
    assert (83 % 16) * 4 + 72 / 64 == 13 && 72 % 64 == 8;
    assert IndexChar(Standard, 11) == 'L' && IndexChar(Standard, 21) == 'V';
    assert IndexChar(Standard, 13) == 'N' && IndexChar(Standard, 8) == 'I';
  }

  lemma RsaSha256Quad2()
    ensures Quad(Standard, 65, 50, 53) == "QTI1"
  {
    assert 65 / 4 == 16 && (65 % 4) * 16 + 50 / 16 == 19;
    assert (50 % 16) * 4 + 53 / 64 == 8 && 53 % 64 == 53;
    assert IndexChar(Standard, 16) == 'Q' && IndexChar(Standard, 19) == 'T';
    assert IndexChar(Standard, 8) == 'I' && IndexChar(Standard, 53) == '1';
  }

  /** `base64.b64encode(b"application/xml")`. */
  lemma AppXmlEncoding()
    ensures Encode(Standard, AppXmlBytes) == "YXBwbGljYXRpb24veG1s"
  {
    var d := AppXmlBytes;
    EncodeNine(Standard, d);
    EncodeFront(Standard, d[9..]);
    EncodeFront(Standard, d[12..]);
    assert d[9..][3..] == d[12..];
    assert d[12..][3..] == [];
    AppXmlQuad0(); AppXmlQuad1(); AppXmlQuad2(); AppXmlQuad3(); AppXmlQuad4();
  }

  /** `base64.b64encode(b"base64url")`. */
  lemma Base64UrlEncoding()
    ensures Encode(Standard, Base64UrlBytes) == "YmFzZTY0dXJs"
  {
    var d := Base64UrlBytes;
    EncodeNine(Standard, d);
    assert d[9..] == [];
    Base64UrlQuad0(); Base64UrlQuad1(); Base64UrlQuad2();
  }

  /** `base64.b64encode(b"RSA-SHA256")`: the last byte is padded to "Ng==". */
  lemma RsaSha256Encoding()
    ensures Encode(Standard, RsaSha256Bytes) == "UlNBLVNIQTI1Ng=="
  {
    var d := RsaSha256Bytes;
    EncodeNine(Standard, d);
    assert d[9..] == [54];
    assert 54 / 4 == 13 && (54 % 4) * 16 + 0 / 16 == 32;
    assert IndexChar(Standard, 13) == 'N' && IndexChar(Standard, 32) == 'g';
    assert Encode(Standard, [54]) == "Ng==";
    RsaSha256Quad0(); RsaSha256Quad1(); RsaSha256Quad2();
  }

  /**
   * The signed string is the data followed by the base64 encodings of
   * `b"application/xml"`, `b"base64url"` and `b"RSA-SHA256"`, each after a dot.
   */
  lemma SignatureBaseLabels(data: string)
    ensures SignatureBase(data) == data + "." + Encode(Standard, AppXmlBytes) + "." +
      Encode(Standard, Base64UrlBytes) + "." + Encode(Standard, RsaSha256Bytes)
  {
    AppXmlEncoding();
    Base64UrlEncoding();
    RsaSha256Encoding();
  }
}

=== FILE: EnvelopeProofs.dfy ===
/**
 * The envelope's round trip: what `Envelope.Build` writes for a recipient,
 * `Envelope.ProcessEnvelope` opens with the recipient's private key, giving
 * back the author's handle and the payload XML.
 */
module EnvelopeProofs {
  import opened Results
  import opened Bytes
  import opened Base64
  import opened Crypto
  import opened Envelope
  import Pkcs7
  import Text

  /** Base64 text read back by `B64DecodeText`. */
  lemma B64TextRoundTrip(data: seq<byte>)
    ensures B64DecodeText(Encode(Standard, data)) == Ok(data)
  {
    EncodeIsAscii(Standard, data);
    DecodeEncode(data);
  }

  /** Base64 of a nonempty byte string is a nonempty text. */
  lemma EncodeNonEmpty(data: seq<byte>)
    requires |data| > 0
    ensures Encode(Standard, data) != ""
  {
    EncodeLength(Standard, data);
  }

  /** With the builder's key sizes and a real author handle, every header text is nonempty. */
  lemma DecryptedHeaderTexts(k: Keys, authorId: string)
    requires DrawnKeys(k) && authorId != ""
    ensures NonEmptyTexts(DecryptedHeader(k, authorId))
  {
    EncodeNonEmpty(k.innerIv);
    EncodeNonEmpty(k.innerKey);
  }

  /** With sound codecs and the builder's key sizes the build cannot fail. */
  lemma BuildSucceeds(p: Primitives, c: Codecs, k: Keys, message: string, authorId: string,
                      recipient: PublicKey, author: PrivateKey)
    requires SoundCodecs(c) && DrawnKeys(k)
    ensures Build(p, c, k, message, authorId, recipient, author).Ok?
  {
    var bundle := EncryptedKeyBundle(p, c, k, recipient);
    var ciphertext := Ciphertext(p, c, k, authorId);
    assert IsAscii(c.jsonDump(HeaderObject(bundle, ciphertext)));
  }

  /** The outer key bundle decrypts, with the matching private key, to the bundle built. */
  lemma KeyBundleRoundTrip(p: Primitives, c: Codecs, k: Keys, priv: PrivateKey)
    requires Crypto.Sound(p) && SoundCodecs(c)
    ensures DecryptKeyBundle(p, c, Encode(Standard, EncryptedKeyBundle(p, c, k, p.publicOf(priv))), Some(priv))
      == Ok(KeyBundle(k))
  {
    var json := c.jsonDump(KeyBundle(k));
    B64TextRoundTrip(EncryptedKeyBundle(p, c, k, p.publicOf(priv)));
    assert p.rsaDecrypt(priv, EncryptedKeyBundle(p, c, k, p.publicOf(priv))) == Some(Utf8Encode(json));
    AsciiDecodeUtf8(json);
  }

  /** The decrypted header recovered from the ciphertext under the outer key. */
  lemma DecryptHeaderRoundTrip(p: Primitives, c: Codecs, k: Keys, authorId: string)
    requires Crypto.Sound(p) && SoundCodecs(c) && DrawnKeys(k) && authorId != ""
    ensures DecryptHeader(p, c, Ciphertext(p, c, k, authorId), k.outerKey, k.outerIv)
      == Ok(DecryptedHeader(k, authorId))
  {
    var padded := PaddedHeader(c, k, authorId);
    AesCbcRoundTrip(p, k.outerKey, k.outerIv, padded);
    Pkcs7.UnpadPadBlock(c.headerDump(DecryptedHeader(k, authorId)));
    DecryptedHeaderTexts(k, authorId);
  }

  /** `parse_header` of the built `encrypted_header` gives the decrypted header back. */
  lemma ParseHeaderRoundTrip(p: Primitives, c: Codecs, k: Keys, authorId: string, priv: PrivateKey)
    requires Crypto.Sound(p) && SoundCodecs(c) && DrawnKeys(k) && authorId != ""
    ensures EncryptedHeader(p, c, k, authorId, p.publicOf(priv)).Ok?
    ensures ParseHeader(p, c, EncryptedHeader(p, c, k, authorId, p.publicOf(priv)).value, Some(priv))
      == Ok(DecryptedHeader(k, authorId))
  {
    var bundle := EncryptedKeyBundle(p, c, k, p.publicOf(priv));
    var ciphertext := Ciphertext(p, c, k, authorId);
    var rep := HeaderObject(bundle, ciphertext);
    var json := c.jsonDump(rep);
    assert IsAscii(json) && c.jsonLoad(json) == Some(rep);
    var bytes := AsciiEncode(json).value;
    B64TextRoundTrip(bytes);
    AsciiEncodeDecode(json);
    KeyBundleRoundTrip(p, c, k, priv);
    B64TextRoundTrip(ciphertext);
    B64TextRoundTrip(k.outerKey);
    B64TextRoundTrip(k.outerIv);
    DecryptHeaderRoundTrip(p, c, k, authorId);
  }

  /** The serialised document is read back as the built envelope, whitespace stripping included. */
  lemma LoadBuilt(c: Codecs, xml: string, e: Envelope)
    requires SoundCodecs(c)
    requires Utf8Encode(xml) == c.envelopeDump(e)
    ensures c.envelopeLoad(Utf8Encode(Text.LStrip(xml))) == Some(e)
  {
    Utf8Head(xml);
    assert xml[0] == '<';
  }

  /**
   * The envelope round trip: the recipient's parser recovers the author's
   * handle and exactly the payload XML the builder encrypted.
   */
  lemma ProcessBuild(p: Primitives, c: Codecs, k: Keys, message: string, authorId: string,
                     priv: PrivateKey, author: PrivateKey, xml: string)
    requires Crypto.Sound(p) && SoundCodecs(c) && DrawnKeys(k) && authorId != ""
    requires Build(p, c, k, message, authorId, p.publicOf(priv), author).Ok?
    requires Utf8Encode(xml) == Build(p, c, k, message, authorId, p.publicOf(priv), author).value
    ensures ProcessEnvelope(p, c, xml, Some(priv)) == Ok(Opened(authorId, c.payloadDump(message)))
  {
    var e := Built(p, c, k, message, authorId, p.publicOf(priv), author);
    LoadBuilt(c, xml, e);
    ParseHeaderRoundTrip(p, c, k, authorId, priv);
    var header := DecryptedHeader(k, authorId);
    B64TextRoundTrip(k.innerIv);
    B64TextRoundTrip(k.innerKey);
    var encrypted := EncryptedPayload(p, c, k, message);
    PayloadRoundTrip(encrypted);
    AesCbcRoundTrip(p, k.innerKey, k.innerIv, PaddedPayload(c, message));
    Pkcs7.UnpadPadBlock(c.payloadDump(message));
  }

  /** Without a private key the header cannot be opened. */
  lemma ProcessWithoutKey(p: Primitives, c: Codecs, xml: string)
    ensures ProcessEnvelope(p, c, xml, None).Err?
  {
  }
}

=== FILE: Federation.dfy ===
/**
 * The federation end-points: receiving private and public messages,
 * draining the queue for a logged-in user, answering webfinger queries and
 * the host-meta template. Database rows are parameters; sending the HTTP
 * response is the returned `Reply`.
 */
module Federation {
  import opened Results
  import opened Bytes
  import Text
  import Url
  import Social
  import Contacts
  import opened Queue
  import opened Directory
  import Actions

  /** An HTTP reply: status and body text. */
  datatype Reply = Reply(status: int, text: string)

  /** The local user a DiasporaContact row belongs to, if its contact is local. */
  function LocalUserOf(contacts: map<int, Social.Contact>, d: DiasporaContact): (r: Option<int>)
    ensures r.Some? ==> d.contactId in contacts && contacts[d.contactId].user == r
  {
    if d.contactId in contacts then contacts[d.contactId].user else None
  }

  /**
   * `receive(guid)`: 404 unless the guid names a local contact; a form
   * without "xml" is the 400 of a missing form key; non-ASCII text fails to
   * encode. Otherwise one INCOMING item for that user goes on the end of the
   * queue and the reply is "OK".
   */
  function Receive(table: seq<DiasporaContact>, contacts: map<int, Social.Contact>, q: seq<QueueItem>,
                   guid: string, form: map<string, string>, newId: int): (r: Result<(Reply, seq<QueueItem>)>)
    ensures (GetByGuid(table, guid).None? || LocalUserOf(contacts, GetByGuid(table, guid).value).None?)
      ==> r == Err(Abort(404))
    ensures r.Ok? <==>
      && GetByGuid(table, guid).Some? && LocalUserOf(contacts, GetByGuid(table, guid).value).Some?
      && "xml" in form && IsAscii(form["xml"])
    ensures r.Ok? ==>
      var user := LocalUserOf(contacts, GetByGuid(table, guid).value).value;
      r.value == (Reply(200, "OK"), q + [QueueItem(newId, Some(user), Incoming, AsciiOf(form["xml"]), None)])
  {
    match GetByGuid(table, guid)
    case None => Err(Abort(404))
    case Some(diasp) =>
      match LocalUserOf(contacts, diasp)
      case None => Err(Abort(404))
      case Some(user) =>
        if "xml" !in form then Err(Abort(400))
        else
          var body :- AsciiEncode(form["xml"]);
          Ok((Reply(200, "OK"), q + [QueueItem(newId, Some(user), Incoming, body, None)]))
  }

  lemma {:induction false} PendingAppend(q: seq<QueueItem>, item: QueueItem, user: int)
    ensures PendingFor(q + [item], user) == PendingFor(q, user) + (if IsPendingFor(item, user) then [item] else [])
  {
    if |q| == 0 {
      assert q + [item] == [item];
    } else {
      assert (q + [item])[1..] == q[1..] + [item];
      PendingAppend(q[1..], item, user);
    }
  }

  /** A received message becomes the newest pending item of its user and of no one else. */
  lemma ReceiveQueuesForUser(table: seq<DiasporaContact>, contacts: map<int, Social.Contact>, q: seq<QueueItem>,
                             guid: string, form: map<string, string>, newId: int, other: int)
    requires Receive(table, contacts, q, guid, form, newId).Ok?
    ensures var q2 := Receive(table, contacts, q, guid, form, newId).value.1;
      var user := LocalUserOf(contacts, GetByGuid(table, guid).value).value;
      && |PendingFor(q2, user)| == |PendingFor(q, user)| + 1
      && PendingFor(q2, user)[..|PendingFor(q, user)|] == PendingFor(q, user)
      && (other != user ==> PendingFor(q2, other) == PendingFor(q, other))
      && PublicPending(q2) == PublicPending(q)
  {
    var q2 := Receive(table, contacts, q, guid, form, newId).value.1;
    var item := q2[|q2| - 1];
    assert q2 == q + [item];
    var user := LocalUserOf(contacts, GetByGuid(table, guid).value).value;
    PendingAppend(q, item, user);
    PendingAppend(q, item, other);
    PublicAppend(q, item);
  }

  lemma {:induction false} PublicAppend(q: seq<QueueItem>, item: QueueItem)
    ensures PublicPending(q + [item]) == PublicPending(q) + (if item.format == PublicIncoming then [item] else [])
  {
    if |q| == 0 {
      assert q + [item] == [item];
    } else {
      assert (q + [item])[1..] == q[1..] + [item];
      PublicAppend(q[1..], item);
    }
  }

  /**
   * `receive_public()`: the message is decoded outside the `try`, so a
   * decoding failure propagates. A processing failure stores one
   * PUBLIC_INCOMING item with the ASCII body and the UTF-8 trace, and the
   * reply is ("Error", 400); success replies "OK" and queues nothing.
   */
  function ReceivePublic<M>(form: map<string, string>, decode: string -> Result<M>, process: M -> Result<()>,
                            trace: Exc -> string, q: seq<QueueItem>, newId: int): (r: Result<(Reply, seq<QueueItem>)>)
    ensures "xml" !in form ==> r == Err(Abort(400))
    ensures "xml" in form && decode(form["xml"]).Err? ==> r == Err(decode(form["xml"]).error)
    ensures "xml" in form && decode(form["xml"]).Ok? && process(decode(form["xml"]).value).Ok? ==>
      r == Ok((Reply(200, "OK"), q))
    ensures "xml" in form && decode(form["xml"]).Ok? && process(decode(form["xml"]).value).Err? ==>
      var e := process(decode(form["xml"]).value).error;
      && (r.Ok? <==> IsAscii(form["xml"]))
      && (r.Ok? ==> r.value == (Reply(400, "Error"),
            q + [QueueItem(newId, None, PublicIncoming, AsciiOf(form["xml"]), Some(Utf8Encode(trace(e))))]))
  {
    if "xml" !in form then Err(Abort(400))
    else
      var msg :- decode(form["xml"]);
      match process(msg)
      case Ok(_) => Ok((Reply(200, "OK"), q))
      case Err(e) =>
        var body :- AsciiEncode(form["xml"]);
        Ok((Reply(400, "Error"), q + [QueueItem(newId, None, PublicIncoming, body, Some(Utf8Encode(trace(e))))]))
  }

  /** A public message that failed is queued last among the public items, carrying its error. */
  lemma ReceivePublicQueuesFailure<M>(form: map<string, string>, decode: string -> Result<M>, process: M -> Result<()>,
                                      trace: Exc -> string, q: seq<QueueItem>, newId: int)
    requires ReceivePublic(form, decode, process, trace, q, newId).Ok?
    ensures var (reply, q2) := ReceivePublic(form, decode, process, trace, q, newId).value;
      && (reply.status == 200 ==> q2 == q)
      && (reply.status == 400 ==>
            var p := PublicPending(q2);
            |p| == |PublicPending(q)| + 1 && p[|p| - 1].id == newId && p[|p| - 1].error.Some?)
  {
    var (reply, q2) := ReceivePublic(form, decode, process, trace, q, newId).value;
    if reply.status == 400 {
      PublicAppend(q, q2[|q2| - 1]);
      assert q2 == q + [q2[|q2| - 1]];
    }
  }

  /**
   * The `process_incoming_message(ret, c_from, None)` call of
   * `receive_public`, for the decoded payload and sending contact, with the
   * remaining handler inputs of `m`.
   */
  function PublicProcess(db: Social.Db, table: seq<DiasporaContact>, parse: string -> Result<Actions.Doc>,
                         m: Actions.Inbound): (process: ((string, Social.Contact)) -> Result<()>)
    requires Social.PostsLinked(db.posts) && Social.FreshPost(db, m.postId)
    ensures forall msg: (string, Social.Contact) :: process(msg).Ok? <==>
              Actions.ProcessIncomingMessage(db, table, msg.0, parse, m.(cFrom := msg.1, recipient := None)).Ok?
  {
    (msg: (string, Social.Contact)) =>
      var r := Actions.ProcessIncomingMessage(db, table, msg.0, parse, m.(cFrom := msg.1, recipient := None));
      if r.Ok? then Ok(()) else Err(r.error)
  }

  /**
   * Every public message that decodes and is ASCII is queued, with its
   * error, as the last public item: processing it with no recipient user
   * always fails.
   */
  lemma PublicMessageQueued(form: map<string, string>, decode: string -> Result<(string, Social.Contact)>,
                            db: Social.Db, table: seq<DiasporaContact>, parse: string -> Result<Actions.Doc>,
                            m: Actions.Inbound, trace: Exc -> string, q: seq<QueueItem>, newId: int)
    requires Social.PostsLinked(db.posts) && Social.FreshPost(db, m.postId)
    requires "xml" in form && decode(form["xml"]).Ok? && IsAscii(form["xml"])
    ensures var r := ReceivePublic(form, decode, PublicProcess(db, table, parse, m), trace, q, newId);
      && r.Ok? && r.value.0 == Reply(400, "Error")
      && var p := PublicPending(r.value.1);
         |p| == |PublicPending(q)| + 1 && p[|p| - 1].id == newId && p[|p| - 1].error.Some?
  {
    var msg := decode(form["xml"]).value;
    var process := PublicProcess(db, table, parse, m);
    Actions.PublicMessageFails(db, table, msg.0, parse, m.(cFrom := msg.1, recipient := None));
    assert process(msg).Err?;
    ReceivePublicQueuesFailure(form, decode, process, trace, q, newId);
  }

  /**
   * `run_queue` without its time budget: one item at a time
   * (`max_items=1`) until `has_pending_items` is false. The result is the
   * queue left and the number of rounds. Every round shortens the pending
   * list or leaves its head errored, which is the measure. Each trace
   * `format_exc()` records is non-empty.
   */
  function RunQueue(q: seq<QueueItem>, user: int, process: QueueItem -> Result<()>, trace: Exc -> seq<byte>)
    : (r: (seq<QueueItem>, nat))
    requires forall e :: |trace(e)| > 0
    ensures !HasPendingItems(r.0, user)
    ensures |PendingFor(r.0, user)| <= |PendingFor(q, user)|
    decreases |PendingFor(q, user)|, if HasPendingItems(q, user) then 1 else 0
  {
    if !HasPendingItems(q, user) then (q, 0)
    else
      var q2 := ProcessIncomingQueue(q, user, process, trace, Some(1));
      QueueStepProgress(q, user, process, trace);
      var (q3, n) := RunQueue(q2, user, process, trace);
      (q3, n + 1)
  }

  /** With nothing pending, `run_queue` redirects at once and changes nothing. */
  lemma RunQueueIdle(q: seq<QueueItem>, user: int, process: QueueItem -> Result<()>, trace: Exc -> seq<byte>)
    requires forall e :: |trace(e)| > 0
    requires !HasPendingItems(q, user)
    ensures RunQueue(q, user, process, trace) == (q, 0)
  {
  }

  /** Whatever the queue holds, `run_queue` does at most one round per pending item plus one. */
  lemma {:induction false} RunQueueRounds(q: seq<QueueItem>, user: int, process: QueueItem -> Result<()>,
                                          trace: Exc -> seq<byte>)
    requires forall e :: |trace(e)| > 0
    ensures RunQueue(q, user, process, trace).1 <= |PendingFor(q, user)| + 1
    decreases |PendingFor(q, user)|, if HasPendingItems(q, user) then 1 else 0
  {
    if HasPendingItems(q, user) {
      var q2 := ProcessIncomingQueue(q, user, process, trace, Some(1));
      QueueStepProgress(q, user, process, trace);
      RunQueueRounds(q2, user, process, trace);
      if |PendingFor(q2, user)| == |PendingFor(q, user)| {
        assert RunQueue(q2, user, process, trace) == (q2, 0);
      }
    }
  }

  // ------------------------------------------------------------ webfinger

  /** The parts of the webfinger XRD that depend on the contact. */
  datatype WebfingerDoc = WebfingerDoc(subject: string, guid: string, profileContact: int)

  /** `User.activated` is set. */
  predicate Activated(users: map<int, Social.User>, userId: int)
  {
    userId in users && users[userId].activated.Some?
  }

  /** The document for a local, activated contact, creating its DiasporaContact row if need be. */
  function DocFor(table: seq<DiasporaContact>, c: Social.Contact, requestUrl: string, freshGuid: string)
    : (r: Result<(WebfingerDoc, seq<DiasporaContact>)>)
    ensures r.Ok? ==> r.value.0.profileContact == c.id
    ensures r.Ok? ==> ForContact(r.value.1, c.id).Some?
    ensures r.Ok? ==> r.value.0 == WebfingerDoc("acct:" + ForContact(r.value.1, c.id).value.username,
                                                ForContact(r.value.1, c.id).value.guid, c.id)
    ensures ForContact(table, c.id).Some? ==>
      var d := ForContact(table, c.id).value;
      r == Ok((WebfingerDoc("acct:" + d.username, d.guid, c.id), table))
  {
    var (diasp, t) :- GetForContact(table, c, requestUrl, freshGuid);
    Ok((WebfingerDoc("acct:" + diasp.username, diasp.guid, c.id), t))
  }

  /** `contact_id, _ = contact_addr.split('@')` and `int(contact_id)`: both failures are ValueErrors. */
  function LocalPart(addr: string): (r: Result<int>)
    ensures |Text.Split(addr, '@')| != 2 ==> r == Err(ValueErr)
    ensures r.Ok? <==> |Text.Split(addr, '@')| == 2 && Text.ParseInt(Text.Split(addr, '@')[0]).Some?
    ensures r.Ok? ==> Text.ParseInt(Text.Split(addr, '@')[0]) == Some(r.value)
  {
    var parts := Text.Split(addr, '@');
    if |parts| != 2 then Err(ValueErr)
    else match Text.ParseInt(parts[0])
      case None => Err(ValueErr)
      case Some(id) => Ok(id)
  }

  /**
   * The contact `webfinger` answers for, as written: the local part is read
   * as a CONTACT id, `Contact.get` raises IndexError when no contact has it
   * (`Contacts.GetAsWritten`), and the contact must be local with an
   * activated user.
   */
  function ContactAsWritten(contacts: map<int, Social.Contact>, users: map<int, Social.User>, addr: string)
    : (r: Result<Social.Contact>)
    ensures LocalPart(addr).Err? ==> r == Err(LocalPart(addr).error)
    ensures LocalPart(addr).Ok? ==>
      var id := LocalPart(addr).value;
      && (r.Ok? <==> id in contacts && contacts[id].user.Some? && Activated(users, contacts[id].user.value))
      && (r.Ok? ==> r.value == contacts[id])
      && (r.Err? ==> r.error == if id in contacts then Abort(404) else IndexErr)
  {
    var id :- LocalPart(addr);
    var c :- Contacts.GetAsWritten(contacts, id);
    if c.user.None? || !Activated(users, c.user.value) then Err(Abort(404))
    else Ok(c)
  }

  /**
   * The evidently intended lookup: the local part of an address this server
   * hands out is the USER id (see `LocalUsername`), so it is resolved
   * through the user to the user's contact.
   */
  function ContactFixed(contacts: map<int, Social.Contact>, users: map<int, Social.User>, addr: string)
    : (r: Result<Social.Contact>)
    ensures LocalPart(addr).Err? ==> r == Err(LocalPart(addr).error)
    ensures LocalPart(addr).Ok? ==>
      var uid := LocalPart(addr).value;
      && (r.Ok? <==> Activated(users, uid) && users[uid].contact in contacts)
      && (r.Ok? ==> r.value == contacts[users[uid].contact])
      && (r.Err? ==> r.error == Abort(404))
  {
    var uid :- LocalPart(addr);
    if !Activated(users, uid) || users[uid].contact !in contacts then Err(Abort(404))
    else Ok(contacts[users[uid].contact])
  }

  /** `webfinger(contact_addr)` as written. */
  function WebfingerAsWritten(contacts: map<int, Social.Contact>, users: map<int, Social.User>,
                              table: seq<DiasporaContact>, addr: string, requestUrl: string, freshGuid: string)
    : (r: Result<(WebfingerDoc, seq<DiasporaContact>)>)
    ensures ContactAsWritten(contacts, users, addr).Err? ==> r == Err(ContactAsWritten(contacts, users, addr).error)
    ensures r.Ok? ==> r.value.0.profileContact == ContactAsWritten(contacts, users, addr).value.id
  {
    var c :- ContactAsWritten(contacts, users, addr);
    DocFor(table, c, requestUrl, freshGuid)
  }

  /** `webfinger(contact_addr)` with the corrected lookup. */
  function WebfingerFixed(contacts: map<int, Social.Contact>, users: map<int, Social.User>,
                          table: seq<DiasporaContact>, addr: string, requestUrl: string, freshGuid: string)
    : (r: Result<(WebfingerDoc, seq<DiasporaContact>)>)
    ensures ContactFixed(contacts, users, addr).Err? ==> r == Err(ContactFixed(contacts, users, addr).error)
    ensures r.Ok? ==> r.value.0.profileContact == ContactFixed(contacts, users, addr).value.id
  {
    var c :- ContactFixed(contacts, users, addr);
    DocFor(table, c, requestUrl, freshGuid)
  }

  /** A consistent local account: user `uid` is activated and its contact row is local to it. */
  predicate LocalAccount(contacts: map<int, Social.Contact>, users: map<int, Social.User>, uid: int)
  {
    && Activated(users, uid)
    && users[uid].contact in contacts
    && contacts[users[uid].contact].id == users[uid].contact
    && contacts[users[uid].contact].user == Some(uid)
  }

  /** The address made for a user reads back, with the corrected rule, as that user's id. */
  lemma LocalPartOfUsername(uid: int, host: string)
    requires '@' !in host
    ensures LocalPart(LocalUsername(uid, host)) == Ok(uid)
  {
    LocalUsernameSplits(uid, host);
  }

  /**
   * The address `get_for_contact` gave an activated local user, looked up
   * with the corrected rule, answers with that user's own contact and row.
   */
  lemma WebfingerFixedRoundTrip(contacts: map<int, Social.Contact>, users: map<int, Social.User>,
                                table: seq<DiasporaContact>, uid: int, host: string, requestUrl: string,
                                freshGuid: string)
    requires LocalAccount(contacts, users, uid)
    requires '@' !in host
    requires ForContact(table, users[uid].contact).Some?
    requires ForContact(table, users[uid].contact).value.username == LocalUsername(uid, host)
    ensures var d := ForContact(table, users[uid].contact).value;
      WebfingerFixed(contacts, users, table, d.username, requestUrl, freshGuid)
        == Ok((WebfingerDoc("acct:" + d.username, d.guid, users[uid].contact), table))
  {
    var d := ForContact(table, users[uid].contact).value;
    LocalPartOfUsername(uid, host);
    var c := contacts[users[uid].contact];
    assert ContactFixed(contacts, users, d.username) == Ok(c);
    assert DocFor(table, c, requestUrl, freshGuid) == Ok((WebfingerDoc("acct:" + d.username, d.guid, c.id), table));
  }

  /**
   * As written, the same address is read as a contact id: when user 1's
   * contact is 2 and contact 1 is a remote person, the address handed out
   * for user 1 is refused with 404, while the corrected rule answers.
   */
  lemma WebfingerMisroutes(host: string, realname: string, requestUrl: string, freshGuid: string, guid: string,
                           server: string, when: int)
    requires '@' !in host
    ensures var contacts := map[1 := Social.Contact(1, realname, None), 2 := Social.Contact(2, realname, Some(1))];
      var users := map[1 := Social.User(1, 2, Some(when))];
      var table := [DiasporaContact(2, guid, LocalUsername(1, host), server)];
      && LocalAccount(contacts, users, 1)
      && WebfingerAsWritten(contacts, users, table, LocalUsername(1, host), requestUrl, freshGuid) == Err(Abort(404))
      && WebfingerFixed(contacts, users, table, LocalUsername(1, host), requestUrl, freshGuid).Ok?
  {
    var contacts := map[1 := Social.Contact(1, realname, None), 2 := Social.Contact(2, realname, Some(1))];
    var users := map[1 := Social.User(1, 2, Some(when))];
    var table := [DiasporaContact(2, guid, LocalUsername(1, host), server)];
    LocalPartOfUsername(1, host);
    assert ContactAsWritten(contacts, users, LocalUsername(1, host)) == Err(Abort(404));
    assert ForContact(table, 2) == Some(table[0]);
    WebfingerFixedRoundTrip(contacts, users, table, 1, host, requestUrl, freshGuid);
  }

  // ------------------------------------------------------------ host-meta

  /** The lrdd template: the webfinger URL for an empty address, then "{uri}". */
  function HostMetaTemplate(webfingerBase: string): (r: string)
    ensures Text.EndsWith(r, "{uri}")
  {
    var r := webfingerBase + "{uri}";
    assert r[|r| - 5..] == "{uri}";
    r
  }

  /** Filling the template with an address gives the webfinger URL of that address. */
  lemma HostMetaTemplateExpands(webfingerBase: string, addr: string)
    requires '{' !in webfingerBase
    ensures Url.ReplaceAll(HostMetaTemplate(webfingerBase), "{uri}", addr) == webfingerBase + addr
  {
    Url.ReplaceAtEnd(webfingerBase, "{uri}", addr);
  }
}

=== FILE: LegacyController.dfy ===
/**
 * The older server's Diaspora endpoints: the dispatcher that maps the
 * fixed paths other pods use onto the Diaspora controller, the host-meta
 * template, the webfinger profile with its 404 rule, and the stub feed.
 * The request's base URL, a contact's transport GUID and public key, and
 * the contact table are parameters.
 */
module LegacyController {
  import opened Results
  import Text
  import Url
  import Bytes
  import Base64
  import Webfinger
  import Federation

  const HostMetaPath := "/.well-known/host-meta"
  const ReceivePrefix := "/receive/users/"
  const PeoplePrefix := "/people/"

  /** What `(.*)` captures: the text up to the first newline, which `.` does not match. */
  function UpToNewline(s: string): (r: string)
    ensures '\n' !in r && r <= s
    ensures |r| < |s| ==> s[|r|] == '\n'
  {
    if |s| == 0 || s[0] == '\n' then "" else [s[0]] + UpToNewline(s[1..])
  }

  lemma {:induction false} UpToNewlineWhole(s: string)
    requires '\n' !in s
    ensures UpToNewline(s) == s
  {
    if |s| > 0 {
      UpToNewlineWhole(s[1..]);
      assert [s[0]] + s[1..] == s;
    }
  }

  /**
   * `DiasporaDispatcher.find_handler(path)`: the path handed on to the
   * default dispatcher. Host-meta is matched exactly, the other two rules
   * as prefixes (`re.match` anchors only at the start), in this order.
   */
  function FindHandler(path: string): (r: string)
    ensures r == path || (|r| >= 10 && r[..10] == "/diaspora/")
  {
    if path == HostMetaPath then "/diaspora/host_meta"
    else if Text.StartsWith(path, ReceivePrefix) then "/diaspora/receive/" + UpToNewline(path[|ReceivePrefix|..])
    else if Text.StartsWith(path, PeoplePrefix) then "/diaspora/feed/" + UpToNewline(path[|PeoplePrefix|..]) + "/json"
    else path
  }

  /** The salmon endpoint of a user: `/receive/users/X` is `/diaspora/receive/X`. */
  lemma ReceiveRewritten(rest: string)
    requires '\n' !in rest
    ensures FindHandler(ReceivePrefix + rest) == "/diaspora/receive/" + rest
  {
    var p := ReceivePrefix + rest;
    assert p[..|ReceivePrefix|] == ReceivePrefix && p[|ReceivePrefix|..] == rest;
    assert p != HostMetaPath by { assert p[1] != HostMetaPath[1]; }
    UpToNewlineWhole(rest);
  }

  /** A user's public feed: `/people/X` is `/diaspora/feed/X/json`. */
  lemma PeopleRewritten(rest: string)
    requires '\n' !in rest
    ensures FindHandler(PeoplePrefix + rest) == "/diaspora/feed/" + rest + "/json"
  {
    var p := PeoplePrefix + rest;
    assert p[..|PeoplePrefix|] == PeoplePrefix && p[|PeoplePrefix|..] == rest;
    assert p != HostMetaPath by { assert p[1] != HostMetaPath[1]; }
    assert !Text.StartsWith(p, ReceivePrefix) by { assert p[1] != ReceivePrefix[1]; }
    UpToNewlineWhole(rest);
  }

  /** Only the text before a newline is carried over. */
  lemma NewlineCut(a: string, b: string)
    requires '\n' !in a
    ensures FindHandler(ReceivePrefix + a + "\n" + b) == "/diaspora/receive/" + a
  {
    var p := ReceivePrefix + a + "\n" + b;
    var rest := a + "\n" + b;
    assert p == ReceivePrefix + rest;
    assert p[..|ReceivePrefix|] == ReceivePrefix && p[|ReceivePrefix|..] == rest;
    assert p != HostMetaPath by { assert p[1] != HostMetaPath[1]; }
    UpToNewlinePrefix(a, b);
  }

  lemma {:induction false} UpToNewlinePrefix(a: string, b: string)
    requires '\n' !in a
    ensures UpToNewline(a + "\n" + b) == a
  {
    if |a| == 0 {
      assert (a + "\n" + b)[0] == '\n';
    } else {
      assert (a + "\n" + b)[1..] == a[1..] + "\n" + b;
      UpToNewlinePrefix(a[1..], b);
      assert [a[0]] + a[1..] == a;
    }
  }

  /** Every rewritten path lies under `/diaspora/`; any other path is handed on untouched. */
  lemma FindHandlerShape(path: string)
    ensures var r := FindHandler(path);
      r == path || Text.StartsWith(r, "/diaspora/")
    ensures path != HostMetaPath && !Text.StartsWith(path, ReceivePrefix) && !Text.StartsWith(path, PeoplePrefix) ==>
      FindHandler(path) == path
  {
    var r := FindHandler(path);
    if r != path {
      assert r[..10] == "/diaspora/";
    }
  }

  /** The dispatcher is idempotent: no path it produces is rewritten again. */
  lemma FindHandlerIdempotent(path: string)
    ensures FindHandler(FindHandler(path)) == FindHandler(path)
  {
    var r := FindHandler(path);
    FindHandlerShape(path);
    if r != path {
      assert r[1] == 'd';
      assert r != HostMetaPath by { assert HostMetaPath[1] == '.'; }
      assert !Text.StartsWith(r, ReceivePrefix) by { assert |r| > 1 && ReceivePrefix[1] == 'r'; }
      assert !Text.StartsWith(r, PeoplePrefix) by { assert |r| > 1 && PeoplePrefix[1] == 'p'; }
    }
  }

  /** `host_meta`: the lrdd template points at this server's webfinger endpoint. */
  function HostMetaTemplate(base: string): (r: string)
    ensures r == base + "/diaspora/webfinger/{uri}"
  {
    Federation.HostMetaTemplate(base + "/diaspora/webfinger/")
  }

  /**
   * A legacy client reading this template (`Request.fetch`) asks the
   * endpoint for the quoted "acct:" address.
   */
  lemma ClientFetchesEndpoint(base: string, handle: Webfinger.Handle)
    requires '{' !in base
    ensures Webfinger.TargetUrl([HostMetaTemplate(base)], handle) ==
      Ok(base + "/diaspora/webfinger/" + Url.QuotePlus(handle.url.scheme + ":" + handle.url.path))
  {
    var w := base + "/diaspora/webfinger/";
    assert '{' !in w by {
      assert forall i :: |base| <= i < |w| ==> w[i] == "/diaspora/webfinger/"[i - |base|];
    }
    Federation.HostMetaTemplateExpands(w, Url.QuotePlus(handle.url.scheme + ":" + handle.url.path));
  }

  /** A contact as the old model stores it: its username and whether a local user owns it. */
  datatype Contact = Contact(username: string, hasUser: bool)

  datatype Link = Link(rel: string, mimeType: string, href: string)

  /** The XRD document's content. */
  datatype Xrd = Xrd(subject: string, alias: string, links: seq<Link>)

  datatype Reply = Status(code: int, body: string) | Document(doc: Xrd)

  /**
   * `webfinger(contact)`: 404 unless the username names a contact with a
   * local user; otherwise the profile links. `guid` and `publicKey` are what
   * the contact's transport reports; a key that is not ASCII fails to
   * encode.
   */
  function WebfingerView(contacts: map<string, Contact>, username: string, base: string, guid: string, publicKey: string): (r: Result<Reply>)
    ensures r.Err? ==> r.error == ValueErr
  {
    if username !in contacts || !contacts[username].hasUser then Ok(Status(404, "No such contact"))
    else
      var c := contacts[username];
      var key :- Bytes.AsciiEncode(publicKey);
      Ok(Document(Xrd("acct:" + c.username, "\"" + base + "/\"", [
        Link("http://microformats.org/profile/hcard", "text/html", base + "/diaspora/hcard/" + guid),
        Link("http://joindiaspora.com/seed_location", "text/html", base + "/"),
        Link("http://joindiaspora.com/guid", "text/html", guid),
        Link("http://schemas.google.com/g/2010#updates-from", "application/atom+xml", base + "/contact/feed/" + c.username),
        Link("diaspora-public-key", "RSA", Base64.Encode(Base64.Standard, key))])))
  }

  /**
   * The 404 comes exactly for an unknown username or a contact with no
   * local user; a profile names the contact's account and carries its key,
   * which decodes back to the key's bytes.
   */
  lemma WebfingerNotFound(contacts: map<string, Contact>, username: string, base: string, guid: string, publicKey: string)
    requires WebfingerView(contacts, username, base, guid, publicKey).Ok?
    ensures var r := WebfingerView(contacts, username, base, guid, publicKey).value;
      && (r.Status? <==> username !in contacts || !contacts[username].hasUser)
      && (r.Status? ==> r.code == 404)
      && (r.Document? ==>
            && r.doc.subject == "acct:" + contacts[username].username
            && |r.doc.links| == 5
            && r.doc.links[2].href == guid
            && Base64.Decode(r.doc.links[4].href) == Some(Bytes.AsciiEncode(publicKey).value))
  {
    if username in contacts && contacts[username].hasUser {
      Base64.DecodeEncode(Bytes.AsciiEncode(publicKey).value);
    }
  }

  /** `feed(guid, form)`: the stub, an empty JSON list for "json" and a refusal for anything else. */
  function Feed(guid: string, form: string): (r: string)
    ensures r == "[]" <==> form == "json"
  {
    if form == "json" then "[]" else "Cannot handle format"
  }

  /** The stub ignores the user and answers "[]" exactly for the JSON form. */
  lemma FeedStub(guid: string, other: string, form: string)
    ensures Feed(guid, form) == Feed(other, form)
    ensures Feed(guid, form) == "[]" <==> form == "json"
  {
  }
}

=== FILE: LegacyModel.dfy ===
/**
 * The older server's ORM model: the stored password record
 * "version:salt:digest", the de-duplicated friends list, group
 * lookup-or-create, sharing a post with contacts, and account activation.
 * Tables are sequences of rows in query order; the salt's random draws, the
 * SHA-256 function and the clock are parameters.
 */
module LegacyModel {
  import opened Results
  import Text
  import Bytes

  type byte = Bytes.byte

  // ---------------------------------------------------------------------
  // Password records
  // ---------------------------------------------------------------------

  /** `User.password_version`: the algorithm new records are written with. */
  const PasswordVersion := "1"
  /** `User.salt_bytes`: how many random draws make up a salt. */
  const SaltBytes := 32

  predicate IsHexChar(c: char) { '0' <= c <= '9' || 'a' <= c <= 'f' }
  predicate IsHex(s: string) { forall i :: 0 <= i < |s| ==> IsHexChar(s[i]) }

  function HexDigit(d: nat): (c: char)
    requires d < 16
    ensures IsHexChar(c)
  {
    if d < 10 then ('0' as int + d) as char else ('a' as int + d - 10) as char
  }

  /** The value of a lower-case hex digit, the inverse of `HexDigit`. */
  function HexValue(c: char): (d: nat)
    requires IsHexChar(c)
    ensures d < 16 && HexDigit(d) == c
  {
    if c <= '9' then c as int - '0' as int else c as int - 'a' as int + 10
  }

  /** `"%x" % n`: lower-case hex without padding, so one digit below 16 and two above. */
  function HexShort(n: byte): (r: string)
    ensures 1 <= |r| <= 2 && IsHex(r)
    ensures |r| == 1 <==> n < 16
  {
    if n < 16 then [HexDigit(n)] else [HexDigit(n / 16), HexDigit(n % 16)]
  }

  /** The salt: the short hex forms of the draws, run together. */
  function Salt(draws: seq<byte>): (r: string)
    ensures |draws| <= |r| <= 2 * |draws|
    ensures IsHex(r)
  {
    if |draws| == 0 then "" else HexShort(draws[0]) + Salt(draws[1..])
  }

  /** `hexdigest()`: two lower-case hex digits per byte. */
  function HexDigest(b: seq<byte>): (r: string)
    ensures |r| == 2 * |b|
    ensures IsHex(r)
  {
    if |b| == 0 then "" else [HexDigit(b[0] / 16), HexDigit(b[0] % 16)] + HexDigest(b[1..])
  }

  /** Reading a digest back into bytes; a string of odd length has no reading. */
  function Unhex(s: string): (r: Option<seq<byte>>)
    requires IsHex(s)
  {
    if |s| == 0 then Some([])
    else if |s| == 1 then None
    else
      match Unhex(s[2..])
      case None => None
      case Some(rest) => Some([HexValue(s[0]) * 16 + HexValue(s[1])] + rest)
  }

  /** A digest reads back as the bytes it was made from, so equal digests mean equal hashes. */
  lemma {:induction false} UnhexDigest(b: seq<byte>)
    ensures Unhex(HexDigest(b)) == Some(b)
  {
    if |b| > 0 {
      var h := HexDigest(b);
      assert h[2..] == HexDigest(b[1..]);
      UnhexDigest(b[1..]);
      assert HexValue(h[0]) == b[0] / 16 && HexValue(h[1]) == b[0] % 16 by {
        DigitInjective(HexValue(h[0]), b[0] / 16);
        DigitInjective(HexValue(h[1]), b[0] % 16);
      }
      assert [b[0]] + b[1..] == b;
    }
  }

  lemma DigitInjective(d: nat, e: nat)
    requires d < 16 && e < 16 && HexDigit(d) == HexDigit(e)
    ensures d == e
  {
  }

  lemma HexDigestInjective(a: seq<byte>, b: seq<byte>)
    ensures HexDigest(a) == HexDigest(b) <==> a == b
  {
    UnhexDigest(a);
    UnhexDigest(b);
  }

  /** The bytes SHA-256 sees: `update(salt)` then `update(password)`, both UTF-8 encoded. */
  function Salted(salt: string, password: string): seq<byte>
  {
    Bytes.Utf8Encode(salt) + Bytes.Utf8Encode(password)
  }

  /**
   * `User.set_password`: the record written for `password`, given the 32
   * random draws in 0..255 and the SHA-256 function `sha`.
   */
  function SetPassword(password: string, draws: seq<byte>, sha: seq<byte> -> seq<byte>): (r: string)
    requires |draws| == SaltBytes
    ensures Text.StartsWith(r, PasswordVersion + ":")
  {
    var salt := Salt(draws);
    PasswordVersion + ":" + salt + ":" + HexDigest(sha(Salted(salt, password)))
  }

  /**
   * `User.password_is`: a record that does not split into exactly three
   * fields fails to unpack; a version with no check function answers false; version
   * 1 compares the stored digest with the salted hash of `password`.
   */
  function PasswordIs(record: string, password: string, sha: seq<byte> -> seq<byte>): (r: Result<bool>)
    ensures r.Err? ==> r.error == ValueErr
  {
    var fields := Text.Split(record, ':');
    if |fields| != 3 then Err(ValueErr)
    else if fields[0] != PasswordVersion then Ok(false)
    else Ok(fields[2] == HexDigest(sha(Salted(fields[1], password))))
  }

  lemma NoColon(s: string)
    requires IsHex(s)
    ensures ':' !in s
  {
    forall i | 0 <= i < |s| ensures s[i] != ':' {
      assert IsHexChar(s[i]);
    }
  }

  /** The three ':'-separated fields of a record. */
  lemma ThreeFields(v: string, salt: string, hashed: string)
    requires ':' !in v && ':' !in salt && ':' !in hashed
    ensures Text.Split(v + ":" + salt + ":" + hashed, ':') == [v, salt, hashed]
  {
    var tail := salt + [':'] + hashed;
    assert v + ":" + salt + ":" + hashed == v + [':'] + tail;
    Text.SplitNoSeparator(hashed, ':');
    Text.SplitPrefix(salt, ':', hashed);
    Text.SplitPrefix(v, ':', tail);
  }

  /**
   * A written record is "1:salt:digest": three fields, a hex salt of 32 to
   * 64 characters (no padding), and a 64-character hex digest for a 32-byte
   * hash.
   */
  lemma PasswordRecordShape(password: string, draws: seq<byte>, sha: seq<byte> -> seq<byte>)
    requires |draws| == SaltBytes
    ensures var salt := Salt(draws);
      && Text.Split(SetPassword(password, draws, sha), ':') ==
           [PasswordVersion, salt, HexDigest(sha(Salted(salt, password)))]
      && IsHex(salt) && SaltBytes <= |salt| <= 2 * SaltBytes
      && (|sha(Salted(salt, password))| == 32 ==> |HexDigest(sha(Salted(salt, password)))| == 64)
  {
    var salt := Salt(draws);
    NoColon(salt);
    NoColon(HexDigest(sha(Salted(salt, password))));
    ThreeFields(PasswordVersion, salt, HexDigest(sha(Salted(salt, password))));
  }

  /** The password a record was written for is accepted. */
  lemma PasswordRoundTrip(password: string, draws: seq<byte>, sha: seq<byte> -> seq<byte>)
    requires |draws| == SaltBytes
    ensures PasswordIs(SetPassword(password, draws, sha), password, sha) == Ok(true)
  {
    PasswordRecordShape(password, draws, sha);
  }

  /** Any other password whose salted hash differs is refused. */
  lemma WrongPasswordRejected(password: string, guess: string, draws: seq<byte>, sha: seq<byte> -> seq<byte>)
    requires |draws| == SaltBytes
    requires sha(Salted(Salt(draws), guess)) != sha(Salted(Salt(draws), password))
    ensures PasswordIs(SetPassword(password, draws, sha), guess, sha) == Ok(false)
  {
    PasswordRecordShape(password, draws, sha);
    HexDigestInjective(sha(Salted(Salt(draws), guess)), sha(Salted(Salt(draws), password)));
  }

  /** Exactly the records without two ':' fail; a well-formed record of an unknown version answers false. */
  lemma PasswordIsMalformed(record: string, password: string, sha: seq<byte> -> seq<byte>)
    ensures PasswordIs(record, password, sha).Err? <==> Text.Count(record, ':') != 2
  {
    Text.SplitCount(record, ':');
  }

  lemma UnknownVersionRefused(v: string, salt: string, hashed: string, password: string, sha: seq<byte> -> seq<byte>)
    requires ':' !in v && ':' !in salt && ':' !in hashed
    requires v != PasswordVersion
    ensures PasswordIs(v + ":" + salt + ":" + hashed, password, sha) == Ok(false)
  {
    ThreeFields(v, salt, hashed);
  }

  // ---------------------------------------------------------------------
  // Friends
  // ---------------------------------------------------------------------

  /** A subscription row: the contact subscribed to and its type ("friend", "feed", ...). */
  datatype Subscription = Subscription(contact: int, kind: string)

  /** A subscription group with its subscriptions in relationship order. */
  datatype Group = Group(name: string, subscriptions: seq<Subscription>)

  /** The `subtype` filter; "" stands for an absent or empty filter, both of which accept every type. */
  predicate Matches(s: Subscription, subtype: string)
  {
    subtype == "" || s.kind == subtype
  }

  predicate NoDuplicates(s: seq<int>)
  {
    forall i, j :: 0 <= i < j < |s| ==> s[i] != s[j]
  }

  /** The subscriptions in the order the two nested loops visit them. */
  function Flatten(groups: seq<Group>): (r: seq<Subscription>)
  {
    if |groups| == 0 then [] else groups[0].subscriptions + Flatten(groups[1..])
  }

  lemma {:induction false} FlattenMembers(groups: seq<Group>, s: Subscription)
    ensures s in Flatten(groups) <==> exists g :: 0 <= g < |groups| && s in groups[g].subscriptions
  {
    if |groups| > 0 {
      FlattenMembers(groups[1..], s);
      if s in Flatten(groups[1..]) {
        var g :| 0 <= g < |groups[1..]| && s in groups[1..][g].subscriptions;
        assert groups[g + 1] == groups[1..][g];
      }
      if g :| 1 <= g < |groups| && s in groups[g].subscriptions {
        assert groups[1..][g - 1] == groups[g];
      }
    }
  }

  /** The loop body over a run of subscriptions, appending each unseen matching contact to `acc`. */
  function Collect(subs: seq<Subscription>, subtype: string, acc: seq<int>): (r: seq<int>)
    ensures acc <= r
    ensures |r| <= |acc| + |subs|
  {
    if |subs| == 0 then acc
    else
      var s := subs[0];
      Collect(subs[1..], subtype, if Matches(s, subtype) && s.contact !in acc then acc + [s.contact] else acc)
  }

  /**
   * `Collect` never adds a contact twice, and adds exactly the contacts of
   * the matching subscriptions.
   */
  lemma {:induction false} CollectSpec(subs: seq<Subscription>, subtype: string, acc: seq<int>, c: int)
    ensures NoDuplicates(acc) ==> NoDuplicates(Collect(subs, subtype, acc))
    ensures c in Collect(subs, subtype, acc) <==>
      c in acc || exists s :: s in subs && Matches(s, subtype) && s.contact == c
  {
    if |subs| > 0 {
      var s := subs[0];
      var acc1 := if Matches(s, subtype) && s.contact !in acc then acc + [s.contact] else acc;
      CollectSpec(subs[1..], subtype, acc1, c);
      assert forall x :: x in subs <==> x == s || x in subs[1..];
      if NoDuplicates(acc) && acc1 != acc {
        assert NoDuplicates(acc1) by {
          forall i, j | 0 <= i < j < |acc1| ensures acc1[i] != acc1[j] {
            if j == |acc| { assert acc1[i] == acc[i]; }
          }
        }
      }
    }
  }

  /** `User.friends(subtype)`: the contacts of the matching subscriptions, each once, first seen first. */
  function Friends(groups: seq<Group>, subtype: string): (r: seq<int>)
    ensures |r| <= |Flatten(groups)|
  {
    Collect(Flatten(groups), subtype, [])
  }

  /**
   * No contact is listed twice, and a contact is listed exactly when some
   * group holds a matching subscription to it.
   */
  lemma FriendsSpec(groups: seq<Group>, subtype: string, c: int)
    ensures NoDuplicates(Friends(groups, subtype))
    ensures c in Friends(groups, subtype) <==>
      exists g, s :: 0 <= g < |groups| && s in groups[g].subscriptions && Matches(s, subtype) && s.contact == c
  {
    var flat := Flatten(groups);
    CollectSpec(flat, subtype, [], c);
    if c in Friends(groups, subtype) {
      var s :| s in flat && Matches(s, subtype) && s.contact == c;
      FlattenMembers(groups, s);
    }
    if g, s :| 0 <= g < |groups| && s in groups[g].subscriptions && Matches(s, subtype) && s.contact == c {
      FlattenMembers(groups, s);
    }
  }

  /** The contacts of the matching subscriptions, duplicates kept: the reference for `Collect`. */
  function MatchingContacts(subs: seq<Subscription>, subtype: string): (r: seq<int>)
    ensures |r| <= |subs|
  {
    if |subs| == 0 then []
    else (if Matches(subs[0], subtype) then [subs[0].contact] else []) + MatchingContacts(subs[1..], subtype)
  }

  lemma {:induction false} CollectNoRepeats(subs: seq<Subscription>, subtype: string, acc: seq<int>)
    requires NoDuplicates(acc + MatchingContacts(subs, subtype))
    ensures Collect(subs, subtype, acc) == acc + MatchingContacts(subs, subtype)
  {
    if |subs| > 0 {
      var s := subs[0];
      var head := if Matches(s, subtype) then [s.contact] else [];
      var tail := MatchingContacts(subs[1..], subtype);
      assert MatchingContacts(subs, subtype) == head + tail;
      assert acc + MatchingContacts(subs, subtype) == (acc + head) + tail;
      if Matches(s, subtype) {
        NotInPrefix(acc, s.contact, tail);
      } else {
        assert acc + head == acc;
      }
      assert Collect(subs, subtype, acc) == Collect(subs[1..], subtype, acc + head);
      CollectNoRepeats(subs[1..], subtype, acc + head);
    }
  }

  lemma NotInPrefix(acc: seq<int>, x: int, rest: seq<int>)
    requires NoDuplicates(acc + [x] + rest)
    ensures x !in acc
  {
    var all := acc + [x] + rest;
    forall i | 0 <= i < |acc| ensures acc[i] != x {
      assert all[i] == acc[i] && all[|acc|] == x;
    }
  }

  /** When no contact repeats among the matching subscriptions, the friends list is all of them, in order. */
  lemma FriendsWithoutRepeats(groups: seq<Group>, subtype: string)
    requires NoDuplicates(MatchingContacts(Flatten(groups), subtype))
    ensures Friends(groups, subtype) == MatchingContacts(Flatten(groups), subtype)
  {
    assert [] + MatchingContacts(Flatten(groups), subtype) == MatchingContacts(Flatten(groups), subtype);
    CollectNoRepeats(Flatten(groups), subtype, []);
  }

  // ---------------------------------------------------------------------
  // Subscription groups
  // ---------------------------------------------------------------------

  /** A `subscription_groups` row, keyed by owner and name. */
  datatype GroupRow = GroupRow(userId: int, name: string)

  predicate Names(row: GroupRow, userId: int, name: string)
  {
    row.userId == userId && row.name == name
  }

  /** The `first()` row owned by `userId` with that name, as an index. */
  function FindGroup(table: seq<GroupRow>, userId: int, name: string): (r: Option<nat>)
    ensures r.Some? ==> r.value < |table| && Names(table[r.value], userId, name)
    ensures r.None? <==> forall i :: 0 <= i < |table| ==> !Names(table[i], userId, name)
  {
    if |table| == 0 then None
    else if Names(table[0], userId, name) then Some(0)
    else
      var rest := FindGroup(table[1..], userId, name);
      assert forall i :: 1 <= i < |table| ==> table[i] == table[1..][i - 1];
      if rest.Some? then Some(rest.value + 1) else None
  }

  /**
   * `SubscriptionGroup.get_by_name(user, group, create)`: the table after the
   * call and the group found or created. A new row is added only when
   * `create` holds and none exists.
   */
  function GetByName(table: seq<GroupRow>, userId: int, name: string, create: bool): (r: (seq<GroupRow>, Option<GroupRow>))
    ensures r.1.Some? ==> Names(r.1.value, userId, name) && r.1.value in r.0
    ensures r.1.None? <==> !create && FindGroup(table, userId, name).None?
    ensures r.0 == table || (create && FindGroup(table, userId, name).None? && r.0 == table + [GroupRow(userId, name)])
  {
    match FindGroup(table, userId, name)
    case Some(i) => (table, Some(table[i]))
    case None => if create then (table + [GroupRow(userId, name)], Some(GroupRow(userId, name))) else (table, None)
  }

  predicate UniqueGroups(table: seq<GroupRow>)
  {
    forall i, j :: 0 <= i < j < |table| ==> table[i] != table[j]
  }

  /**
   * The unique constraint on (user, name) is kept, and asking again finds
   * the same group without adding another.
   */
  lemma GetByNameStable(table: seq<GroupRow>, userId: int, name: string, create: bool)
    ensures UniqueGroups(table) ==> UniqueGroups(GetByName(table, userId, name, create).0)
    ensures var (t, g) := GetByName(table, userId, name, create);
      g.Some? ==> GetByName(t, userId, name, true) == (t, g) && GetByName(t, userId, name, false) == (t, g)
  {
    var (t, g) := GetByName(table, userId, name, create);
    if t != table {
      assert t[|table|] == GroupRow(userId, name);
      assert FindGroup(t, userId, name).Some?;
    }
  }

  // ---------------------------------------------------------------------
  // Sharing a post
  // ---------------------------------------------------------------------

  /** A `shares` row: the post shown to a contact, and whether it is on the public wall. */
  datatype ShareRow = ShareRow(contact: int, post: int, public: bool)

  /** The privacy level whose shares are public (the level `Share.privacy == 'public'` looks for). */
  const PublicLevel := "public"

  predicate HasShare(shares: seq<ShareRow>, post: int, contact: int)
  {
    exists i :: 0 <= i < |shares| && shares[i].post == post && shares[i].contact == contact
  }

  /**
   * `Post.share_with(contacts, privacy)` as written: the `Share` row is
   * built with a `privacy` keyword the table does not have, which the
   * declarative constructor refuses with a TypeError, so the first contact
   * without a share ends the call.
   */
  function ShareWithAsWritten(shares: seq<ShareRow>, post: int, contacts: seq<int>, privacy: string): (r: Result<seq<int>>)
  {
    if |contacts| == 0 then Ok([])
    else if !HasShare(shares, post, contacts[0]) then Err(TypeErr)
    else ShareWithAsWritten(shares, post, contacts[1..], privacy)
  }

  /** As written, the call succeeds exactly when every contact already has the post, and then notifies nobody. */
  lemma {:induction false} ShareWithAsWrittenFails(shares: seq<ShareRow>, post: int, contacts: seq<int>, privacy: string)
    ensures ShareWithAsWritten(shares, post, contacts, privacy).Ok? <==>
      forall i :: 0 <= i < |contacts| ==> HasShare(shares, post, contacts[i])
    ensures ShareWithAsWritten(shares, post, contacts, privacy).Ok? ==>
      ShareWithAsWritten(shares, post, contacts, privacy).value == []
  {
    if |contacts| > 0 {
      ShareWithAsWrittenFails(shares, post, contacts[1..], privacy);
      assert forall i :: 1 <= i < |contacts| ==> contacts[i] == contacts[1..][i - 1];
    }
  }

  /** A concrete case: sharing a new post with one contact fails. */
  lemma ShareWithAsWrittenExample()
    ensures ShareWithAsWritten([], 1, [7], "public") == Err(TypeErr)
  {
  }

  /**
   * `Post.share_with` as intended: every contact without a share of the post
   * gets one, public exactly at the public level, and is notified
   * through its transport with `privacy`, in list
   * order; a contact listed twice is shared with once. Returns the rows and
   * the contacts notified.
   */
  function ShareWith(shares: seq<ShareRow>, post: int, contacts: seq<int>, privacy: string): (r: (seq<ShareRow>, seq<int>))
    decreases |contacts|
    ensures shares <= r.0
    ensures |r.0| == |shares| + |r.1|
  {
    if |contacts| == 0 then (shares, [])
    else if HasShare(shares, post, contacts[0]) then ShareWith(shares, post, contacts[1..], privacy)
    else
      var r := ShareWith(shares + [ShareRow(contacts[0], post, privacy == PublicLevel)], post, contacts[1..], privacy);
      (r.0, [contacts[0]] + r.1)
  }

  lemma HasShareGrows(a: seq<ShareRow>, b: seq<ShareRow>, post: int, c: int)
    requires a <= b && HasShare(a, post, c)
    ensures HasShare(b, post, c)
  {
    var i :| 0 <= i < |a| && a[i].post == post && a[i].contact == c;
    assert b[i] == a[i];
  }

  /**
   * Afterwards every listed contact has the post; the new rows are exactly
   * the notified contacts' shares, public exactly at the public level, in order; only contacts that
   * had no share are notified, each once.
   */
  lemma {:induction false} ShareWithSpec(shares: seq<ShareRow>, post: int, contacts: seq<int>, privacy: string)
    decreases |contacts|
    ensures var (rows, sent) := ShareWith(shares, post, contacts, privacy);
      && (forall i :: 0 <= i < |sent| ==> rows[|shares| + i] == ShareRow(sent[i], post, privacy == PublicLevel))
      && (forall c :: c in contacts ==> HasShare(rows, post, c))
      && (forall c :: c in sent ==> c in contacts && !HasShare(shares, post, c))
      && NoDuplicates(sent)
  {
    if |contacts| > 0 {
      var c := contacts[0];
      var r := ShareWith(shares, post, contacts, privacy);
      assert forall x :: x in contacts <==> x == c || x in contacts[1..];
      if HasShare(shares, post, c) {
        ShareWithSpec(shares, post, contacts[1..], privacy);
        HasShareGrows(shares, r.0, post, c);
      } else {
        var shares1 := shares + [ShareRow(c, post, privacy == PublicLevel)];
        ShareWithSpec(shares1, post, contacts[1..], privacy);
        var rest := ShareWith(shares1, post, contacts[1..], privacy);
        assert r == (rest.0, [c] + rest.1);
        assert HasShare(shares1, post, c) by { assert shares1[|shares|] == ShareRow(c, post, privacy == PublicLevel); }
        HasShareGrows(shares1, r.0, post, c);
        assert r.0[|shares|] == ShareRow(c, post, privacy == PublicLevel) by { assert r.0[|shares|] == shares1[|shares|]; }
        forall x | x in rest.1 ensures x != c && !HasShare(shares, post, x) {
          if HasShare(shares, post, x) { HasShareGrows(shares, shares1, post, x); }
        }
        forall i | 0 <= i < |r.1| ensures r.0[|shares| + i] == ShareRow(r.1[i], post, privacy == PublicLevel) {
          if i > 0 { assert r.1[i] == rest.1[i - 1]; }
        }
        forall i, j | 0 <= i < j < |r.1| ensures r.1[i] != r.1[j] {
          assert r.1[j] == rest.1[j - 1];
          if i > 0 { assert r.1[i] == rest.1[i - 1]; }
        }
      }
    }
  }

  /** Sharing again with the same contacts adds nothing and notifies nobody. */
  lemma ShareWithIdempotent(shares: seq<ShareRow>, post: int, contacts: seq<int>, privacy: string)
    ensures var rows := ShareWith(shares, post, contacts, privacy).0;
      ShareWith(rows, post, contacts, privacy) == (rows, [])
  {
    var rows := ShareWith(shares, post, contacts, privacy).0;
    var again := ShareWith(rows, post, contacts, privacy);
    assert |again.1| > 0 ==> again.1[0] in again.1;
    ShareWithSpec(shares, post, contacts, privacy);
    ShareWithSpec(rows, post, contacts, privacy);
    assert forall c :: c in contacts ==> HasShare(rows, post, c);
    assert forall c :: c in again.1 ==> c in contacts && !HasShare(rows, post, c);
    assert forall c :: c !in again.1;
    assert again.1 == [];
    assert again.0 == again.0[..|rows|] == rows;
  }

  // ---------------------------------------------------------------------
  // Activation
  // ---------------------------------------------------------------------

  /** A `users` row: the GUID and the activation time, absent until the account is activated. */
  datatype UserRow = UserRow(guid: string, activated: Option<int>)

  /** `User.activate`: the time is set only when it is unset. */
  function Activate(activated: Option<int>, now: int): (r: Option<int>)
    ensures r.Some?
  {
    if activated.None? then Some(now) else activated
  }

  /** An activated account keeps its first activation time. */
  lemma ActivateKeepsFirstTime(activated: Option<int>, now: int, later: int)
    ensures Activate(Activate(activated, now), later) == Activate(activated, now)
    ensures activated.Some? ==> Activate(activated, now) == activated
  {
  }

  /** `User.get_by_guid`: the first user with that GUID. */
  function GetByGuid(users: seq<UserRow>, guid: string): (r: Option<nat>)
    ensures r.Some? ==> r.value < |users| && users[r.value].guid == guid
    ensures r.Some? ==> forall i :: 0 <= i < r.value ==> users[i].guid != guid
    ensures r.None? <==> forall i :: 0 <= i < |users| ==> users[i].guid != guid
  {
    if |users| == 0 then None
    else if users[0].guid == guid then Some(0)
    else
      var rest := GetByGuid(users[1..], guid);
      assert forall i :: 1 <= i < |users| ==> users[i] == users[1..][i - 1];
      if rest.Some? then Some(rest.value + 1) else None
  }

  /**
   * `User.get_unactivated(guid)` as written: a user who has NOT activated
   * yields None, and an activated one is returned.
   */
  function GetUnactivatedAsWritten(users: seq<UserRow>, guid: string): (r: Option<UserRow>)
  {
    match GetByGuid(users, guid)
    case None => None
    case Some(i) => if users[i].activated.None? then None else Some(users[i])
  }

  /** As written, only activated users come back, so a fresh account's lookup finds nothing. */
  lemma GetUnactivatedAsWrittenInverted(users: seq<UserRow>, guid: string)
    ensures var r := GetUnactivatedAsWritten(users, guid);
      r.Some? ==> r.value.activated.Some?
    ensures GetUnactivatedAsWritten([UserRow(guid, None)], guid) == None
  {
  }

  /** The evidently intended lookup: the user with that GUID, if it has not activated yet. */
  function GetUnactivated(users: seq<UserRow>, guid: string): (r: Option<UserRow>)
    ensures r.Some? ==> r.value.guid == guid && r.value.activated.None?
    ensures r.Some? ==> r.value in users
  {
    match GetByGuid(users, guid)
    case None => None
    case Some(i) => if users[i].activated.None? then Some(users[i]) else None
  }

  /** `activate()` applied to the first user with that GUID. */
  function ActivateUser(users: seq<UserRow>, guid: string, now: int): (r: seq<UserRow>)
    ensures |r| == |users|
  {
    match GetByGuid(users, guid)
    case None => users
    case Some(i) => users[i := users[i].(activated := Activate(users[i].activated, now))]
  }

  /** Row `i` is the first with that GUID, and it has not activated. */
  predicate FirstUnactivated(users: seq<UserRow>, guid: string, i: int)
  {
    && 0 <= i < |users| && users[i].guid == guid && users[i].activated.None?
    && forall j :: 0 <= j < i ==> users[j].guid != guid
  }

  /**
   * A user comes back exactly when the GUID is known and its account is not
   * activated; once activated, the same GUID finds nothing.
   */
  lemma GetUnactivatedSpec(users: seq<UserRow>, guid: string, now: int)
    ensures var r := GetUnactivated(users, guid);
      && (r.Some? <==> exists i :: FirstUnactivated(users, guid, i))
      && (r.Some? ==> r.value.guid == guid && r.value.activated.None?)
    ensures GetUnactivated(ActivateUser(users, guid, now), guid) == None
  {
    match GetByGuid(users, guid)
    case None =>
    case Some(k) =>
      assert forall i :: FirstUnactivated(users, guid, i) ==> i == k;
      if users[k].activated.None? {
        assert FirstUnactivated(users, guid, k);
      }
      var after := ActivateUser(users, guid, now);
      assert after[k].guid == guid;
      assert forall j :: 0 <= j < k ==> after[j] == users[j];
      assert GetByGuid(after, guid) == Some(k) by {
        var m := GetByGuid(after, guid);
        assert m.Some?;
        assert !(m.value < k) && !(k < m.value);
      }
  }
}

=== FILE: Names.dfy ===
/**
 * The naming rules shared by tags and subscription groups
 * (`TagParseMixin`): which names are valid, and how a free-text line of
 * names is split and looked up.
 */
module Names {
  import opened Results
  import opened Text

  /** `name_is_valid(name)`: the checks in the order the source makes them. */
  function NameIsValid(name: string): (r: bool)
    ensures r ==> 0 < |name| <= 100
    ensures r ==> forall i :: 0 <= i < |name| ==> IsNameChar(name[i])
  {
    if |name| == 0 then false
    else if |name| > 100 then false
    else if exists i :: 0 <= i < |name| && !IsNameChar(name[i]) then false
    else if Contains(name, "__") then false
    else if StartsWith(name, "_") then false
    else if EndsWith(name, "_") then false
    else true
  }

  /**
   * The shape of a valid name, stated on its characters: 1 to 100
   * characters of `[a-z0-9_]`, no two underscores in a row, none at
   * either end.
   */
  predicate WellFormed(name: string)
  {
    && 0 < |name| <= 100
    && (forall i :: 0 <= i < |name| ==> IsNameChar(name[i]))
    && (forall i :: 0 <= i < |name| - 1 ==> !(name[i] == '_' && name[i + 1] == '_'))
    && name[0] != '_' && name[|name| - 1] != '_'
  }

  /** `"__" in s` holds exactly when two adjacent characters are underscores. */
  lemma {:induction false} ContainsDoubleUnderscore(s: string)
    ensures Contains(s, "__") <==> exists i :: 0 <= i < |s| - 1 && s[i] == '_' && s[i + 1] == '_'
  {
    if |s| >= 2 {
      ContainsDoubleUnderscore(s[1..]);
      if StartsWith(s, "__") {
        assert s[0] == s[..2][0] && s[1] == s[..2][1];
      }
      if Contains(s[1..], "__") {
        var i :| 0 <= i < |s[1..]| - 1 && s[1..][i] == '_' && s[1..][i + 1] == '_';
        assert s[i + 1] == '_' && s[i + 2] == '_';
      }
      if exists i :: 0 <= i < |s| - 1 && s[i] == '_' && s[i + 1] == '_' {
        var i :| 0 <= i < |s| - 1 && s[i] == '_' && s[i + 1] == '_';
        if i > 0 {
          assert s[1..][i - 1] == '_' && s[1..][i] == '_';
        } else {
          assert s[..2] == "__";
        }
      }
    } else if |s| == 1 {
      assert !StartsWith(s, "__") && !StartsWith(s[1..], "__") && s[1..] == [];
    } else {
      assert !StartsWith(s, "__");
    }
  }

  /** The source's sequence of checks accepts exactly the well-formed names. */
  lemma NameIsValidMeansWellFormed(name: string)
    ensures NameIsValid(name) <==> WellFormed(name)
  {
    ContainsDoubleUnderscore(name);
    if |name| > 0 {
      assert StartsWith(name, "_") <==> name[0] == '_';
      assert EndsWith(name, "_") <==> name[|name| - 1] == '_' by {
        assert name[|name| - 1..] == [name[|name| - 1]];
      }
    }
  }

  /** A valid name is already lower case: lower-casing it changes nothing. */
  lemma ValidNameIsLower(name: string)
    requires NameIsValid(name)
    ensures ToLower(name) == name
  {
    assert forall i :: 0 <= i < |name| ==> ToLowerChar(name[i]) == name[i];
  }

  /** A name holding a capital letter is invalid: only `[a-z0-9_]` passes. */
  lemma CapitalsInvalid(name: string, i: int)
    requires 0 <= i < |name| && IsUpper(name[i])
    ensures !NameIsValid(name)
  {
  }

  /** The tokens `parse_line` looks up: the pieces between runs of commas and whitespace, lower-cased. */
  function Tokens(line: string): (r: seq<string>)
    ensures |r| == |SplitRuns(line)|
    ensures forall i :: 0 <= i < |r| ==> r[i] == ToLower(SplitRuns(line)[i])
  {
    var pieces := SplitRuns(line);
    seq(|pieces|, i requires 0 <= i < |pieces| => ToLower(pieces[i]))
  }

  /**
   * `parse_line` over already split tokens: each token is looked up with
   * `get` (which may add a row to the table `s`), and the rows found are
   * kept in token order.
   */
  function ParseTokens<S, T>(tokens: seq<string>, s: S, get: (S, string) -> (S, Option<T>)): (r: (S, seq<T>))
    ensures |r.1| <= |tokens|
  {
    if |tokens| == 0 then (s, [])
    else
      var (s1, found) := get(s, tokens[0]);
      var (s2, rest) := ParseTokens(tokens[1..], s1, get);
      (s2, (if found.Some? then [found.value] else []) + rest)
  }

  /** `cls.parse_line(line, create, **kwargs)`, with `get` the class's `get_by_name`. */
  function ParseLine<S, T>(line: string, s: S, get: (S, string) -> (S, Option<T>)): (r: (S, seq<T>))
    ensures |r.1| <= |SplitRuns(line)|
  {
    ParseTokens(Tokens(line), s, get)
  }
}

=== FILE: Outbox.dfy ===
/**
 * Sending one protocol message to a remote contact (`MessageHandlerBase.send`
 * with the handler's `generate`): the message is addressed to the
 * `receive/users/{guid}` endpoint under the contact's server. Signing,
 * encryption and the HTTP POST are not modelled; a send yields the message
 * and the URL it is posted to.
 */
module Outbox {
  import opened Results
  import opened Directory

  /** The message handlers of the protocol. */
  datatype Kind = SubscribeKind | ProfileKind | UnsubscribeKind | PostMessageKind

  /** A generated message: its kind, the sender's address and the recipient's diaspora username. */
  datatype Message = Message(kind: Kind, senderHandle: string, recipientHandle: string)

  datatype Outbound = Outbound(message: Message, url: string)

  /** `"{server}receive/users/{guid}"` of the contact's row. */
  function ReceiveUrl(d: DiasporaContact): string
  {
    d.server + "receive/users/" + d.guid
  }

  /**
   * `cls.send(u_from, c_to)` as written, for the contact's row `diasp` and
   * the sender's address `uAddr`: only `Subscribe` defines `generate`, so
   * every other kind stops with an AttributeError; a contact without a row
   * fails on `c_to.diasp.username`.
   */
  function SendAsWritten(kind: Kind, uAddr: string, diasp: Option<DiasporaContact>): (r: Result<Outbound>)
    ensures kind != SubscribeKind ==> r == Err(AttributeErr)
    ensures diasp.None? ==> r == Err(AttributeErr)
    ensures r.Ok? ==> r.value.message == Message(SubscribeKind, uAddr, diasp.value.username)
    ensures r.Ok? ==> r.value.url == ReceiveUrl(diasp.value)
  {
    if kind != SubscribeKind then Err(AttributeErr)
    else if diasp.None? then Err(AttributeErr)
    else Ok(Outbound(Message(kind, uAddr, diasp.value.username), ReceiveUrl(diasp.value)))
  }

  /** `send` with a `generate` for every kind: the message of that kind to the contact's endpoint. */
  function Send(kind: Kind, uAddr: string, diasp: Option<DiasporaContact>): (r: Result<Outbound>)
    ensures r.Ok? <==> diasp.Some?
    ensures r.Ok? ==> r.value == Outbound(Message(kind, uAddr, diasp.value.username), ReceiveUrl(diasp.value))
  {
    match diasp
    case None => Err(AttributeErr)
    case Some(d) => Ok(Outbound(Message(kind, uAddr, d.username), ReceiveUrl(d)))
  }

  /** For a subscription request the two definitions agree. */
  lemma SendAgreesForSubscribe(uAddr: string, diasp: Option<DiasporaContact>)
    ensures SendAsWritten(SubscribeKind, uAddr, diasp) == Send(SubscribeKind, uAddr, diasp)
  {
  }

  /**
   * A profile or unsubscribe message to a contact with a row: the send as
   * written raises, the corrected one posts it to the contact's endpoint.
   */
  lemma SendMissingGenerate(uAddr: string, d: DiasporaContact)
    ensures SendAsWritten(ProfileKind, uAddr, Some(d)) == Err(AttributeErr)
    ensures SendAsWritten(UnsubscribeKind, uAddr, Some(d)) == Err(AttributeErr)
    ensures Send(ProfileKind, uAddr, Some(d)).Ok? && Send(UnsubscribeKind, uAddr, Some(d)).Ok?
  {
  }
}

=== FILE: Pkcs7.dfy ===
/**
 * PKCS#7 padding (section 6.3 of RFC 5652) as the envelope builder and
 * parser apply it around AES-CBC: `pkcs7_pad` appends `n` copies of the byte
 * `n`, and `pkcs7_unpad` drops as many trailing bytes as the last byte says.
 */
module Pkcs7 {
  import opened Results
  import opened Bytes
  import Arith

  /** The AES block size the envelope pads to. */
  const BlockSize: int := 16

  /** `block_size - len(inp) % block_size` for a positive block size. */
  function PadCount(len: nat, blockSize: int): (val: int)
    requires blockSize > 0
    ensures 1 <= val <= blockSize
    ensures (len + val) % blockSize == 0
  {
    var val := blockSize - len % blockSize;
    Arith.ModUnique(len + val, blockSize, len / blockSize + 1, 0);
    val
  }

  function Repeat(b: byte, n: nat): (r: seq<byte>)
    ensures |r| == n && forall i :: 0 <= i < n ==> r[i] == b
  {
    seq(n, _ => b)
  }

  /**
   * `pkcs7_pad(inp, block_size)`. A zero block size is Python's
   * ZeroDivisionError; a negative one makes the pad count negative and
   * `bytes([val])` raises ValueError, as it does for a count above 255. The
   * source's branch for a zero pad count can never be taken (see
   * `PadCount`), so it is not written here.
   */
  function Pad(inp: seq<byte>, blockSize: int): (r: Result<seq<byte>>)
    ensures r.Ok? <==> blockSize > 0 && PadCount(|inp|, blockSize) <= 255
    ensures blockSize == 0 ==> r == Err(ZeroDivision)
    ensures r.Ok? ==>
      var out := r.value;
      && |out| % blockSize == 0
      && |inp| < |out| <= |inp| + blockSize
      && out[..|inp|] == inp
      && (forall i :: |inp| <= i < |out| ==> out[i] == |out| - |inp|)
    ensures r.Ok? && |inp| % blockSize == 0 ==> |r.value| == |inp| + blockSize
  {
    if blockSize == 0 then Err(ZeroDivision)
    else if blockSize < 0 then Err(ValueErr)
    else
      var val := PadCount(|inp|, blockSize);
      if val > 255 then Err(ValueErr)
      else Ok(inp + Repeat(val, val))
  }

  /**
   * `pkcs7_unpad(data)`, that is `data[0:-data[-1]]`: an empty input is an
   * IndexError; a last byte of 0 slices to `data[0:0]`, and a last byte at
   * least the length slices everything away.
   */
  function Unpad(data: seq<byte>): (r: Result<seq<byte>>)
    ensures r.Ok? <==> |data| > 0
    ensures r.Ok? ==> |r.value| < |data| && r.value == data[..|r.value|]
    ensures r.Ok? && 0 < data[|data| - 1] < |data| ==> |r.value| == |data| - data[|data| - 1]
    ensures r.Ok? && (data[|data| - 1] == 0 || data[|data| - 1] >= |data|) ==> r.value == []
  {
    if |data| == 0 then Err(IndexErr)
    else
      var k := data[|data| - 1];
      if k == 0 || k >= |data| then Ok([])
      else Ok(data[..|data| - k])
  }

  /** Unpadding undoes padding for every input and every block size up to 255. */
  lemma UnpadPad(inp: seq<byte>, blockSize: int)
    requires 0 < blockSize <= 255
    ensures Pad(inp, blockSize).Ok? && Unpad(Pad(inp, blockSize).value) == Ok(inp)
  {
    var out := Pad(inp, blockSize).value;
    var val := PadCount(|inp|, blockSize);
    assert out == inp + Repeat(val, val);
    assert out[|out| - 1] == val;
    assert out[..|out| - val] == inp;
  }

  /** The envelope's own block size: padding is always possible and undone. */
  lemma UnpadPadBlock(inp: seq<byte>)
    ensures Pad(inp, BlockSize).Ok? && Unpad(Pad(inp, BlockSize).value) == Ok(inp)
    ensures |Pad(inp, BlockSize).value| % 16 == 0
  {
    UnpadPad(inp, BlockSize);
  }
}

=== FILE: PostViews.dfy ===
/**
 * The post views' own rules: the per-request cache of serialised rows,
 * creating a post (a comment, a re-share or a plain post with an optional
 * attachment) from the submitted form, and hiding a post or moving it on or
 * off the public wall. The post's new id, the clock, the registered target
 * names, the renderer registry and the privacy rule are parameters.
 */
module PostViews {
  import opened Results
  import opened Social
  import Text
  import Bytes
  import Seqs
  import Posts
  import Tags
  import Validation
  import Rendering

  // ---------------------------------------------------------------------
  // The serialisation cache
  // ---------------------------------------------------------------------

  /** A serialised row, field name to value; the cache starts each with only its id. */
  type Entry = map<string, int>

  /** The cache of serialised rows: entry type ("contact", "post") to id to entry. */
  type Cache = map<string, map<int, Entry>>

  /**
   * `_get_cached(cache, type, id)`: the cached entry, created as `{"id": id}`
   * when absent; an unknown type is a KeyError.
   */
  function GetCached(cache: Cache, entryType: string, entryId: int): (r: Result<(Cache, Entry)>)
    ensures r.Err? <==> entryType !in cache
    ensures r.Err? ==> r.error == KeyErr
    ensures r.Ok? ==>
      entryType in r.value.0 && entryId in r.value.0[entryType] && r.value.0[entryType][entryId] == r.value.1
  {
    if entryType !in cache then Err(KeyErr)
    else if entryId in cache[entryType] then Ok((cache, cache[entryType][entryId]))
    else
      var entry := map["id" := entryId];
      Ok((cache[entryType := cache[entryType][entryId := entry]], entry))
  }

  /**
   * A cached entry is returned as it is, leaving the cache alone, so asking
   * twice gives the same entry; a new entry holds only the id and touches no
   * other entry.
   */
  lemma GetCachedStable(cache: Cache, entryType: string, entryId: int)
    requires entryType in cache
    ensures var (c1, e1) := GetCached(cache, entryType, entryId).value;
      && GetCached(c1, entryType, entryId) == Ok((c1, e1))
      && (entryId in cache[entryType] ==> c1 == cache && e1 == cache[entryType][entryId])
      && (entryId !in cache[entryType] ==> e1 == map["id" := entryId] && e1["id"] == entryId)
      && c1.Keys == cache.Keys
      && (forall t :: t in cache && t != entryType ==> c1[t] == cache[t])
      && (forall k :: k in cache[entryType] ==> k in c1[entryType] && c1[entryType][k] == cache[entryType][k])
  {
  }

  // ---------------------------------------------------------------------
  // Creating a post
  // ---------------------------------------------------------------------

  /** The type of the body part of every new post. */
  const MarkdownType := "text/x-markdown"

  /** An uploaded file: its name, its declared type and its content. */
  datatype Upload = Upload(filename: string, mimeType: string, data: seq<Bytes.byte>)

  /** A form value Python treats as true: present and not empty. */
  predicate Truthy(v: Option<string>)
  {
    v.Some? && v.value != ""
  }

  /** What the new post relates to: nothing, a post it comments on, or a post it re-shares, with that post's id. */
  datatype Relation = Naked | Comment(id: int, parent: Post) | Reshare(id: int, shared: Post)

  /**
   * The relationship lookup: a relationship type that is not empty needs a
   * stored post the user may view, even when the type is neither "comment"
   * nor "share" (the post is then a plain one). A missing or unreadable id
   * finds no post (404); a post the user may not view is refused (403).
   */
  function Relationship(db: Db, me: Contact, relType: Option<string>, relId: Option<string>): (r: Result<Relation>)
    ensures r.Err? ==> r.error == Abort(404) || r.error == Abort(403)
    ensures r.Ok? && (r.value.Comment? || r.value.Reshare?) ==> r.value.id in db.posts
    ensures r.Ok? && r.value.Comment? ==> db.posts[r.value.id] == r.value.parent
    ensures r.Ok? && r.value.Reshare? ==> db.posts[r.value.id] == r.value.shared
  {
    if !Truthy(relType) then Ok(Naked)
    else
      var id := if relId.Some? then Text.ParseInt(relId.value) else None;
      if id.None? || id.value !in db.posts then Err(Abort(404))
      else
        var p := db.posts[id.value];
        if !Posts.HasPermissionToView(db, p, Some(me), Posts.LookUp) then Err(Abort(403))
        else if relType.value == "comment" then Ok(Comment(id.value, p))
        else if relType.value == "share" then Ok(Reshare(id.value, p))
        else Ok(Naked)
  }

  /**
   * Which relationship types need a stored, viewable post, and which kind of
   * post each gives.
   */
  lemma RelationshipSpec(db: Db, me: Contact, relType: Option<string>, relId: Option<string>)
    ensures var r := Relationship(db, me, relType, relId);
      var id := if relId.Some? then Text.ParseInt(relId.value) else None;
      && (!Truthy(relType) ==> r == Ok(Naked))
      && (Truthy(relType) ==>
            && (r == Err(Abort(404)) <==> id.None? || id.value !in db.posts)
            && (r == Err(Abort(403)) <==>
                  id.Some? && id.value in db.posts && !Posts.CanView(db, Some(me), db.posts[id.value]))
            && (r.Ok? ==> id.Some? && id.value in db.posts && Posts.CanView(db, Some(me), db.posts[id.value]))
            && (r.Ok? && relType.value == "comment" ==> r.value == Comment(id.value, db.posts[id.value]))
            && (r.Ok? && relType.value == "share" ==> r.value == Reshare(id.value, db.posts[id.value]))
            && (r.Ok? && relType.value != "comment" && relType.value != "share" ==> r.value == Naked))
  {
  }

  /** The body part: the submitted text, UTF-8 encoded, with no preview. */
  function BodyPart(body: string): MimePart
  {
    MimePart(MarkdownType, Raw(Bytes.Utf8Encode(body)), None)
  }

  /** The card at the head of a re-share, naming the shared post and its author. */
  function ShareCardPart(shared: Post, authorName: string): MimePart
  {
    MimePart(Rendering.ShareType, ShareCard(shared.id, shared.author, authorName),
             Some("shared " + authorName + "'s post"))
  }

  predicate NotCard(p: PostPart)
  {
    p.part.mimeType != Rendering.ShareType
  }

  /**
   * The loop over the shared post's parts: each part that is not itself a
   * share card is added with the next order after `order`, keeping its
   * inline hint.
   */
  function CopyParts(parts: seq<PostPart>, order: int): (r: seq<PostPart>)
    ensures |r| <= |parts|
  {
    if |parts| == 0 then []
    else if NotCard(parts[0]) then [PostPart(parts[0].part, parts[0].inline, order + 1)] + CopyParts(parts[1..], order + 1)
    else CopyParts(parts[1..], order)
  }

  /** Parts given consecutive orders from `first`. */
  function Numbered(parts: seq<PostPart>, first: int): (r: seq<PostPart>)
    ensures |r| == |parts|
    ensures forall i :: 0 <= i < |r| ==> r[i] == PostPart(parts[i].part, parts[i].inline, first + i)
  {
    seq(|parts|, i requires 0 <= i < |parts| => PostPart(parts[i].part, parts[i].inline, first + i))
  }

  /** The copied parts are the shared post's non-card parts, in their order, numbered on from `order`. */
  lemma {:induction false} CopyPartsSpec(parts: seq<PostPart>, order: int)
    ensures CopyParts(parts, order) == Numbered(Seqs.Filter(parts, NotCard), order + 1)
  {
    if |parts| > 0 {
      CopyPartsSpec(parts[1..], order + 1);
      CopyPartsSpec(parts[1..], order);
    }
  }

  /** A post's contents before it is stored: its parent, its parts and its tag ids. */
  datatype Contents = Contents(parent: Option<int>, parts: seq<PostPart>, tags: seq<int>)

  function TagIds(ts: seq<Tag>): (r: seq<int>)
    ensures |r| == |ts|
    ensures forall i :: 0 <= i < |ts| ==> r[i] == ts[i].id
  {
    if |ts| == 0 then [] else [ts[0].id] + TagIds(ts[1..])
  }

  /**
   * The three kinds of post. A comment has the parent and the body alone at
   * order 0. A re-share has the card at 0, the body at 1 and the shared
   * post's other parts after it, and inherits the shared post's tags when it
   * has none of its own; a shared post whose author is not stored fails
   * reading the author's name. A plain post has the body at 0 and a named
   * upload at 1, which must be of a safe type and is inline exactly when a
   * renderer exists for it.
   */
  function MakeContents(db: Db, rel: Relation, body: string, ownTags: seq<int>, attachment: Option<Upload>,
                        registry: Rendering.Registry): (r: Result<Contents>)
    ensures r.Err? ==> r.error == AttributeErr || r.error == Abort(400)
    ensures r.Ok? && r.value.parent.Some? ==> rel.Comment? && r.value.parent.value == rel.id
  {
    match rel
    case Comment(id, _) => Ok(Contents(Some(id), [PostPart(BodyPart(body), true, 0)], ownTags))
    case Reshare(_, shared) =>
      if shared.author !in db.contacts then Err(AttributeErr)
      else
        var card := ShareCardPart(shared, db.contacts[shared.author].realname);
        var parts := [PostPart(card, true, 0), PostPart(BodyPart(body), true, 1)] + CopyParts(shared.parts, 1);
        Ok(Contents(None, parts, if |ownTags| == 0 then shared.tags else ownTags))
    case Naked =>
      var bodyPart := PostPart(BodyPart(body), true, 0);
      if attachment.Some? && attachment.value.filename != "" then
        var u := attachment.value;
        var _ :- Validation.CheckAttachmentIsSafe(u.mimeType);
        var upload := MimePart(u.mimeType, Raw(u.data), Some(u.filename));
        Ok(Contents(None, [bodyPart, PostPart(upload, Rendering.RendererExists(registry, u.mimeType).Some?, 1)], ownTags))
      else Ok(Contents(None, [bodyPart], ownTags))
  }

  /** A comment: the parent is set and the body is the only part, inline at order 0. */
  lemma CommentContents(db: Db, id: int, parent: Post, body: string, ownTags: seq<int>, attachment: Option<Upload>,
                        registry: Rendering.Registry)
    ensures MakeContents(db, Comment(id, parent), body, ownTags, attachment, registry) ==
      Ok(Contents(Some(id), [PostPart(BodyPart(body), true, 0)], ownTags))
  {
  }

  /**
   * A re-share: card at 0, body at 1, then the shared post's parts other
   * than cards in their order with orders 2, 3, ...; the post has no parent
   * and takes the shared post's tags exactly when it has none of its own.
   */
  lemma ReshareContents(db: Db, id: int, shared: Post, body: string, ownTags: seq<int>, attachment: Option<Upload>,
                        registry: Rendering.Registry)
    requires shared.author in db.contacts
    ensures var r := MakeContents(db, Reshare(id, shared), body, ownTags, attachment, registry);
      var name := db.contacts[shared.author].realname;
      && r.Ok? && r.value.parent.None?
      && r.value.parts == [PostPart(ShareCardPart(shared, name), true, 0), PostPart(BodyPart(body), true, 1)] +
           Numbered(Seqs.Filter(shared.parts, NotCard), 2)
      && r.value.tags == (if |ownTags| == 0 then shared.tags else ownTags)
      && r.value.parts[0].part.textPreview == Some("shared " + name + "'s post")
  {
    CopyPartsSpec(shared.parts, 1);
  }

  /** No part of a re-share but the first is a share card, so re-sharing a re-share never nests cards. */
  lemma ReshareHasOneCard(db: Db, id: int, shared: Post, body: string, ownTags: seq<int>, attachment: Option<Upload>,
                          registry: Rendering.Registry)
    requires shared.author in db.contacts
    ensures var r := MakeContents(db, Reshare(id, shared), body, ownTags, attachment, registry);
      r.Ok? && !NotCard(r.value.parts[0]) && forall i :: 1 <= i < |r.value.parts| ==> NotCard(r.value.parts[i])
  {
    ReshareContents(db, id, shared, body, ownTags, attachment, registry);
    var kept := Seqs.Filter(shared.parts, NotCard);
    var r := MakeContents(db, Reshare(id, shared), body, ownTags, attachment, registry);
    forall i | 2 <= i < |r.value.parts| ensures NotCard(r.value.parts[i]) {
      assert r.value.parts[i].part == kept[i - 2].part;
      assert kept[i - 2] in kept;
    }
  }

  /**
   * A plain post: the body alone at 0, or with a named upload at 1 that is
   * inline exactly when a renderer exists for its type; an unsafe upload is
   * refused with 400.
   */
  lemma NakedContents(db: Db, body: string, ownTags: seq<int>, attachment: Option<Upload>, registry: Rendering.Registry)
    ensures var r := MakeContents(db, Naked, body, ownTags, attachment, registry);
      && (r.Err? <==> attachment.Some? && attachment.value.filename != "" && !Validation.SafeType(attachment.value.mimeType))
      && (r.Ok? ==> r.value.parent.None? && r.value.tags == ownTags && r.value.parts[0] == PostPart(BodyPart(body), true, 0))
      && (r.Ok? && (attachment.None? || attachment.value.filename == "") ==> |r.value.parts| == 1)
      && (r.Ok? && attachment.Some? && attachment.value.filename != "" ==>
            && |r.value.parts| == 2
            && r.value.parts[1].order == 1
            && r.value.parts[1].part.mimeType == attachment.value.mimeType
            && (r.value.parts[1].inline <==> attachment.value.mimeType in registry))
  {
    if attachment.Some? {
      Validation.CheckAttachmentMeansSafe(attachment.value.mimeType);
    }
  }

  /** A new post, stored and with its thread marked modified, and the target the form chose for it. */
  datatype Created = Created(db: Db, post: Post, targetType: string, targetId: Option<string>)

  /** The form fields `create` reads first, in its order. */
  datatype Params = Params(body: string, relType: Option<string>, relId: Option<string>, targetType: string,
                           targetId: Option<string>)

  /**
   * Reading the form: the body and the target type are required (400); the
   * target type must be a registered target name (an assertion); a missing
   * target id is looked for under "target_<type>_id".
   */
  function ReadParams(form: Validation.Form, targetNames: set<string>): (r: Result<Params>)
    ensures r.Err? ==> r.error == Abort(400) || r.error == AssertionFailed
    ensures r.Ok? ==> r.value.targetType in targetNames && "target_type" in form && form["target_type"] == r.value.targetType
    ensures r.Ok? ==> "body" in form && form["body"] == r.value.body && r.value.body != ""
  {
    var body :- Validation.PostParam(form, "body", false);
    var relType :- Validation.PostParam(form, "relationship_type", true);
    var relId :- Validation.PostParam(form, "relationship_id", true);
    var targetType :- Validation.PostParam(form, "target_type", false);
    var givenId :- Validation.PostParam(form, "target_id", true);
    if targetType.value !in targetNames then Err(AssertionFailed)
    else
      var targetId :- if givenId.None? then Validation.PostParam(form, "target_" + targetType.value + "_id", true)
                      else Ok(givenId);
      Ok(Params(body.value, relType, relId, targetType.value, targetId))
  }

  /**
   * With a body and a target type submitted, an unregistered target type is
   * refused; and the target id falls back to "target_<type>_id" only when
   * "target_id" is missing.
   */
  lemma ReadParamsTarget(form: Validation.Form, targetNames: set<string>)
    requires "body" in form && form["body"] != "" && "target_type" in form && form["target_type"] != ""
    ensures form["target_type"] !in targetNames ==> ReadParams(form, targetNames) == Err(AssertionFailed)
    ensures form["target_type"] in targetNames ==>
      var r := ReadParams(form, targetNames);
      && r.Ok?
      && ("target_id" in form ==> r.value.targetId == Some(form["target_id"]))
      && ("target_id" !in form ==>
            var alt := "target_" + form["target_type"] + "_id";
            r.value.targetId == if alt in form then Some(form[alt]) else None)
  {
  }

  /** The relationship fields are passed on as submitted, and are absent when not submitted. */
  lemma ReadParamsRelation(form: Validation.Form, targetNames: set<string>)
    requires ReadParams(form, targetNames).Ok?
    ensures var p := ReadParams(form, targetNames).value;
      && p.relType == (if "relationship_type" in form then Some(form["relationship_type"]) else None)
      && p.relId == (if "relationship_id" in form then Some(form["relationship_id"]) else None)
  {
  }

  /** The tags named by the "tags" field, created when new, or none when the field is empty or absent. */
  function OwnTags(table: seq<Tag>, topics: Option<string>): (r: (seq<Tag>, seq<int>))
  {
    if Truthy(topics) then
      var (table1, ts) := Tags.ParseLine(table, topics.value, true);
      (table1, TagIds(ts))
    else (table, [])
  }

  /** Everything `create` takes from the form before storing: the fields, the tag table and the contents. */
  datatype Draft = Draft(params: Params, tags: seq<Tag>, contents: Contents)

  /**
   * The first half of `create`: read the form, look up the related post,
   * parse the tags (creating new ones) and build the parts.
   */
  function Prepare(db: Db, me: Contact, form: Validation.Form, attachment: Option<Upload>, targetNames: set<string>,
                   registry: Rendering.Registry): (r: Result<Draft>)
    ensures r.Err? ==> r.error in {Abort(400), Abort(403), Abort(404), AssertionFailed, AttributeErr}
    ensures r.Ok? ==> r.value.params.targetType in targetNames
    ensures r.Ok? && r.value.contents.parent.Some? ==> r.value.contents.parent.value in db.posts
  {
    var params :- ReadParams(form, targetNames);
    var rel :- Relationship(db, me, params.relType, params.relId);
    var topics :- Validation.PostParam(form, "tags", true);
    var (table, ownTags) := OwnTags(db.tags, topics);
    var c :- MakeContents(db, rel, params.body, ownTags, attachment, registry);
    Ok(Draft(params, table, c))
  }

  /** Adding a post with a fresh id whose parent is stored keeps the posts linked. */
  lemma AddPostLinked(posts: map<int, Post>, post: Post)
    requires PostsLinked(posts) && FreshPostId(posts, post.id)
    requires post.parent.Some? ==> post.parent.value in posts
    ensures PostsLinked(posts[post.id := post])
  {
    var p1 := posts[post.id := post];
    forall id | id in p1
      ensures p1[id].id == id && (p1[id].parent.Some? ==> p1[id].parent.value in p1 && p1[id].parent.value < id)
    {
      if id != post.id {
        assert p1[id] == posts[id];
      }
    }
  }

  /** The second half of `create`: store the post under `postId` and mark its thread modified at `now`. */
  function Store(db: Db, me: Contact, d: Draft, postId: int, now: int): (r: Created)
    requires PostsLinked(db.posts) && FreshPostId(db.posts, postId)
    requires d.contents.parent.Some? ==> d.contents.parent.value in db.posts
    ensures postId in r.db.posts && PostsLinked(r.db.posts)
  {
    var post := Post(postId, me.id, d.contents.parent, None, d.contents.parts, d.contents.tags);
    AddPostLinked(db.posts, post);
    var posts := db.posts[postId := post];
    Posts.ThreadModifiedKeepsOthers(posts, postId, None, now);
    Created(db.(posts := Posts.ThreadModified(posts, postId, None, now), tags := d.tags), post, d.params.targetType,
            d.params.targetId)
  }

  /**
   * `create`: read the form, look up the related post, parse the tags, build
   * the parts, store the post under `postId` and mark its thread modified at
   * `now`. Making the shares for the chosen target is not part of this
   * model.
   */
  function Create(db: Db, me: Contact, form: Validation.Form, attachment: Option<Upload>, targetNames: set<string>,
                  registry: Rendering.Registry, postId: int, now: int): (r: Result<Created>)
    requires PostsLinked(db.posts) && FreshPostId(db.posts, postId)
    ensures r.Err? ==> r.error in {Abort(400), Abort(403), Abort(404), AssertionFailed, AttributeErr}
    ensures r.Ok? ==> postId in r.value.db.posts && PostsLinked(r.value.db.posts) && r.value.targetType in targetNames
  {
    var d :- Prepare(db, me, form, attachment, targetNames, registry);
    Ok(Store(db, me, d, postId, now))
  }

  /**
   * A stored post is the user's, under the new id, with the drafted parent,
   * parts and tags; its thread's root is marked modified now; no other stored
   * post changes, and shares are untouched. A comment's thread is its
   * parent's.
   */
  lemma StoreSpec(db: Db, me: Contact, d: Draft, postId: int, now: int)
    requires PostsLinked(db.posts) && FreshPostId(db.posts, postId)
    requires d.contents.parent.Some? ==> d.contents.parent.value in db.posts
    ensures var c := Store(db, me, d, postId, now);
      var posts := db.posts[postId := c.post];
      && c.post == Post(postId, me.id, d.contents.parent, None, d.contents.parts, d.contents.tags)
      && c.db.posts.Keys == db.posts.Keys + {postId}
      && c.db.posts[Posts.Root(posts, postId)].threadModifiedAt == Some(now)
      && (forall k :: k in db.posts && k != Posts.Root(posts, postId) ==> c.db.posts[k] == db.posts[k])
      && (Posts.Root(posts, postId) != postId ==> c.db.posts[postId] == c.post)
      && c.db.shares == db.shares && c.db.tags == d.tags
      && (d.contents.parent.Some? ==>
            c.db.posts[Posts.Root(db.posts, d.contents.parent.value)].threadModifiedAt == Some(now))
  {
    var c := Store(db, me, d, postId, now);
    var posts := db.posts[postId := c.post];
    AddPostLinked(db.posts, c.post);
    Posts.ThreadModifiedKeepsOthers(posts, postId, None, now);
    if d.contents.parent.Some? {
      RootOfChild(posts, postId, d.contents.parent.value);
      RootAfterAdd(db.posts, c.post, d.contents.parent.value);
    }
  }

  /** A new comment's thread root is its parent's. */
  lemma RootOfChild(posts: map<int, Post>, child: int, parent: int)
    requires PostsLinked(posts) && child in posts && posts[child].parent == Some(parent)
    ensures parent in posts && Posts.Root(posts, child) == Posts.Root(posts, parent)
  {
  }

  /** Storing a new post changes no stored post's thread root. */
  lemma {:induction false} RootAfterAdd(posts: map<int, Post>, post: Post, id: int)
    requires PostsLinked(posts) && FreshPostId(posts, post.id)
    requires post.parent.Some? ==> post.parent.value in posts
    requires id in posts
    ensures PostsLinked(posts[post.id := post])
    ensures Posts.Root(posts[post.id := post], id) == Posts.Root(posts, id)
    decreases Posts.Below(posts, id)
  {
    AddPostLinked(posts, post);
    var p1 := posts[post.id := post];
    assert p1[id] == posts[id];
    match posts[id].parent
    case None =>
    case Some(p) =>
      Posts.ParentBelow(posts, id);
      RootAfterAdd(posts, post, p);
  }

  /**
   * A comment submitted for a viewable post: the new post's parent is that
   * post and its one part is the body, inline at order 0.
   */
  lemma PrepareComment(db: Db, me: Contact, form: Validation.Form, attachment: Option<Upload>, targetNames: set<string>,
                       registry: Rendering.Registry, id: int)
    requires "relationship_type" in form && form["relationship_type"] == "comment"
    requires "relationship_id" in form && Text.ParseInt(form["relationship_id"]) == Some(id)
    requires Prepare(db, me, form, attachment, targetNames, registry).Ok?
    ensures var d := Prepare(db, me, form, attachment, targetNames, registry).value;
      && id in db.posts
      && d.contents.parent == Some(id)
      && d.contents.parts == [PostPart(BodyPart(form["body"]), true, 0)]
  {
    var params := ReadParams(form, targetNames).value;
    ReadParamsRelation(form, targetNames);
    RelationshipSpec(db, me, params.relType, params.relId);
    var rel := Relationship(db, me, params.relType, params.relId).value;
    assert rel == Comment(id, db.posts[id]);
    var topics := Validation.PostParam(form, "tags", true).value;
    var (table, ownTags) := OwnTags(db.tags, topics);
    CommentContents(db, id, db.posts[id], params.body, ownTags, attachment, registry);
  }

  /** A created comment is stored under its parent, and the thread marked modified is the parent's. */
  lemma CreateComment(db: Db, me: Contact, form: Validation.Form, attachment: Option<Upload>, targetNames: set<string>,
                      registry: Rendering.Registry, postId: int, now: int, id: int)
    requires PostsLinked(db.posts) && FreshPostId(db.posts, postId)
    requires "relationship_type" in form && form["relationship_type"] == "comment"
    requires "relationship_id" in form && Text.ParseInt(form["relationship_id"]) == Some(id)
    requires Create(db, me, form, attachment, targetNames, registry, postId, now).Ok?
    ensures var c := Create(db, me, form, attachment, targetNames, registry, postId, now).value;
      && id in db.posts
      && c.post.parent == Some(id)
      && c.post.parts == [PostPart(BodyPart(form["body"]), true, 0)]
      && c.db.posts[Posts.Root(db.posts, id)].threadModifiedAt == Some(now)
  {
    var d := Prepare(db, me, form, attachment, targetNames, registry).value;
    PrepareComment(db, me, form, attachment, targetNames, registry, id);
    StoreSpec(db, me, d, postId, now);
  }

  /**
   * A re-share of a viewable post: the card, then the body, then the shared
   * post's other parts numbered from 2; with no "tags" of its own the post
   * carries the shared post's tags.
   */
  lemma PrepareReshare(db: Db, me: Contact, form: Validation.Form, attachment: Option<Upload>, targetNames: set<string>,
                       registry: Rendering.Registry, id: int)
    requires "relationship_type" in form && form["relationship_type"] == "share"
    requires "relationship_id" in form && Text.ParseInt(form["relationship_id"]) == Some(id)
    requires Prepare(db, me, form, attachment, targetNames, registry).Ok?
    ensures var d := Prepare(db, me, form, attachment, targetNames, registry).value;
      && id in db.posts && db.posts[id].author in db.contacts
      && var shared := db.posts[id];
      && d.contents.parent.None?
      && d.contents.parts == [PostPart(ShareCardPart(shared, db.contacts[shared.author].realname), true, 0),
                              PostPart(BodyPart(form["body"]), true, 1)] +
                             Numbered(Seqs.Filter(shared.parts, NotCard), 2)
      && ("tags" !in form || form["tags"] == "" ==> d.contents.tags == shared.tags)
  {
    var params := ReadParams(form, targetNames).value;
    ReadParamsRelation(form, targetNames);
    RelationshipSpec(db, me, params.relType, params.relId);
    var shared := db.posts[id];
    var rel := Relationship(db, me, params.relType, params.relId).value;
    assert rel == Reshare(id, shared);
    var topics := Validation.PostParam(form, "tags", true).value;
    var (table, ownTags) := OwnTags(db.tags, topics);
    ReshareContents(db, id, shared, params.body, ownTags, attachment, registry);
  }

  // ---------------------------------------------------------------------
  // Hiding and the public wall
  // ---------------------------------------------------------------------

  /** `_get_share_for_post`: the user's own share of the post, unless hidden; otherwise 403. */
  function GetShareForPost(db: Db, contactId: int, postId: int): (r: Result<Share>)
    ensures r.Ok? <==> (contactId, postId) in db.shares && !db.shares[(contactId, postId)].hidden
    ensures r.Ok? ==> r.value == db.shares[(contactId, postId)]
    ensures r.Err? ==> r.error == Abort(403)
  {
    var key := (contactId, postId);
    if key in db.shares && !db.shares[key].hidden then Ok(db.shares[key]) else Err(Abort(403))
  }

  /** The `hide` view: the user's visible share is marked hidden. */
  function HideView(db: Db, contactId: int, postId: int): (r: Result<Db>)
  {
    var share :- GetShareForPost(db, contactId, postId);
    Ok(db.(shares := db.shares[(contactId, postId) := share.(hidden := true)]))
  }

  /**
   * Hiding needs a visible share and hides exactly it, changing nothing
   * else; after it, hiding again and moving the post on or off the wall
   * are both refused.
   */
  lemma HideViewSpec(db: Db, contactId: int, postId: int, toggle: int, canChange: (int, bool) -> bool, now: int)
    requires PostsLinked(db.posts)
    ensures var r := HideView(db, contactId, postId);
      && (r.Ok? <==> GetShareForPost(db, contactId, postId).Ok?)
      && (r.Ok? ==>
            var key := (contactId, postId);
            && r.value.shares.Keys == db.shares.Keys
            && r.value.shares[key] == db.shares[key].(hidden := true)
            && (forall k :: k in db.shares && k != key ==> r.value.shares[k] == db.shares[k])
            && r.value.posts == db.posts
            && HideView(r.value, contactId, postId) == Err(Abort(403))
            && SetPublic(r.value, contactId, postId, toggle, canChange, now) == Err(Abort(403)))
  {
  }

  /**
   * `set_public(post_id, toggle)` as intended: the user's visible share is
   * put on the public wall when `toggle` is not 0 and taken off when it is
   * 0, if the privacy rule `canChange` allows it for the post (403
   * otherwise). `Post` defines no `can_change_privacy`, so the rule is a
   * parameter here and `SetPublicAsWritten` is the view as written. The share changes only
   * when its flag differs, and going public marks the thread modified at
   * `now`. A share whose post is not stored fails reading the post.
   */
  function SetPublic(db: Db, contactId: int, postId: int, toggle: int, canChange: (int, bool) -> bool, now: int)
    : (r: Result<Db>)
    requires PostsLinked(db.posts)
    ensures r.Err? ==> r.error == Abort(403) || r.error == AttributeErr
  {
    var share :- GetShareForPost(db, contactId, postId);
    var on := toggle != 0;
    if postId !in db.posts then Err(AttributeErr)
    else if !canChange(postId, on) then Err(Abort(403))
    else if share.public == on then Ok(db)
    else
      var db1 := db.(shares := db.shares[(contactId, postId) := share.(public := on)]);
      if on then Ok(db1.(posts := Posts.ThreadModified(db.posts, postId, None, now))) else Ok(db1)
  }

  /**
   * When allowed, the share's public flag ends equal to the toggle and no
   * other share changes; the posts change only when the share goes public,
   * and then only the thread root's time, which becomes `now`.
   */
  lemma SetPublicSpec(db: Db, contactId: int, postId: int, toggle: int, canChange: (int, bool) -> bool, now: int)
    requires PostsLinked(db.posts)
    ensures var r := SetPublic(db, contactId, postId, toggle, canChange, now);
      var key := (contactId, postId);
      && (r == Err(Abort(403)) <==>
            GetShareForPost(db, contactId, postId).Err? || (postId in db.posts && !canChange(postId, toggle != 0)))
      && (r.Ok? ==>
            && key in r.value.shares && r.value.shares[key] == db.shares[key].(public := toggle != 0)
            && r.value.shares.Keys == db.shares.Keys
            && (forall k :: k in db.shares && k != key ==> r.value.shares[k] == db.shares[k])
            && (db.shares[key].public == (toggle != 0) ==> r.value == db)
            && (db.shares[key].public != (toggle != 0) && toggle != 0 ==>
                  r.value.posts[Posts.Root(db.posts, postId)].threadModifiedAt == Some(now))
            && (toggle == 0 ==> r.value.posts == db.posts))
  {
    var r := SetPublic(db, contactId, postId, toggle, canChange, now);
    var key := (contactId, postId);
    if r.Ok? && db.shares[key].public == (toggle != 0) {
      assert db.shares[key := db.shares[key]] == db.shares;
    }
  }

  /**
   * `set_public` as written: past the share check it calls
   * `share.post.can_change_privacy`, a method `Post` does not define, so
   * every such request raises AttributeError and nothing is committed.
   */
  function SetPublicAsWritten(db: Db, contactId: int, postId: int, toggle: int): (r: Result<Db>)
    ensures r.Err?
    ensures r.error == Abort(403) <==> GetShareForPost(db, contactId, postId).Err?
    ensures r.error != Abort(403) ==> r.error == AttributeErr
  {
    var _ :- GetShareForPost(db, contactId, postId);
    Err(AttributeErr)
  }

  /**
   * Wherever the intended view succeeds, the view as written raises
   * AttributeError; the two refuse the same requests with 403 for want of
   * a visible share.
   */
  lemma SetPublicNeverSucceeds(db: Db, contactId: int, postId: int, toggle: int, canChange: (int, bool) -> bool,
                               now: int)
    requires PostsLinked(db.posts)
    ensures SetPublic(db, contactId, postId, toggle, canChange, now).Ok? ==>
              SetPublicAsWritten(db, contactId, postId, toggle) == Err(AttributeErr)
    ensures GetShareForPost(db, contactId, postId).Err? ==>
              SetPublicAsWritten(db, contactId, postId, toggle) == SetPublic(db, contactId, postId, toggle, canChange, now)
    ensures GetShareForPost(db, contactId, postId).Ok? && postId in db.posts && canChange(postId, toggle != 0) ==>
              SetPublic(db, contactId, postId, toggle, canChange, now).Ok?
  {
  }

  /** Setting the same toggle twice is the same as setting it once. */
  lemma SetPublicIdempotent(db: Db, contactId: int, postId: int, toggle: int, canChange: (int, bool) -> bool, now: int)
    requires PostsLinked(db.posts)
    requires SetPublic(db, contactId, postId, toggle, canChange, now).Ok?
    ensures PostsLinked(SetPublic(db, contactId, postId, toggle, canChange, now).value.posts)
    ensures var db1 := SetPublic(db, contactId, postId, toggle, canChange, now).value;
      SetPublic(db1, contactId, postId, toggle, canChange, now) == Ok(db1)
  {
    var db1 := SetPublic(db, contactId, postId, toggle, canChange, now).value;
    SetPublicSpec(db, contactId, postId, toggle, canChange, now);
    if db1.posts != db.posts {
      Posts.ThreadModifiedKeepsOthers(db.posts, postId, None, now);
    }
  }
}

=== FILE: Posts.dfy ===
/**
 * The post and share rules: who may view a post, sharing a post with
 * contacts without ever duplicating a share, hiding a post from one's feed,
 * the root of a thread and the thread's modification time.
 */
module Posts {
  import opened Results
  import opened Social
  import Seqs

  /** `post.shared_with(contact)`: the share of the post with the contact, if any. */
  function SharedWith(db: Db, contactId: int, postId: int): Option<Share>
  {
    if (contactId, postId) in db.shares then Some(db.shares[(contactId, postId)]) else None
  }

  /** `post.is_public()`: somebody has a public share of the post. */
  predicate IsPublic(db: Db, postId: int)
  {
    exists k :: k in db.shares && k.1 == postId && db.shares[k].public
  }

  /** `post.author_made_public()`: the author's own share of the post is public. */
  predicate AuthorMadePublic(db: Db, post: Post)
  {
    (post.author, post.id) in db.shares && db.shares[(post.author, post.id)].public
  }

  /**
   * The `share` argument of `has_permission_to_view`: left at its default
   * (the share is looked up), or given by the caller, possibly as `None`.
   */
  datatype ShareArg = LookUp | Given(share: Option<Share>)

  /** The share `has_permission_to_view` decides on for a viewing contact. */
  function ShareOf(db: Db, post: Post, contactId: int, share: ShareArg): Option<Share>
  {
    if share.LookUp? then SharedWith(db, contactId, post.id) else share.share
  }

  /**
   * `post.has_permission_to_view(contact, share)`. A contact's share
   * decides alone: hidden denies, not hidden allows. Without one, the
   * author may view; anyone else (or nobody in particular) may view when the
   * given share is public or the post is public.
   */
  function HasPermissionToView(db: Db, post: Post, contact: Option<Contact>, share: ShareArg): (r: bool)
    ensures contact.Some? && share.LookUp? && (contact.value.id, post.id) in db.shares ==>
      (r <==> !db.shares[(contact.value.id, post.id)].hidden)
    ensures contact.Some? && share.Given? && share.share.Some? ==> (r <==> !share.share.value.hidden)
    ensures contact.Some? && ShareOf(db, post, contact.value.id, share).None? ==>
      (r <==> contact.value.id == post.author || IsPublic(db, post.id))
    ensures contact.None? ==>
      (r <==> (share.Given? && share.share.Some? && share.share.value.public) || IsPublic(db, post.id))
  {
    if contact.Some? then
      var s := ShareOf(db, post, contact.value.id, share);
      if s.Some? then !s.value.hidden
      else if contact.value.id == post.author then true
      else IsPublic(db, post.id)
    else if share.Given? && share.share.Some? && share.share.value.public then true
    else IsPublic(db, post.id)
  }

  predicate CanView(db: Db, contact: Option<Contact>, p: Post)
  {
    HasPermissionToView(db, p, contact, LookUp)
  }

  /** `post.viewable_children(contact)` over the post's `children`. */
  function ViewableChildren(db: Db, children: seq<Post>, contact: Option<Contact>): (r: seq<Post>)
    ensures forall p :: p in r <==> p in children && CanView(db, contact, p)
  {
    Seqs.Filter(children, (p: Post) => CanView(db, contact, p))
  }

  /** The children `viewable_children` keeps stay in the order of `children`. */
  lemma ViewableChildrenInOrder(db: Db, children: seq<Post>, contact: Option<Contact>)
    ensures Seqs.IsSubsequence(ViewableChildren(db, children, contact), children)
  {
    Seqs.FilterInOrder(children, (p: Post) => CanView(db, contact, p));
  }

  /** Every child `viewable_children` returns passes the permission check again. */
  lemma ViewableChildrenIdempotent(db: Db, children: seq<Post>, contact: Option<Contact>)
    ensures forall p :: p in ViewableChildren(db, ViewableChildren(db, children, contact), contact) <==>
      p in ViewableChildren(db, children, contact)
  {
  }

  function Ids(cs: seq<Contact>): set<int>
  {
    set c | c in cs :: c.id
  }

  /**
   * The loop of `share_with`: a contact gets a share `Share(show_on_wall,
   * not hidden)` only when it has none yet (the session sees the shares added
   * earlier in the loop); returns the shares and the newly shared contacts.
   */
  function AddShares(shares: map<ShareKey, Share>, postId: int, contacts: seq<Contact>, showOnWall: bool)
    : (r: (map<ShareKey, Share>, seq<Contact>))
    ensures forall k :: k in shares ==> k in r.0 && r.0[k] == shares[k]
    ensures forall c :: c in contacts ==> (c.id, postId) in r.0
    decreases |contacts|
  {
    if |contacts| == 0 then (shares, [])
    else
      var c := contacts[0];
      assert forall x :: x in contacts <==> x == c || x in contacts[1..];
      if (c.id, postId) in shares then AddShares(shares, postId, contacts[1..], showOnWall)
      else
        var rest := AddShares(shares[(c.id, postId) := Share(showOnWall, false)], postId, contacts[1..], showOnWall);
        (rest.0, [c] + rest.1)
  }

  /** A share `share_with` adds is for this post, is `Share(show_on_wall, not hidden)`, and belongs to a newly shared contact. */
  lemma {:induction false} AddSharesNew(shares: map<ShareKey, Share>, postId: int, contacts: seq<Contact>,
                                        showOnWall: bool, k: ShareKey)
    requires k in AddShares(shares, postId, contacts, showOnWall).0 && k !in shares
    ensures var r := AddShares(shares, postId, contacts, showOnWall);
      k.1 == postId && r.0[k] == Share(showOnWall, false) && k.0 in Ids(r.1)
    decreases |contacts|
  {
    var c := contacts[0];
    if (c.id, postId) in shares {
      AddSharesNew(shares, postId, contacts[1..], showOnWall, k);
    } else {
      var m := shares[(c.id, postId) := Share(showOnWall, false)];
      var rest := AddShares(m, postId, contacts[1..], showOnWall);
      assert c in [c] + rest.1;
      if k != (c.id, postId) {
        AddSharesNew(m, postId, contacts[1..], showOnWall, k);
        var d :| d in rest.1 && d.id == k.0;
        assert d in [c] + rest.1;
      }
    }
  }

  /** The newly shared contacts come from the list and had no share before. */
  lemma {:induction false} AddSharesAdded(shares: map<ShareKey, Share>, postId: int, contacts: seq<Contact>,
                                          showOnWall: bool, c: Contact)
    requires c in AddShares(shares, postId, contacts, showOnWall).1
    ensures c in contacts && (c.id, postId) !in shares
    decreases |contacts|
  {
    var d := contacts[0];
    assert forall x :: x in contacts[1..] ==> x in contacts;
    if (d.id, postId) in shares {
      AddSharesAdded(shares, postId, contacts[1..], showOnWall, c);
    } else if c != d {
      AddSharesAdded(shares[(d.id, postId) := Share(showOnWall, false)], postId, contacts[1..], showOnWall, c);
    }
  }

  /** No contact is newly shared twice. */
  lemma {:induction false} AddSharesDistinct(shares: map<ShareKey, Share>, postId: int, contacts: seq<Contact>,
                                             showOnWall: bool, i: nat, j: nat)
    requires i < j < |AddShares(shares, postId, contacts, showOnWall).1|
    ensures AddShares(shares, postId, contacts, showOnWall).1[i].id != AddShares(shares, postId, contacts, showOnWall).1[j].id
    decreases |contacts|
  {
    var d := contacts[0];
    if (d.id, postId) in shares {
      AddSharesDistinct(shares, postId, contacts[1..], showOnWall, i, j);
    } else {
      var m := shares[(d.id, postId) := Share(showOnWall, false)];
      var rest := AddShares(m, postId, contacts[1..], showOnWall).1;
      if i == 0 {
        AddSharesAdded(m, postId, contacts[1..], showOnWall, rest[j - 1]);
      } else {
        AddSharesDistinct(m, postId, contacts[1..], showOnWall, i - 1, j - 1);
      }
    }
  }

  predicate AuthorIsLocal(db: Db, post: Post)
  {
    post.author in db.contacts && IsLocal(db.contacts[post.author])
  }

  function Remotes(cs: seq<Contact>): (r: seq<Contact>)
    ensures forall c :: c in r <==> c in cs && !IsLocal(c)
  {
    if |cs| == 0 then []
    else
      assert forall x :: x in cs <==> x == cs[0] || x in cs[1..];
      if IsLocal(cs[0]) then Remotes(cs[1..]) else [cs[0]] + Remotes(cs[1..])
  }

  /**
   * `post.share_with(contacts, show_on_wall, reshare_of)`: the new shares,
   * and the contacts `DiasporaPost.send_to` is then called with (empty when
   * nothing is sent). Only a locally authored post is announced, and only
   * to newly shared remote contacts. Announcing a reshare of a post both
   * authors made public calls `DiasporaPost.reshare`, which does not exist.
   * The announcement is taken to succeed, as intended; as written `send_to`
   * raises (`ShareWithAsWritten`).
   */
  function ShareWith(db: Db, post: Post, contacts: seq<Contact>, showOnWall: bool, reshareOf: Option<Post>)
    : (r: Result<(Db, seq<Contact>)>)
    ensures r.Ok? ==> r.value.0 == db.(shares := AddShares(db.shares, post.id, contacts, showOnWall).0)
    ensures r.Ok? && AuthorIsLocal(db, post) ==> forall c :: c in r.value.1 <==> c in AddShares(db.shares, post.id, contacts, showOnWall).1 && !IsLocal(c)
    ensures !AuthorIsLocal(db, post) ==> r.Ok? && r.value.1 == []
    ensures r.Err? ==> r.error == AttributeErr && reshareOf.Some?
  {
    var (shares, added) := AddShares(db.shares, post.id, contacts, showOnWall);
    var db1 := db.(shares := shares);
    if !AuthorIsLocal(db, post) then Ok((db1, []))
    else
      var remotes := Remotes(added);
      if |remotes| == 0 then Ok((db1, []))
      else if reshareOf.Some? && AuthorMadePublic(db1, post) && AuthorMadePublic(db1, reshareOf.value) then
        Err(AttributeErr)
      else Ok((db1, remotes))
  }

  /**
   * `share_with` as written: the shares are added as in `ShareWith`, but
   * when remote contacts are to be announced (outside a public reshare) the
   * call of `send_to` raises ImportError (`Delivery.SendToAsWritten`).
   */
  function ShareWithAsWritten(db: Db, post: Post, contacts: seq<Contact>, showOnWall: bool, reshareOf: Option<Post>)
    : (r: Result<(Db, seq<Contact>)>)
    ensures var intended := ShareWith(db, post, contacts, showOnWall, reshareOf);
      && (intended.Err? || intended.value.1 == [] ==> r == intended)
      && (intended.Ok? && intended.value.1 != [] ==> r == Err(ImportErr))
  {
    var (db1, targets) :- ShareWith(db, post, contacts, showOnWall, reshareOf);
    if |targets| == 0 then Ok((db1, [])) else Err(ImportErr)
  }

  /**
   * Sharing a locally authored post with one new remote contact: the
   * intended call adds the share and announces the post to that contact,
   * while the call as written raises ImportError.
   */
  lemma ShareWithRaisesImport(db: Db, post: Post, c: Contact, showOnWall: bool)
    requires AuthorIsLocal(db, post) && !IsLocal(c) && (c.id, post.id) !in db.shares
    ensures ShareWith(db, post, [c], showOnWall, None)
              == Ok((db.(shares := db.shares[(c.id, post.id) := Share(showOnWall, false)]), [c]))
    ensures ShareWithAsWritten(db, post, [c], showOnWall, None) == Err(ImportErr)
  {
    assert [c][1..] == [] && [c][0] == c && [c] + [] == [c];
    var m := db.shares[(c.id, post.id) := Share(showOnWall, false)];
    assert AddShares(m, post.id, [], showOnWall) == (m, []);
    assert AddShares(db.shares, post.id, [c], showOnWall) == (m, [c]);
    assert Remotes([c]) == [c] by {
      assert Remotes([c][1..]) == [];
    }
  }

  /** Sharing with the same contacts again adds nothing and announces nothing. */
  lemma ShareWithIdempotent(db: Db, post: Post, contacts: seq<Contact>, showOnWall: bool, reshareOf: Option<Post>,
                            wall2: bool, reshare2: Option<Post>)
    requires ShareWith(db, post, contacts, showOnWall, reshareOf).Ok?
    ensures var db1 := ShareWith(db, post, contacts, showOnWall, reshareOf).value.0;
      ShareWith(db1, post, contacts, wall2, reshare2) == Ok((db1, []))
  {
    var db1 := ShareWith(db, post, contacts, showOnWall, reshareOf).value.0;
    var a := AddShares(db1.shares, post.id, contacts, wall2);
    NothingNew(db1.shares, post.id, contacts, wall2);
    assert a.0 == db1.shares;
    assert db1.(shares := a.0) == db1;
  }

  lemma {:induction false} NothingNew(shares: map<ShareKey, Share>, postId: int, contacts: seq<Contact>, wall: bool)
    requires forall c :: c in contacts ==> (c.id, postId) in shares
    ensures AddShares(shares, postId, contacts, wall) == (shares, [])
    decreases |contacts|
  {
    if |contacts| > 0 {
      assert contacts[0] in contacts;
      assert forall c :: c in contacts[1..] ==> c in contacts;
      NothingNew(shares, postId, contacts[1..], wall);
    }
  }

  /** A contact the post was newly shared with may view it afterwards. */
  lemma ShareGrantsView(db: Db, post: Post, contacts: seq<Contact>, showOnWall: bool, reshareOf: Option<Post>,
                        c: Contact)
    requires ShareWith(db, post, contacts, showOnWall, reshareOf).Ok?
    requires c in contacts && (c.id, post.id) !in db.shares
    ensures HasPermissionToView(ShareWith(db, post, contacts, showOnWall, reshareOf).value.0, post, Some(c), LookUp)
  {
    AddSharesNew(db.shares, post.id, contacts, showOnWall, (c.id, post.id));
  }

  /**
   * `post.hide(user)` for the user's contact: an existing share becomes
   * hidden; otherwise the post must be public, and a public, hidden share
   * is added.
   */
  function Hide(db: Db, post: Post, contactId: int): (r: Result<Db>)
    ensures (contactId, post.id) in db.shares ==>
      r == Ok(db.(shares := db.shares[(contactId, post.id) := db.shares[(contactId, post.id)].(hidden := true)]))
    ensures (contactId, post.id) !in db.shares && !IsPublic(db, post.id) ==> r == Err(AssertionFailed)
    ensures (contactId, post.id) !in db.shares && IsPublic(db, post.id) ==>
      r == Ok(db.(shares := db.shares[(contactId, post.id) := Share(true, true)]))
  {
    match SharedWith(db, contactId, post.id)
    case Some(s) => Ok(db.(shares := db.shares[(contactId, post.id) := s.(hidden := true)]))
    case None =>
      if !IsPublic(db, post.id) then Err(AssertionFailed)
      else Ok(db.(shares := db.shares[(contactId, post.id) := Share(true, true)]))
  }

  /** After hiding, the post is no longer viewable by that contact, even as its author. */
  lemma HideRemovesView(db: Db, post: Post, c: Contact)
    requires Hide(db, post, c.id).Ok?
    ensures !HasPermissionToView(Hide(db, post, c.id).value, post, Some(c), LookUp)
  {
  }

  /** Hiding touches no other share and leaves the post public if it was. */
  lemma HideKeepsOthers(db: Db, post: Post, contactId: int)
    requires Hide(db, post, contactId).Ok?
    ensures var db1 := Hide(db, post, contactId).value;
      && (forall k :: k in db.shares && k != (contactId, post.id) ==> k in db1.shares && db1.shares[k] == db.shares[k])
      && (IsPublic(db, post.id) ==> IsPublic(db1, post.id))
  {
    var db1 := Hide(db, post, contactId).value;
    var key := (contactId, post.id);
    assert db1.shares == db.shares[key := db1.shares[key]];
    if IsPublic(db, post.id) {
      var k :| k in db.shares && k.1 == post.id && db.shares[k].public;
      if k == key {
        assert db1.shares[k].public;
      } else {
        assert db1.shares[k] == db.shares[k];
      }
    }
  }

  /** The ids of the stored posts older than `id`; it shrinks along parent links. */
  function Below(posts: map<int, Post>, id: int): set<int>
  {
    set k | k in posts && k < id
  }

  lemma ParentBelow(posts: map<int, Post>, id: int)
    requires PostsLinked(posts) && id in posts && posts[id].parent.Some?
    ensures Below(posts, posts[id].parent.value) < Below(posts, id)
  {
    var p := posts[id].parent.value;
    assert p in Below(posts, id) && p !in Below(posts, p);
  }

  /**
   * `post.root()`: the top-level post of the thread, reached by following
   * parent links.
   */
  function Root(posts: map<int, Post>, id: int): (r: int)
    requires PostsLinked(posts) && id in posts
    ensures r in posts && posts[r].parent.None?
    ensures r <= id
    ensures posts[id].parent.None? <==> r == id
    decreases Below(posts, id)
  {
    match posts[id].parent
    case None => id
    case Some(p) => ParentBelow(posts, id); Root(posts, p)
  }

  /** `a` lies on the parent chain of `id`. */
  predicate Ancestor(posts: map<int, Post>, a: int, id: int)
    requires PostsLinked(posts) && id in posts
    decreases Below(posts, id)
  {
    match posts[id].parent
    case None => false
    case Some(p) => ParentBelow(posts, id); p == a || Ancestor(posts, a, p)
  }

  /** The root of a thread is the post itself or one of its ancestors. */
  lemma {:induction false} RootIsAncestor(posts: map<int, Post>, id: int)
    requires PostsLinked(posts) && id in posts
    ensures Root(posts, id) == id || Ancestor(posts, Root(posts, id), id)
    decreases Below(posts, id)
  {
    match posts[id].parent
    case None =>
    case Some(p) =>
      ParentBelow(posts, id);
      RootIsAncestor(posts, p);
  }

  /** Every post along a thread's parent chain has the same root. */
  lemma {:induction false} RootOfAncestor(posts: map<int, Post>, a: int, id: int)
    requires PostsLinked(posts) && id in posts
    requires Ancestor(posts, a, id)
    ensures a in posts && Root(posts, a) == Root(posts, id)
    decreases Below(posts, id)
  {
    match posts[id].parent
    case None =>
    case Some(p) =>
      ParentBelow(posts, id);
      if p != a {
        RootOfAncestor(posts, a, p);
      }
  }

  /** The thread time `thread_modified(when)` leaves on the root. */
  function Bumped(prev: Option<int>, when: Option<int>, now: int): (r: Option<int>)
    ensures r.Some?
    ensures when.None? ==> r == Some(now)
    ensures when.Some? && prev.Some? ==> r.value >= prev.value && r.value >= when.value
    ensures when.Some? ==> r == when || r == prev
  {
    if when.Some? then (if prev.None? || prev.value < when.value then when else prev)
    else Some(now)
  }

  /**
   * `post.thread_modified(when)`: the root's `thread_modified_at` becomes
   * `when` if it was unset or earlier, or the current time `now` when no
   * time is given.
   */
  function ThreadModified(posts: map<int, Post>, id: int, when: Option<int>, now: int): (r: map<int, Post>)
    requires PostsLinked(posts) && id in posts
    ensures Root(posts, id) in r
    ensures r[Root(posts, id)].threadModifiedAt == Bumped(posts[Root(posts, id)].threadModifiedAt, when, now)
  {
    var root := Root(posts, id);
    posts[root := posts[root].(threadModifiedAt := Bumped(posts[root].threadModifiedAt, when, now))]
  }

  /** Only the root's thread time changes, and the posts stay linked. */
  lemma ThreadModifiedKeepsOthers(posts: map<int, Post>, id: int, when: Option<int>, now: int)
    requires PostsLinked(posts) && id in posts
    ensures var r := ThreadModified(posts, id, when, now);
      && r.Keys == posts.Keys
      && (forall k :: k in posts && k != Root(posts, id) ==> r[k] == posts[k])
      && r[Root(posts, id)] == posts[Root(posts, id)].(threadModifiedAt := r[Root(posts, id)].threadModifiedAt)
      && PostsLinked(r)
  {
    var r := ThreadModified(posts, id, when, now);
    var root := Root(posts, id);
    forall k | k in r
      ensures r[k].id == k && (r[k].parent.Some? ==> r[k].parent.value in r && r[k].parent.value < k)
    {
      assert r[k].id == posts[k].id && r[k].parent == posts[k].parent;
    }
  }

  /** With a time given, the thread time becomes the later of the prev one and `when`; it never goes back. */
  lemma ThreadModifiedMonotone(posts: map<int, Post>, id: int, w: int, now: int)
    requires PostsLinked(posts) && id in posts
    ensures var root := Root(posts, id);
      var prev := posts[root].threadModifiedAt;
      ThreadModified(posts, id, Some(w), now)[root].threadModifiedAt ==
        Some(if prev.Some? && prev.value > w then prev.value else w)
  {
  }

  /** Marking a comment modified touches the same post as marking the post it answers. */
  lemma ThreadModifiedFromComment(posts: map<int, Post>, id: int, a: int, when: Option<int>, now: int)
    requires PostsLinked(posts) && id in posts && Ancestor(posts, a, id)
    ensures a in posts && ThreadModified(posts, id, when, now) == ThreadModified(posts, a, when, now)
  {
    RootOfAncestor(posts, a, id);
  }
}

=== FILE: Queue.dfy ===
/**
 * The inbound message queue: messages received for a user are stored until
 * the user's key is unlocked, then drained oldest-first. Draining stops at
 * the first item that already carries an error, and at the first item whose
 * processing raises (which then gets the error recorded). Items processed
 * without error are deleted.
 *
 * The table is a sequence in `created_at` order. Processing one item
 * (decrypting and dispatching it) is the parameter `process`, and the text
 * `format_exc()` would record for an exception is the parameter `trace`.
 */
module Queue {
  import opened Results
  import opened Bytes

  /** The format of a private message waiting for its user's key. */
  const Incoming: string := "application/x-diaspora-slap"
  /** The format of a public message whose processing failed. */
  const PublicIncoming: string := "application/x-diaspora-public-slap"

  datatype QueueItem = QueueItem(
    id: int,
    localUser: Option<int>,
    format: string,
    body: seq<byte>,
    error: Option<seq<byte>>)

  /** `if qi.error:` holds for a stored, non-empty error. */
  predicate Errored(qi: QueueItem) { qi.error.Some? && |qi.error.value| > 0 }

  predicate IsPendingFor(qi: QueueItem, user: int) { qi.format == Incoming && qi.localUser == Some(user) }

  /** `pending_items_for_user`, in queue order. */
  function PendingFor(q: seq<QueueItem>, user: int): (r: seq<QueueItem>)
    ensures |r| <= |q|
    ensures forall x :: x in r <==> x in q && IsPendingFor(x, user)
  {
    if |q| == 0 then []
    else if IsPendingFor(q[0], user) then [q[0]] + PendingFor(q[1..], user)
    else PendingFor(q[1..], user)
  }

  /** `pending_public_items`, in queue order. */
  function PublicPending(q: seq<QueueItem>): (r: seq<QueueItem>)
    ensures |r| <= |q|
    ensures forall x :: x in r <==> x in q && x.format == PublicIncoming
  {
    if |q| == 0 then []
    else if q[0].format == PublicIncoming then [q[0]] + PublicPending(q[1..])
    else PublicPending(q[1..])
  }

  /** `has_pending_items`: the user's oldest incoming item exists and has no error. */
  predicate HasPendingItems(q: seq<QueueItem>, user: int)
  {
    var p := PendingFor(q, user);
    |p| > 0 && !Errored(p[0])
  }

  /** What one drain did: the items processed without error, the ids deleted, and the error recorded. */
  datatype Drained = Drained(processed: seq<QueueItem>, deleted: set<int>, failed: Option<(int, seq<byte>)>)

  /** `if max_items and ...`: a limit is in force when given and non-zero. */
  predicate Truthy(limit: Option<int>) { limit.Some? && limit.value != 0 }

  /** The ids of a sequence of items. */
  function Ids(s: seq<QueueItem>): set<int>
  {
    if |s| == 0 then {} else {s[0].id} + Ids(s[1..])
  }

  lemma {:induction false} IdsMember(s: seq<QueueItem>, k: nat)
    requires k < |s|
    ensures s[k].id in Ids(s)
  {
    if k > 0 {
      IdsMember(s[1..], k - 1);
    }
  }

  /** The loop of `process_incoming_queue` as written; `count` items were processed before `items`. */
  function DrainAsWritten(items: seq<QueueItem>, process: QueueItem -> Result<()>, trace: Exc -> seq<byte>,
                          limit: Option<int>, count: nat): (d: Drained)
    ensures |d.processed| <= |items| && d.processed == items[..|d.processed|]
    ensures forall i :: 0 <= i < |d.processed| ==> !Errored(items[i]) && process(items[i]).Ok?
    decreases |items|
  {
    if |items| == 0 then Drained([], {}, None)
    else
      var qi := items[0];
      if Errored(qi) then Drained([], {}, None)
      else match process(qi)
        case Err(e) => Drained([], {}, Some((qi.id, trace(e))))
        case Ok(_) =>
          if Truthy(limit) && count + 1 > limit.value then Drained([qi], {}, None)
          else
            var rest := DrainAsWritten(items[1..], process, trace, limit, count + 1);
            assert items == [qi] + items[1..];
            Drained([qi] + rest.processed, {qi.id} + rest.deleted, rest.failed)
  }

  /**
   * The loop as evidently intended: the limit is checked after the item is
   * deleted, so every item processed without error is deleted.
   */
  function DrainFixed(items: seq<QueueItem>, process: QueueItem -> Result<()>, trace: Exc -> seq<byte>,
                      limit: Option<int>, count: nat): (d: Drained)
    ensures |d.processed| <= |items| && d.processed == items[..|d.processed|]
    ensures forall i :: 0 <= i < |d.processed| ==> !Errored(items[i]) && process(items[i]).Ok?
    decreases |items|
  {
    if |items| == 0 then Drained([], {}, None)
    else
      var qi := items[0];
      if Errored(qi) then Drained([], {}, None)
      else match process(qi)
        case Err(e) => Drained([], {}, Some((qi.id, trace(e))))
        case Ok(_) =>
          if Truthy(limit) && count + 1 >= limit.value then Drained([qi], {qi.id}, None)
          else
            var rest := DrainFixed(items[1..], process, trace, limit, count + 1);
            assert items == [qi] + items[1..];
            Drained([qi] + rest.processed, {qi.id} + rest.deleted, rest.failed)
  }

  /** The error recorded belongs to the item right after the processed prefix, and is its trace. */
  predicate FailedIsNext(items: seq<QueueItem>, process: QueueItem -> Result<()>, trace: Exc -> seq<byte>, d: Drained)
    requires |d.processed| <= |items|
  {
    d.failed.Some? ==>
      var k := |d.processed|;
      k < |items| && !Errored(items[k]) && process(items[k]).Err?
      && d.failed.value == (items[k].id, trace(process(items[k]).error))
  }

  /** In the drain as written, an error recorded belongs to the item right after the processed prefix. */
  lemma {:induction false} AsWrittenFailedIsNext(items: seq<QueueItem>, process: QueueItem -> Result<()>,
                                                 trace: Exc -> seq<byte>, limit: Option<int>, count: nat)
    ensures FailedIsNext(items, process, trace, DrainAsWritten(items, process, trace, limit, count))
    decreases |items|
  {
    if |items| > 0 && !Errored(items[0]) && process(items[0]).Ok? && !(Truthy(limit) && count + 1 > limit.value) {
      AsWrittenFailedIsNext(items[1..], process, trace, limit, count + 1);
      var rest := DrainAsWritten(items[1..], process, trace, limit, count + 1);
      if rest.failed.Some? {
        assert items[1..][|rest.processed|] == items[|rest.processed| + 1];
      }
    }
  }

  /**
   * In the drain as written the deleted ids are the processed items', except
   * that when the limit stops the drain the last item processed is kept.
   */
  lemma {:induction false} AsWrittenDeleted(items: seq<QueueItem>, process: QueueItem -> Result<()>,
                                            trace: Exc -> seq<byte>, limit: Option<int>, count: nat)
    ensures var d := DrainAsWritten(items, process, trace, limit, count);
      d.deleted == Ids(d.processed)
      || (Truthy(limit) && |d.processed| > 0 && count + |d.processed| > limit.value
          && d.failed.None? && d.deleted == Ids(d.processed[..|d.processed| - 1]))
    decreases |items|
  {
    if |items| > 0 && !Errored(items[0]) && process(items[0]).Ok? {
      var qi := items[0];
      if Truthy(limit) && count + 1 > limit.value {
        assert [qi][..0] == [];
      } else {
        AsWrittenDeleted(items[1..], process, trace, limit, count + 1);
        var rest := DrainAsWritten(items[1..], process, trace, limit, count + 1);
        var p := [qi] + rest.processed;
        assert p[1..] == rest.processed;
        if |rest.processed| > 0 {
          assert (p[..|p| - 1])[1..] == rest.processed[..|rest.processed| - 1];
        }
      }
    }
  }

  /** The drain as written stops before the end only at an errored item, an error, or the limit. */
  lemma {:induction false} AsWrittenHalts(items: seq<QueueItem>, process: QueueItem -> Result<()>,
                                          trace: Exc -> seq<byte>, limit: Option<int>, count: nat)
    ensures var d := DrainAsWritten(items, process, trace, limit, count);
      |d.processed| < |items| && d.failed.None? ==>
        Errored(items[|d.processed|]) || (Truthy(limit) && count + |d.processed| > limit.value)
    decreases |items|
  {
    if |items| > 0 && !Errored(items[0]) && process(items[0]).Ok? && !(Truthy(limit) && count + 1 > limit.value) {
      AsWrittenHalts(items[1..], process, trace, limit, count + 1);
      var rest := DrainAsWritten(items[1..], process, trace, limit, count + 1);
      if |rest.processed| < |items| - 1 {
        assert items[1..][|rest.processed|] == items[|rest.processed| + 1];
      }
    }
  }

  /** In the corrected drain an error recorded belongs to the item right after the processed prefix. */
  lemma {:induction false} FixedFailedIsNext(items: seq<QueueItem>, process: QueueItem -> Result<()>,
                                             trace: Exc -> seq<byte>, limit: Option<int>, count: nat)
    ensures FailedIsNext(items, process, trace, DrainFixed(items, process, trace, limit, count))
    decreases |items|
  {
    if |items| > 0 && !Errored(items[0]) && process(items[0]).Ok? && !(Truthy(limit) && count + 1 >= limit.value) {
      FixedFailedIsNext(items[1..], process, trace, limit, count + 1);
      var rest := DrainFixed(items[1..], process, trace, limit, count + 1);
      if rest.failed.Some? {
        assert items[1..][|rest.processed|] == items[|rest.processed| + 1];
      }
    }
  }

  /** In the corrected drain every processed item is deleted, and at most `limit` are processed. */
  lemma {:induction false} FixedDeleted(items: seq<QueueItem>, process: QueueItem -> Result<()>,
                                        trace: Exc -> seq<byte>, limit: Option<int>, count: nat)
    ensures var d := DrainFixed(items, process, trace, limit, count);
      && d.deleted == Ids(d.processed)
      && (Truthy(limit) && count < limit.value ==> count + |d.processed| <= limit.value)
    decreases |items|
  {
    if |items| > 0 && !Errored(items[0]) && process(items[0]).Ok? {
      var qi := items[0];
      if Truthy(limit) && count + 1 >= limit.value {
        assert [qi][1..] == [];
      } else {
        FixedDeleted(items[1..], process, trace, limit, count + 1);
        var rest := DrainFixed(items[1..], process, trace, limit, count + 1);
        assert ([qi] + rest.processed)[1..] == rest.processed;
      }
    }
  }

  /** The corrected drain stops before the end only at an errored item, an error, or the limit. */
  lemma {:induction false} FixedHalts(items: seq<QueueItem>, process: QueueItem -> Result<()>,
                                      trace: Exc -> seq<byte>, limit: Option<int>, count: nat)
    ensures var d := DrainFixed(items, process, trace, limit, count);
      |d.processed| < |items| && d.failed.None? ==>
        Errored(items[|d.processed|]) || (Truthy(limit) && count + |d.processed| >= limit.value)
    decreases |items|
  {
    if |items| > 0 && !Errored(items[0]) && process(items[0]).Ok? && !(Truthy(limit) && count + 1 >= limit.value) {
      FixedHalts(items[1..], process, trace, limit, count + 1);
      var rest := DrainFixed(items[1..], process, trace, limit, count + 1);
      if |rest.processed| < |items| - 1 {
        assert items[1..][|rest.processed|] == items[|rest.processed| + 1];
      }
    }
  }

  /** The queue without the items whose id is in `ids`. */
  function Remove(q: seq<QueueItem>, ids: set<int>): (r: seq<QueueItem>)
    ensures |r| <= |q|
    ensures forall x :: x in r <==> x in q && x.id !in ids
  {
    if |q| == 0 then []
    else if q[0].id in ids then Remove(q[1..], ids)
    else [q[0]] + Remove(q[1..], ids)
  }

  /** The queue with `error` stored on the items whose id is `id`. */
  function MarkError(q: seq<QueueItem>, id: int, error: seq<byte>): (r: seq<QueueItem>)
    ensures |r| == |q|
    ensures forall i :: 0 <= i < |q| ==>
      r[i] == if q[i].id == id then q[i].(error := Some(error)) else q[i]
  {
    if |q| == 0 then []
    else [if q[0].id == id then q[0].(error := Some(error)) else q[0]] + MarkError(q[1..], id, error)
  }

  /** What storing an error leaves: marked items of the same id, or the items as they were. */
  lemma MarkedItems(kept: seq<QueueItem>, id: int, text: seq<byte>, deleted: set<int>)
    requires forall x :: x in kept ==> x.id !in deleted
    ensures forall x :: x in MarkError(kept, id, text) ==> x.id !in deleted
    ensures forall x :: x in MarkError(kept, id, text) ==> x in kept || x.error == Some(text)
    ensures forall x :: x in kept ==> (if x.id == id then x.(error := Some(text)) else x) in MarkError(kept, id, text)
  {
    var r := MarkError(kept, id, text);
    forall x | x in r ensures x.id !in deleted && (x in kept || x.error == Some(text)) {
      var i :| 0 <= i < |r| && r[i] == x;
      assert kept[i] in kept;
    }
    forall x | x in kept ensures (if x.id == id then x.(error := Some(text)) else x) in r {
      var i :| 0 <= i < |kept| && kept[i] == x;
      assert r[i] == if x.id == id then x.(error := Some(text)) else x;
    }
  }

  /** The table after a drain is committed. */
  function Apply(q: seq<QueueItem>, d: Drained): (r: seq<QueueItem>)
    ensures |r| <= |q|
    ensures forall x :: x in r ==> x.id !in d.deleted
    ensures forall x :: x in q && x.id !in d.deleted && (d.failed.None? || x.id != d.failed.value.0) ==> x in r
    ensures d.failed.Some? ==> forall x :: x in q && x.id !in d.deleted && x.id == d.failed.value.0 ==>
      x.(error := Some(d.failed.value.1)) in r
    ensures forall x :: x in r ==> x in q || (d.failed.Some? && x.error == Some(d.failed.value.1))
  {
    var kept := Remove(q, d.deleted);
    match d.failed
    case None => kept
    case Some((id, text)) =>
      var r := MarkError(kept, id, text);
      MarkedItems(kept, id, text, d.deleted);
      r
  }

  /** `MessageQueue.process_incoming_queue(user, max_items)` as written. */
  function ProcessIncomingQueue(q: seq<QueueItem>, user: int, process: QueueItem -> Result<()>,
                                trace: Exc -> seq<byte>, maxItems: Option<int>): (r: seq<QueueItem>)
    ensures |r| <= |q|
    ensures forall x :: x in r ==> x in q || x.error.Some?
  {
    Apply(q, DrainAsWritten(PendingFor(q, user), process, trace, maxItems, 0))
  }

  /** `process_incoming_queue` with the limit checked after the deletion. */
  function ProcessIncomingQueueFixed(q: seq<QueueItem>, user: int, process: QueueItem -> Result<()>,
                                     trace: Exc -> seq<byte>, maxItems: Option<int>): seq<QueueItem>
  {
    Apply(q, DrainFixed(PendingFor(q, user), process, trace, maxItems, 0))
  }

  /** The loop of `run_public_queue`: the same drain over the public items, with no limit. */
  function RunPublicQueue(q: seq<QueueItem>, process: QueueItem -> Result<()>, trace: Exc -> seq<byte>): (r: seq<QueueItem>)
    ensures |r| <= |q|
    ensures forall x :: x in r ==> x in q || x.error.Some?
  {
    Apply(q, DrainFixed(PublicPending(q), process, trace, None, 0))
  }

  // ------------------------------------------------------------ properties

  /** A queue whose head is errored, or that is empty, is left exactly as it was. */
  lemma NoPendingNoChange(q: seq<QueueItem>, user: int, process: QueueItem -> Result<()>,
                          trace: Exc -> seq<byte>, maxItems: Option<int>)
    requires !HasPendingItems(q, user)
    ensures ProcessIncomingQueue(q, user, process, trace, maxItems) == q
  {
    RemoveNothing(q);
  }

  lemma {:induction false} RemoveNothing(q: seq<QueueItem>)
    ensures Remove(q, {}) == q
  {
    if |q| > 0 {
      RemoveNothing(q[1..]);
      assert [q[0]] + q[1..] == q;
    }
  }

  lemma {:induction false} PendingOfRemove(q: seq<QueueItem>, user: int, ids: set<int>)
    ensures PendingFor(Remove(q, ids), user) == Remove(PendingFor(q, user), ids)
  {
    if |q| > 0 {
      PendingOfRemove(q[1..], user, ids);
      if q[0].id !in ids {
        assert Remove(q, ids)[0] == q[0] && Remove(q, ids)[1..] == Remove(q[1..], ids);
        if IsPendingFor(q[0], user) {
          assert PendingFor(q, user)[0] == q[0] && PendingFor(q, user)[1..] == PendingFor(q[1..], user);
        }
      } else if IsPendingFor(q[0], user) {
        assert PendingFor(q, user)[0] == q[0] && PendingFor(q, user)[1..] == PendingFor(q[1..], user);
      }
    }
  }

  lemma {:induction false} PendingOfMark(q: seq<QueueItem>, user: int, id: int, e: seq<byte>)
    ensures PendingFor(MarkError(q, id, e), user) == MarkError(PendingFor(q, user), id, e)
  {
    if |q| > 0 {
      PendingOfMark(q[1..], user, id, e);
      var m := MarkError(q, id, e);
      assert m[0] == (if q[0].id == id then q[0].(error := Some(e)) else q[0]);
      assert m[1..] == MarkError(q[1..], id, e);
      if IsPendingFor(q[0], user) {
        assert PendingFor(q, user)[0] == q[0] && PendingFor(q, user)[1..] == PendingFor(q[1..], user);
        assert PendingFor(m, user) == [m[0]] + PendingFor(m[1..], user);
      } else {
        assert PendingFor(m, user) == PendingFor(m[1..], user);
      }
    }
  }

  lemma {:induction false} RemoveShrinks(s: seq<QueueItem>, ids: set<int>, k: nat)
    requires k < |s| && s[k].id in ids
    ensures |Remove(s, ids)| < |s|
  {
    if k > 0 {
      RemoveShrinks(s[1..], ids, k - 1);
    }
  }

  /**
   * One call of `process_incoming_queue(user, max_items=1)` on a queue with
   * pending items either shortens the user's pending list or leaves its head
   * errored, provided every recorded error text is non-empty.
   */
  lemma QueueStepProgress(q: seq<QueueItem>, user: int, process: QueueItem -> Result<()>, trace: Exc -> seq<byte>)
    requires HasPendingItems(q, user)
    requires forall e :: |trace(e)| > 0
    ensures var q2 := ProcessIncomingQueue(q, user, process, trace, Some(1));
      |PendingFor(q2, user)| < |PendingFor(q, user)|
      || (|PendingFor(q2, user)| == |PendingFor(q, user)| && !HasPendingItems(q2, user))
  {
    var p := PendingFor(q, user);
    var d := DrainAsWritten(p, process, trace, Some(1), 0);
    var kept := Remove(q, d.deleted);
    PendingOfRemove(q, user, d.deleted);
    match process(p[0])
    case Err(e) =>
      assert d == Drained([], {}, Some((p[0].id, trace(e))));
      RemoveNothing(q);
      PendingOfMark(q, user, p[0].id, trace(e));
    case Ok(_) =>
      assert p == [p[0]] + p[1..];
      assert d.processed[0] == p[0];
      assert p[0].id in d.deleted;
      RemoveShrinks(p, d.deleted, 0);
      if d.failed.Some? {
        PendingOfMark(kept, user, d.failed.value.0, d.failed.value.1);
      }
  }

  // ------------------------------------------------------------ the limit finding

  /**
   * With `max_items=1` and two good items, the loop as written processes both
   * but deletes only the first; the next call processes the second again.
   */
  lemma LimitReprocesses(user: int, process: QueueItem -> Result<()>, trace: Exc -> seq<byte>)
    requires forall qi :: process(qi).Ok?
    ensures var a := QueueItem(1, Some(user), Incoming, [], None);
      var b := QueueItem(2, Some(user), Incoming, [], None);
      && DrainAsWritten(PendingFor([a, b], user), process, trace, Some(1), 0).processed == [a, b]
      && ProcessIncomingQueue([a, b], user, process, trace, Some(1)) == [b]
      && DrainAsWritten(PendingFor([b], user), process, trace, Some(1), 0).processed == [b]
  {
    var a := QueueItem(1, Some(user), Incoming, [], None);
    var b := QueueItem(2, Some(user), Incoming, [], None);
    assert PendingFor([a, b], user) == [a, b] by {
      assert [a, b][1..] == [b];
      assert PendingFor([b], user) == [b];
    }
    var d := DrainAsWritten([a, b], process, trace, Some(1), 0);
    assert [a, b][1..] == [b];
    assert DrainAsWritten([b], process, trace, Some(1), 1) == Drained([b], {}, None);
    assert d == Drained([a, b], {1}, None);
    assert Remove([a, b], {1}) == [b] by {
      assert Remove([b], {1}) == [b];
    }
  }

  /** With the limit checked after deletion, every processed item is gone from the table. */
  lemma FixedDeletesProcessed(q: seq<QueueItem>, user: int, process: QueueItem -> Result<()>,
                              trace: Exc -> seq<byte>, maxItems: Option<int>)
    ensures var d := DrainFixed(PendingFor(q, user), process, trace, maxItems, 0);
      forall i :: 0 <= i < |d.processed| ==> d.processed[i] !in ProcessIncomingQueueFixed(q, user, process, trace, maxItems)
    ensures Truthy(maxItems) && maxItems.value > 0 ==>
      |DrainFixed(PendingFor(q, user), process, trace, maxItems, 0).processed| <= maxItems.value
  {
    var d := DrainFixed(PendingFor(q, user), process, trace, maxItems, 0);
    FixedDeleted(PendingFor(q, user), process, trace, maxItems, 0);
    forall i | 0 <= i < |d.processed| ensures d.processed[i] !in ProcessIncomingQueueFixed(q, user, process, trace, maxItems) {
      IdsMember(d.processed, i);
    }
  }
}

=== FILE: Renderer.dfy ===
/**
 * The older renderer base class: a part's MIME type names the module and
 * class that render it ("text/plain" is class `Plain` of module `text`),
 * and the wanted output type names the method ("render_as_text_plain").
 * The loaded renderer modules are a parameter: module name to the classes
 * it defines, each with the `render_as_...` methods it defines itself.
 */
module LegacyRenderer {
  import opened Results
  import opened Text
  import opened Social

  /** Letters only: `str.title()` is modelled on ASCII. */
  function LowerAscii(c: char): (r: char)
    ensures IsUpper(c) ==> IsLower(r)
    ensures !IsUpper(c) ==> r == c
  {
    if IsUpper(c) then (c as int + 32) as char else c
  }

  /**
   * `str.title()`: a letter right after a letter is lower-cased, any other
   * letter upper-cased; other characters are kept. `prevCased` says whether
   * the character before `s` was a letter.
   */
  function TitleFrom(s: string, prevCased: bool): (r: string)
    ensures |r| == |s|
  {
    if |s| == 0 then "" else [TitleChar(s[0], prevCased)] + TitleFrom(s[1..], IsAsciiLetter(s[0]))
  }

  function TitleChar(c: char, prevCased: bool): char
  {
    if !IsAsciiLetter(c) then c else if prevCased then LowerAscii(c) else ToUpperChar(c)
  }

  function Title(s: string): string { TitleFrom(s, false) }

  /** Title-casing keeps the alphanumeric characters where they were, so it commutes with how many survive. */
  lemma TitleKeepsAlnum(s: string)
    ensures |KeepAlnum(Title(s))| == |KeepAlnum(s)|
  {
    TitleAlnumCount(s, false);
  }

  lemma {:induction false} TitleAlnumCount(s: string, prev: bool)
    ensures |KeepAlnum(TitleFrom(s, prev))| == |KeepAlnum(s)|
  {
    if |s| > 0 {
      TitleAlnumCount(s[1..], IsAsciiLetter(s[0]));
      var t := TitleFrom(s, prev);
      assert t[1..] == TitleFrom(s[1..], IsAsciiLetter(s[0]));
      assert IsAlnum(t[0]) <==> IsAlnum(s[0]);
    }
  }

  /**
   * The module and class names for a part's MIME type: the type must split
   * at '/' into exactly two pieces (Python's tuple unpacking raises
   * `ValueError` otherwise); the first loses its non-alphanumeric
   * characters, the second is title-cased and then loses them.
   */
  function ClassName(mimeType: string): (r: Result<(string, string)>)
    ensures r.Err? ==> r.error == ValueErr
    ensures r.Ok? ==> (forall i :: 0 <= i < |r.value.0| ==> IsAlnum(r.value.0[i]))
    ensures r.Ok? ==> (forall i :: 0 <= i < |r.value.1| ==> IsAlnum(r.value.1[i]))
  {
    var parts := Split(mimeType, '/');
    if |parts| != 2 then Err(ValueErr)
    else Ok((KeepAlnum(parts[0]), KeepAlnum(Title(parts[1]))))
  }

  /** The names exist exactly when the type holds a single '/'. */
  lemma ClassNameNeedsOneSlash(mimeType: string)
    ensures ClassName(mimeType).Ok? <==> Count(mimeType, '/') == 1
  {
    SplitCount(mimeType, '/');
  }

  /** For a type `a/b`, the names come from `a` and `b` alone. */
  lemma ClassNameOfPair(a: string, b: string)
    requires '/' !in a && '/' !in b
    ensures ClassName(a + "/" + b) == Ok((KeepAlnum(a), KeepAlnum(Title(b))))
  {
    JoinSplit([a, b], '/');
    assert Join([a, b], "/") == a + "/" + b;
  }

  /** `w` with its first letter upper-cased. */
  function Capitalize(w: string): string
  {
    if |w| == 0 then "" else [ToUpperChar(w[0])] + w[1..]
  }

  function Concat(ws: seq<string>): string
  {
    if |ws| == 0 then "" else Capitalize(ws[0]) + Concat(ws[1..])
  }

  predicate LowerWord(w: string) { |w| > 0 && forall i :: 0 <= i < |w| ==> IsLower(w[i]) }

  /**
   * Camel-casing: a subtype made of lower-case words joined by '-' gives
   * the words capitalised and run together, so "x-foo-bar" gives "XFooBar"
   * (`str.title()` capitalises the first word too, where the source's
   * comment expects "xFooBar").
   */
  lemma {:induction false} CamelCase(words: seq<string>)
    requires |words| >= 1
    requires forall i :: 0 <= i < |words| ==> LowerWord(words[i])
    ensures KeepAlnum(Title(Join(words, "-"))) == Concat(words)
  {
    var w := words[0];
    LowerWordTitle(w, false);
    if |words| == 1 {
      assert Concat(words) == Capitalize(w) + Concat([]);
      KeepAlnumIdentity(Capitalize(w));
    } else {
      var rest := Join(words[1..], "-");
      CamelCase(words[1..]);
      assert Join(words, "-") == w + ("-" + rest);
      TitleAppend(w, "-" + rest, false);
      TitleAppend("-", rest, true);
      assert TitleFrom("-", true) == "-";
      KeepAlnumAppend(Capitalize(w), "-" + TitleFrom(rest, false));
      KeepAlnumAppend("-", TitleFrom(rest, false));
      KeepAlnumIdentity(Capitalize(w));
      assert KeepAlnum("-") == "";
    }
  }

  /** Whether the last character of `s` (or, for an empty `s`, the one before it) is a letter. */
  function LastCased(s: string, prev: bool): bool
  {
    if |s| == 0 then prev else IsAsciiLetter(s[|s| - 1])
  }

  lemma {:induction false} TitleAppend(a: string, b: string, prev: bool)
    ensures TitleFrom(a + b, prev) == TitleFrom(a, prev) + TitleFrom(b, LastCased(a, prev))
  {
    if |a| == 0 {
      assert a + b == b;
    } else {
      var p1 := IsAsciiLetter(a[0]);
      assert (a + b)[0] == a[0] && (a + b)[1..] == a[1..] + b;
      assert TitleFrom(a + b, prev) == [TitleChar(a[0], prev)] + TitleFrom(a[1..] + b, p1);
      TitleAppend(a[1..], b, p1);
      assert LastCased(a[1..], p1) == LastCased(a, prev);
      assert TitleFrom(a, prev) == [TitleChar(a[0], prev)] + TitleFrom(a[1..], p1);
      var x, t1, t2 := [TitleChar(a[0], prev)], TitleFrom(a[1..], p1), TitleFrom(b, LastCased(a, prev));
      assert x + (t1 + t2) == (x + t1) + t2;
    }
  }

  /** A lower-case word title-cases to itself capitalised, and ends on a letter. */
  lemma {:induction false} LowerWordTitle(w: string, prev: bool)
    requires LowerWord(w)
    ensures TitleFrom(w, false) == Capitalize(w)
    ensures forall i :: 0 <= i < |Capitalize(w)| ==> IsAlnum(Capitalize(w)[i])
    ensures LastCased(w, prev)
  {
    LowerRun(w[1..]);
    assert w == [w[0]] + w[1..];
  }

  /** After a letter, lower-case letters stay as they are. */
  lemma {:induction false} LowerRun(w: string)
    requires forall i :: 0 <= i < |w| ==> IsLower(w[i])
    ensures TitleFrom(w, true) == w
  {
    if |w| > 0 {
      LowerRun(w[1..]);
      assert w == [w[0]] + w[1..];
    }
  }

  lemma {:induction false} KeepAlnumAppend(a: string, b: string)
    ensures KeepAlnum(a + b) == KeepAlnum(a) + KeepAlnum(b)
  {
    if |a| == 0 {
      assert a + b == b;
    } else {
      assert (a + b)[0] == a[0] && (a + b)[1..] == a[1..] + b;
      KeepAlnumAppend(a[1..], b);
    }
  }

  /** The method `render_as` looks for: the output type split at '/', both halves sanitised but not title-cased. */
  function MethodName(toType: string): (r: Result<string>)
    ensures r.Err? ==> r.error == ValueErr
    ensures r.Ok? ==> StartsWith(r.value, "render_as_")
  {
    var parts := Split(toType, '/');
    if |parts| != 2 then Err(ValueErr)
    else
      var name := "render_as_" + KeepAlnum(parts[0]) + "_" + KeepAlnum(parts[1]);
      assert name[..10] == "render_as_";
      Ok(name)
  }

  /** For `a/b` the method is `render_as_<a>_<b>` with only the non-alphanumerics dropped. */
  lemma MethodNameOfPair(a: string, b: string)
    requires '/' !in a && '/' !in b
    ensures MethodName(a + "/" + b) == Ok("render_as_" + KeepAlnum(a) + "_" + KeepAlnum(b))
  {
    JoinSplit([a, b], '/');
    assert Join([a, b], "/") == a + "/" + b;
  }

  /** A renderer class: the `render_as_...` methods it defines itself. */
  datatype RendererClass = RendererClass(methods: set<string>)

  /** The loaded renderer modules: module name to class name to class. */
  type Modules = map<string, map<string, RendererClass>>

  /** What a rendering returns: the part's stored preview, or the named method's own output. */
  datatype Rendered =
    | Preview(text: Option<string>)
    | ByMethod(cls: string, name: string, inline: bool)

  const DefaultMethod := "render_as_text_plain"

  /**
   * `render_as(part, to_type, inline)`: the class's own method for the
   * output type; the inherited `render_as_text_plain` returns the part's
   * preview; any other missing method raises `AttributeError`.
   */
  function RenderAs(cls: RendererClass, clsName: string, part: MimePart, toType: string, inline: bool): (r: Result<Rendered>)
    ensures r.Err? ==> r.error == ValueErr || r.error == AttributeErr
    ensures r.Ok? && r.value.Preview? ==> r.value.text == part.textPreview
  {
    var name :- MethodName(toType);
    if name in cls.methods then Ok(ByMethod(clsName, name, inline))
    else if name == DefaultMethod then Ok(Preview(part.textPreview))
    else Err(AttributeErr)
  }

  /**
   * A class that defines no plain-text method renders any part as plain
   * text by returning its stored preview; one that does uses its own.
   * Any output type whose halves sanitise to "text" and "plain" counts.
   */
  lemma DefaultPlainIsPreview(cls: RendererClass, clsName: string, part: MimePart, a: string, b: string, inline: bool)
    requires '/' !in a && '/' !in b && KeepAlnum(a) == "text" && KeepAlnum(b) == "plain"
    ensures RenderAs(cls, clsName, part, a + "/" + b, inline) ==
      if DefaultMethod in cls.methods then Ok(ByMethod(clsName, DefaultMethod, inline)) else Ok(Preview(part.textPreview))
  {
    MethodNameOfPair(a, b);
    assert "render_as_" + "text" + "_" + "plain" == DefaultMethod;
  }

  /** Any output type other than plain text needs a method of the class's own. */
  lemma OtherTypesNeedMethod(cls: RendererClass, clsName: string, part: MimePart, a: string, b: string, inline: bool)
    requires '/' !in a && '/' !in b
    requires "render_as_" + KeepAlnum(a) + "_" + KeepAlnum(b) != DefaultMethod
    ensures var name := "render_as_" + KeepAlnum(a) + "_" + KeepAlnum(b);
      RenderAs(cls, clsName, part, a + "/" + b, inline) ==
        if name in cls.methods then Ok(ByMethod(clsName, name, inline)) else Err(AttributeErr)
  {
    MethodNameOfPair(a, b);
  }

  /**
   * `Renderer.render(part, to_type, inline)`: find the class named by the
   * part's type (an unknown module fails to import, an unknown class is an
   * `AttributeError`), then let it render.
   */
  function Render(modules: Modules, part: MimePart, toType: string, inline: bool): (r: Result<Rendered>)
    ensures r.Ok? ==> ClassName(part.mimeType).Ok?
  {
    var (m, c) :- ClassName(part.mimeType);
    if m !in modules then Err(ImportErr)
    else if c !in modules[m] then Err(AttributeErr)
    else RenderAs(modules[m][c], c, part, toType, inline)
  }

  /** A rendering succeeds only through the class the part's type names, and then as that class renders. */
  lemma RenderUsesNamedClass(modules: Modules, part: MimePart, toType: string, inline: bool)
    requires Render(modules, part, toType, inline).Ok?
    ensures var (m, c) := ClassName(part.mimeType).value;
      m in modules && c in modules[m] &&
      Render(modules, part, toType, inline) == RenderAs(modules[m][c], c, part, toType, inline)
  {
  }

  /**
   * The renderer module shipped beside the base class, `text`: a class
   * `Plain` with its own plain-text method and a class `HTML` with its own
   * HTML method.
   */
  const Shipped: Modules := map["text" := map[
    "Plain" := RendererClass({DefaultMethod}),
    "HTML" := RendererClass({"render_as_text_html"})]]

  /** The same module with the HTML class under the name the lookup derives, `Html`. */
  const Intended: Modules := map["text" := map[
    "Plain" := RendererClass({DefaultMethod}),
    "Html" := RendererClass({"render_as_text_html"})]]

  /** A type `a/b` of lower-case words names module `a` and class `b` capitalised. */
  lemma LowerClassName(a: string, b: string, cls: string)
    requires LowerWord(a) && LowerWord(b) && cls == Capitalize(b)
    ensures ClassName(a + "/" + b) == Ok((a, cls))
  {
    LowerWordTitle(b, false);
    KeepAlnumIdentity(cls);
    KeepAlnumIdentity(a);
    ClassNameOfPair(a, b);
  }

  /** "text/html" names class `Html` of module `text`: title-casing lower-cases after the first letter. */
  lemma HtmlClassName()
    ensures ClassName("text/html") == Ok(("text", "Html"))
  {
    assert "text" + "/" + "html" == "text/html";
    assert Capitalize("html") == [ToUpperChar('h')] + "tml" == "Html";
    LowerClassName("text", "html", "Html");
  }

  /** "text/plain" names class `Plain` of module `text`. */
  lemma PlainClassName()
    ensures ClassName("text/plain") == Ok(("text", "Plain"))
  {
    assert "text" + "/" + "plain" == "text/plain";
    assert Capitalize("plain") == [ToUpperChar('p')] + "lain" == "Plain";
    LowerClassName("text", "plain", "Plain");
  }

  /**
   * As shipped, a "text/html" part cannot be rendered into any output
   * type: the lookup asks the `text` module for `Html`, which it does not
   * define, and raises AttributeError.
   */
  lemma ShippedHtmlMissing(part: MimePart, toType: string, inline: bool)
    requires part.mimeType == "text/html"
    ensures Render(Shipped, part, toType, inline) == Err(AttributeErr)
  {
    HtmlClassName();
  }

  /** An output type `a/b` of lower-case words names the method `render_as_<a>_<b>`. */
  lemma LowerMethodName(a: string, b: string)
    requires LowerWord(a) && LowerWord(b)
    ensures MethodName(a + "/" + b) == Ok("render_as_" + a + "_" + b)
  {
    KeepAlnumIdentity(a);
    KeepAlnumIdentity(b);
    MethodNameOfPair(a, b);
  }

  /** The methods the two text output types name. */
  lemma TextMethodNames()
    ensures MethodName("text/html") == Ok("render_as_text_html")
    ensures MethodName("text/plain") == Ok(DefaultMethod)
  {
    assert "text" + "/" + "html" == "text/html";
    assert "text" + "/" + "plain" == "text/plain";
    LowerMethodName("text", "html");
    LowerMethodName("text", "plain");
    assert "render_as_" + "text" + "_" + "html" == "render_as_text_html";
    assert "render_as_" + "text" + "_" + "plain" == DefaultMethod;
  }

  /**
   * With the class found under the name the lookup derives, a "text/html"
   * part renders as HTML through its class's own method and as plain text
   * through its preview.
   */
  lemma IntendedHtmlRenders(part: MimePart, inline: bool)
    requires part.mimeType == "text/html"
    ensures Render(Intended, part, "text/html", inline) == Ok(ByMethod("Html", "render_as_text_html", inline))
    ensures Render(Intended, part, "text/plain", inline) == Ok(Preview(part.textPreview))
  {
    HtmlClassName();
    TextMethodNames();
    assert "render_as_text_html" != DefaultMethod;
  }

  /** A "text/plain" part renders as plain text through its class's own method, in either table. */
  lemma PlainRenders(part: MimePart, inline: bool)
    requires part.mimeType == "text/plain"
    ensures Render(Shipped, part, "text/plain", inline) == Ok(ByMethod("Plain", DefaultMethod, inline))
    ensures Render(Intended, part, "text/plain", inline) == Ok(ByMethod("Plain", DefaultMethod, inline))
  {
    PlainClassName();
    TextMethodNames();
  }
}

=== FILE: Rendering.dfy ===
/**
 * Content rendering: the table of renderers by MIME type, the per-type
 * renderers' gating on format and inline display, the fallback `render`
 * uses when a renderer declines, and the Markdown preprocessor that keeps
 * lines of hashtags from becoming headings. Template and Markdown output
 * is kept symbolic: an `Output` names what would be produced and from what.
 */
module Rendering {
  import opened Results
  import opened Social
  import Text
  import Bytes

  /** The renderer functions the module registers. */
  datatype RendererFn =
    | TextPlain | TextHtml | TextMarkdown | CommonImages
    | PyasporaSubscribe | PyasporaShare | DiasporaProfile

  /** The module-level `renderers` dict: MIME type to renderer. */
  type Registry = map<string, RendererFn>

  /** `renderer(formats)` applied to `f`: `f` is stored under every format. */
  function Stash(reg: Registry, formats: seq<string>, f: RendererFn): (r: Registry)
    decreases |formats|
    ensures forall fmt {:trigger fmt in r} :: fmt in r <==> fmt in reg || fmt in formats
  {
    if |formats| == 0 then reg
    else
      assert forall fmt :: fmt in formats <==> fmt == formats[0] || fmt in formats[1..];
      Stash(reg[formats[0] := f], formats[1..], f)
  }

  /** After `renderer(formats)(f)` a listed format finds `f`, any other what it found before. */
  lemma {:induction false} StashAt(reg: Registry, formats: seq<string>, f: RendererFn, fmt: string)
    decreases |formats|
    ensures RendererExists(Stash(reg, formats, f), fmt) ==
      if fmt in formats then Some(f) else RendererExists(reg, fmt)
  {
    if |formats| > 0 {
      assert fmt in formats <==> fmt == formats[0] || fmt in formats[1..];
      StashAt(reg[formats[0] := f], formats[1..], f, fmt);
    }
  }

  const Html := "text/html"
  const Plain := "text/plain"
  const Markdown := "text/x-markdown"
  const SubscribeType := "application/x-pyaspora-subscribe"
  const ShareType := "application/x-pyaspora-share"
  const ProfileType := "application/x-pyaspora-diaspora-profile"

  /**
   * The table once the module is loaded: the decorators run in file order.
   * `imageFormats` is the list of image types a browser can show.
   */
  function Renderers(imageFormats: seq<string>): Registry
  {
    var r1 := Stash(map[], [Plain], TextPlain);
    var r2 := Stash(r1, [Html], TextHtml);
    var r3 := Stash(r2, [Markdown], TextMarkdown);
    var r4 := Stash(r3, imageFormats, CommonImages);
    var r5 := Stash(r4, [SubscribeType], PyasporaSubscribe);
    var r6 := Stash(r5, [ShareType], PyasporaShare);
    Stash(r6, [ProfileType], DiasporaProfile)
  }

  /** `renderer_exists(fmt)`: the renderer stored for the type, or `None`. */
  function RendererExists(reg: Registry, fmt: string): (r: Option<RendererFn>)
    ensures r.Some? <==> fmt in reg
    ensures r.Some? ==> r.value == reg[fmt]
  {
    if fmt in reg then Some(reg[fmt]) else None
  }

  /**
   * What `renderer_exists` answers once the module is loaded: a later
   * registration wins, so the three site formats always find their own
   * renderers, an image type finds the image renderer, the text types find
   * theirs unless the image list names them, and nothing else is found.
   */
  lemma RenderersAt(imageFormats: seq<string>, fmt: string)
    ensures RendererExists(Renderers(imageFormats), fmt) ==
      if fmt == ProfileType then Some(DiasporaProfile)
      else if fmt == ShareType then Some(PyasporaShare)
      else if fmt == SubscribeType then Some(PyasporaSubscribe)
      else if fmt in imageFormats then Some(CommonImages)
      else if fmt == Markdown then Some(TextMarkdown)
      else if fmt == Html then Some(TextHtml)
      else if fmt == Plain then Some(TextPlain)
      else None
  {
    var r1 := Stash(map[], [Plain], TextPlain);
    var r2 := Stash(r1, [Html], TextHtml);
    var r3 := Stash(r2, [Markdown], TextMarkdown);
    var r4 := Stash(r3, imageFormats, CommonImages);
    var r5 := Stash(r4, [SubscribeType], PyasporaSubscribe);
    var r6 := Stash(r5, [ShareType], PyasporaShare);
    StashAt(map[], [Plain], TextPlain, fmt);
    StashAt(r1, [Html], TextHtml, fmt);
    StashAt(r2, [Markdown], TextMarkdown, fmt);
    StashAt(r3, imageFormats, CommonImages, fmt);
    StashAt(r4, [SubscribeType], PyasporaSubscribe, fmt);
    StashAt(r5, [ShareType], PyasporaShare, fmt);
    StashAt(r6, [ProfileType], DiasporaProfile, fmt);
  }

  /** What a rendering produces, named by the template or conversion that makes it. */
  datatype Output =
    | BodyText(body: Body)          // the body decoded from UTF-8, unchanged
    | Nl2br(body: Body)             // the body through the `nl2br` filter
    | MarkdownHtml(body: Body)      // the body converted from Markdown
    | ImageTag(alt: Option<string>) // an `<img>` of the part's raw link
    | SubscribedLink(body: Body)    // "subscribed to <name>" from the JSON body
    | SharedLink(body: Body)        // "shared <name>'s post" from the JSON body
    | ProfileHtml(body: Body)       // the profile table from the JSON body
    | PreviewHtml(text: string)     // the text preview, escaped
    | PreviewText(text: string)     // the text preview as is
    | LinkHtml(url: string)         // `<a href="url">(link)</a>`
    | LinkText(url: string)         // "Link: url"

  /**
   * `part.mime_part.body.decode('utf-8')`: raw bytes decode when they are
   * well-formed UTF-8; the site's own cards are JSON, which is ASCII.
   */
  predicate Decodes(b: Body)
  {
    b.Raw? ==> Bytes.Utf8Valid(b.data)
  }

  /** The decode step: the body itself, or a UnicodeDecodeError. */
  function Decode(b: Body): (r: Result<Body>)
    ensures r.Ok? <==> Decodes(b)
    ensures r.Ok? ==> r.value == b
    ensures r.Err? ==> r.error == UnicodeDecodeErr
  {
    if Decodes(b) then Ok(b) else Err(UnicodeDecodeErr)
  }

  /**
   * When a renderer decodes the part's body: the text renderers for an
   * inline part, HTML only for `text/html`, and Markdown before it looks at
   * the format; the cards once past their HTML-and-inline gate; the profile
   * always, before its gate; the image renderer never.
   */
  predicate ReadsBody(f: RendererFn, inline: bool, fmt: string)
  {
    match f
    case TextPlain => inline && (fmt == Html || fmt == Plain)
    case TextHtml => inline && fmt == Html
    case TextMarkdown => inline
    case CommonImages => false
    case PyasporaSubscribe => inline && fmt == Html
    case PyasporaShare => inline && fmt == Html
    case DiasporaProfile => true
  }

  /**
   * One renderer applied to a part; `Ok(None)` is the renderer declining,
   * and a body that is not UTF-8 raises when the renderer decodes it.
   */
  function Apply(f: RendererFn, part: PostPart, fmt: string): (r: Result<Option<Output>>)
    ensures r.Err? <==> ReadsBody(f, part.inline, fmt) && !Decodes(part.part.body)
    ensures r.Err? ==> r.error == UnicodeDecodeErr
    ensures r.Ok? && r.value.Some? ==> part.inline
    ensures r.Ok? && r.value.Some? && f != TextPlain && f != TextMarkdown ==> fmt == Html
    ensures r.Ok? && r.value.Some? ==> fmt == Html || fmt == Plain
    ensures r.Ok? && r.value.Some? && f != CommonImages ==> ReadsBody(f, part.inline, fmt)
  {
    var body := part.part.body;
    match f
    case TextPlain =>
      if part.inline && fmt == Html then var t :- Decode(body); Ok(Some(Nl2br(t)))
      else if part.inline && fmt == Plain then var t :- Decode(body); Ok(Some(BodyText(t)))
      else Ok(None)
    case TextHtml =>
      if part.inline && fmt == Html then var t :- Decode(body); Ok(Some(BodyText(t))) else Ok(None)
    case TextMarkdown =>
      if part.inline then
        var t :- Decode(body);
        if fmt == Html then Ok(Some(MarkdownHtml(t)))
        else if fmt == Plain then Ok(Some(BodyText(t)))
        else Ok(None)
      else Ok(None)
    case CommonImages =>
      if fmt == Html && part.inline then Ok(Some(ImageTag(part.part.textPreview))) else Ok(None)
    case PyasporaSubscribe =>
      if fmt != Html || !part.inline then Ok(None) else var t :- Decode(body); Ok(Some(SubscribedLink(t)))
    case PyasporaShare =>
      if fmt != Html || !part.inline then Ok(None) else var t :- Decode(body); Ok(Some(SharedLink(t)))
    case DiasporaProfile =>
      var t :- Decode(body);
      if fmt != Html || !part.inline then Ok(None) else Ok(Some(ProfileHtml(t)))
  }

  /** Python truth of the text preview: set and not empty. */
  predicate HasPreview(p: MimePart)
  {
    p.textPreview.Some? && p.textPreview.value != ""
  }

  /**
   * `render(part, fmt, url)`: the type's renderer's output when it gives
   * one (an empty text counts); otherwise, for HTML and plain text, the
   * preview when the part is inline and has one, else a link; for any
   * other format nothing. A missing or empty `url` means the part's raw
   * link, `rawUrl` (built by the web framework). A renderer's
   * UnicodeDecodeError propagates.
   */
  function Render(reg: Registry, part: PostPart, fmt: string, url: string, rawUrl: string): (r: Result<Option<Output>>)
    ensures r.Ok? && (fmt == Html || fmt == Plain) ==> r.value.Some?
    ensures r.Err? ==> r.error == UnicodeDecodeErr && !Decodes(part.part.body)
    ensures Decodes(part.part.body) ==> r.Ok?
  {
    var ret :- match RendererExists(reg, part.part.mimeType)
      case None => Ok(None)
      case Some(f) => Apply(f, part, fmt);
    if ret.Some? then Ok(ret)
    else if fmt == Html then
      if part.inline && HasPreview(part.part) then Ok(Some(PreviewHtml(part.part.textPreview.value))) else Ok(Some(LinkHtml(LinkTarget(url, rawUrl))))
    else if fmt == Plain then
      if part.inline && HasPreview(part.part) then Ok(Some(PreviewText(part.part.textPreview.value))) else Ok(Some(LinkText(LinkTarget(url, rawUrl))))
    else Ok(None)
  }

  /** The link a fallback shows: the given URL, or the raw link when none is given. */
  function LinkTarget(url: string, rawUrl: string): string
  {
    if url == "" then rawUrl else url
  }

  /** A renderer's answer, an output or a raise, is what `render` returns. */
  lemma RenderPrefersRenderer(reg: Registry, part: PostPart, fmt: string, url: string, rawUrl: string)
    requires part.part.mimeType in reg && Apply(reg[part.part.mimeType], part, fmt) != Ok(None)
    ensures Render(reg, part, fmt, url, rawUrl) == Apply(reg[part.part.mimeType], part, fmt)
  {
  }

  /**
   * Every renderer declines a part that is not inline, so such a part is
   * always shown as a link, for either format, whatever its type; only the
   * profile renderer, which decodes before its gate, can raise first.
   */
  lemma NotInlineIsLink(reg: Registry, part: PostPart, fmt: string, url: string, rawUrl: string)
    requires !part.inline
    ensures Render(reg, part, fmt, url, rawUrl) ==
      if part.part.mimeType in reg && reg[part.part.mimeType] == DiasporaProfile && !Decodes(part.part.body) then Err(UnicodeDecodeErr)
      else if fmt == Html then Ok(Some(LinkHtml(LinkTarget(url, rawUrl))))
      else if fmt == Plain then Ok(Some(LinkText(LinkTarget(url, rawUrl))))
      else Ok(None)
  {
    if part.part.mimeType in reg {
      var _ := Apply(reg[part.part.mimeType], part, fmt);
    }
  }

  /** Only HTML and plain text are ever produced, and a decodable body never raises. */
  lemma OnlyTwoFormats(reg: Registry, part: PostPart, fmt: string, url: string, rawUrl: string)
    ensures var r := Render(reg, part, fmt, url, rawUrl);
      r.Ok? ==> (r.value.Some? <==> fmt == Html || fmt == Plain)
    ensures Decodes(part.part.body) ==> Render(reg, part, fmt, url, rawUrl).Ok?
  {
    if part.part.mimeType in reg {
      var _ := Apply(reg[part.part.mimeType], part, fmt);
    }
  }

  /**
   * A part of a type nobody renders falls back for both formats, without
   * reading its body: its preview when inline with a non-empty preview,
   * else the link.
   */
  lemma UnknownTypeFallsBack(reg: Registry, part: PostPart, url: string, rawUrl: string)
    requires part.part.mimeType !in reg
    ensures var shown := part.inline && HasPreview(part.part);
      && Render(reg, part, Html, url, rawUrl) == Ok(if shown then Some(PreviewHtml(part.part.textPreview.value)) else Some(LinkHtml(LinkTarget(url, rawUrl))))
      && Render(reg, part, Plain, url, rawUrl) == Ok(if shown then Some(PreviewText(part.part.textPreview.value)) else Some(LinkText(LinkTarget(url, rawUrl))))
  {
  }

  /**
   * An inline plain-text part renders to its decoded body as plain text,
   * even an empty one, and never falls back to the preview; a body that is
   * not UTF-8 raises in both formats.
   */
  lemma PlainTextShown(imageFormats: seq<string>, part: PostPart, url: string, rawUrl: string)
    requires part.inline && part.part.mimeType == Plain && Plain !in imageFormats
    ensures Render(Renderers(imageFormats), part, Plain, url, rawUrl) ==
      if Decodes(part.part.body) then Ok(Some(BodyText(part.part.body))) else Err(UnicodeDecodeErr)
    ensures Render(Renderers(imageFormats), part, Html, url, rawUrl) ==
      if Decodes(part.part.body) then Ok(Some(Nl2br(part.part.body))) else Err(UnicodeDecodeErr)
  {
    RenderersAt(imageFormats, Plain);
  }

  /** Text the site stored by encoding a string always renders, in any format, whatever its type. */
  lemma EncodedTextRenders(reg: Registry, part: PostPart, s: string, fmt: string, url: string, rawUrl: string)
    requires part.part.body == Raw(Bytes.Utf8Encode(s))
    ensures Render(reg, part, fmt, url, rawUrl).Ok?
  {
    Bytes.Utf8EncodeValid(s);
  }

  /**
   * The site's own share and subscribe cards are shown only as inline HTML
   * (raising on a body that is not UTF-8); as text they fall back without
   * reading the body.
   */
  lemma CardsOnlyInHtml(imageFormats: seq<string>, part: PostPart, url: string, rawUrl: string)
    requires part.part.mimeType == ShareType || part.part.mimeType == SubscribeType
    ensures part.inline ==>
      Render(Renderers(imageFormats), part, Html, url, rawUrl) ==
        if !Decodes(part.part.body) then Err(UnicodeDecodeErr)
        else Ok(Some(if part.part.mimeType == ShareType then SharedLink(part.part.body) else SubscribedLink(part.part.body)))
    ensures Render(Renderers(imageFormats), part, Plain, url, rawUrl) ==
      Ok(if part.inline && HasPreview(part.part) then Some(PreviewText(part.part.textPreview.value)) else Some(LinkText(LinkTarget(url, rawUrl))))
  {
    RenderersAt(imageFormats, part.part.mimeType);
  }

  // ---------------------------------------------------------------- hashtag lines

  /**
   * The automaton of `^(#([A-Za-z0-9_]+(\s+#)?)+)$`: a '#', a run of word
   * characters, then any number of whitespace runs each followed by '#'
   * and, except at the very end, another run of word characters.
   */
  datatype TagState = Start | AfterHash | InWord | InSpace | AfterSpaceHash | Fail

  function Step(st: TagState, c: char): TagState
  {
    match st
    case Start => if c == '#' then AfterHash else Fail
    case AfterHash => if Text.IsWordChar(c) then InWord else Fail
    case InWord => if Text.IsWordChar(c) then InWord else if Text.IsSpace(c) then InSpace else Fail
    case InSpace => if Text.IsSpace(c) then InSpace else if c == '#' then AfterSpaceHash else Fail
    case AfterSpaceHash => if Text.IsWordChar(c) then InWord else Fail
    case Fail => Fail
  }

  function Run(st: TagState, s: string): TagState
    decreases |s|
  {
    if |s| == 0 then st else Run(Step(st, s[0]), s[1..])
  }

  predicate Accepting(st: TagState) { st == InWord || st == AfterSpaceHash }

  /** The whole string matches the pattern. */
  predicate FullMatch(s: string) { Accepting(Run(Start, s)) }

  /** `$` also matches before a final newline, which the substitution keeps. */
  predicate TagLine(line: string)
  {
    FullMatch(line) || (|line| > 0 && line[|line| - 1] == '\n' && FullMatch(line[..|line| - 1]))
  }

  /** `SkipTagPattern.run(lines)`: a space before each line of hashtags, other lines unchanged. */
  function SkipTags(lines: seq<string>): (r: seq<string>)
    ensures |r| == |lines|
    ensures forall i :: 0 <= i < |lines| ==> r[i] == if TagLine(lines[i]) then " " + lines[i] else lines[i]
  {
    seq(|lines|, i requires 0 <= i < |lines| => if TagLine(lines[i]) then " " + lines[i] else lines[i])
  }

  lemma {:induction false} RunAppend(st: TagState, a: string, b: string)
    decreases |a|
    ensures Run(st, a + b) == Run(Run(st, a), b)
  {
    if |a| > 0 {
      assert (a + b)[0] == a[0] && (a + b)[1..] == a[1..] + b;
      RunAppend(Step(st, a[0]), a[1..], b);
    } else {
      assert a + b == b;
    }
  }

  predicate IsWord(w: string) { |w| > 0 && forall i :: 0 <= i < |w| ==> Text.IsWordChar(w[i]) }

  predicate IsBlank(w: string) { |w| > 0 && forall i :: 0 <= i < |w| ==> Text.IsSpace(w[i]) }

  lemma {:induction false} RunWord(st: TagState, w: string)
    decreases |w|
    requires st == AfterHash || st == InWord || st == AfterSpaceHash
    requires IsWord(w)
    ensures Run(st, w) == InWord
  {
    if |w| > 1 {
      RunWord(Step(st, w[0]), w[1..]);
    }
  }

  lemma {:induction false} RunBlank(st: TagState, w: string)
    decreases |w|
    requires st == InWord || st == InSpace
    requires IsBlank(w)
    ensures Run(st, w) == InSpace
  {
    assert !Text.IsWordChar(w[0]) by { if Text.IsWordChar(w[0]) { WordNotSpace(w[0]); } }
    if |w| > 1 {
      RunBlank(Step(st, w[0]), w[1..]);
    }
  }

  /** `tag` followed by each separator-and-tag pair: "#a #b\t#c". */
  function Hashtags(first: string, more: seq<(string, string)>): string
  {
    if |more| == 0 then "#" + first
    else Hashtags(first, more[..|more| - 1]) + more[|more| - 1].0 + "#" + more[|more| - 1].1
  }

  /**
   * Every line made of hashtags separated by whitespace, optionally ending
   * in a whitespace run and a lone '#', is one the preprocessor shifts.
   */
  lemma {:induction false} HashtagsMatch(first: string, more: seq<(string, string)>, trailer: Option<string>)
    requires IsWord(first)
    requires forall i :: 0 <= i < |more| ==> IsBlank(more[i].0) && IsWord(more[i].1)
    requires trailer.Some? ==> IsBlank(trailer.value)
    ensures FullMatch(Hashtags(first, more) + (if trailer.Some? then trailer.value + "#" else ""))
  {
    HashtagsRun(first, more);
    var s := Hashtags(first, more);
    if trailer.Some? {
      RunAppend(Start, s, trailer.value + "#");
      RunAppend(InWord, trailer.value, "#");
      RunBlank(InWord, trailer.value);
      assert Run(InSpace, "#") == Run(AfterSpaceHash, "#"[1..]);
      assert "#"[1..] == "";
    } else {
      assert s + "" == s;
    }
  }

  lemma {:induction false} HashtagsRun(first: string, more: seq<(string, string)>)
    requires IsWord(first)
    requires forall i :: 0 <= i < |more| ==> IsBlank(more[i].0) && IsWord(more[i].1)
    ensures Run(Start, Hashtags(first, more)) == InWord
  {
    if |more| == 0 {
      RunAppend(Start, "#", first);
      RunWord(AfterHash, first);
    } else {
      var last := more[|more| - 1];
      var s := Hashtags(first, more[..|more| - 1]);
      HashtagsRun(first, more[..|more| - 1]);
      assert Hashtags(first, more) == s + (last.0 + ("#" + last.1));
      RunAppend(Start, s, last.0 + ("#" + last.1));
      RunAppend(InWord, last.0, "#" + last.1);
      RunBlank(InWord, last.0);
      RunAppend(InSpace, "#", last.1);
      RunWord(AfterSpaceHash, last.1);
    }
  }

  /** The characters the pattern can match. */
  predicate TagChar(c: char) { Text.IsWordChar(c) || Text.IsSpace(c) || c == '#' }

  /**
   * What a matching line looks like: it starts with '#', holds only word
   * characters, whitespace and '#', every later '#' follows whitespace, and
   * it does not end in whitespace.
   */
  lemma MatchShape(s: string)
    requires FullMatch(s)
    ensures |s| > 0 && s[0] == '#' && !Text.IsSpace(s[|s| - 1])
    ensures forall i :: 0 <= i < |s| ==> TagChar(s[i])
    ensures forall i :: 0 < i < |s| && s[i] == '#' ==> Text.IsSpace(s[i - 1])
  {
    RunShape(Start, s);
    assert |s| > 0;
    assert s == s[..|s| - 1] + [s[|s| - 1]];
    RunAppend(Start, s[..|s| - 1], [s[|s| - 1]]);
    if Text.IsWordChar(s[|s| - 1]) { WordNotSpace(s[|s| - 1]); }
  }

  lemma WordNotSpace(c: char)
    requires Text.IsWordChar(c)
    ensures !Text.IsSpace(c) && c != '#'
  {
  }

  lemma {:induction false} RunShape(st: TagState, s: string)
    decreases |s|
    requires Run(st, s) != Fail
    ensures forall i :: 0 <= i < |s| ==> TagChar(s[i])
    ensures forall i :: 0 < i < |s| && s[i] == '#' ==> Text.IsSpace(s[i - 1])
    ensures |s| > 0 && s[0] == '#' ==> st == Start || st == InSpace
    ensures |s| > 0 && st == Start ==> s[0] == '#'
  {
    if |s| > 0 {
      var st1 := Step(st, s[0]);
      assert Run(Fail, s[1..]) == Fail by { RunFail(s[1..]); }
      RunShape(st1, s[1..]);
      forall i | 0 < i < |s| && s[i] == '#' ensures Text.IsSpace(s[i - 1]) {
        assert s[1..][i - 1] == '#';
        if i == 1 {
          assert st1 == InSpace;
        }
      }
      assert forall i :: 0 < i < |s| ==> s[i] == s[1..][i - 1];
    }
  }

  lemma {:induction false} RunFail(s: string)
    ensures Run(Fail, s) == Fail
  {
    if |s| > 0 {
      RunFail(s[1..]);
    }
  }

  /** A shifted line starts with a space, so shifting again leaves it alone: the preprocessor is idempotent. */
  lemma SkipTagsIdempotent(lines: seq<string>)
    ensures SkipTags(SkipTags(lines)) == SkipTags(lines)
  {
    forall i | 0 <= i < |lines| && TagLine(lines[i]) ensures !TagLine(" " + lines[i]) {
      var s := " " + lines[i];
      assert s[0] == ' ';
      RunShapeStart(s);
      if |s| > 0 && s[|s| - 1] == '\n' {
        assert s[..|s| - 1][0] == ' ';
        RunShapeStart(s[..|s| - 1]);
      }
    }
  }

  lemma RunShapeStart(s: string)
    requires |s| > 0 && s[0] == ' '
    ensures !FullMatch(s)
  {
    RunFail(s[1..]);
  }
}

=== FILE: Results.dfy ===
/**
 * Failure-carrying values shared by every module of the model. The Python
 * code reports most failures by raising; each raise becomes an `Err` whose
 * `Exc` names the exception the source would raise (or the HTTP status an
 * `abort` would send).
 */
module Results {

  datatype Option<+T> = None | Some(value: T)

  /** The exceptions and aborts that the modelled code can end in. */
  datatype Exc =
    | AssertionFailed   // a failing `assert`
    | TypeErr           // TypeError
    | ValueErr          // ValueError (bad padding, bad int(), ...)
    | IndexErr          // IndexError
    | NameErr           // NameError (an undefined name is evaluated)
    | ImportErr         // ImportError (a name a module does not define is imported)
    | AttributeErr      // AttributeError (attribute of None, ...)
    | ZeroDivision      // ZeroDivisionError
    | UnicodeDecodeErr  // UnicodeDecodeError (bytes that are not UTF-8 are decoded)
    | KeyErr            // KeyError
    | DecryptionFailed  // the RSA key bundle could not be decrypted
    | ParseFailed       // XML / JSON text could not be parsed
    | NoHandler         // "No handler registered" for an inbound payload
    | Abort(status: int)  // flask/cherrypy abort with an HTTP status
    | Raised(text: string)  // an exception raised by a collaborator

  /** Supports `:-`: the first failing step's `Err` is the whole result. */
  datatype Result<+T> = Ok(value: T) | Err(error: Exc)
  {
    predicate IsFailure() { Err? }

    function PropagateFailure<U>(): Result<U>
      requires Err?
    {
      Err(error)
    }

    function Extract(): T
      requires Ok?
    {
      value
    }
  }
}

=== FILE: Roster.dfy ===
/**
 * Subscription groups ("circles") and the roster actions that maintain
 * them: finding or creating a user's group by name, renaming a group,
 * taking a contact out of a group, unsubscribing, and re-assigning the
 * groups a subscription belongs to from a line of group names.
 */
module Roster {
  import opened Results
  import opened Social
  import opened Names
  import Seqs
  import Contacts
  import Validation
  import opened Directory
  import opened Outbox

  function GroupId(g: Group): int { g.id }

  /** The pair the `(user_id, name)` unique constraint is on. */
  function Slot(g: Group): (int, string) { (g.user, g.name) }

  /** The table's constraints: ids are a primary key and names are unique per user. */
  predicate WellKept(groups: seq<Group>)
  {
    Seqs.Distinct(groups, GroupId) && Seqs.Distinct(groups, Slot)
  }

  /** `query(SubscriptionGroup).filter(name == name, user == user).first()`. */
  function Find(groups: seq<Group>, name: string, user: int): (r: Option<Group>)
    ensures r.Some? ==> r.value in groups && r.value.name == name && r.value.user == user
    ensures r.None? <==> forall g :: g in groups ==> Slot(g) != (user, name)
  {
    if |groups| == 0 then None
    else if groups[0].name == name && groups[0].user == user then Some(groups[0])
    else
      assert forall g :: g in groups <==> g == groups[0] || g in groups[1..];
      Find(groups[1..], name, user)
  }

  /** The id the next inserted group takes: one above the largest in use. */
  function NextId(groups: seq<Group>): (r: int)
    ensures forall g :: g in groups ==> g.id < r
  {
    if |groups| == 0 then 1
    else
      var rest := NextId(groups[1..]);
      assert forall g :: g in groups <==> g == groups[0] || g in groups[1..];
      if groups[0].id >= rest then groups[0].id + 1 else rest
  }

  /**
   * `SubscriptionGroup.get_by_name(name, user, create)`: nothing for an
   * invalid name; the user's group of that name; otherwise, with
   * `create`, a new empty group of the user's, which the table now holds.
   */
  function GetByName(groups: seq<Group>, name: string, user: int, create: bool): (r: (seq<Group>, Option<Group>))
    ensures r.1.Some? <==> NameIsValid(name) && (create || Find(groups, name, user).Some?)
    ensures r.1.Some? ==> r.1.value in r.0 && r.1.value.name == name && r.1.value.user == user
    ensures r.0 == groups || (r.1.Some? && Find(groups, name, user).None? && r.0 == groups + [r.1.value])
    ensures r.0 != groups ==> r.1.value.members == {}
  {
    if !NameIsValid(name) then (groups, None)
    else
      match Find(groups, name, user)
      case Some(g) => (groups, Some(g))
      case None =>
        if create then
          var g := Group(NextId(groups), user, name, {});
          (groups + [g], Some(g))
        else (groups, None)
  }

  /** A lookup adds a group only in a free slot and with a fresh id, so the constraints keep holding. */
  lemma GetByNameKeepsWellKept(groups: seq<Group>, name: string, user: int, create: bool)
    requires WellKept(groups)
    ensures WellKept(GetByName(groups, name, user, create).0)
  {
    var (g1, found) := GetByName(groups, name, user, create);
    if g1 != groups {
      forall i | 0 <= i < |groups| ensures GroupId(g1[i]) != GroupId(g1[|groups|]) && Slot(g1[i]) != Slot(g1[|groups|]) {
        assert g1[i] == groups[i] && groups[i] in groups;
      }
    }
  }

  /** Looking the same name up again for the same user finds the same group and adds nothing. */
  lemma GetByNameIdempotent(groups: seq<Group>, name: string, user: int, create: bool)
    requires WellKept(groups)
    ensures var (g1, found) := GetByName(groups, name, user, create);
      GetByName(g1, name, user, create) == (g1, found)
  {
    var (g1, found) := GetByName(groups, name, user, create);
    GetByNameKeepsWellKept(groups, name, user, create);
    if found.Some? {
      FindUnique(g1, name, user, found.value);
    }
  }

  /** With the slot unique, the group in that slot is the one found. */
  lemma {:induction false} FindUnique(groups: seq<Group>, name: string, user: int, g: Group)
    requires Seqs.Distinct(groups, Slot) && g in groups && Slot(g) == (user, name)
    ensures Find(groups, name, user) == Some(g)
  {
    if groups[0] != g {
      assert Slot(groups[0]) != (user, name) by {
        var j :| 0 <= j < |groups| && groups[j] == g;
      }
      assert g in groups[1..];
      assert Seqs.Distinct(groups[1..], Slot) by {
        forall i, j | 0 <= i < j < |groups[1..]| ensures Slot(groups[1..][i]) != Slot(groups[1..][j]) {
          assert groups[1..][i] == groups[i + 1] && groups[1..][j] == groups[j + 1];
        }
      }
      FindUnique(groups[1..], name, user, g);
    }
  }

  /** `get_by_name` for a fixed user and `create` flag, as `parse_line(line, create, user=user)` passes it. */
  function Lookup(user: int, create: bool): (seq<Group>, string) -> (seq<Group>, Option<Group>)
  {
    (s, n) => GetByName(s, n, user, create)
  }

  /** `SubscriptionGroup.parse_line(line, create, user=user)`: the new table and the groups the line names. */
  function ParseLine(groups: seq<Group>, line: string, user: int, create: bool): (r: (seq<Group>, seq<Group>))
    ensures |r.1| <= |Text.SplitRuns(line)|
  {
    Names.ParseLine(line, groups, Lookup(user, create))
  }

  /**
   * Parsing keeps the stored groups and the constraints; every group it
   * returns is stored, belongs to the user and is validly named.
   */
  lemma {:induction false} ParseTokensRows(tokens: seq<string>, groups: seq<Group>, user: int, create: bool)
    requires WellKept(groups)
    ensures var (g1, found) := ParseTokens(tokens, groups, Lookup(user, create));
      && WellKept(g1) && groups <= g1
      && (forall g :: g in found ==> g in g1 && g.user == user && NameIsValid(g.name))
  {
    if |tokens| > 0 {
      var (s1, f) := GetByName(groups, tokens[0], user, create);
      GetByNameKeepsWellKept(groups, tokens[0], user, create);
      ParseTokensRows(tokens[1..], s1, user, create);
      var (s2, rest) := ParseTokens(tokens[1..], s1, Lookup(user, create));
      assert ParseTokens(tokens, groups, Lookup(user, create)) == (s2, (if f.Some? then [f.value] else []) + rest);
      if f.Some? {
        assert f.value in s2 by {
          var i :| 0 <= i < |s1| && s1[i] == f.value;
          assert s2[i] == s1[i];
        }
      }
    }
  }

  /** `SubscriptionGroup.get(group_id)`: the group with that primary key, if any. */
  function Get(groups: seq<Group>, id: int): (r: Option<Group>)
    ensures r.Some? ==> r.value in groups && r.value.id == id
    ensures r.None? <==> forall g :: g in groups ==> g.id != id
  {
    if |groups| == 0 then None
    else if groups[0].id == id then Some(groups[0])
    else
      assert forall g :: g in groups <==> g == groups[0] || g in groups[1..];
      Get(groups[1..], id)
  }

  /** The check each group action starts with: the group exists and is the user's, or status 404. */
  function Owned(groups: seq<Group>, groupId: int, userId: int): (r: Result<Group>)
    ensures r.Ok? ==> r.value in groups && r.value.id == groupId && r.value.user == userId
    ensures r.Err? ==> r.error == Abort(404)
  {
    match Get(groups, groupId)
    case None => Err(Abort(404))
    case Some(g) => if g.user != userId then Err(Abort(404)) else Ok(g)
  }

  /** A missing group and another user's group are both answered with 404; the user's own group is found. */
  lemma OwnedExactly(groups: seq<Group>, groupId: int, userId: int)
    requires Seqs.Distinct(groups, GroupId)
    ensures Owned(groups, groupId, userId).Ok? <==> exists g :: g in groups && g.id == groupId && g.user == userId
  {
    if g :| g in groups && g.id == groupId && g.user == userId {
      var h := Get(groups, groupId).value;
      var i :| 0 <= i < |groups| && groups[i] == g;
      var j :| 0 <= j < |groups| && groups[j] == h;
      assert GroupId(groups[i]) == GroupId(groups[j]);
    }
  }

  /** The table with the group of id `id` replaced by `g`. */
  function Replace(groups: seq<Group>, id: int, g: Group): (r: seq<Group>)
    ensures |r| == |groups|
    ensures forall i :: 0 <= i < |r| ==> r[i] == (if groups[i].id == id then g else groups[i])
  {
    seq(|groups|, i requires 0 <= i < |groups| => if groups[i].id == id then g else groups[i])
  }

  /** Whether a group is not the one of id `id`. */
  function Other(id: int): Group -> bool
  {
    (g: Group) => g.id != id
  }

  /**
   * The `rename_group` view: the name is a required form field (status
   * 400 without one); a valid name is committed, an invalid one is
   * dropped with the session. Committing a name the user already uses for
   * another group breaks the unique constraint and raises.
   */
  function RenameGroup(db: Db, groupId: int, userId: int, form: Validation.Form): (r: Result<Db>)
    ensures r.Ok? <==>
      && Owned(db.groups, groupId, userId).Ok? && "name" in form && form["name"] != ""
      && !(NameIsValid(form["name"]) && exists h :: h in db.groups && h.id != groupId && Slot(h) == (userId, form["name"]))
  {
    var g :- Owned(db.groups, groupId, userId);
    var name :- Validation.PostParam(form, "name", false);
    if !NameIsValid(name.value) then Ok(db)
    else if exists h :: h in db.groups && h.id != groupId && Slot(h) == (userId, name.value) then
      Err(Raised("IntegrityError"))
    else Ok(db.(groups := Replace(db.groups, groupId, g.(name := name.value))))
  }

  /**
   * A rename changes only the group's name, and only to a valid one; the
   * table's constraints keep holding.
   */
  lemma RenameGroupEffect(db: Db, groupId: int, userId: int, form: Validation.Form)
    requires WellKept(db.groups)
    requires RenameGroup(db, groupId, userId, form).Ok?
    ensures var db1 := RenameGroup(db, groupId, userId, form).value;
      && db1 == db.(groups := db1.groups)
      && WellKept(db1.groups)
      && |db1.groups| == |db.groups|
      && (forall i :: 0 <= i < |db.groups| ==>
            db1.groups[i] == (if db.groups[i].id == groupId && NameIsValid(form["name"])
                              then db.groups[i].(name := form["name"]) else db.groups[i]))
  {
    var g := Owned(db.groups, groupId, userId).value;
    var name := form["name"];
    if NameIsValid(name) {
      var r := Replace(db.groups, groupId, g.(name := name));
      forall i | 0 <= i < |db.groups| && db.groups[i].id == groupId ensures db.groups[i] == g {
        var j :| 0 <= j < |db.groups| && db.groups[j] == g;
        assert GroupId(db.groups[i]) == GroupId(db.groups[j]);
      }
      assert Seqs.Distinct(r, GroupId);
      forall i, j | 0 <= i < j < |r| ensures Slot(r[i]) != Slot(r[j]) {
        if db.groups[i].id == groupId {
          assert db.groups[j] in db.groups;
        } else if db.groups[j].id == groupId {
          assert db.groups[i] in db.groups;
        } else {
          assert Slot(db.groups[i]) != Slot(db.groups[j]);
        }
      }
    }
  }

  /**
   * The `remove_contact` view: the group loses its members that are
   * subscriptions to `contactId`; a group left empty is deleted.
   */
  function RemoveContact(db: Db, groupId: int, userId: int, contactId: int): (r: Result<Db>)
    ensures r.Ok? <==> Owned(db.groups, groupId, userId).Ok?
    ensures r.Err? ==> r.error == Abort(404)
  {
    var g :- Owned(db.groups, groupId, userId);
    var members := set s | s in g.members && s.1 != contactId;
    if members == {} then Ok(db.(groups := Seqs.Filter(db.groups, Other(groupId))))
    else Ok(db.(groups := Replace(db.groups, groupId, g.(members := members))))
  }

  /**
   * After `remove_contact`, the group holds exactly its old members that
   * are not subscriptions to the contact, and is gone exactly when none
   * are left; every other group is untouched and the constraints hold.
   */
  lemma RemoveContactEffect(db: Db, groupId: int, userId: int, contactId: int)
    requires WellKept(db.groups)
    requires RemoveContact(db, groupId, userId, contactId).Ok?
    ensures var g := Owned(db.groups, groupId, userId).value;
      var db1 := RemoveContact(db, groupId, userId, contactId).value;
      && db1 == db.(groups := db1.groups)
      && WellKept(db1.groups)
      && (forall h :: h in db1.groups && h.id != groupId <==> h in db.groups && h.id != groupId)
      && (forall h :: h in db1.groups && h.id == groupId ==>
            h == g.(members := h.members) && forall s :: s in h.members <==> s in g.members && s.1 != contactId)
      && ((exists h :: h in db1.groups && h.id == groupId) <==> exists s :: s in g.members && s.1 != contactId)
  {
    var g := Owned(db.groups, groupId, userId).value;
    var members := set s | s in g.members && s.1 != contactId;
    assert forall s :: s in members <==> s in g.members && s.1 != contactId;
    if members == {} {
      FilterOtherEffect(db.groups, groupId);
    } else {
      ReplaceOneEffect(db.groups, g, g.(members := members));
    }
  }

  /** Deleting the group of id `id` keeps every other row and the constraints. */
  lemma FilterOtherEffect(groups: seq<Group>, id: int)
    requires WellKept(groups)
    ensures var r := Seqs.Filter(groups, Other(id));
      WellKept(r) && forall h :: h in r <==> h in groups && h.id != id
  {
    Seqs.FilterDistinct(groups, Other(id), GroupId);
    Seqs.FilterDistinct(groups, Other(id), Slot);
  }

  /** Replacing a stored group by one with the same id and slot keeps every other row and the constraints. */
  lemma ReplaceOneEffect(groups: seq<Group>, g: Group, g1: Group)
    requires WellKept(groups) && g in groups && g1.id == g.id && Slot(g1) == Slot(g)
    ensures var r := Replace(groups, g.id, g1);
      && WellKept(r) && g1 in r
      && (forall h :: h in r && h.id != g.id <==> h in groups && h.id != g.id)
      && (forall h :: h in r && h.id == g.id ==> h == g1)
  {
    var r := Replace(groups, g.id, g1);
    forall i | 0 <= i < |groups| && groups[i].id == g.id ensures groups[i] == g {
      var j :| 0 <= j < |groups| && groups[j] == g;
      assert GroupId(groups[i]) == GroupId(groups[j]);
    }
    assert forall i :: 0 <= i < |r| ==> GroupId(r[i]) == GroupId(groups[i]) && Slot(r[i]) == Slot(groups[i]);
    var i :| 0 <= i < |groups| && groups[i] == g;
    assert r[i] == g1;
    forall h | h in r && h.id != g.id ensures h in groups {
      var k :| 0 <= k < |r| && r[k] == h;
    }
    forall h | h in groups && h.id != g.id ensures h in r {
      var k :| 0 <= k < |groups| && groups[k] == h;
      assert r[k] == h;
    }
  }

  /**
   * The roster's `unsubscribe` view, with `Contact.get` as its docstring
   * promises: status 404 for an unknown contact, 400 when the user's contact
   * `self` does not subscribe to it, and otherwise `self.unsubscribe(contact)`.
   */
  function UnsubscribeView(db: Db, table: seq<DiasporaContact>, uAddr: string, self: Contact, contactId: int)
    : (r: Result<(Db, seq<Outbound>)>)
    requires ContactsKeyed(db.contacts)
    ensures r.Err? && r.error == Abort(404) <==> contactId !in db.contacts
    ensures r.Err? && r.error == Abort(400) <==>
      contactId in db.contacts && (self.id, contactId) !in db.subscriptions
    ensures r.Ok? ==>
      (self.id, contactId) in db.subscriptions && r.value.0.subscriptions == db.subscriptions - {(self.id, contactId)}
  {
    match Contacts.Get(db.contacts, contactId)
    case None => Err(Abort(404))
    case Some(contact) =>
      if Contacts.SubscribedTo(db, self.id, contactId).None? then Err(Abort(400))
      else Contacts.Unsubscribe(db, table, uAddr, self, contact)
  }

  /**
   * The `unsubscribe` view as written: `Contact.get` raises IndexError for
   * an unknown contact, so the 404 is never reached; the 400 is the same;
   * and through `Contacts.UnsubscribeAsWritten` a local contact gets the
   * corrected result and every remote contact the user subscribes to an
   * AttributeError.
   */
  function UnsubscribeViewAsWritten(db: Db, table: seq<DiasporaContact>, uAddr: string, self: Contact, contactId: int)
    : (r: Result<(Db, seq<Outbound>)>)
    requires ContactsKeyed(db.contacts)
    ensures contactId !in db.contacts ==> r == Err(IndexErr)
    ensures contactId in db.contacts && ((self.id, contactId) !in db.subscriptions || IsLocal(db.contacts[contactId])) ==>
              r == UnsubscribeView(db, table, uAddr, self, contactId)
    ensures contactId in db.contacts && (self.id, contactId) in db.subscriptions && !IsLocal(db.contacts[contactId]) ==>
              r == Err(AttributeErr)
  {
    var contact :- Contacts.GetAsWritten(db.contacts, contactId);
    if Contacts.SubscribedTo(db, self.id, contactId).None? then Err(Abort(400))
    else Contacts.UnsubscribeAsWritten(db, table, uAddr, self, contact)
  }

  /** `x or ''` on an optional form value. */
  function OrEmpty(v: Option<string>): string
  {
    if v.Some? then v.value else ""
  }

  /** A group of the subscription that `save_contact_groups` deletes: not named on the line, and no member to another contact. */
  predicate Emptied(g: Group, sub: Subscription, names: set<string>)
  {
    sub in g.members && g.name !in names && forall s :: s in g.members ==> s.1 == sub.1
  }

  function Survives(sub: Subscription, names: set<string>): Group -> bool
  {
    (g: Group) => !Emptied(g, sub, names)
  }

  /** `sub.groups = chosen` seen from one group: the subscription is a member exactly of the chosen ones. */
  function Assign(g: Group, sub: Subscription, ids: set<int>): (r: Group)
    ensures r == g.(members := r.members) && r.members - {sub} == g.members - {sub}
    ensures sub in r.members <==> g.id in ids
  {
    if g.id in ids then g.(members := g.members + {sub}) else g.(members := g.members - {sub})
  }

  /** The groups after deleting the emptied ones and re-assigning the subscription. */
  function Regroup(groups: seq<Group>, sub: Subscription, names: set<string>, ids: set<int>): (r: seq<Group>)
  {
    var kept := Seqs.Filter(groups, Survives(sub, names));
    seq(|kept|, i requires 0 <= i < |kept| => Assign(kept[i], sub, ids))
  }

  /**
   * `save_contact_groups` as it would run with `dict` for the misspelt
   * `dit` and with `Contact.get` as its docstring promises: status 404 or
   * 400 as for `unsubscribe`, then the line of group
   * names (optional, empty when missing) is parsed, creating the user's
   * groups it names; each old group of the subscription that the line no
   * longer names and that has no other member is deleted, and the
   * subscription's groups become the ones named.
   */
  function SaveContactGroups(db: Db, self: Contact, userId: int, contactId: int, form: Validation.Form)
    : (r: Result<Db>)
    ensures r.Err? <==> contactId !in db.contacts || (self.id, contactId) !in db.subscriptions
    ensures r.Err? ==> r.error == Abort(if contactId !in db.contacts then 404 else 400)
  {
    match Contacts.Get(db.contacts, contactId)
    case None => Err(Abort(404))
    case Some(_) =>
      if Contacts.SubscribedTo(db, self.id, contactId).None? then Err(Abort(400))
      else
        var line := OrEmpty(Validation.PostParam(form, "groups", true).value);
        var (groups1, chosen) := ParseLine(db.groups, line, userId, true);
        var names := set g | g in chosen :: g.name;
        var ids := set g | g in chosen :: g.id;
        Ok(db.(groups := Regroup(groups1, (self.id, contactId), names, ids)))
  }

  /**
   * `save_contact_groups` as written: `Contact.get` raises IndexError for an
   * unknown contact, a contact the user does not subscribe to gets 400, and
   * past those checks the misspelt `dit` is evaluated, so every request
   * ends in an exception or an error status and nothing is committed.
   */
  function SaveContactGroupsAsWritten(db: Db, self: Contact, userId: int, contactId: int, form: Validation.Form)
    : (r: Result<Db>)
    ensures r.Err?
    ensures r.error == IndexErr <==> contactId !in db.contacts
    ensures r.error == Abort(400) <==> contactId in db.contacts && (self.id, contactId) !in db.subscriptions
  {
    var _ :- Contacts.GetAsWritten(db.contacts, contactId);
    if Contacts.SubscribedTo(db, self.id, contactId).None? then Err(Abort(400))
    else Err(NameErr)
  }

  /**
   * For an unknown contact id both views as written raise the IndexError of
   * `Contact.get`, where the intended ones answer 404.
   */
  lemma UnknownContactRaises(db: Db, table: seq<DiasporaContact>, uAddr: string, self: Contact, userId: int,
                             contactId: int, form: Validation.Form)
    requires ContactsKeyed(db.contacts) && contactId !in db.contacts
    ensures UnsubscribeViewAsWritten(db, table, uAddr, self, contactId) == Err(IndexErr)
    ensures UnsubscribeView(db, table, uAddr, self, contactId) == Err(Abort(404))
    ensures SaveContactGroupsAsWritten(db, self, userId, contactId, form) == Err(IndexErr)
    ensures SaveContactGroups(db, self, userId, contactId, form) == Err(Abort(404))
  {
  }

  /** The view as written never saves, where the intended one saves for every subscribed contact. */
  lemma SaveContactGroupsNeverSaves(db: Db, self: Contact, userId: int, contactId: int, form: Validation.Form)
    requires contactId in db.contacts && (self.id, contactId) in db.subscriptions
    ensures SaveContactGroupsAsWritten(db, self, userId, contactId, form) == Err(NameErr)
    ensures SaveContactGroups(db, self, userId, contactId, form).Ok?
  {
  }

  /** Regrouping keeps the table's constraints: it deletes rows and changes only members. */
  lemma RegroupKeepsWellKept(groups: seq<Group>, sub: Subscription, names: set<string>, ids: set<int>)
    requires WellKept(groups)
    ensures WellKept(Regroup(groups, sub, names, ids))
  {
    var kept := Seqs.Filter(groups, Survives(sub, names));
    Seqs.FilterDistinct(groups, Survives(sub, names), GroupId);
    Seqs.FilterDistinct(groups, Survives(sub, names), Slot);
    var r := Regroup(groups, sub, names, ids);
    assert forall i :: 0 <= i < |r| ==> GroupId(r[i]) == GroupId(kept[i]) && Slot(r[i]) == Slot(kept[i]);
  }

  /**
   * After regrouping, the subscription is a member of a group exactly when
   * the group is a chosen one; every group comes from a stored one with
   * only that membership changed; and a stored group is kept (re-assigned)
   * unless `save_contact_groups` deletes it.
   */
  lemma RegroupEffect(groups: seq<Group>, sub: Subscription, names: set<string>, ids: set<int>)
    ensures var r := Regroup(groups, sub, names, ids);
      && (forall h :: h in r ==> (sub in h.members <==> h.id in ids))
      && (forall h :: h in r ==> exists g :: g in groups && h == Assign(g, sub, ids))
      && (forall g :: g in groups && !Emptied(g, sub, names) ==> Assign(g, sub, ids) in r)
  {
    var kept := Seqs.Filter(groups, Survives(sub, names));
    var r := Regroup(groups, sub, names, ids);
    forall h | h in r ensures exists g :: g in groups && h == Assign(g, sub, ids) {
      var i :| 0 <= i < |r| && r[i] == h;
      assert kept[i] in kept;
    }
    forall g | g in groups && !Emptied(g, sub, names) ensures Assign(g, sub, ids) in r {
      assert Survives(sub, names)(g);
      var i :| 0 <= i < |kept| && kept[i] == g;
      assert r[i] == Assign(g, sub, ids);
    }
  }

  /**
   * What `save_contact_groups` achieves: the subscription ends up in
   * exactly the groups the line names (each one the user's, validly named
   * and kept), the groups deleted are only emptied ones, no other group
   * changes beyond that membership, and the constraints hold.
   */
  lemma SaveContactGroupsEffect(db: Db, self: Contact, userId: int, contactId: int, form: Validation.Form)
    requires WellKept(db.groups)
    requires SaveContactGroups(db, self, userId, contactId, form).Ok?
    ensures var sub := (self.id, contactId);
      var line := OrEmpty(Validation.PostParam(form, "groups", true).value);
      var (groups1, chosen) := ParseLine(db.groups, line, userId, true);
      var ids := set g | g in chosen :: g.id;
      var names := set g | g in chosen :: g.name;
      var db1 := SaveContactGroups(db, self, userId, contactId, form).value;
      && db1 == db.(groups := db1.groups)
      && WellKept(db1.groups)
      && (forall h :: h in db1.groups ==> (sub in h.members <==> h.id in ids))
      && (forall c :: c in chosen ==> c.user == userId && NameIsValid(c.name) && Assign(c, sub, ids) in db1.groups)
      && (forall g :: g in db.groups && !Emptied(g, sub, names) ==> Assign(g, sub, ids) in db1.groups)
  {
    var sub := (self.id, contactId);
    var line := OrEmpty(Validation.PostParam(form, "groups", true).value);
    var (groups1, chosen) := ParseLine(db.groups, line, userId, true);
    var ids := set g | g in chosen :: g.id;
    var names := set g | g in chosen :: g.name;
    ParseTokensRows(Names.Tokens(line), db.groups, userId, true);
    RegroupKeepsWellKept(groups1, sub, names, ids);
    RegroupEffect(groups1, sub, names, ids);
    forall c | c in chosen ensures !Emptied(c, sub, names) {
      assert c.name in names;
    }
    forall g | g in db.groups ensures g in groups1 {
      var i :| 0 <= i < |db.groups| && db.groups[i] == g;
      assert groups1[i] == g;
    }
  }
}

=== FILE: Seqs.dfy ===
/** Order-preserving selection from a sequence, used by every list filter of the model. */
module Seqs {
  /** Whether `a` lists some of the elements of `b`, in the order of `b`. */
  predicate IsSubsequence<T(==)>(a: seq<T>, b: seq<T>)
  {
    if |a| == 0 then true
    else if |b| == 0 then false
    else if a[0] == b[0] then IsSubsequence(a[1..], b[1..])
    else IsSubsequence(a, b[1..])
  }

  lemma {:induction false} SubsequenceSkip<T>(a: seq<T>, b: seq<T>)
    requires |b| > 0 && IsSubsequence(a, b[1..])
    ensures IsSubsequence(a, b)
    decreases |b|, 0
  {
    if |a| > 0 && a[0] == b[0] {
      SubsequenceTail(a, b[1..]);
    }
  }

  lemma {:induction false} SubsequenceTail<T>(a: seq<T>, b: seq<T>)
    requires |a| > 0 && IsSubsequence(a, b)
    ensures IsSubsequence(a[1..], b)
    decreases |b|, 1
  {
    if a[0] != b[0] {
      SubsequenceTail(a, b[1..]);
    }
    SubsequenceSkip(a[1..], b);
  }

  /** The elements of `s` that `keep` accepts, in the order of `s` (a list comprehension with a condition). */
  function Filter<T(!new)>(s: seq<T>, keep: T -> bool): (r: seq<T>)
    ensures forall x :: x in r <==> x in s && keep(x)
  {
    if |s| == 0 then []
    else
      var rest := Filter(s[1..], keep);
      assert forall x :: x in s <==> x == s[0] || x in s[1..];
      if keep(s[0]) then [s[0]] + rest else rest
  }

  /** `Filter` keeps the order of its input. */
  lemma {:induction false} FilterInOrder<T(!new)>(s: seq<T>, keep: T -> bool)
    ensures IsSubsequence(Filter(s, keep), s)
  {
    if |s| > 0 {
      FilterInOrder(s[1..], keep);
      if !keep(s[0]) {
        SubsequenceSkip(Filter(s[1..], keep), s);
      }
    }
  }

  /** No two elements of `s` share a key: the effect of a primary key or unique constraint on a table's rows. */
  predicate Distinct<T, K(==)>(s: seq<T>, key: T -> K)
  {
    forall i, j :: 0 <= i < j < |s| ==> key(s[i]) != key(s[j])
  }

  /** Selecting rows keeps a unique key unique. */
  lemma {:induction false} FilterDistinct<T(!new), K>(s: seq<T>, keep: T -> bool, key: T -> K)
    requires Distinct(s, key)
    ensures Distinct(Filter(s, keep), key)
  {
    if |s| > 0 {
      assert Distinct(s[1..], key) by {
        forall i, j | 0 <= i < j < |s[1..]| ensures key(s[1..][i]) != key(s[1..][j]) {
          assert s[1..][i] == s[i + 1] && s[1..][j] == s[j + 1];
        }
      }
      FilterDistinct(s[1..], keep, key);
      var rest := Filter(s[1..], keep);
      if keep(s[0]) {
        forall x | x in rest ensures key(s[0]) != key(x) {
          var j :| 0 <= j < |s[1..]| && s[1..][j] == x;
          assert s[j + 1] == x;
        }
        var r := [s[0]] + rest;
        forall i, j | 0 <= i < j < |r| ensures key(r[i]) != key(r[j]) {
          assert r[j] == rest[j - 1] && r[j] in rest;
          if i > 0 {
            assert r[i] == rest[i - 1];
          }
        }
      }
    }
  }
}

=== FILE: Social.dfy ===
/**
 * The rows the federation and sharing rules read and write: contacts
 * (people, local or remote), local users, posts with their parts and tags,
 * shares of posts with contacts, subscriptions between contacts, tags and
 * subscription groups. Timestamps are integers on one clock; identifiers
 * are the database primary keys.
 */
module Social {
  import opened Results
  import opened Bytes

  /** A local account. `activated` is when the account was activated, if it has been. */
  datatype User = User(id: int, contact: int, activated: Option<int>)

  /** A person or entity. `user` is the local account mastered here; remote contacts have none. */
  datatype Contact = Contact(id: int, realname: string, user: Option<int>)

  predicate IsLocal(c: Contact) { c.user.Some? }

  /**
   * A share keyed by (contact id, post id), the table's primary key:
   * `public` puts the post on the contact's wall, `hidden` takes it out of
   * their feed.
   */
  datatype Share = Share(public: bool, hidden: bool)

  /**
   * The body of a content part. Bodies the modelled code builds itself are
   * kept structured: the JSON of a subscription notice ({"from", "to"}) and
   * of a share card ({"post": {"id"}, "author": {"id", "name"}}).
   */
  datatype Body =
    | Raw(data: seq<byte>)
    | SubscribeNotice(from: int, to: int)
    | ShareCard(post: int, author: int, authorName: string)

  /** A MIME part: its type, its body and the plain text shown in lieu of it (`None` when unset). */
  datatype MimePart = MimePart(mimeType: string, body: Body, textPreview: Option<string>)

  /** The link of a part into a post, with its display hint and sort key. */
  datatype PostPart = PostPart(part: MimePart, inline: bool, order: int)

  /**
   * A post; `parent` links a comment to what it comments on, `parts` are
   * its contents and `tags` the ids of its tags.
   */
  datatype Post = Post(id: int, author: int, parent: Option<int>, threadModifiedAt: Option<int>,
                       parts: seq<PostPart>, tags: seq<int>)

  type ShareKey = (int, int)     // (contact id, post id)
  type Subscription = (int, int)  // (from contact id, to contact id)

  /** A topic; names are unique across the table. */
  datatype Tag = Tag(id: int, name: string)

  /** A user's named group of subscriptions; names are unique per user. */
  datatype Group = Group(id: int, user: int, name: string, members: set<Subscription>)

  /**
   * The part of the database the modelled code works on. Tags and groups
   * are the rows of their tables in insertion order, which is where a
   * `query(...).first()` looks.
   */
  datatype Db = Db(
    contacts: map<int, Contact>,
    users: map<int, User>,
    posts: map<int, Post>,
    shares: map<ShareKey, Share>,
    subscriptions: set<Subscription>,
    tags: seq<Tag>,
    groups: seq<Group>)

  /**
   * Each post is stored under its id, and a parent is an existing post with
   * a smaller id: posts get increasing ids and a comment is made after the
   * post it comments on.
   */
  predicate PostsLinked(posts: map<int, Post>)
  {
    forall id {:trigger posts[id]} :: id in posts ==>
      posts[id].id == id && (posts[id].parent.Some? ==> posts[id].parent.value in posts && posts[id].parent.value < id)
  }

  /** Each contact is stored under its own id, the table's primary key. */
  predicate ContactsKeyed(contacts: map<int, Contact>)
  {
    forall id {:trigger contacts[id]} :: id in contacts ==> contacts[id].id == id
  }

  /** An id larger than every stored post's, as the next autoincrement key is. */
  predicate FreshPostId(posts: map<int, Post>, id: int)
  {
    forall k :: k in posts ==> k < id
  }

  /**
   * An id a new post may take: above every stored post's and every post id
   * a share refers to (shares refer to stored posts).
   */
  predicate FreshPost(db: Db, id: int)
  {
    FreshPostId(db.posts, id) && forall k :: k in db.shares ==> k.1 < id
  }
}

=== FILE: Tags.dfy ===
/**
 * Tags: looking a tag up by name (creating it on demand), parsing a line of
 * tag names, and the condition that selects public posts carrying a tag.
 */
module Tags {
  import opened Results
  import opened Social
  import opened Names
  import Seqs
  import Posts

  /** The `unique=True` constraint on `tags.name`. */
  predicate UniqueNames(table: seq<Tag>)
  {
    forall i, j :: 0 <= i < j < |table| ==> table[i].name != table[j].name
  }

  /** `query(Tag).filter(Tag.name == name).first()`. */
  function Find(table: seq<Tag>, name: string): (r: Option<Tag>)
    ensures r.Some? ==> r.value in table && r.value.name == name
    ensures r.None? <==> forall t :: t in table ==> t.name != name
  {
    if |table| == 0 then None
    else if table[0].name == name then Some(table[0])
    else
      assert forall t :: t in table <==> t == table[0] || t in table[1..];
      Find(table[1..], name)
  }

  /** The id the next inserted row takes: one above the largest id in use. */
  function NextId(table: seq<Tag>): (r: int)
    ensures r >= 1
    ensures forall t :: t in table ==> t.id < r
  {
    if |table| == 0 then 1
    else
      var rest := NextId(table[1..]);
      assert forall t :: t in table <==> t == table[0] || t in table[1..];
      if table[0].id >= rest then table[0].id + 1 else rest
  }

  /**
   * `Tag.get_by_name(name, create)`: nothing for an invalid name; the
   * stored tag of that name; otherwise, when `create` holds, a new tag,
   * which the table now holds.
   */
  function GetByName(table: seq<Tag>, name: string, create: bool): (r: (seq<Tag>, Option<Tag>))
    ensures r.1.Some? <==> NameIsValid(name) && (create || Find(table, name).Some?)
    ensures r.1.Some? ==> r.1.value in r.0 && r.1.value.name == name
    ensures r.0 == table || (r.1.Some? && Find(table, name).None? && r.0 == table + [r.1.value])
    ensures r.0 != table ==> r.1.value.id == NextId(table)
  {
    if !NameIsValid(name) then (table, None)
    else
      match Find(table, name)
      case Some(t) => (table, Some(t))
      case None =>
        if create then
          var t := Tag(NextId(table), name);
          (table + [t], Some(t))
        else (table, None)
  }

  /** A lookup adds a row only for a name not yet stored, so names stay unique. */
  lemma GetByNameKeepsUnique(table: seq<Tag>, name: string, create: bool)
    requires UniqueNames(table)
    ensures UniqueNames(GetByName(table, name, create).0)
  {
  }

  /** Looking the same name up again finds the same tag and adds nothing. */
  lemma GetByNameIdempotent(table: seq<Tag>, name: string, create: bool)
    requires UniqueNames(table)
    ensures var (t1, found) := GetByName(table, name, create);
      GetByName(t1, name, create) == (t1, found)
  {
    var (t1, found) := GetByName(table, name, create);
    if found.Some? {
      assert Find(t1, name).Some?;
      if t1 != table {
        assert t1 == table + [found.value];
        assert forall t :: t in t1 ==> t in table || t == found.value;
      } else {
        forall t | t in t1 && t.name == name ensures t == found.value {
          var i :| 0 <= i < |t1| && t1[i] == t;
          var j :| 0 <= j < |t1| && t1[j] == found.value;
          assert i == j;
        }
      }
      assert Find(t1, name) == found by { FindUnique(t1, name, found.value); }
    }
  }

  /** In a table with unique names, the row with a given name is the one found. */
  lemma {:induction false} FindUnique(table: seq<Tag>, name: string, t: Tag)
    requires t in table && t.name == name
    requires forall u :: u in table && u.name == name ==> u == t
    ensures Find(table, name) == Some(t)
  {
    if table[0] != t {
      assert t in table[1..];
      FindUnique(table[1..], name, t);
    }
  }

  /** `get_by_name` with a fixed `create` flag, as `parse_line` passes it. */
  function Lookup(create: bool): (seq<Tag>, string) -> (seq<Tag>, Option<Tag>)
  {
    (s, n) => GetByName(s, n, create)
  }

  /** `Tag.parse_line(line, create)`: the new table and the tags the line names. */
  function ParseLine(table: seq<Tag>, line: string, create: bool): (r: (seq<Tag>, seq<Tag>))
    ensures |r.1| <= |Text.SplitRuns(line)|
  {
    Names.ParseLine(line, table, Lookup(create))
  }

  /** Whether `n` names a tag of `table` (the tokens `parse_line` keeps without `create`). */
  function Stored(table: seq<Tag>): string -> bool
  {
    n => NameIsValid(n) && Find(table, n).Some?
  }

  function NamesOf(ts: seq<Tag>): seq<string>
  {
    if |ts| == 0 then [] else [ts[0].name] + NamesOf(ts[1..])
  }

  /**
   * Parsing keeps the stored rows and names unique; every tag it returns is
   * stored and validly named.
   */
  lemma {:induction false} ParseTokensRows(tokens: seq<string>, table: seq<Tag>, create: bool)
    requires UniqueNames(table)
    ensures var (t1, found) := ParseTokens(tokens, table, Lookup(create));
      && UniqueNames(t1) && table <= t1
      && (forall t :: t in found ==> t in t1 && NameIsValid(t.name))
      && (!create ==> t1 == table)
  {
    if |tokens| > 0 {
      var (s1, f) := GetByName(table, tokens[0], create);
      GetByNameKeepsUnique(table, tokens[0], create);
      ParseTokensRows(tokens[1..], s1, create);
      var (s2, rest) := ParseTokens(tokens[1..], s1, Lookup(create));
      assert ParseTokens(tokens, table, Lookup(create)) == (s2, (if f.Some? then [f.value] else []) + rest);
      if f.Some? {
        assert f.value in s1 && s1 <= s2;
        assert f.value in s2 by {
          var i :| 0 <= i < |s1| && s1[i] == f.value;
          assert s2[i] == s1[i];
        }
      }
    }
  }

  /**
   * With `create`, the tags a line yields are named exactly by its valid
   * tokens, in order: invalid and empty tokens are dropped.
   */
  lemma {:induction false} ParseTokensCreates(tokens: seq<string>, table: seq<Tag>)
    ensures NamesOf(ParseTokens(tokens, table, Lookup(true)).1) == Seqs.Filter(tokens, NameIsValid)
  {
    if |tokens| > 0 {
      var (s1, f) := GetByName(table, tokens[0], true);
      ParseTokensCreates(tokens[1..], s1);
      var rest := ParseTokens(tokens[1..], s1, Lookup(true)).1;
      var found := (if f.Some? then [f.value] else []) + rest;
      assert ParseTokens(tokens, table, Lookup(true)).1 == found;
      assert Seqs.Filter(tokens, NameIsValid) ==
        (if NameIsValid(tokens[0]) then [tokens[0]] else []) + Seqs.Filter(tokens[1..], NameIsValid);
      if f.Some? {
        assert found[1..] == rest;
        assert NamesOf(found) == [tokens[0]] + NamesOf(rest);
      } else {
        assert !NameIsValid(tokens[0]);
        assert found == rest;
      }
    }
  }

  /**
   * Without `create` nothing is added, and the tags a line yields are named
   * by its valid tokens that name a stored tag, in order.
   */
  lemma {:induction false} ParseTokensFinds(tokens: seq<string>, table: seq<Tag>)
    ensures var r := ParseTokens(tokens, table, Lookup(false));
      r.0 == table && NamesOf(r.1) == Seqs.Filter(tokens, Stored(table))
  {
    if |tokens| > 0 {
      var (s1, f) := GetByName(table, tokens[0], false);
      ParseTokensFinds(tokens[1..], s1);
      var rest := ParseTokens(tokens[1..], s1, Lookup(false)).1;
      var found := (if f.Some? then [f.value] else []) + rest;
      assert ParseTokens(tokens, table, Lookup(false)).1 == found;
      var stored := Stored(table);
      assert Seqs.Filter(tokens, stored) ==
        (if stored(tokens[0]) then [tokens[0]] else []) + Seqs.Filter(tokens[1..], stored);
      assert s1 == table;
      if f.Some? {
        assert found[1..] == rest;
        assert NamesOf(found) == [tokens[0]] + NamesOf(rest);
      } else {
        assert !stored(tokens[0]);
        assert found == rest;
      }
    }
  }

  /** `parse_line(line, create=True)`: one tag per valid token of the line, every one stored. */
  lemma ParseLineCreates(table: seq<Tag>, line: string)
    requires UniqueNames(table)
    ensures var (t1, found) := ParseLine(table, line, true);
      NamesOf(found) == Seqs.Filter(Names.Tokens(line), NameIsValid) && UniqueNames(t1) && table <= t1 &&
      forall t :: t in found ==> t in t1
  {
    ParseTokensCreates(Names.Tokens(line), table);
    ParseTokensRows(Names.Tokens(line), table, true);
  }

  /**
   * `Tag.Queries.public_posts_for_tags(tag_ids)` applied to the posts joined
   * with their shares: the (contact, post) shares that are public and not
   * hidden, of posts carrying one of the tags.
   */
  function PublicPostsForTags(db: Db, tagIds: set<int>): (r: set<ShareKey>)
    ensures forall k :: k in r <==> k in db.shares && db.shares[k].public && !db.shares[k].hidden &&
                                    k.1 in db.posts && exists t :: t in db.posts[k.1].tags && t in tagIds
  {
    set k | k in db.shares && db.shares[k].public && !db.shares[k].hidden && k.1 in db.posts &&
            exists t :: t in db.posts[k.1].tags && t in tagIds
  }

  /** Every post the tag query selects is one the public may view. */
  lemma TaggedPostsArePublic(db: Db, tagIds: set<int>, k: ShareKey)
    requires PostsLinked(db.posts) && k in PublicPostsForTags(db, tagIds)
    ensures Posts.HasPermissionToView(db, db.posts[k.1], None, Posts.LookUp)
  {
    assert db.shares[k].public;
  }
}

=== FILE: Targets.dfy ===
/**
 * The audiences a new post or a reply can be addressed to, which of them a
 * user may pick, and the list the post form offers.
 *
 * The user's friends are passed in as the list `user.contact.friends()`
 * yields (the query's order is not fixed); `ListsFriends` says when a list is
 * that query's result.
 */
module Targets {
  import opened Results
  import opened Social
  import Posts
  import Seqs
  import Delivery

  datatype Target = SelfTarget | ContactTarget | GroupTarget | AllFriendsTarget | ExistingViewers | PublicTarget

  /** `target_list`, in declaration order. */
  const TargetList: seq<Target> := [SelfTarget, ContactTarget, GroupTarget, AllFriendsTarget, ExistingViewers, PublicTarget]

  /** The `name` each target's `json_target` reports. */
  function Name(t: Target): string
  {
    match t
    case SelfTarget => "self"
    case ContactTarget => "contact"
    case GroupTarget => "group"
    case AllFriendsTarget => "all_friends"
    case ExistingViewers => "existing"
    case PublicTarget => "wall"
  }

  /** `_post_intersect_contacts(post, contacts)`: the contacts the post is shared with. */
  function PostIntersectContacts(db: Db, postId: int, contacts: seq<Contact>): (r: seq<Contact>)
    ensures forall c :: c in r <==> c in contacts && (c.id, postId) in db.shares
  {
    Seqs.Filter(contacts, (c: Contact) => (c.id, postId) in db.shares)
  }

  /**
   * `_contacts_intersect_interested(user, contacts)`: the contacts subscribed
   * to the user's contact `userContact`.
   */
  function Interested(db: Db, userContact: int, contacts: seq<Contact>): (r: seq<Contact>)
    ensures forall c :: c in r <==> c in contacts && (c.id, userContact) in db.subscriptions
  {
    Seqs.Filter(contacts, (c: Contact) => (c.id, userContact) in db.subscriptions)
  }

  /**
   * `_contacts_intersect_interested` as written: `c.subscribed_to(user)` is
   * handed the User rather than its contact, and the query's comparison
   * with the subscription's target contact reads the User's own id as the
   * key.
   */
  function InterestedAsWritten(db: Db, user: User, contacts: seq<Contact>): (r: seq<Contact>)
    ensures forall c :: c in r <==> c in contacts && (c.id, user.id) in db.subscriptions
  {
    Seqs.Filter(contacts, (c: Contact) => (c.id, user.id) in db.subscriptions)
  }

  /**
   * Where the user's id is not their contact's id, a contact subscribed to
   * the user's contact is dropped as written and kept by `Interested`.
   */
  lemma InterestedAsWrittenMisses(db: Db, user: User, c: Contact)
    requires (c.id, user.contact) in db.subscriptions && (c.id, user.id) !in db.subscriptions
    ensures c in Interested(db, user.contact, [c]) && c !in InterestedAsWritten(db, user, [c])
  {
  }

  /** Both intersections keep the order of the list they filter. */
  lemma IntersectionsInOrder(db: Db, postId: int, userContact: int, contacts: seq<Contact>)
    ensures Seqs.IsSubsequence(PostIntersectContacts(db, postId, contacts), contacts)
    ensures Seqs.IsSubsequence(Interested(db, userContact, contacts), contacts)
  {
    Seqs.FilterInOrder(contacts, (c: Contact) => (c.id, postId) in db.shares);
    Seqs.FilterInOrder(contacts, (c: Contact) => (c.id, userContact) in db.subscriptions);
  }

  /** `friends` is what `contact.friends()` returns: the contacts `contactId` subscribes to, each listed. */
  predicate ListsFriends(db: Db, contactId: int, friends: seq<Contact>)
  {
    && (forall c :: c in friends ==> (contactId, c.id) in db.subscriptions)
    && (forall s :: s in db.subscriptions && s.0 == contactId ==> exists c :: c in friends && c.id == s.1)
  }

  /** `_user_bothway_contacts(user)`: the friends that subscribe back. */
  function BothwayContacts(db: Db, user: User, friends: seq<Contact>): (r: seq<Contact>)
    ensures forall c :: c in r ==> c in friends
  {
    Interested(db, user.contact, friends)
  }

  /** The two-way contacts are the contacts subscribed in both directions with the user's contact. */
  lemma BothwayIsMutual(db: Db, user: User, friends: seq<Contact>)
    requires ListsFriends(db, user.contact, friends)
    ensures forall c :: c in BothwayContacts(db, user, friends) ==>
      (user.contact, c.id) in db.subscriptions && (c.id, user.contact) in db.subscriptions
    ensures forall id :: (user.contact, id) in db.subscriptions && (id, user.contact) in db.subscriptions ==>
      exists c :: c in BothwayContacts(db, user, friends) && c.id == id
  {
    forall id | (user.contact, id) in db.subscriptions && (id, user.contact) in db.subscriptions
      ensures exists c :: c in BothwayContacts(db, user, friends) && c.id == id
    {
      var s := (user.contact, id);
      assert s in db.subscriptions && s.0 == user.contact;
      var c :| c in friends && c.id == s.1;
      assert c in BothwayContacts(db, user, friends);
    }
  }

  predicate HasMutualContact(db: Db, me: int)
  {
    exists s :: s in db.subscriptions && s.0 == me && (s.1, me) in db.subscriptions
  }

  /**
   * Whether group `g` holds a subscription to a contact that subscribes back
   * to `user`'s contact and, when `post` is given, can see that post.
   */
  predicate GroupReaches(db: Db, user: User, g: Group, post: Option<int>)
  {
    exists s :: s in g.members && (s.1, user.contact) in db.subscriptions &&
                (post.Some? ==> (s.1, post.value) in db.shares)
  }

  /**
   * `permitted_for_new(user)` as written: `Group` calls the list
   * `user.groups` and raises a TypeError, and `Contact` and `AllFriends`
   * filter the friends through `InterestedAsWritten`, which is handed the
   * User rather than its contact.
   */
  function PermittedForNewAsWritten(db: Db, user: User, friends: seq<Contact>, t: Target): (r: Result<bool>)
    ensures t == GroupTarget <==> r.Err?
    ensures r.Err? ==> r.error == TypeErr
    ensures t == ContactTarget || t == AllFriendsTarget ==>
      r.Ok? && (r.value <==> exists c :: c in friends && (c.id, user.id) in db.subscriptions)
    ensures t == SelfTarget || t == PublicTarget || t == ExistingViewers ==> r == PermittedForNew(db, user, friends, t)
  {
    var kept := InterestedAsWritten(db, user, friends);
    assert |kept| > 0 ==> kept[0] in kept;
    match t
    case GroupTarget => Err(TypeErr)
    case ContactTarget => Ok(|kept| > 0)
    case AllFriendsTarget => Ok(|kept| > 0)
    case _ => PermittedForNew(db, user, friends, t)
  }

  /**
   * `permitted_for_new(user)` with the groups read as a list: yourself and
   * the wall always; existing viewers never (there are none); one friend or
   * all friends when there is a two-way contact; a group when one of the
   * user's groups holds a contact that subscribes back.
   */
  function PermittedForNew(db: Db, user: User, friends: seq<Contact>, t: Target): (r: Result<bool>)
    ensures r.Ok?
    ensures t == SelfTarget || t == PublicTarget ==> r.value
    ensures t == ExistingViewers ==> !r.value
    ensures t == ContactTarget || t == AllFriendsTarget ==> (r.value <==> |BothwayContacts(db, user, friends)| > 0)
  {
    match t
    case SelfTarget => Ok(true)
    case PublicTarget => Ok(true)
    case ExistingViewers => Ok(false)
    case ContactTarget => Ok(|BothwayContacts(db, user, friends)| > 0)
    case AllFriendsTarget => Ok(|BothwayContacts(db, user, friends)| > 0)
    case GroupTarget => Ok(exists g :: g in db.groups && g.user == user.id && GroupReaches(db, user, g, None))
  }

  /** A user may address one friend or all friends exactly when they have a two-way contact. */
  lemma FriendTargetsNeedMutual(db: Db, user: User, friends: seq<Contact>, t: Target)
    requires ListsFriends(db, user.contact, friends)
    requires t == ContactTarget || t == AllFriendsTarget
    ensures PermittedForNew(db, user, friends, t) == Ok(true) <==> HasMutualContact(db, user.contact)
  {
    BothwayIsMutual(db, user, friends);
    if HasMutualContact(db, user.contact) {
      var id :| (user.contact, id) in db.subscriptions && (id, user.contact) in db.subscriptions;
      var c :| c in BothwayContacts(db, user, friends) && c.id == id;
    }
    if |BothwayContacts(db, user, friends)| > 0 {
      var c := BothwayContacts(db, user, friends)[0];
      assert (user.contact, c.id) in db.subscriptions && (c.id, user.contact) in db.subscriptions;
    }
  }

  /**
   * A user whose only friend subscribes back to the user's contact, but
   * not to the contact whose id is the user's id: the intended check lets
   * them address one friend or all friends, the check as written does not.
   */
  lemma PermittedForNewAsWrittenMisses(db: Db, user: User, c: Contact, t: Target)
    requires t == ContactTarget || t == AllFriendsTarget
    requires (c.id, user.contact) in db.subscriptions && (c.id, user.id) !in db.subscriptions
    ensures PermittedForNew(db, user, [c], t) == Ok(true)
    ensures PermittedForNewAsWritten(db, user, [c], t) == Ok(false)
  {
    InterestedAsWrittenMisses(db, user, c);
  }

  /**
   * `permitted_for_reply(user, parent_post)` as written: `Contact` and
   * `AllFriends` read an undefined name `post` (NameError), `Group` calls
   * `user.groups` (TypeError); `Public` reads the author's own share, which
   * is an AttributeError when the author has none.
   */
  function PermittedForReplyAsWritten(db: Db, user: User, friends: seq<Contact>, parent: Post, t: Target): (r: Result<bool>)
    ensures t == ContactTarget || t == AllFriendsTarget ==> r == Err(NameErr)
    ensures t == GroupTarget ==> r == Err(TypeErr)
    ensures t == SelfTarget || t == ExistingViewers || t == PublicTarget ==> r == PermittedForReply(db, user, friends, parent, t)
  {
    match t
    case ContactTarget => Err(NameErr)
    case AllFriendsTarget => Err(NameErr)
    case GroupTarget => Err(TypeErr)
    case _ => PermittedForReply(db, user, friends, parent, t)
  }

  /**
   * `permitted_for_reply` with the parent post in place of `post` and the
   * groups read as a list: yourself and existing viewers always; one friend
   * or all friends when a two-way contact can see the parent; a group when
   * one of its contacts subscribes back and can see the parent; the wall
   * when the author's own share of the parent is public.
   */
  function PermittedForReply(db: Db, user: User, friends: seq<Contact>, parent: Post, t: Target): (r: Result<bool>)
    ensures t == SelfTarget || t == ExistingViewers ==> r == Ok(true)
    ensures t == PublicTarget ==> match Posts.SharedWith(db, parent.author, parent.id)
      case None => r == Err(AttributeErr)
      case Some(s) => r == Ok(s.public)
    ensures t != PublicTarget ==> r.Ok?
    ensures t == ContactTarget || t == AllFriendsTarget ==>
      (r.value <==> exists c :: c in BothwayContacts(db, user, friends) && (c.id, parent.id) in db.shares)
  {
    match t
    case SelfTarget => Ok(true)
    case ExistingViewers => Ok(true)
    case PublicTarget =>
      (match Posts.SharedWith(db, parent.author, parent.id)
       case None => Err(AttributeErr)
       case Some(s) => Ok(s.public))
    case GroupTarget =>
      Ok(exists g :: g in db.groups && g.user == user.id && GroupReaches(db, user, g, Some(parent.id)))
    case _ =>
      var shared := PostIntersectContacts(db, parent.id, BothwayContacts(db, user, friends));
      assert |shared| > 0 ==> shared[0] in shared;
      Ok(|shared| > 0)
  }

  /** The targets the two definitions disagree on: as written, the friend and group targets raise for every reply. */
  lemma ReplyTargetsRaise(db: Db, user: User, friends: seq<Contact>, parent: Post)
    ensures PermittedForReplyAsWritten(db, user, friends, parent, ContactTarget) == Err(NameErr)
    ensures PermittedForReplyAsWritten(db, user, friends, parent, AllFriendsTarget) == Err(NameErr)
    ensures PermittedForReplyAsWritten(db, user, friends, parent, GroupTarget) == Err(TypeErr)
    ensures PermittedForNewAsWritten(db, user, friends, GroupTarget) == Err(TypeErr)
    ensures forall t :: PermittedForReply(db, user, friends, parent, t).Ok? || t == PublicTarget
    ensures forall t :: PermittedForNew(db, user, friends, t).Ok?
  {
  }

  /** A reply's friend targets reach only two-way contacts who can already see the parent. */
  lemma ReplyReachesOnlyMutualViewers(db: Db, user: User, friends: seq<Contact>, parent: Post)
    requires ListsFriends(db, user.contact, friends)
    ensures PermittedForReply(db, user, friends, parent, ContactTarget) == Ok(true) <==>
      exists id :: (user.contact, id) in db.subscriptions && (id, user.contact) in db.subscriptions &&
                   (id, parent.id) in db.shares
  {
    BothwayIsMutual(db, user, friends);
    if PermittedForReply(db, user, friends, parent, ContactTarget) == Ok(true) {
      var c :| c in BothwayContacts(db, user, friends) && (c.id, parent.id) in db.shares;
      assert (user.contact, c.id) in db.subscriptions;
    }
    if exists id :: (user.contact, id) in db.subscriptions && (id, user.contact) in db.subscriptions &&
                    (id, parent.id) in db.shares {
      var id :| (user.contact, id) in db.subscriptions && (id, user.contact) in db.subscriptions &&
                (id, parent.id) in db.shares;
      var c :| c in BothwayContacts(db, user, friends) && c.id == id;
    }
  }

  /**
   * The targets in `ts` that `keep` accepts, evaluated one target at a time
   * as the chained generators are: the first error stops the list.
   */
  function SelectTargets(ts: seq<Target>, keep: Target -> Result<bool>): (r: Result<seq<Target>>)
    ensures r.Ok? <==> forall t :: t in ts ==> keep(t).Ok?
    ensures r.Ok? ==> forall t :: t in r.value <==> t in ts && keep(t) == Ok(true)
    ensures r.Ok? ==> Seqs.IsSubsequence(r.value, ts)
  {
    if |ts| == 0 then Ok([])
    else
      assert forall t :: t in ts <==> t == ts[0] || t in ts[1..];
      match keep(ts[0])
      case Err(e) => Err(e)
      case Ok(b) =>
        match SelectTargets(ts[1..], keep)
        case Err(e) => Err(e)
        case Ok(rest) =>
          if b then Ok([ts[0]] + rest)
          else
            Seqs.SubsequenceSkip(rest, ts);
            Ok(rest)
  }

  /**
   * `_base_create_form(user, parent)` as written: each target permitted for
   * the reply is passed to `parent.diasp.can_reply_with`, which reads the
   * missing attribute `name` of the target class.
   */
  function CreateFormTargetsAsWritten(db: Db, user: User, friends: seq<Contact>, parent: Option<Post>,
                                      diasp: Option<Delivery.DiasporaPost>): (r: Result<seq<Target>>)
    ensures r.Err?
  {
    match parent
    case None =>
      var r := SelectTargets(TargetList, t => PermittedForNewAsWritten(db, user, friends, t));
      assert TargetList[2] == GroupTarget;
      r
    case Some(p) =>
      var r := SelectTargets(TargetList, t =>
        match PermittedForReplyAsWritten(db, user, friends, p, t)
        case Err(e) => Err(e)
        case Ok(b) => if b && diasp.Some? then Err(AttributeErr) else Ok(b));
      assert TargetList[1] == ContactTarget;
      r
  }

  /**
   * `_base_create_form` with the corrected permission checks and the
   * target's name given to `can_reply_with`: the targets permitted for a
   * new post, or for a reply those permitted for it which a federated
   * parent accepts.
   */
  function CreateFormTargets(db: Db, user: User, friends: seq<Contact>, parent: Option<Post>,
                             diasp: Option<Delivery.DiasporaPost>): (r: Result<seq<Target>>)
    ensures parent.None? ==> r.Ok? && forall t :: t in r.value <==> t in TargetList && PermittedForNew(db, user, friends, t) == Ok(true)
    ensures parent.Some? && r.Ok? ==> forall t :: t in r.value <==>
      t in TargetList && PermittedForReply(db, user, friends, parent.value, t) == Ok(true) &&
      (diasp.Some? ==> Delivery.CanReplyWith(diasp.value.kind, Name(t)))
    ensures parent.Some? ==> (r.Err? <==> exists t :: t in TargetList && PermittedForReply(db, user, friends, parent.value, t).Err?)
    ensures r.Ok? ==> Seqs.IsSubsequence(r.value, TargetList)
  {
    match parent
    case None => SelectTargets(TargetList, t => PermittedForNew(db, user, friends, t))
    case Some(p) => SelectTargets(TargetList, t => ReplyOffers(db, user, friends, p, diasp, t))
  }

  /** Whether the reply form offers `t`: permitted for the reply, and accepted by a federated parent. */
  function ReplyOffers(db: Db, user: User, friends: seq<Contact>, parent: Post, diasp: Option<Delivery.DiasporaPost>,
                       t: Target): (r: Result<bool>)
    ensures r.Err? <==> PermittedForReply(db, user, friends, parent, t).Err?
  {
    match PermittedForReply(db, user, friends, parent, t)
    case Err(e) => Err(e)
    case Ok(b) => Ok(b && (diasp.None? || Delivery.CanReplyWith(diasp.value.kind, Name(t))))
  }

  /** A reply form always offers replying to yourself, unless the wall check raises. */
  lemma ReplyFormOffersSelf(db: Db, user: User, friends: seq<Contact>, parent: Post, diasp: Option<Delivery.DiasporaPost>)
    requires CreateFormTargets(db, user, friends, Some(parent), diasp).Ok?
    ensures SelfTarget in CreateFormTargets(db, user, friends, Some(parent), diasp).value
  {
  }

  /** The wall check raises only when the parent's author holds no share of it. */
  lemma ReplyFormFailsOnlyWithoutAuthorShare(db: Db, user: User, friends: seq<Contact>, parent: Post,
                                             diasp: Option<Delivery.DiasporaPost>)
    ensures CreateFormTargets(db, user, friends, Some(parent), diasp).Err? <==>
      Posts.SharedWith(db, parent.author, parent.id).None?
  {
    assert TargetList[5] == PublicTarget;
    assert forall t :: PermittedForReply(db, user, friends, parent, t).Err? ==> t == PublicTarget;
  }
}

=== FILE: Templates.dfy ===
/**
 * Template helpers: the relative-time text of `since` ("3 days ago",
 * "in 1 hour, 5 minutes") and `chunk_url_params`, which cuts the query off a
 * URL and returns its pairs. Instants are integers in the clock's own unit,
 * and the calendar difference `relativedelta(later, earlier)` is a
 * parameter: it is never negative in any field.
 */
module Templates {
  import opened Results
  import Text
  import Url

  /** The fields of a `relativedelta` that `since` reads, plus the part below a second it ignores. */
  datatype Delta = Delta(years: nat, months: nat, days: nat, hours: nat, minutes: nat, seconds: nat, microseconds: nat)

  /**
   * The sections in the order they are tried: weeks are the whole weeks in
   * the days, and the days shown are what is left over.
   */
  function Sections(d: Delta): (r: seq<(string, nat)>)
    ensures |r| == 7
    ensures r[2].1 * 7 + r[3].1 == d.days && r[3].1 < 7
  {
    [("years", d.years), ("months", d.months), ("weeks", d.days / 7), ("days", d.days % 7),
     ("hours", d.hours), ("minutes", d.minutes), ("seconds", d.seconds)]
  }

  /** `'{0} {1}'.format(val, unit)`, the unit losing its final 's' for a value of exactly 1. */
  function Label(unit: string, val: nat): string
  {
    Text.NatToString(val) + " " + (if val != 1 || |unit| == 0 then unit else unit[..|unit| - 1])
  }

  /** A section's label when its value is non-zero, else nothing. */
  function Labelled(section: (string, nat)): (r: seq<string>)
    ensures |r| <= 1
  {
    if section.1 != 0 then [Label(section.0, section.1)] else []
  }

  /**
   * The loop over the sections: a non-zero value adds its label; once
   * `chunks` is truthy and the labels reach it, the loop stops.
   */
  function Collect(sections: seq<(string, nat)>, chunks: int, acc: seq<string>): seq<string>
  {
    if |sections| == 0 then acc
    else
      var acc1 := acc + Labelled(sections[0]);
      if chunks != 0 && |acc1| >= chunks then acc1
      else Collect(sections[1..], chunks, acc1)
  }

  /** `since(dt, base, chunks)`; `now` is the clock reading used when `base` is not given. */
  function Since(dt: int, base: Option<int>, now: int, chunks: int, rd: (int, int) -> Delta): (r: string)
  {
    var b := if base.Some? then base.value else now;
    if dt == b then "now"
    else if dt < b then "" + Text.Join(Collect(Sections(rd(b, dt)), chunks, []), ", ") + " ago"
    else "in " + Text.Join(Collect(Sections(rd(dt, b)), chunks, []), ", ") + ""
  }

  /** The labels of the non-zero sections, in order. */
  function NonZero(sections: seq<(string, nat)>): (r: seq<string>)
    ensures |r| <= |sections|
  {
    if |sections| == 0 then []
    else Labelled(sections[0]) + NonZero(sections[1..])
  }

  function Take<T>(s: seq<T>, n: nat): (r: seq<T>)
    ensures |r| == if n < |s| then n else |s|
  {
    if n < |s| then s[..n] else s
  }

  /**
   * What the loop keeps, stated without it: with `chunks > 0` the first
   * `chunks` non-zero sections; with `chunks == 0` all of them; with a
   * negative `chunks` the loop stops after the first section, so at most
   * the years.
   */
  function Shown(sections: seq<(string, nat)>, chunks: int): seq<string>
  {
    if chunks > 0 then Take(NonZero(sections), chunks)
    else if chunks == 0 then NonZero(sections)
    else NonZero(sections[..if |sections| == 0 then 0 else 1])
  }

  /** The loop computes `Shown`. */
  lemma CollectIsShown(sections: seq<(string, nat)>, chunks: int)
    ensures Collect(sections, chunks, []) == Shown(sections, chunks)
  {
    if chunks > 0 {
      CollectTake(sections, chunks, []);
    } else if chunks == 0 {
      CollectAll(sections, []);
    } else if |sections| > 0 {
      assert sections[..1][1..] == [];
    }
  }

  lemma {:induction false} CollectTake(sections: seq<(string, nat)>, chunks: int, acc: seq<string>)
    requires 0 <= |acc| < chunks
    ensures Collect(sections, chunks, acc) == acc + Take(NonZero(sections), chunks - |acc|)
  {
    if |sections| == 0 {
      assert acc + [] == acc;
    } else {
      var head := Labelled(sections[0]);
      var rest := NonZero(sections[1..]);
      var acc1 := acc + head;
      TakeAppend(head, rest, chunks - |acc|);
      if |acc1| < chunks {
        CollectTake(sections[1..], chunks, acc1);
        assert acc1 + Take(rest, chunks - |acc1|) == acc + (head + Take(rest, chunks - |acc1|));
      }
    }
  }

  /** Taking `m` from `head + rest` for a head of at most `m` keeps the head whole. */
  lemma TakeAppend<T>(head: seq<T>, rest: seq<T>, m: nat)
    requires |head| <= m
    ensures Take(head + rest, m) == head + Take(rest, m - |head|)
  {
    if m < |head + rest| {
      assert (head + rest)[..m] == head + rest[..m - |head|];
    }
  }

  lemma {:induction false} CollectAll(sections: seq<(string, nat)>, acc: seq<string>)
    ensures Collect(sections, 0, acc) == acc + NonZero(sections)
  {
    if |sections| == 0 {
      assert acc + [] == acc;
    } else {
      var head := Labelled(sections[0]);
      var acc1 := acc + head;
      CollectAll(sections[1..], acc1);
      assert acc1 + NonZero(sections[1..]) == acc + (head + NonZero(sections[1..]));
    }
  }

  /** "now" is returned exactly when the two instants are equal. */
  lemma SinceNow(dt: int, base: Option<int>, now: int, chunks: int, rd: (int, int) -> Delta)
    ensures var b := if base.Some? then base.value else now;
      Since(dt, base, now, chunks, rd) == "now" <==> dt == b
  {
    var b := if base.Some? then base.value else now;
    var r := Since(dt, base, now, chunks, rd);
    if dt < b {
      var body := Text.Join(Collect(Sections(rd(b, dt)), chunks, []), ", ");
      assert r == "" + body + " ago";
      assert |r| >= 4;
    } else if dt > b {
      assert r[0] == 'i';
    }
  }

  /**
   * A past instant reads "<sections> ago", a future one "in <sections>",
   * where the sections are the `Shown` ones of the difference, joined by
   * ", ".
   */
  lemma SinceShape(dt: int, base: Option<int>, now: int, chunks: int, rd: (int, int) -> Delta)
    ensures var b := if base.Some? then base.value else now;
      && (dt < b ==> Since(dt, base, now, chunks, rd) == Text.Join(Shown(Sections(rd(b, dt)), chunks), ", ") + " ago")
      && (dt > b ==> Since(dt, base, now, chunks, rd) == "in " + Text.Join(Shown(Sections(rd(dt, b)), chunks), ", "))
  {
    var b := if base.Some? then base.value else now;
    if dt < b {
      CollectIsShown(Sections(rd(b, dt)), chunks);
      assert "" + Text.Join(Shown(Sections(rd(b, dt)), chunks), ", ") == Text.Join(Shown(Sections(rd(b, dt)), chunks), ", ");
    } else if dt > b {
      CollectIsShown(Sections(rd(dt, b)), chunks);
      var j := Text.Join(Shown(Sections(rd(dt, b)), chunks), ", ");
      assert "in " + j + "" == "in " + j;
    }
  }

  /** With `chunks > 0` at most that many sections appear. */
  lemma ChunksBound(sections: seq<(string, nat)>, chunks: int)
    requires chunks > 0
    ensures |Collect(sections, chunks, [])| <= chunks
    ensures |Collect(sections, chunks, [])| <= |sections|
  {
    CollectIsShown(sections, chunks);
  }

  /** A unit is written in the singular exactly when its value is 1. */
  lemma LabelSingular(unit: string, val: nat)
    requires |unit| > 0 && unit[|unit| - 1] == 's'
    ensures var l := Label(unit, val);
      l == Text.NatToString(val) + " " + unit || l == Text.NatToString(val) + " " + unit[..|unit| - 1]
    ensures val == 1 <==> Label(unit, val) == Text.NatToString(val) + " " + unit[..|unit| - 1]
  {
    var p := Text.NatToString(val) + " ";
    if val == 1 {
      assert Label(unit, val) == p + unit[..|unit| - 1];
    } else {
      assert |p + unit| != |p + unit[..|unit| - 1]|;
    }
  }

  // ------------------------------------------------------------ query strings

  /** `name_value.split('=', 1)` when it holds a '=' (the first). */
  function SplitAtEquals(s: string): Option<(string, string)>
  {
    if '=' in s then var (a, b) := Url.SplitOnce(s, '='); Some((a, b)) else None
  }

  function PlusToSpace(s: string): (r: string)
    ensures |r| == |s|
  {
    if |s| == 0 then "" else [if s[0] == '+' then ' ' else s[0]] + PlusToSpace(s[1..])
  }

  /**
   * `parse_qsl(qs)` with its defaults (blank values dropped, not strict,
   * '&' as the only separator): each item with a '=' and a non-empty value
   * gives a pair, '+' read as a space and then percent-decoded by `unquote`.
   */
  function ParseQsl(qs: string, unquote: string -> string): (r: seq<(string, string)>)
    ensures qs == "" ==> r == []
    ensures |r| <= |Text.Split(qs, '&')|
  {
    PairsOf(if qs == "" then [] else Text.Split(qs, '&'), unquote)
  }

  function PairsOf(items: seq<string>, unquote: string -> string): (r: seq<(string, string)>)
    ensures |r| <= |items|
  {
    if |items| == 0 then []
    else
      var here := match SplitAtEquals(items[0])
        case Some((n, v)) => if v != "" then [(unquote(PlusToSpace(n)), unquote(PlusToSpace(v)))] else []
        case None => [];
      here + PairsOf(items[1..], unquote)
  }

  /** A query string of items `name=value`, as a form encodes it. */
  function Encode(kvs: seq<(string, string)>): string
  {
    Text.Join(seq(|kvs|, i requires 0 <= i < |kvs| => kvs[i].0 + "=" + kvs[i].1), "&")
  }

  function Decoded(kvs: seq<(string, string)>, unquote: string -> string): (r: seq<(string, string)>)
    ensures |r| == |kvs|
  {
    if |kvs| == 0 then [] else [(unquote(PlusToSpace(kvs[0].0)), unquote(PlusToSpace(kvs[0].1)))] + Decoded(kvs[1..], unquote)
  }

  predicate PlainPair(kv: (string, string))
  {
    '&' !in kv.0 && '=' !in kv.0 && '&' !in kv.1 && kv.1 != ""
  }

  /**
   * Reading back an encoded query gives one pair per item, in order, each
   * name and value decoded.
   */
  lemma ParseQslEncoded(kvs: seq<(string, string)>, unquote: string -> string)
    requires forall i :: 0 <= i < |kvs| ==> PlainPair(kvs[i])
    ensures ParseQsl(Encode(kvs), unquote) == Decoded(kvs, unquote)
  {
    var items := seq(|kvs|, i requires 0 <= i < |kvs| => kvs[i].0 + "=" + kvs[i].1);
    if |kvs| > 0 {
      forall i | 0 <= i < |items| ensures '&' !in items[i] {
        assert items[i] == kvs[i].0 + "=" + kvs[i].1;
      }
      Text.JoinSplit(items, '&');
      assert Encode(kvs) != "" by {
        JoinNonEmpty(items, "&");
      }
      PairsOfItems(kvs, unquote);
    }
  }

  lemma {:induction false} JoinNonEmpty(parts: seq<string>, sep: string)
    requires |parts| > 0 && parts[0] != ""
    ensures Text.Join(parts, sep) != ""
  {
    if |parts| > 1 {
      assert |Text.Join(parts, sep)| >= |parts[0]|;
    }
  }

  lemma {:induction false} PairsOfItems(kvs: seq<(string, string)>, unquote: string -> string)
    requires forall i :: 0 <= i < |kvs| ==> PlainPair(kvs[i])
    ensures PairsOf(seq(|kvs|, i requires 0 <= i < |kvs| => kvs[i].0 + "=" + kvs[i].1), unquote) == Decoded(kvs, unquote)
  {
    var items := seq(|kvs|, i requires 0 <= i < |kvs| => kvs[i].0 + "=" + kvs[i].1);
    if |kvs| > 0 {
      var (n, v) := kvs[0];
      var item := n + "=" + v;
      assert items[0] == item;
      assert item == n + ['='] + v;
      assert SplitAtEquals(item) == Some((n, v)) by {
        assert '=' in item by { assert item[|n|] == '='; }
        var (a, b) := Url.SplitOnce(item, '=');
        SplitUnique(n, v, a, b);
      }
      assert items[1..] == seq(|kvs[1..]|, i requires 0 <= i < |kvs[1..]| => kvs[1..][i].0 + "=" + kvs[1..][i].1);
      PairsOfItems(kvs[1..], unquote);
    }
  }

  /** Cutting at the first '=' of `n=v`, where `n` has none, gives back `n` and `v`. */
  lemma SplitUnique(n: string, v: string, a: string, b: string)
    requires '=' !in n && '=' !in a
    requires n + ['='] + v == a + ['='] + b
    ensures a == n && b == v
  {
    var s := n + ['='] + v;
    assert s[|a|] == '=' && s[|n|] == '=';
    assert |a| == |n| by {
      if |a| < |n| { assert false; }
      if |a| > |n| { assert false; }
    }
    assert a == s[..|a|] && n == s[..|n|];
    assert b == s[|a| + 1..] && v == s[|n| + 1..];
  }

  /** Items without a value or without '=' give nothing. */
  lemma BlankItemsDropped(item: string, unquote: string -> string)
    requires SplitAtEquals(item).None? || SplitAtEquals(item).value.1 == ""
    ensures PairsOf([item], unquote) == []
  {
  }

  /**
   * `chunk_url_params(url)`: the URL rebuilt with an empty query, and the
   * pairs of that query. A URL `urlsplit` rejects raises its `ValueError`.
   */
  function ChunkUrlParams(url: string, unquote: string -> string): (r: Result<(string, seq<(string, string)>)>)
    ensures r.Err? ==> r.error == ValueErr
  {
    match Url.UrlSplit(url, "")
    case Err(e) => Err(e)
    case Ok(parts) => Ok((Url.UrlUnsplit(parts.(query := "")), ParseQsl(parts.query, unquote)))
  }

  /**
   * The pairs are those of the URL's query, and the rebuilt URL keeps every
   * other part of the split; without a fragment it holds no '?' at all.
   */
  lemma ChunkUrlParamsSplits(url: string, unquote: string -> string)
    requires ChunkUrlParams(url, unquote).Ok?
    ensures var v := Url.UrlSplit(url, "").value;
      && ChunkUrlParams(url, unquote).value.1 == ParseQsl(v.query, unquote)
      && (v.fragment == "" ==> '?' !in ChunkUrlParams(url, unquote).value.0)
  {
    var v := Url.UrlSplit(url, "").value;
    if v.fragment == "" {
      SchemeHasNoQuestion(url);
      NoQuestionMark(v.(query := ""));
    }
  }

  /** The scheme `urlsplit` returns with an empty default holds no '?'. */
  lemma SchemeHasNoQuestion(url: string)
    requires Url.UrlSplit(url, "").Ok?
    ensures '?' !in Url.UrlSplit(url, "").value.scheme
  {
    var u := Url.RemoveUnsafe(Url.LStripC0(url));
    var d := Url.RemoveUnsafe(Url.RStripC0(Url.LStripC0("")));
    assert d == "";
    SchemePartNoQuestion(u, d);
  }

  lemma SchemePartNoQuestion(u: string, d: string)
    requires '?' !in d
    ensures '?' !in Url.SchemePart(u, d).0
  {
    match Url.SchemeEnd(u)
    case None =>
    case Some(i) =>
      var low := Text.ToLower(u[..i]);
      forall k | 0 <= k < |low| ensures low[k] != '?' {
        assert Url.IsSchemeChar(u[k]);
      }
  }

  /** Without a query or fragment, the rebuilt URL has a '?' only where a part had one. */
  lemma NoQuestionMark(v: Url.Split)
    requires v.query == "" && v.fragment == ""
    requires '?' !in v.scheme && '?' !in v.netloc && '?' !in v.path
    ensures '?' !in Url.UrlUnsplit(v)
  {
  }

  // ---------------------------------------------------------------- nl2br

  /** The characters `escape` replaces by an entity. */
  predicate Special(c: char) { c == '&' || c == '<' || c == '>' || c == '"' || c == '\'' }

  predicate IsBreak(c: char) { c == '\r' || c == '\n' }

  /** markupsafe's `escape` of one character: the five special ones become entities, line breaks stay. */
  function EscapeChar(c: char): (r: string)
    ensures |r| >= 1
    ensures !Special(c) ==> r == [c]
    ensures forall i :: 0 <= i < |r| ==> r[i] != '<' && r[i] != '>' && r[i] != '"' && r[i] != '\''
    ensures forall i :: 0 <= i < |r| ==> (IsBreak(r[i]) <==> IsBreak(c))
  {
    if c == '&' then "&amp;" else if c == '<' then "&lt;" else if c == '>' then "&gt;"
    else if c == '"' then "&#34;" else if c == '\'' then "&#39;" else [c]
  }

  /** `escape(value)`: every special character replaced by its entity. */
  function Escape(s: string): (r: string)
    ensures forall i :: 0 <= i < |r| ==> r[i] != '<' && r[i] != '>' && r[i] != '"' && r[i] != '\''
  {
    if |s| == 0 then "" else EscapeChar(s[0]) + Escape(s[1..])
  }

  /** How escaped text reads back: each of the five entities stands for its character. */
  function Unescape(s: string): string
  {
    if |s| == 0 then ""
    else if |s| >= 5 && s[..5] == "&amp;" then "&" + Unescape(s[5..])
    else if |s| >= 4 && s[..4] == "&lt;" then "<" + Unescape(s[4..])
    else if |s| >= 4 && s[..4] == "&gt;" then ">" + Unescape(s[4..])
    else if |s| >= 5 && s[..5] == "&#34;" then "\"" + Unescape(s[5..])
    else if |s| >= 5 && s[..5] == "&#39;" then "'" + Unescape(s[5..])
    else [s[0]] + Unescape(s[1..])
  }

  lemma UnescapeEntity(c: char, t: string)
    requires Special(c)
    ensures Unescape(EscapeChar(c) + t) == [c] + Unescape(t)
  {
    var e := EscapeChar(c);
    var s := e + t;
    assert s[..|e|] == e && s[|e|..] == t;
    if c != '&' {
      assert !(|s| >= 5 && s[..5] == "&amp;") by { assert s[1] != 'a'; }
      if c != '<' {
        assert !(|s| >= 4 && s[..4] == "&lt;") by { assert s[1] != 'l'; }
        if c != '>' {
          assert !(|s| >= 4 && s[..4] == "&gt;") by { assert s[1] != 'g'; }
          if c != '"' {
            assert !(|s| >= 5 && s[..5] == "&#34;") by { assert s[3] != '3'; }
          }
        }
      }
    }
  }

  lemma UnescapeChar(c: char, t: string)
    ensures Unescape(EscapeChar(c) + t) == [c] + Unescape(t)
  {
    if Special(c) {
      UnescapeEntity(c, t);
    } else {
      var s := [c] + t;
      assert s[0] == c && s[1..] == t;
      assert c != '&';
    }
  }

  /** Escaping loses nothing: reading the escaped text back gives the original. */
  lemma {:induction false} UnescapeEscape(s: string)
    ensures Unescape(Escape(s)) == s
  {
    if |s| > 0 {
      UnescapeChar(s[0], Escape(s[1..]));
      UnescapeEscape(s[1..]);
      assert [s[0]] + s[1..] == s;
    }
  }

  lemma {:induction false} EscapeAppend(a: string, b: string)
    ensures Escape(a + b) == Escape(a) + Escape(b)
  {
    if |a| > 0 {
      assert (a + b)[0] == a[0] && (a + b)[1..] == a[1..] + b;
      EscapeAppend(a[1..], b);
    } else {
      assert a + b == b;
    }
  }

  /** No two line-break characters side by side. */
  predicate NoDoubleBreak(s: string)
  {
    forall i :: 0 <= i < |s| - 1 ==> !(IsBreak(s[i]) && IsBreak(s[i + 1]))
  }

  predicate AllBreaks(s: string) { forall i :: 0 <= i < |s| ==> IsBreak(s[i]) }

  /** Escaping leaves the line breaks where they were relative to the other characters. */
  lemma {:induction false} EscapeBreaks(s: string)
    ensures NoDoubleBreak(s) ==> NoDoubleBreak(Escape(s))
    ensures AllBreaks(s) ==> Escape(s) == s
    ensures |s| > 0 ==> |Escape(s)| > 0 && (IsBreak(Escape(s)[0]) <==> IsBreak(s[0]))
    ensures |s| > 0 ==> (IsBreak(Escape(s)[|Escape(s)| - 1]) <==> IsBreak(s[|s| - 1]))
  {
    if |s| > 0 {
      var e := EscapeChar(s[0]);
      var rest := Escape(s[1..]);
      EscapeBreaks(s[1..]);
      assert Escape(s) == e + rest;
      if AllBreaks(s) {
        assert AllBreaks(s[1..]) by { forall i | 0 <= i < |s[1..]| ensures IsBreak(s[1..][i]) { assert s[1..][i] == s[i + 1]; } }
        assert [s[0]] + s[1..] == s;
      }
      if NoDoubleBreak(s) {
        assert NoDoubleBreak(s[1..]) by {
          forall i | 0 <= i < |s[1..]| - 1 ensures !(IsBreak(s[1..][i]) && IsBreak(s[1..][i + 1])) {
            assert s[1..][i] == s[i + 1] && s[1..][i + 1] == s[i + 2];
          }
        }
        NoDoubleBreakConcat(e, rest);
      }
    }
  }

  lemma NoDoubleBreakConcat(x: string, y: string)
    requires NoDoubleBreak(x) && NoDoubleBreak(y)
    requires |x| > 0 && |y| > 0 ==> !(IsBreak(x[|x| - 1]) && IsBreak(y[0]))
    ensures NoDoubleBreak(x + y)
  {
    var s := x + y;
    forall i | 0 <= i < |s| - 1 ensures !(IsBreak(s[i]) && IsBreak(s[i + 1])) {
      if i + 1 < |x| {
        assert s[i] == x[i] && s[i + 1] == x[i + 1];
      } else if i >= |x| {
        assert s[i] == y[i - |x|] && s[i + 1] == y[i + 1 - |x|];
      }
    }
  }

  /** The length of the run of line breaks `s` starts with. */
  function BreakRun(s: string): (n: nat)
    ensures n <= |s|
    ensures forall i :: 0 <= i < n ==> IsBreak(s[i])
    ensures n < |s| ==> !IsBreak(s[n])
  {
    if |s| > 0 && IsBreak(s[0]) then 1 + BreakRun(s[1..]) else 0
  }

  /**
   * `_paragraph_re.split(text)`: the pieces between runs of two or more
   * line-break characters. Backtracking lets `\r` and `\n` match one at a
   * time, so a `\r\n` alone also separates, a lone break does not.
   */
  function Paragraphs(s: string): (r: seq<string>)
    decreases |s|
    ensures |r| >= 1
    ensures |s| > 0 && BreakRun(s) < 2 ==> |r[0]| > 0 && r[0][0] == s[0]
  {
    var n := BreakRun(s);
    if |s| == 0 then [""]
    else if n >= 2 then [""] + Paragraphs(s[n..])
    else
      var rest := Paragraphs(s[1..]);
      [[s[0]] + rest[0]] + rest[1..]
  }

  /** No paragraph holds two line breaks in a row. */
  lemma {:induction false} ParagraphsPieces(s: string)
    decreases |s|
    ensures forall i :: 0 <= i < |Paragraphs(s)| ==> NoDoubleBreak(Paragraphs(s)[i])
  {
    var n := BreakRun(s);
    if |s| > 0 {
      var r := Paragraphs(s);
      if n >= 2 {
        ParagraphsPieces(s[n..]);
        assert forall i :: 1 <= i < |r| ==> r[i] == Paragraphs(s[n..])[i - 1];
      } else {
        var rest := Paragraphs(s[1..]);
        ParagraphsPieces(s[1..]);
        assert forall i :: 1 <= i < |r| ==> r[i] == rest[i];
        if IsBreak(s[0]) && |s| > 1 {
          assert n == 1;
          assert !IsBreak(s[1]);
          assert BreakRun(s[1..]) == 0;
          assert !IsBreak(rest[0][0]);
        }
        NoDoubleBreakConcat([s[0]], rest[0]);
      }
    }
  }

  /** Text with no two breaks in a row is a single paragraph. */
  lemma {:induction false} SingleParagraph(s: string)
    requires NoDoubleBreak(s)
    ensures Paragraphs(s) == [s]
  {
    if |s| > 0 {
      assert BreakRun(s) < 2 by {
        if |s| > 1 { assert !(IsBreak(s[0]) && IsBreak(s[1])); }
      }
      assert NoDoubleBreak(s[1..]) by {
        forall i | 0 <= i < |s[1..]| - 1 ensures !(IsBreak(s[1..][i]) && IsBreak(s[1..][i + 1])) {
          assert s[1..][i] == s[i + 1] && s[1..][i + 1] == s[i + 2];
        }
      }
      SingleParagraph(s[1..]);
      assert [s[0]] + s[1..] == s;
    }
  }

  lemma {:induction false} BreakRunOf(sep: string, b: string)
    requires AllBreaks(sep)
    requires |b| == 0 || !IsBreak(b[0])
    ensures BreakRun(sep + b) == |sep|
  {
    if |sep| > 0 {
      assert (sep + b)[1..] == sep[1..] + b;
      BreakRunOf(sep[1..], b);
    } else {
      assert sep + b == b;
    }
  }

  /**
   * A run of two or more breaks between a first paragraph and the rest of
   * the text separates them: the first piece is exactly that paragraph.
   */
  lemma {:induction false} ParagraphsAppend(a: string, sep: string, b: string)
    requires NoDoubleBreak(a) && (|a| == 0 || !IsBreak(a[|a| - 1]))
    requires |sep| >= 2 && AllBreaks(sep)
    requires |b| == 0 || !IsBreak(b[0])
    ensures Paragraphs(a + sep + b) == [a] + Paragraphs(b)
  {
    var s := a + sep + b;
    if |a| == 0 {
      assert s == sep + b;
      BreakRunOf(sep, b);
      assert s[|sep|..] == b;
    } else {
      assert s[0] == a[0];
      assert BreakRun(s) < 2 by {
        if IsBreak(a[0]) {
          assert |a| > 1 && !IsBreak(a[1]);
          assert s[1] == a[1];
        }
      }
      assert s[1..] == a[1..] + sep + b;
      assert NoDoubleBreak(a[1..]) by {
        forall i | 0 <= i < |a[1..]| - 1 ensures !(IsBreak(a[1..][i]) && IsBreak(a[1..][i + 1])) {
          assert a[1..][i] == a[i + 1] && a[1..][i + 1] == a[i + 2];
        }
      }
      ParagraphsAppend(a[1..], sep, b);
      assert [a[0]] + a[1..] == a;
    }
  }

  /** `p.replace('\n', '<br>\n')`. */
  function Br(p: string): (r: string)
    ensures |r| == |p| + 4 * Text.Count(p, '\n')
  {
    if |p| == 0 then "" else (if p[0] == '\n' then "<br>\n" else [p[0]]) + Br(p[1..])
  }

  /** Without a newline, a paragraph is written unchanged. */
  lemma {:induction false} BrPlain(p: string)
    requires '\n' !in p
    ensures Br(p) == p
  {
    if |p| > 0 {
      BrPlain(p[1..]);
      assert [p[0]] + p[1..] == p;
    }
  }

  /** One paragraph of the output. */
  function Wrap(p: string): string { "<p>" + Br(p) + "</p>" }

  function WrapAll(ps: seq<string>): (r: seq<string>)
    ensures |r| == |ps|
  {
    if |ps| == 0 then [] else [Wrap(ps[0])] + WrapAll(ps[1..])
  }

  /**
   * The `nl2br` filter: the value escaped, cut into paragraphs, each
   * wrapped in `<p>` with its newlines marked by `<br>`, joined by a blank
   * line. The `Markup` wrapping under autoescape only marks the result as
   * safe and does not change its text.
   */
  function Nl2br(value: string): (r: string)
    ensures |r| >= 7 && r[..3] == "<p>"
  {
    Text.Join(WrapAll(Paragraphs(Escape(value))), "\n\n")
  }

  /** A value with no two breaks in a row is one paragraph of the escaped text. */
  lemma Nl2brOneParagraph(value: string)
    requires NoDoubleBreak(value)
    ensures Nl2br(value) == "<p>" + Br(Escape(value)) + "</p>"
  {
    EscapeBreaks(value);
    SingleParagraph(Escape(value));
  }

  /** Plain text with no special characters and no newline is only wrapped. */
  lemma Nl2brPlainText(value: string)
    requires forall i :: 0 <= i < |value| ==> !Special(value[i]) && !IsBreak(value[i])
    ensures Nl2br(value) == "<p>" + value + "</p>"
  {
    EscapePlain(value);
    Nl2brOneParagraph(value);
    BrPlain(value);
  }

  lemma {:induction false} EscapePlain(s: string)
    requires forall i :: 0 <= i < |s| ==> !Special(s[i])
    ensures Escape(s) == s
  {
    if |s| > 0 {
      EscapePlain(s[1..]);
      assert [s[0]] + s[1..] == s;
    }
  }

  /**
   * Two paragraphs separated by a run of two or more breaks become two
   * `<p>` elements, each of its own escaped text, one blank line apart.
   */
  lemma Nl2brTwoParagraphs(a: string, sep: string, b: string)
    requires NoDoubleBreak(a) && (|a| == 0 || !IsBreak(a[|a| - 1]))
    requires |sep| >= 2 && AllBreaks(sep)
    requires NoDoubleBreak(b) && (|b| == 0 || !IsBreak(b[0]))
    ensures Nl2br(a + sep + b) == Wrap(Escape(a)) + "\n\n" + Wrap(Escape(b))
  {
    EscapeSeparated(a, sep, b);
    var ea, eb := Escape(a), Escape(b);
    TwoParagraphs(ea, sep, eb);
    assert Nl2br(a + sep + b) == Text.Join(WrapAll([ea, eb]), "\n\n");
    WrapTwo(ea, eb);
  }

  lemma TwoParagraphs(a: string, sep: string, b: string)
    requires NoDoubleBreak(a) && (|a| == 0 || !IsBreak(a[|a| - 1]))
    requires |sep| >= 2 && AllBreaks(sep)
    requires NoDoubleBreak(b) && (|b| == 0 || !IsBreak(b[0]))
    ensures Paragraphs(a + sep + b) == [a, b]
  {
    ParagraphsAppend(a, sep, b);
    SingleParagraph(b);
  }

  lemma WrapTwo(x: string, y: string)
    ensures Text.Join(WrapAll([x, y]), "\n\n") == Wrap(x) + "\n\n" + Wrap(y)
  {
    var ws := WrapAll([x, y]);
    assert [x, y][1..] == [y];
    assert WrapAll([y]) == [Wrap(y)];
    assert ws == [Wrap(x), Wrap(y)];
    assert ws[1..] == [Wrap(y)];
  }

  /** Escaping a separated text escapes each side and keeps the breaks and the shape around them. */
  lemma EscapeSeparated(a: string, sep: string, b: string)
    requires NoDoubleBreak(a) && (|a| == 0 || !IsBreak(a[|a| - 1]))
    requires AllBreaks(sep)
    requires NoDoubleBreak(b) && (|b| == 0 || !IsBreak(b[0]))
    ensures Escape(a + sep + b) == Escape(a) + sep + Escape(b)
    ensures NoDoubleBreak(Escape(a)) && (|Escape(a)| == 0 || !IsBreak(Escape(a)[|Escape(a)| - 1]))
    ensures NoDoubleBreak(Escape(b)) && (|Escape(b)| == 0 || !IsBreak(Escape(b)[0]))
  {
    EscapeAppend(a + sep, b);
    EscapeAppend(a, sep);
    EscapeBreaks(a);
    EscapeBreaks(sep);
    EscapeBreaks(b);
  }
}

=== FILE: Text.dfy ===
/**
 * Character classes and string operations used by several modules: the
 * regular-expression classes of the source (`[a-z0-9_]`, `[A-Za-z0-9]`,
 * `\s`), ASCII case mapping, `str.split`, `re.split` on separator runs,
 * decimal rendering of naturals and Python's `int()` on decimal text.
 */
module Text {
  import opened Results

  predicate IsUpper(c: char) { 'A' <= c <= 'Z' }
  predicate IsLower(c: char) { 'a' <= c <= 'z' }
  predicate IsDigit(c: char) { '0' <= c <= '9' }
  predicate IsAsciiLetter(c: char) { IsUpper(c) || IsLower(c) }
  /** The class `[A-Za-z0-9]`. */
  predicate IsAlnum(c: char) { IsAsciiLetter(c) || IsDigit(c) }
  /** The class `[a-z0-9_]` accepted in tag and group names. */
  predicate IsNameChar(c: char) { IsLower(c) || IsDigit(c) || c == '_' }
  /** The word class `[A-Za-z0-9_]` of the hashtag pattern. */
  predicate IsWordChar(c: char) { IsAlnum(c) || c == '_' }

  /** Python's `\s` on `str`: every character for which `str.isspace()` holds. */
  predicate IsSpace(c: char) {
    c as int in {0x09, 0x0a, 0x0b, 0x0c, 0x0d, 0x1c, 0x1d, 0x1e, 0x1f, 0x20, 0x85, 0xa0,
                 0x1680, 0x2000, 0x2001, 0x2002, 0x2003, 0x2004, 0x2005, 0x2006, 0x2007,
                 0x2008, 0x2009, 0x200a, 0x2028, 0x2029, 0x202f, 0x205f, 0x3000}
  }

  function ToLowerChar(c: char): (r: char)
    ensures IsUpper(c) ==> IsLower(r)
    ensures IsNameChar(r) ==> IsNameChar(c) || IsUpper(c) || c as int == 0x212a
  {
    if IsUpper(c) then (c as int + 32) as char
    else if c as int == 0x212a then 'k'  // KELVIN SIGN lower-cases to ASCII 'k'
    else c
  }

  function ToUpperChar(c: char): (r: char)
    ensures IsLower(c) ==> IsUpper(r)
    ensures !IsLower(c) ==> r == c
  {
    if IsLower(c) then (c as int - 32) as char else c
  }

  /** `str.lower()` as far as it can yield a character of `[a-z0-9_]`. */
  function ToLower(s: string): (r: string)
    ensures |r| == |s|
    ensures forall i :: 0 <= i < |s| ==> r[i] == ToLowerChar(s[i])
  {
    if |s| == 0 then "" else [ToLowerChar(s[0])] + ToLower(s[1..])
  }

  /** `re.sub(r'[^A-Za-z0-9]', '', s)`: the alphanumeric characters of `s`, in order. */
  function KeepAlnum(s: string): (r: string)
    ensures |r| <= |s|
    ensures forall i :: 0 <= i < |r| ==> IsAlnum(r[i])
  {
    if |s| == 0 then ""
    else if IsAlnum(s[0]) then [s[0]] + KeepAlnum(s[1..])
    else KeepAlnum(s[1..])
  }

  lemma {:induction false} KeepAlnumIdentity(s: string)
    requires forall i :: 0 <= i < |s| ==> IsAlnum(s[i])
    ensures KeepAlnum(s) == s
  {
    if |s| > 0 {
      KeepAlnumIdentity(s[1..]);
    }
  }

  function Join(parts: seq<string>, sep: string): string
  {
    if |parts| == 0 then ""
    else if |parts| == 1 then parts[0]
    else parts[0] + sep + Join(parts[1..], sep)
  }

  /** Python's `s.split(sep)` for a one-character separator. */
  function Split(s: string, sep: char): (r: seq<string>)
    ensures |r| >= 1
    ensures forall i :: 0 <= i < |r| ==> sep !in r[i]
  {
    if |s| == 0 then [""]
    else if s[0] == sep then [""] + Split(s[1..], sep)
    else
      var rest := Split(s[1..], sep);
      [[s[0]] + rest[0]] + rest[1..]
  }

  function Count(s: string, c: char): nat
  {
    if |s| == 0 then 0 else (if s[0] == c then 1 else 0) + Count(s[1..], c)
  }

  /** Splitting and re-joining with the same separator gives the string back. */
  lemma {:induction false} SplitJoin(s: string, sep: char)
    ensures Join(Split(s, sep), [sep]) == s
  {
    if |s| > 0 {
      SplitJoin(s[1..], sep);
      var rest := Split(s[1..], sep);
      if s[0] == sep {
        assert Split(s, sep) == [""] + rest;
        assert s == [sep] + s[1..];
      } else {
        assert Split(s, sep) == [[s[0]] + rest[0]] + rest[1..];
        if |rest| == 1 {
          assert s == [s[0]] + s[1..];
        } else {
          assert rest == [rest[0]] + rest[1..];
          assert Join(rest, [sep]) == rest[0] + [sep] + Join(rest[1..], [sep]);
          assert s == [s[0]] + s[1..];
        }
      }
    }
  }

  /** Text before a first separator is the first piece. */
  lemma {:induction false} SplitPrefix(p: string, sep: char, t: string)
    requires sep !in p
    ensures Split(p + [sep] + t, sep) == [p] + Split(t, sep)
  {
    if |p| == 0 {
      assert p + [sep] + t == [sep] + t;
      assert ([sep] + t)[1..] == t;
    } else {
      SplitPrefix(p[1..], sep, t);
      assert (p + [sep] + t)[1..] == p[1..] + [sep] + t;
      assert [p[0]] + p[1..] == p;
    }
  }

  /** Text without the separator is one piece. */
  lemma {:induction false} SplitNoSeparator(s: string, sep: char)
    requires sep !in s
    ensures Split(s, sep) == [s]
  {
    if |s| > 0 {
      SplitNoSeparator(s[1..], sep);
      assert [s[0]] + s[1..] == s;
    }
  }

  /** Joining pieces free of the separator and splitting again gives the pieces back. */
  lemma {:induction false} JoinSplit(parts: seq<string>, sep: char)
    requires |parts| >= 1
    requires forall i :: 0 <= i < |parts| ==> sep !in parts[i]
    ensures Split(Join(parts, [sep]), sep) == parts
  {
    if |parts| == 1 {
      SplitNoSeparator(parts[0], sep);
    } else {
      JoinSplit(parts[1..], sep);
      SplitPrefix(parts[0], sep, Join(parts[1..], [sep]));
      assert parts[0] + [sep] + Join(parts[1..], [sep]) == Join(parts, [sep]);
      assert [parts[0]] + parts[1..] == parts;
    }
  }

  /** `s.split(sep)` has exactly one more piece than `s` has separators. */
  lemma {:induction false} SplitCount(s: string, sep: char)
    ensures |Split(s, sep)| == Count(s, sep) + 1
  {
    if |s| > 0 { SplitCount(s[1..], sep); }
  }

  /** Removes leading characters satisfying `IsSeparator`. */
  function DropSeparators(s: string): (r: string)
    ensures |r| <= |s|
    ensures |r| > 0 ==> !IsSeparator(r[0])
    ensures forall c :: c in r ==> c in s
  {
    if |s| > 0 && IsSeparator(s[0]) then DropSeparators(s[1..]) else s
  }

  /** The class `[,\s]` of the tag-line splitter. */
  predicate IsSeparator(c: char) { c == ',' || IsSpace(c) }

  /**
   * `re.split('[,\s]+', s)`: the pieces between maximal runs of separators.
   * A leading or trailing run yields an empty first or last piece.
   */
  function SplitRuns(s: string): (r: seq<string>)
    ensures |r| >= 1
    ensures forall i :: 0 <= i < |r| ==> forall c :: c in r[i] ==> !IsSeparator(c)
    ensures forall i :: 0 <= i < |r| ==> forall c :: c in r[i] ==> c in s
    decreases |s|
  {
    if |s| == 0 then [""]
    else if IsSeparator(s[0]) then [""] + SplitRuns(DropSeparators(s[1..]))
    else
      var rest := SplitRuns(s[1..]);
      [[s[0]] + rest[0]] + rest[1..]
  }

  /** The characters of `s` that are not separators, in order. */
  function Squeeze(s: string): string
  {
    if |s| == 0 then "" else if IsSeparator(s[0]) then Squeeze(s[1..]) else [s[0]] + Squeeze(s[1..])
  }

  function Concat(parts: seq<string>): string
  {
    if |parts| == 0 then "" else parts[0] + Concat(parts[1..])
  }

  lemma {:induction false} SqueezeDropped(s: string)
    ensures Squeeze(DropSeparators(s)) == Squeeze(s)
  {
    if |s| > 0 && IsSeparator(s[0]) { SqueezeDropped(s[1..]); }
  }

  /**
   * No character is lost or invented by `SplitRuns`: concatenating the pieces
   * gives the input with its separators deleted, and only the first and the
   * last piece can be empty.
   */
  lemma {:induction false} SplitRunsPieces(s: string)
    ensures Concat(SplitRuns(s)) == Squeeze(s)
    ensures forall i :: 0 < i < |SplitRuns(s)| - 1 ==> SplitRuns(s)[i] != ""
    decreases |s|
  {
    if |s| == 0 {
    } else if IsSeparator(s[0]) {
      var t := DropSeparators(s[1..]);
      SplitRunsPieces(t);
      SqueezeDropped(s[1..]);
      var rest := SplitRuns(t);
      assert SplitRuns(s) == [""] + rest;
      assert Concat([""] + rest) == "" + Concat(rest);
      forall i | 0 < i < |SplitRuns(s)| - 1 ensures SplitRuns(s)[i] != "" {
        if i == 1 {
          // the piece after a separator run starts at a non-separator
          assert |t| > 0;
          var r2 := SplitRuns(t);
          assert !IsSeparator(t[0]);
          assert r2[0] == [t[0]] + SplitRuns(t[1..])[0];
        }
      }
    } else {
      SplitRunsPieces(s[1..]);
      var rest := SplitRuns(s[1..]);
      var r := [[s[0]] + rest[0]] + rest[1..];
      assert SplitRuns(s) == r;
      assert rest == [rest[0]] + rest[1..];
      assert Concat(rest) == rest[0] + Concat(rest[1..]);
      assert Concat(r) == ([s[0]] + rest[0]) + Concat(rest[1..]);
      forall i | 0 < i < |r| - 1 ensures r[i] != "" {
        assert r[i] == rest[i];
      }
    }
  }

  function DigitChar(d: nat): (c: char)
    requires d < 10
    ensures IsDigit(c)
  {
    ('0' as int + d) as char
  }

  /** `str(n)` for a natural number. */
  function NatToString(n: nat): (r: string)
    ensures |r| >= 1
    ensures forall c :: c in r ==> IsDigit(c)
  {
    if n < 10 then [DigitChar(n)] else NatToString(n / 10) + [DigitChar(n % 10)]
  }

  predicate StartsWith(s: string, prefix: string)
  {
    |prefix| <= |s| && s[..|prefix|] == prefix
  }

  predicate EndsWith(s: string, suffix: string)
  {
    |suffix| <= |s| && s[|s| - |suffix|..] == suffix
  }

  /** Whether `sub` occurs in `s` (Python's `sub in s`). */
  predicate Contains(s: string, sub: string)
  {
    StartsWith(s, sub) || (|s| > 0 && Contains(s[1..], sub))
  }
  /** `s.lstrip()`: drops leading whitespace. */
  function LStrip(s: string): (r: string)
    ensures |r| <= |s| && r == s[|s| - |r|..]
    ensures |r| > 0 ==> !IsSpace(r[0])
    ensures |s| > 0 && !IsSpace(s[0]) ==> r == s
  {
    if |s| > 0 && IsSpace(s[0]) then LStrip(s[1..]) else s
  }

  /** `s.rstrip()`: drops trailing whitespace. */
  function RStrip(s: string): (r: string)
    ensures |r| <= |s| && r == s[..|r|]
    ensures |s| > 0 && !IsSpace(s[|s| - 1]) ==> r == s
  {
    if |s| > 0 && IsSpace(s[|s| - 1]) then RStrip(s[..|s| - 1]) else s
  }

  predicate AllDigits(s: string) { forall i :: 0 <= i < |s| ==> IsDigit(s[i]) }

  /** The value of a string of decimal digits. */
  function DigitsValue(s: string): nat
    requires AllDigits(s)
  {
    if |s| == 0 then 0 else DigitsValue(s[..|s| - 1]) * 10 + (s[|s| - 1] as int - '0' as int)
  }

  /** The pieces between underscores must all be non-empty digit runs; their digits are the number. */
  function GroupsValue(groups: seq<string>): Option<nat>
  {
    if forall i :: 0 <= i < |groups| ==> |groups[i]| > 0 && AllDigits(groups[i]) then
      ConcatDigits(groups);
      Some(DigitsValue(Concat(groups)))
    else None
  }

  /** One leading sign, if any: whether it is '-', and the rest. */
  function Sign(t: string): (r: (bool, string))
    ensures |t| > 0 && (t[0] == '-' || t[0] == '+') ==> r == (t[0] == '-', t[1..])
    ensures |t| == 0 || (t[0] != '-' && t[0] != '+') ==> r == (false, t)
  {
    if |t| > 0 && (t[0] == '-' || t[0] == '+') then (t[0] == '-', t[1..]) else (false, t)
  }

  /**
   * Python's `int(s)` for ASCII decimal text: surrounding whitespace is
   * dropped, one sign is allowed, and single underscores may stand between
   * digits. Anything else is None, the ValueError.
   */
  function ParseInt(s: string): (r: Option<int>)
    ensures RStrip(LStrip(s)) == "" ==> r.None?
  {
    var (negative, body) := Sign(RStrip(LStrip(s)));
    match GroupsValue(Split(body, '_'))
    case None => None
    case Some(v) => Some(if negative then 0 - v else v)
  }

  lemma {:induction false} ConcatDigits(parts: seq<string>)
    requires forall i :: 0 <= i < |parts| ==> AllDigits(parts[i])
    ensures AllDigits(Concat(parts))
  {
    if |parts| > 0 {
      ConcatDigits(parts[1..]);
      var a, b := parts[0], Concat(parts[1..]);
      assert forall i :: |a| <= i < |a + b| ==> (a + b)[i] == b[i - |a|];
    }
  }

  lemma {:induction false} DigitsValueOfNat(n: nat)
    ensures AllDigits(NatToString(n)) && DigitsValue(NatToString(n)) == n
  {
    var r := NatToString(n);
    assert AllDigits(r) by { assert forall i :: 0 <= i < |r| ==> r[i] in r; }
    if n >= 10 {
      DigitsValueOfNat(n / 10);
      assert r[..|r| - 1] == NatToString(n / 10);
    }
  }

  lemma DigitNotSpace(c: char)
    requires IsDigit(c)
    ensures !IsSpace(c) && c != '_' && c != '-' && c != '+'
  {
  }

  /** `int(str(n)) == n` for every natural `n`, and `int("-" + str(n)) == -n`. */
  lemma ParseIntNat(n: nat)
    ensures ParseInt(NatToString(n)) == Some(n)
    ensures ParseInt("-" + NatToString(n)) == Some(0 - n)
  {
    var r := NatToString(n);
    DigitsValueOfNat(n);
    DigitNotSpace(r[0]);
    DigitNotSpace(r[|r| - 1]);
    assert LStrip(r) == r;
    assert RStrip(r) == r;
    assert Sign(r) == (false, r);
    assert '_' !in r by {
      forall i | 0 <= i < |r| ensures r[i] != '_' { DigitNotSpace(r[i]); }
    }
    SplitNoSeparator(r, '_');
    assert Concat([r]) == r;
    assert GroupsValue([r]) == Some(n);
    var m := "-" + r;
    assert m[0] == '-' && m[1..] == r;
    assert LStrip(m) == m;
    assert m[|m| - 1] == r[|r| - 1];
    assert RStrip(m) == m;
    assert Sign(m) == (true, r);
  }

  /** `str(i)` for any integer. */
  function IntToString(i: int): string
  {
    if i < 0 then "-" + NatToString(0 - i) else NatToString(i)
  }

  /** `int(str(i)) == i`. */
  lemma ParseIntString(i: int)
    ensures ParseInt(IntToString(i)) == Some(i)
  {
    if i < 0 {
      ParseIntNegative(0 - i);
    } else {
      ParseIntNat(i);
    }
  }

  lemma ParseIntNegative(n: nat)
    ensures ParseInt(IntToString(0 - n)) == Some(0 - n)
  {
    if n == 0 {
      ParseIntNat(0);
    } else {
      NegativeString(n);
      ParseIntNat(n);
    }
  }

  lemma NegativeString(n: nat)
    requires n > 0
    ensures IntToString(0 - n) == "-" + NatToString(n)
  {
  }

  /** The text of an integer holds no '@', so it never splits an address. */
  lemma IntToStringNoAt(i: int)
    ensures '@' !in IntToString(i)
  {
    var digits := NatToString(if i < 0 then 0 - i else i);
    assert '@' !in digits;
  }
}

=== FILE: Url.dfy ===
/**
 * The parts of Python's `urllib.parse` and `re` the federation code leans on:
 * `urlsplit` (with the stripping of leading C0 controls, the removal of
 * tab, CR and LF, and the check that brackets in the network location
 * balance), `urlunsplit`, `quote_plus`, and `re.sub` with a pattern that is
 * a plain literal, as CPython 3.12 implements them.
 */
module Url {
  import opened Results
  import opened Bytes
  import Text

  /** The WHATWG "C0 control or space" class that `urlsplit` strips from the front. */
  predicate IsC0OrSpace(c: char) { c as int <= 0x20 }

  /** Characters `urlsplit` deletes wherever they occur. */
  predicate IsUnsafe(c: char) { c == '\t' || c == '\r' || c == '\n' }

  /** `scheme_chars`: letters, digits and "+-.". */
  predicate IsSchemeChar(c: char) { Text.IsAlnum(c) || c == '+' || c == '-' || c == '.' }

  predicate NoUnsafe(s: string) { forall i :: 0 <= i < |s| ==> !IsUnsafe(s[i]) }

  function LStripC0(s: string): (r: string)
    ensures |r| <= |s| && r == s[|s| - |r|..]
    ensures |r| > 0 ==> !IsC0OrSpace(r[0])
    ensures |s| > 0 && !IsC0OrSpace(s[0]) ==> r == s
  {
    if |s| > 0 && IsC0OrSpace(s[0]) then LStripC0(s[1..]) else s
  }

  function RStripC0(s: string): (r: string)
    ensures |r| <= |s| && r == s[..|r|]
    ensures |s| > 0 && !IsC0OrSpace(s[|s| - 1]) ==> r == s
  {
    if |s| > 0 && IsC0OrSpace(s[|s| - 1]) then RStripC0(s[..|s| - 1]) else s
  }

  /** `s.replace("\t", "").replace("\r", "").replace("\n", "")`. */
  function RemoveUnsafe(s: string): (r: string)
    ensures |r| <= |s|
    ensures NoUnsafe(r)
    ensures NoUnsafe(s) ==> r == s
  {
    if |s| == 0 then ""
    else if IsUnsafe(s[0]) then RemoveUnsafe(s[1..])
    else [s[0]] + RemoveUnsafe(s[1..])
  }

  /** `s.find(c)`, with `None` for -1. */
  function Find(s: string, c: char): (r: Option<nat>)
    ensures r.None? <==> c !in s
    ensures r.Some? ==> r.value < |s| && s[r.value] == c && c !in s[..r.value]
  {
    if |s| == 0 then None
    else if s[0] == c then Some(0)
    else match Find(s[1..], c)
      case None => None
      case Some(i) =>
        assert s[..i + 1] == [s[0]] + s[1..][..i];
        Some(i + 1)
  }

  /** The end of the network location: the first '/', '?' or '#' from `from` on, or the length. */
  function NetlocEnd(s: string, from: nat): (r: nat)
    requires from <= |s|
    ensures from <= r <= |s|
    ensures forall i :: from <= i < r ==> s[i] != '/' && s[i] != '?' && s[i] != '#'
    ensures r < |s| ==> s[r] == '/' || s[r] == '?' || s[r] == '#'
    decreases |s| - from
  {
    if from == |s| then from
    else if s[from] == '/' || s[from] == '?' || s[from] == '#' then from
    else NetlocEnd(s, from + 1)
  }

  /** The five fields of `SplitResult`. */
  datatype Split = Split(scheme: string, netloc: string, path: string, query: string, fragment: string)

  /** Where the scheme ends: a first ':' after a leading ASCII letter and only scheme characters. */
  function SchemeEnd(u: string): (r: Option<nat>)
    ensures r.Some? ==>
      && 0 < r.value < |u| && u[r.value] == ':' && Text.IsAsciiLetter(u[0])
      && forall j :: 0 <= j < r.value ==> IsSchemeChar(u[j])
    ensures ':' !in u ==> r.None?
  {
    match Find(u, ':')
    case None => None
    case Some(i) =>
      if i > 0 && Text.IsAsciiLetter(u[0]) && forall j :: 0 <= j < i ==> IsSchemeChar(u[j])
      then Some(i) else None
  }

  /** `s.split(c, 1)` when `c` occurs: the text before the first `c` and the text after it. */
  function SplitOnce(s: string, c: char): (r: (string, string))
    ensures c in s ==> s == r.0 + [c] + r.1 && c !in r.0
    ensures c !in s ==> r == (s, "")
    ensures c !in r.0
    ensures forall x :: x in r.0 ==> x in s
    ensures forall x :: x in r.1 ==> x in s
    ensures NoUnsafe(s) ==> NoUnsafe(r.0) && NoUnsafe(r.1)
  {
    match Find(s, c)
    case None => (s, "")
    case Some(i) =>
      assert s == s[..i] + [c] + s[i + 1..];
      SliceNoUnsafe(s, 0, i);
      SliceNoUnsafe(s, i + 1, |s|);
      assert s[0..i] == s[..i];
      (s[..i], s[i + 1..])
  }

  /** Every slice of text free of tab, CR and LF is free of them too. */
  lemma SliceNoUnsafe(s: string, i: nat, j: nat)
    requires i <= j <= |s|
    ensures NoUnsafe(s) ==> NoUnsafe(s[i..j])
  {
    assert forall k :: 0 <= k < j - i ==> s[i..j][k] == s[i + k];
  }

  lemma ConcatNoUnsafe(a: string, b: string)
    requires NoUnsafe(a) && NoUnsafe(b)
    ensures NoUnsafe(a + b)
  {
    assert forall k :: |a| <= k < |a + b| ==> (a + b)[k] == b[k - |a|];
  }

  /** The scheme step: a recognised scheme is lower-cased and cut off with its colon. */
  function SchemePart(u: string, defaultScheme: string): (r: (string, string))
    ensures NoUnsafe(u) ==> NoUnsafe(r.1)
    ensures SchemeEnd(u).None? ==> r == (defaultScheme, u)
    ensures SchemeEnd(u).Some? ==>
      r == (Text.ToLower(u[..SchemeEnd(u).value]), u[SchemeEnd(u).value + 1..])
  {
    match SchemeEnd(u)
    case Some(i) =>
      SliceNoUnsafe(u, i + 1, |u|);
      (Text.ToLower(u[..i]), u[i + 1..])
    case None => (defaultScheme, u)
  }

  /** The location step: after a leading "//", up to the first '/', '?' or '#'. */
  function NetlocPart(rest: string): (r: (string, string))
    ensures r.0 + r.1 == rest || "//" + r.0 + r.1 == rest
    ensures '/' !in r.0 && '?' !in r.0 && '#' !in r.0
    ensures NoUnsafe(rest) ==> NoUnsafe(r.0) && NoUnsafe(r.1)
    ensures !Text.StartsWith(rest, "//") ==> r == ("", rest)
  {
    if Text.StartsWith(rest, "//") then
      var e := NetlocEnd(rest, 2);
      SliceNoUnsafe(rest, 2, e);
      SliceNoUnsafe(rest, e, |rest|);
      assert "//" + rest[2..e] + rest[e..] == rest;
      (rest[2..e], rest[e..])
    else ("", rest)
  }

  /** The fragment and query steps: `#` first, then `?` in what precedes it. */
  function PathPart(after: string): (r: (string, string, string))
    ensures '#' !in r.0 && '?' !in r.0 && '#' !in r.1
    ensures NoUnsafe(after) ==> NoUnsafe(r.0) && NoUnsafe(r.1) && NoUnsafe(r.2)
    ensures '#' !in after && '?' !in after ==> r == (after, "", "")
  {
    var (beforeFragment, fragment) := SplitOnce(after, '#');
    var (path, query) := SplitOnce(beforeFragment, '?');
    (path, query, fragment)
  }

  /**
   * `urlsplit(url, scheme)`. An unbalanced bracket in the network location
   * is the "Invalid IPv6 URL" ValueError.
   */
  function UrlSplit(url: string, scheme: string): (r: Result<Split>)
    ensures r.Err? ==> r.error == ValueErr
    ensures r.Ok? ==> var v := r.value;
      && '#' !in v.path && '?' !in v.path && '#' !in v.query
      && '/' !in v.netloc && '?' !in v.netloc && '#' !in v.netloc
      && NoUnsafe(v.netloc) && NoUnsafe(v.path) && NoUnsafe(v.query) && NoUnsafe(v.fragment)
  {
    var u := RemoveUnsafe(LStripC0(url));
    var (sch, rest) := SchemePart(u, RemoveUnsafe(RStripC0(LStripC0(scheme))));
    var (netloc, after) := NetlocPart(rest);
    if ('[' in netloc) != (']' in netloc) then Err(ValueErr)
    else
      var (path, query, fragment) := PathPart(after);
      Ok(Split(sch, netloc, path, query, fragment))
  }

  /** `uses_netloc`: the schemes `urlunsplit` writes with a "//" even when the location is empty. */
  predicate UsesNetloc(scheme: string)
  {
    scheme in {"", "ftp", "http", "gopher", "nntp", "telnet", "imap", "wais", "file", "mms", "https",
               "shttp", "snews", "prospero", "rtsp", "rtspu", "rsync", "svn", "svn+ssh", "sftp", "nfs",
               "git", "git+ssh", "ws", "wss", "itms-services"}
  }

  /** `urlunsplit(parts)`. */
  function UrlUnsplit(v: Split): (r: string)
    ensures v.scheme != "" ==> Text.StartsWith(r, v.scheme + ":")
  {
    var withNetloc :=
      if v.netloc != "" || (v.scheme != "" && UsesNetloc(v.scheme) && !Text.StartsWith(v.path, "//")) then
        "//" + v.netloc + (if v.path != "" && v.path[0] != '/' then "/" + v.path else v.path)
      else v.path;
    var withScheme := if v.scheme != "" then v.scheme + ":" + withNetloc else withNetloc;
    var withQuery := if v.query != "" then withScheme + "?" + v.query else withScheme;
    var r := if v.fragment != "" then withQuery + "#" + v.fragment else withQuery;
    assert v.scheme != "" ==> withQuery[..|v.scheme| + 1] == withScheme[..|v.scheme| + 1];
    assert v.scheme != "" ==> r[..|v.scheme| + 1] == withQuery[..|v.scheme| + 1];
    r
  }

  // --------------------------------------------------------------- quoting

  /** `_ALWAYS_SAFE`: ASCII letters, digits and "_.-~". */
  predicate IsAlwaysSafe(b: byte)
  {
    ('A' as int <= b <= 'Z' as int) || ('a' as int <= b <= 'z' as int) || ('0' as int <= b <= '9' as int)
    || b == '_' as int || b == '.' as int || b == '-' as int || b == '~' as int
  }

  function HexUpper(d: nat): (c: char)
    requires d < 16
    ensures IsAsciiChar(c) && c != ' ' && IsAlwaysSafe(c as int)
  {
    "0123456789ABCDEF"[d]
  }

  /** One byte as `quote_plus` writes it: itself, '+' for a space, or `%XX`. */
  function QuoteByte(b: byte): (r: string)
    ensures |r| == 1 || |r| == 3
    ensures |r| == 1 <==> IsAlwaysSafe(b) || b == ' ' as int
    ensures IsAscii(r) && ' ' !in r
  {
    if IsAlwaysSafe(b) then [b as char]
    else if b == ' ' as int then "+"
    else "%" + [HexUpper(b / 16)] + [HexUpper(b % 16)]
  }

  function QuoteBytes(b: seq<byte>): (r: string)
    ensures IsAscii(r) && ' ' !in r
  {
    if |b| == 0 then ""
    else
      var head, rest := QuoteByte(b[0]), QuoteBytes(b[1..]);
      AsciiAppend(head, rest);
      head + rest
  }

  /** `urllib.parse.quote_plus(s)`, with its default empty `safe`: UTF-8, then per byte. */
  function QuotePlus(s: string): (r: string)
    ensures IsAscii(r) && ' ' !in r
  {
    QuoteBytes(Utf8Encode(s))
  }

  /** The value of a hexadecimal digit, either case. */
  function HexValue(c: char): Option<nat>
  {
    if '0' <= c <= '9' then Some(c as int - '0' as int)
    else if 'A' <= c <= 'F' then Some(c as int - 'A' as int + 10)
    else if 'a' <= c <= 'f' then Some(c as int - 'a' as int + 10)
    else None
  }

  /**
   * A strict decoder for `quote_plus` output: '+' is a space, `%XX` a byte,
   * an always-safe character itself, anything else a failure.
   */
  function UnquotePlusBytes(s: string): Option<seq<byte>>
    decreases |s|
  {
    if |s| == 0 then Some([])
    else if s[0] == '+' then
      match UnquotePlusBytes(s[1..])
      case None => None
      case Some(rest) => Some([' ' as int] + rest)
    else if s[0] == '%' then
      if |s| < 3 then None
      else match (HexValue(s[1]), HexValue(s[2]))
        case (Some(h), Some(l)) =>
          (match UnquotePlusBytes(s[3..])
           case None => None
           case Some(rest) => if h * 16 + l < 256 then Some([(h * 16 + l) as byte] + rest) else None)
        case _ => None
    else if s[0] as int < 256 && IsAlwaysSafe(s[0] as int) then
      match UnquotePlusBytes(s[1..])
      case None => None
      case Some(rest) => Some([s[0] as int as byte] + rest)
    else None
  }

  lemma HexRoundTrip(d: nat)
    requires d < 16
    ensures HexValue(HexUpper(d)) == Some(d)
  {
  }

  lemma QuoteByteDecodes(b: byte, rest: string)
    ensures UnquotePlusBytes(QuoteByte(b) + rest) ==
      match UnquotePlusBytes(rest) case None => None case Some(t) => Some([b] + t)
  {
    var q := QuoteByte(b);
    if IsAlwaysSafe(b) {
      assert (q + rest)[0] == b as char && (q + rest)[1..] == rest;
    } else if b == ' ' as int {
      assert (q + rest)[0] == '+' && (q + rest)[1..] == rest;
    } else {
      HexRoundTrip(b / 16);
      HexRoundTrip(b % 16);
      assert (q + rest)[0] == '%' && (q + rest)[1] == HexUpper(b / 16) && (q + rest)[2] == HexUpper(b % 16);
      assert (q + rest)[3..] == rest;
    }
  }

  /** Every byte string survives `quote_plus`: the strict decoder gives it back. */
  lemma {:induction false} UnquoteQuoteBytes(b: seq<byte>)
    ensures UnquotePlusBytes(QuoteBytes(b)) == Some(b)
  {
    if |b| > 0 {
      UnquoteQuoteBytes(b[1..]);
      QuoteByteDecodes(b[0], QuoteBytes(b[1..]));
      assert [b[0]] + b[1..] == b;
    }
  }

  /** The characters one quoted byte is written with. */
  predicate IsQuoteChar(c: char)
  {
    (c as int < 256 && IsAlwaysSafe(c as int)) || c == '+' || c == '%'
  }

  lemma QuoteByteAlphabet(b: byte)
    ensures forall i :: 0 <= i < |QuoteByte(b)| ==> IsQuoteChar(QuoteByte(b)[i])
  {
    if !IsAlwaysSafe(b) && b != ' ' as int {
      var q := QuoteByte(b);
      assert q == "%" + [HexUpper(b / 16)] + [HexUpper(b % 16)];
      assert q[0] == '%' && q[1] == HexUpper(b / 16) && q[2] == HexUpper(b % 16);
    }
  }

  /** `quote_plus` writes only always-safe characters, '+', '%' and upper-case hex digits. */
  lemma {:induction false} QuoteBytesAlphabet(b: seq<byte>)
    ensures forall i :: 0 <= i < |QuoteBytes(b)| ==> IsQuoteChar(QuoteBytes(b)[i])
  {
    if |b| > 0 {
      QuoteBytesAlphabet(b[1..]);
      QuoteByteAlphabet(b[0]);
      var q := QuoteByte(b[0]);
      var t := QuoteBytes(b[1..]);
      assert QuoteBytes(b) == q + t;
      assert forall i :: |q| <= i < |q + t| ==> (q + t)[i] == t[i - |q|];
    }
  }

  // ------------------------------------------------------------ replacement

  /**
   * `re.sub(pattern, replacement, s)` for a pattern that matches only the
   * literal text `pat` and a replacement with no backslash: leftmost,
   * non-overlapping occurrences are replaced.
   */
  function ReplaceAll(s: string, pat: string, rep: string): (r: string)
    requires |pat| > 0
    decreases |s|
  {
    if Text.StartsWith(s, pat) then rep + ReplaceAll(s[|pat|..], pat, rep)
    else if |s| == 0 then ""
    else [s[0]] + ReplaceAll(s[1..], pat, rep)
  }

  /** Text in which the pattern does not occur comes back unchanged. */
  lemma {:induction false} ReplaceAbsent(s: string, pat: string, rep: string)
    requires |pat| > 0 && !Text.Contains(s, pat)
    ensures ReplaceAll(s, pat, rep) == s
    decreases |s|
  {
    if |s| > 0 {
      ReplaceAbsent(s[1..], pat, rep);
      assert [s[0]] + s[1..] == s;
    }
  }

  /** Text without the pattern's first character, followed by the pattern, gets exactly one replacement. */
  lemma {:induction false} ReplaceAtEnd(a: string, pat: string, rep: string)
    requires |pat| > 0 && pat[0] !in a
    ensures ReplaceAll(a + pat, pat, rep) == a + rep
    decreases |a|
  {
    if |a| == 0 {
      assert a + pat == pat;
      assert !Text.StartsWith("", pat);
      assert ReplaceAll("", pat, rep) == "";
      assert pat[..|pat|] == pat && pat[|pat|..] == "";
      assert ReplaceAll(pat, pat, rep) == rep + ReplaceAll("", pat, rep);
    } else {
      var s := a + pat;
      assert s[0] == a[0];
      assert !Text.StartsWith(s, pat);
      assert s[1..] == a[1..] + pat;
      ReplaceAtEnd(a[1..], pat, rep);
      assert ReplaceAll(s, pat, rep) == [a[0]] + ReplaceAll(s[1..], pat, rep);
      assert [a[0]] + (a[1..] + rep) == a + rep;
    }
  }

  // ------------------------------------------------------------ properties

  /** Text with no colon, no C0 lead and none of tab, CR, LF keeps the default scheme and is all path. */
  lemma SplitPlain(url: string, scheme: string)
    requires ':' !in url && '#' !in url && '?' !in url && NoUnsafe(url)
    requires |url| > 0 && !IsC0OrSpace(url[0]) && url[0] != '/'
    ensures UrlSplit(url, scheme) == Ok(Split(RemoveUnsafe(RStripC0(LStripC0(scheme))), "", url, "", ""))
  {
    assert LStripC0(url) == url;
    assert RemoveUnsafe(url) == url;
    assert !Text.StartsWith(url, "//");
  }

  /** The scheme of a URL written as letters and "://" is recognised, and the rest follows it. */
  lemma SchemeOfBuilt(scheme: string, rest: string, d: string)
    requires |scheme| > 0 && forall i :: 0 <= i < |scheme| ==> Text.IsLower(scheme[i])
    ensures SchemePart(scheme + ":" + rest, d) == (scheme, rest)
  {
    var u := scheme + ":" + rest;
    assert ':' !in scheme;
    assert u[..|scheme|] == scheme;
    assert Find(u, ':') == Some(|scheme|) by {
      assert u[|scheme|] == ':';
    }
    assert forall j :: 0 <= j < |scheme| ==> IsSchemeChar(u[j]) by {
      assert forall j :: 0 <= j < |scheme| ==> u[j] == scheme[j];
    }
    assert SchemeEnd(u) == Some(|scheme|);
    assert Text.ToLower(scheme) == scheme by {
      assert forall i :: 0 <= i < |scheme| ==> Text.ToLowerChar(scheme[i]) == scheme[i];
    }
    assert u[|scheme| + 1..] == rest;
  }

  /** An opaque URL "scheme:rest", with no location, query or fragment, splits into the scheme and the path. */
  lemma SplitSchemed(scheme: string, rest: string, d: string)
    requires |scheme| > 0 && forall i :: 0 <= i < |scheme| ==> Text.IsLower(scheme[i])
    requires NoUnsafe(rest) && '#' !in rest && '?' !in rest && !Text.StartsWith(rest, "//")
    ensures UrlSplit(scheme + ":" + rest, d) == Ok(Split(scheme, "", rest, "", ""))
  {
    var e := scheme + ":" + rest;
    assert e[0] == scheme[0];
    assert LStripC0(e) == e;
    assert NoUnsafe(scheme + ":") by {
      assert forall i :: 0 <= i < |scheme| ==> (scheme + ":")[i] == scheme[i];
    }
    ConcatNoUnsafe(scheme + ":", rest);
    assert RemoveUnsafe(LStripC0(e)) == e;
    SchemeOfBuilt(scheme, rest, RemoveUnsafe(RStripC0(LStripC0(d))));
  }

  /** A location of plain host characters followed by an absolute path is cut at the path. */
  lemma NetlocOfBuilt(host: string, path: string)
    requires forall c :: c in host ==> c != '/' && c != '?' && c != '#'
    requires |path| > 0 && path[0] == '/'
    ensures NetlocPart("//" + host + path) == (host, path)
  {
    var rest := "//" + host + path;
    assert Text.StartsWith(rest, "//") by { assert rest[..2] == "//"; }
    assert forall i :: 2 <= i < 2 + |host| ==> rest[i] == host[i - 2] && host[i - 2] in host;
    assert rest[2 + |host|] == '/';
    NetlocEndAt(rest, 2, 2 + |host|);
    assert rest[2..2 + |host|] == host;
    assert rest[2 + |host|..] == path;
  }

  /** A URL written as scheme, "://", host and path splits back into those parts. */
  lemma SplitBuilt(scheme: string, host: string, path: string)
    requires |scheme| > 0 && forall i :: 0 <= i < |scheme| ==> Text.IsLower(scheme[i])
    requires NoUnsafe(host) && NoUnsafe(path)
    requires forall c :: c in host ==> c != '/' && c != '?' && c != '#' && c != '[' && c != ']'
    requires '?' !in path && '#' !in path
    requires |path| > 0 && path[0] == '/'
    ensures UrlSplit(scheme + "://" + host + path, "") == Ok(Split(scheme, host, path, "", ""))
  {
    var rest := "//" + host + path;
    var url := scheme + ":" + rest;
    assert url == scheme + "://" + host + path;
    assert url[0] == scheme[0];
    assert LStripC0(url) == url;
    assert NoUnsafe(scheme + "://") by {
      assert forall i :: 0 <= i < |scheme| ==> (scheme + "://")[i] == scheme[i];
    }
    ConcatNoUnsafe(scheme + "://", host);
    ConcatNoUnsafe(scheme + "://" + host, path);
    assert RemoveUnsafe(LStripC0(url)) == url;
    SchemeOfBuilt(scheme, rest, "");
    assert RemoveUnsafe(RStripC0(LStripC0(""))) == "";
    NetlocOfBuilt(host, path);
    assert '[' !in host && ']' !in host;
    assert PathPart(path) == (path, "", "");
  }

  lemma {:induction false} NetlocEndAt(s: string, from: nat, stop: nat)
    requires from <= stop < |s|
    requires forall i :: from <= i < stop ==> s[i] != '/' && s[i] != '?' && s[i] != '#'
    requires s[stop] == '/'
    ensures NetlocEnd(s, from) == stop
    decreases stop - from
  {
    if from < stop { NetlocEndAt(s, from + 1, stop); }
  }
}

=== FILE: Validation.dfy ===
/**
 * Checks on what a browser submits: reading a form field that may be
 * required, and refusing uploads whose type would be served as part of the
 * site.
 */
module Validation {
  import opened Results
  import opened Text

  /** The submitted form: field name to value. */
  type Form = map<string, string>

  /**
   * `post_param(name, optional)`: the submitted value; a missing field
   * gives `None` when optional; a missing or empty required field ends the
   * request with status 400.
   */
  function PostParam(form: Form, name: string, optional: bool): (r: Result<Option<string>>)
    ensures r.Err? ==> r.error == Abort(400)
    ensures r.Ok? && r.value.Some? ==> name in form && r.value.value == form[name]
    ensures r.Ok? && !optional ==> r.value.Some? && r.value.value != ""
    ensures r.Ok? && name in form ==> r.value == Some(form[name])
  {
    if name !in form then
      if optional then Ok(None) else Err(Abort(400))
    else if form[name] == "" && !optional then Err(Abort(400))
    else Ok(Some(form[name]))
  }

  /**
   * A required field yields a non-empty value or status 400, and fails
   * exactly when it is missing or empty.
   */
  lemma RequiredParam(form: Form, name: string)
    ensures var r := PostParam(form, name, false);
      && (r.Err? <==> name !in form || form[name] == "")
      && (r.Ok? ==> r.value.Some? && r.value.value != "")
  {
  }

  /** An optional field never aborts: it is absent exactly when it was not submitted, and may be empty. */
  lemma OptionalParam(form: Form, name: string)
    ensures var r := PostParam(form, name, true);
      r.Ok? && (r.value.None? <==> name !in form)
  {
  }

  /** Submitting a value and reading the field back gives that value, whenever it is acceptable. */
  lemma PostParamRoundTrip(form: Form, name: string, v: string, optional: bool)
    requires v != "" || optional
    ensures PostParam(form[name := v], name, optional) == Ok(Some(v))
  {
  }

  /** The MIME type prefix of the site's own formats. */
  const InternalPrefix := "application/x-pyaspora"

  /**
   * Whether an upload of this type may be stored: it is not HTML, and no
   * text after the site's own prefix spells it.
   */
  ghost predicate SafeType(mimeType: string)
  {
    mimeType != "text/html" && forall suffix: string :: mimeType != InternalPrefix + suffix
  }

  /** `check_attachment_is_safe(attachment)`: `True`, or status 400 for an unsafe type. */
  function CheckAttachmentIsSafe(mimeType: string): (r: Result<bool>)
    ensures r.Ok? ==> r.value
    ensures r.Err? ==> r.error == Abort(400)
  {
    if mimeType == "text/html" || StartsWith(mimeType, InternalPrefix) then Err(Abort(400))
    else Ok(true)
  }

  /** Any type in the site's own family is refused, whatever follows the prefix. */
  lemma InternalTypesRefused(suffix: string)
    ensures CheckAttachmentIsSafe(InternalPrefix + suffix) == Err(Abort(400))
  {
    assert (InternalPrefix + suffix)[..|InternalPrefix|] == InternalPrefix;
  }

  /**
   * The check passes exactly the safe types: a refused type other than HTML
   * is the prefix followed by the rest of the type.
   */
  lemma CheckAttachmentMeansSafe(mimeType: string)
    ensures CheckAttachmentIsSafe(mimeType).Ok? <==> SafeType(mimeType)
  {
    if StartsWith(mimeType, InternalPrefix) {
      var suffix := mimeType[|InternalPrefix|..];
      assert mimeType == InternalPrefix + suffix;
    }
    if !SafeType(mimeType) && mimeType != "text/html" {
      var suffix: string :| mimeType == InternalPrefix + suffix;
      InternalTypesRefused(suffix);
    }
  }
}

=== FILE: Webfinger.dfy ===
/**
 * The WebFinger client's string logic: turning a "user@host" handle into an
 * `acct:` URL and a host, the host-meta URL of section 2 of RFC 6415, the
 * secure flag of the host-meta connection, and the substitution of the
 * quoted account URI into the lrdd template. The same code appears in the
 * current protocol package and in the legacy client.
 */
module Webfinger {
  import opened Results
  import opened Url
  import Text

  /** What `normalise_email` leaves behind: the parsed account URL and the host to ask. */
  datatype Handle = Handle(url: Split, host: string)

  /** Where the last '@' is. */
  function LastAt(s: string): (r: Option<nat>)
    ensures r.None? <==> '@' !in s
    ensures r.Some? ==> r.value < |s| && s[r.value] == '@' && forall j :: r.value < j < |s| ==> s[j] != '@'
  {
    if |s| == 0 then None
    else if s[|s| - 1] == '@' then Some(|s| - 1)
    else
      assert s == s[..|s| - 1] + [s[|s| - 1]];
      LastAt(s[..|s| - 1])
  }

  /**
   * `re.match('.*\@(.*)', s).group(1)` on text without line breaks: greedy
   * matching puts the group after the last '@'. No '@' means no match, and
   * `.group` on None is the AttributeError.
   */
  function AfterLastAt(s: string): (r: Option<string>)
    ensures r.None? <==> '@' !in s
    ensures r.Some? ==> Text.EndsWith(s, "@" + r.value) && '@' !in r.value
  {
    match LastAt(s)
    case None => None
    case Some(i) =>
      assert s[i..] == "@" + s[i + 1..];
      Some(s[i + 1..])
  }

  /** What `normalise_email` does with the parsed URL: demand "acct" and find the host. */
  function NormaliseSplit(url: Split): (r: Result<Handle>)
    ensures url.scheme != "acct" ==> r == Err(TypeErr)
    ensures r == Err(AttributeErr) <==> url.scheme == "acct" && '@' !in url.path
    ensures r.Ok? ==> r.value.url == url && url.scheme == "acct"
    ensures r.Ok? ==> Text.EndsWith(url.path, "@" + r.value.host) && '@' !in r.value.host
  {
    if url.scheme != "acct" then Err(TypeErr)
    else match AfterLastAt(url.path)
      case None => Err(AttributeErr)
      case Some(host) => Ok(Handle(url, host))
  }

  /**
   * `normalise_email`: `urlparse` with default scheme "acct" (its ValueError
   * propagates), then `NormaliseSplit`.
   */
  function NormaliseEmail(email: string): (r: Result<Handle>)
    ensures UrlSplit(email, "acct").Err? ==> r == Err(ValueErr)
    ensures r.Ok? ==> r.value.url.scheme == "acct" && '@' !in r.value.host
  {
    var url :- UrlSplit(email, "acct");
    NormaliseSplit(url)
  }

  /** The well-known path of the host-meta document (section 2 of RFC 6415). */
  const HostMetaPath: string := "/.well-known/host-meta"

  /** `HostMeta._build_url(scheme)`. */
  function BuildUrl(scheme: string, host: string): (r: string)
    ensures Text.StartsWith(r, scheme + "://")
    ensures Text.EndsWith(r, HostMetaPath)
    ensures |r| == |scheme| + 3 + |host| + |HostMetaPath|
  {
    var r := scheme + "://" + host + HostMetaPath;
    assert r[..|scheme| + 3] == scheme + "://";
    assert r[|r| - |HostMetaPath|..] == HostMetaPath;
    r
  }

  /** An opened connection; `redirectedVia` is set only when redirects were followed. */
  datatype Response = Response(redirectedVia: Option<seq<string>>)

  datatype Connection = Connection(response: Response, secure: bool)

  /** Each redirect URL as `urlparse` reads it. */
  function ParseAll(urls: seq<string>): (r: seq<Result<Split>>)
    ensures |r| == |urls| && forall i :: 0 <= i < |urls| ==> r[i] == UrlSplit(urls[i], "")
  {
    seq(|urls|, i requires 0 <= i < |urls| => UrlSplit(urls[i], ""))
  }

  predicate IsHttps(u: Result<Split>) { u.Ok? && u.value.scheme == "https" }

  /**
   * The redirect check over the parsed URLs: look at each in turn, stopping
   * at the first whose scheme is not "https"; a URL `urlparse` rejects
   * raises, but only if no earlier URL stopped the loop.
   */
  function RedirectsSecure(parsed: seq<Result<Split>>): (r: Result<bool>)
    ensures r == Ok(true) <==> forall i :: 0 <= i < |parsed| ==> IsHttps(parsed[i])
    ensures r == Ok(false) ==>
      exists i :: 0 <= i < |parsed| && parsed[i].Ok? && !IsHttps(parsed[i])
        && forall j :: 0 <= j < i ==> IsHttps(parsed[j])
    ensures r.Err? ==>
      exists i :: 0 <= i < |parsed| && parsed[i].Err? && r.error == parsed[i].error
        && forall j :: 0 <= j < i ==> IsHttps(parsed[j])
  {
    if |parsed| == 0 then Ok(true)
    else
      var up :- parsed[0];
      if up.scheme != "https" then Ok(false)
      else
        var rest := RedirectsSecure(parsed[1..]);
        assert forall i :: 1 <= i < |parsed| ==> parsed[i] == parsed[1..][i - 1];
        rest
  }

  /**
   * `HostMeta._get_connection`, with the network as `open`: try https; on
   * any failure fall back to http and mark the connection insecure; a
   * secure connection that followed redirects stays secure only if every
   * redirect was to https.
   */
  function GetConnection(open: string -> Result<Response>, host: string): (r: Result<Connection>)
    ensures open(BuildUrl("https", host)).Err? ==>
      r == (if open(BuildUrl("http", host)).Ok? then Ok(Connection(open(BuildUrl("http", host)).value, false))
            else Err(open(BuildUrl("http", host)).error))
    ensures open(BuildUrl("https", host)).Ok? && r.Ok? ==> r.value.response == open(BuildUrl("https", host)).value
    ensures r.Ok? ==> (r.value.secure <==>
      open(BuildUrl("https", host)).Ok? &&
      match open(BuildUrl("https", host)).value.redirectedVia
      case None => true
      case Some(urls) => forall i :: 0 <= i < |urls| ==> IsHttps(ParseAll(urls)[i]))
  {
    var first := open(BuildUrl("https", host));
    if first.Err? then
      var res :- open(BuildUrl("http", host));
      Ok(Connection(res, false))
    else match first.value.redirectedVia
      case None => Ok(Connection(first.value, true))
      case Some(urls) =>
        var secure :- RedirectsSecure(ParseAll(urls));
        Ok(Connection(first.value, secure))
  }

  /**
   * `fetch`'s target URL: every "{uri}" of the host-meta's first lrdd
   * template replaced by the quoted account URI (no template is the
   * IndexError of `[0]`).
   */
  function TargetUrl(templates: seq<string>, handle: Handle): (r: Result<string>)
    ensures |templates| == 0 <==> r == Err(IndexErr)
    ensures r.Ok? ==> r.value == ReplaceAll(templates[0], "{uri}", QuotePlus(handle.url.scheme + ":" + handle.url.path))
  {
    if |templates| == 0 then Err(IndexErr)
    else Ok(ReplaceAll(templates[0], "{uri}", QuotePlus(handle.url.scheme + ":" + handle.url.path)))
  }

  // ------------------------------------------------------------ properties

  predicate PlainHostChar(c: char)
  {
    c != '/' && c != '?' && c != '#' && c != '[' && c != ']' && c != '@' && c != ':' && !IsUnsafe(c)
  }

  /** Handle parts that `urlsplit` leaves alone. */
  predicate PlainHandle(user: string, host: string)
  {
    && |user| > 0 && !IsC0OrSpace(user[0]) && user[0] != '/'
    && (forall i :: 0 <= i < |user| ==> PlainHostChar(user[i]))
    && (forall i :: 0 <= i < |host| ==> PlainHostChar(host[i]))
  }

  lemma PlainParts(user: string, host: string)
    requires PlainHandle(user, host)
    ensures var s := user + "@" + host;
      ':' !in s && '#' !in s && '?' !in s && NoUnsafe(s) && s[0] == user[0]
  {
    var s := user + "@" + host;
    assert forall i :: 0 <= i < |s| ==> s[i] == '@' || PlainHostChar(s[i]) by {
      assert forall i :: |user| + 1 <= i < |s| ==> s[i] == host[i - |user| - 1];
    }
  }

  /** Where `user@host` keeps its last '@'. */
  lemma AfterLastAtPlain(user: string, host: string)
    requires '@' !in host
    ensures AfterLastAt(user + "@" + host) == Some(host)
  {
    var s := user + "@" + host;
    assert s[|user|] == '@';
    var i := LastAt(s).value;
    assert forall j :: |user| < j < |s| ==> s[j] == host[j - |user| - 1];
    assert i == |user|;
    assert s[i + 1..] == host;
  }

  /** The default scheme "acct" survives `urlsplit`'s clean-up of the scheme argument. */
  lemma AcctClean()
    ensures RemoveUnsafe(RStripC0(LStripC0("acct"))) == "acct"
  {
    CleanLetters("acct");
  }

  lemma CleanLetters(w: string)
    requires |w| > 0 && forall i :: 0 <= i < |w| ==> Text.IsLower(w[i])
    ensures RemoveUnsafe(RStripC0(LStripC0(w))) == w
  {
    assert LStripC0(w) == w;
    assert RStripC0(w) == w;
    assert NoUnsafe(w);
  }

  lemma PlainHandleSplits(user: string, host: string)
    requires PlainHandle(user, host)
    ensures UrlSplit(user + "@" + host, "acct") == Ok(Split("acct", "", user + "@" + host, "", ""))
  {
    PlainParts(user, host);
    SplitPlain(user + "@" + host, "acct");
    AcctClean();
  }

  lemma AcctHandleSplits(user: string, host: string)
    requires PlainHandle(user, host)
    ensures UrlSplit("acct:" + user + "@" + host, "acct") == Ok(Split("acct", "", user + "@" + host, "", ""))
  {
    var s := user + "@" + host;
    var acct := "acct";
    PlainParts(user, host);
    assert !Text.StartsWith(s, "//");
    assert forall i :: 0 <= i < |acct| ==> Text.IsLower(acct[i]);
    SplitSchemed(acct, s, acct);
    AcctConcat(user, host);
  }

  lemma AcctConcat(user: string, host: string)
    ensures "acct:" + user + "@" + host == "acct" + ":" + (user + "@" + host)
  {
  }

  /** A bare "user@host" handle becomes the URL acct:user@host and the host `host`. */
  lemma NormalisePlain(user: string, host: string)
    requires PlainHandle(user, host)
    ensures NormaliseEmail(user + "@" + host) == Ok(Handle(Split("acct", "", user + "@" + host, "", ""), host))
  {
    PlainHandleSplits(user, host);
    assert '@' !in host by { assert forall c :: c in host ==> PlainHostChar(c); }
    AfterLastAtPlain(user, host);
  }

  /** Writing the scheme out, as in "acct:user@host", gives the same handle. */
  lemma NormaliseAcct(user: string, host: string)
    requires PlainHandle(user, host)
    ensures NormaliseEmail("acct:" + user + "@" + host) == Ok(Handle(Split("acct", "", user + "@" + host, "", ""), host))
  {
    AcctHandleSplits(user, host);
    assert '@' !in host by { assert forall c :: c in host ==> PlainHostChar(c); }
    AfterLastAtPlain(user, host);
  }

  /** Both host-meta URLs of a plain host split back into their scheme, the host and the well-known path. */
  lemma BuildUrlSplits(scheme: string, host: string)
    requires scheme == "https" || scheme == "http"
    requires forall i :: 0 <= i < |host| ==> PlainHostChar(host[i])
    ensures UrlSplit(BuildUrl(scheme, host), "") == Ok(Split(scheme, host, HostMetaPath, "", ""))
  {
    assert forall c :: c in host ==> PlainHostChar(c);
    assert NoUnsafe(HostMetaPath);
    assert '?' !in HostMetaPath && '#' !in HostMetaPath;
    SplitBuilt(scheme, host, HostMetaPath);
  }

  /** A connection made over https to a host whose redirects all point at https hosts is secure. */
  lemma SecureWhenRedirectsHttps(open: string -> Result<Response>, host: string, urls: seq<string>, hosts: seq<string>)
    requires |urls| == |hosts|
    requires forall j :: 0 <= j < |hosts| ==> urls[j] == BuildUrl("https", hosts[j])
    requires forall j :: 0 <= j < |hosts| ==> forall i :: 0 <= i < |hosts[j]| ==> PlainHostChar(hosts[j][i])
    requires open(BuildUrl("https", host)) == Ok(Response(Some(urls)))
    ensures GetConnection(open, host) == Ok(Connection(Response(Some(urls)), true))
  {
    forall j | 0 <= j < |hosts| ensures IsHttps(ParseAll(urls)[j]) {
      BuildUrlSplits("https", hosts[j]);
    }
  }
}
